=== FILE: README.md ===
# jfp prompt store, registry loader and commands — a Dafny model

`jfp` is the command-line client of jeffreysprompts.com. It keeps curated
prompts in a local SQLite store. The store is seeded from a bundled set of
eight prompts and refreshed from a remote registry through a
stale-while-revalidate cache. This project models the core of the Rust crate
`crates/jfp` and proves properties of the model:

- **Store** (`schema.dfy`, `store.dfy`, `queries.dfy`, `database.dfy`):
  - the tables as sequences in rowid order (`prompts`, `prompt_tags`,
    `prompt_variables`, `prompts_fts`, the bundle tables) and `registry_meta`
    as a map, with their keys and foreign keys (`KeysHold`);
  - the creation script and `init_schema`;
  - the write paths: `upsert_prompt` statement by statement, and
    `bulk_upsert_prompts` as one transaction;
  - the queries (`get_prompt`, `list_prompts_filtered`, `category_counts`,
    `tag_counts`, `prompt_count`, `search`, `get_meta`/`set_meta`);
  - the class `Storage.Database`, whose methods are proved against these
    functions.
- **Backup codec** (`jsonl.dfy`): `export_jsonl` and `import_jsonl` over a
  disk modelled as a map from paths to texts, with the export/import round
  trip.
- **Registry loader** (`loader.dfy`): `load`, `load_sync`, `refresh`, the
  cache and its sidecar, staleness and response classification. The
  loader's files are fields of the class `RegistryLoader`. So are the
  bundled prompts it falls back to: its constructor sets them to
  `Embedded.BundledPrompts()`, and the loader's functions take them as the
  argument `bundled`.
- **Registry types, prompts, credentials and bundled data** (`prompt.dfy`,
  `registry.dfy`, `credentials.dfy`, `embedded.dfy`).
- **Commands**:
  - `refresh`, `status`, `render`, `suggest` and `export`;
  - `bundles`/`bundle`;
  - `config` (`path`, `list`, `get`, `set`, `reset`, over a file that the
    class `ConfigStore` holds);
  - the directory choice in `config/mod.rs` (`paths.dfy`).

Shared vocabulary lives in `wrappers.dfy` (`Option`, `Result`) and in four
more modules:

- `text.dfy`: Rust string operations such as `lines`, `split_whitespace`,
  `replace`, `trim` and `eq_ignore_ascii_case`;
- `numbers.dfy`: integer parsing and printing, and chrono's truncating
  division;
- `counting.dfy`: tallies and sorting by a chosen order;
- `ordering.dfy`: byte-wise string order.

Effects are parameters:

- the current time is an argument;
- RFC 3339 parsing is a function parameter `string -> Option<int>`, in
  milliseconds;
- the HTTP service maps the `If-None-Match` value to an exchange: no client, no response, or a response;
- serde and TOML codecs are records of functions whose laws are stated as
  `Lawful` predicates and assumed only as `requires`;
- a store that cannot be opened is a `null` database;
- a failing write is a path in a `failing` set, or a flag.

Where the code and the design description differ, the model follows the
code:

- `upsert_prompt` is not one atomic unit. Its statements run one by one, so
  a repeated tag leaves the prompt row and the earlier tags written.
- `refresh` with no cache and no network returns the error. It is
  `jfp refresh` that falls back to the bundled prompts.
- A cache sidecar that is missing or does not parse gives a default whose
  timestamp is the current instant. The cache therefore reads as fresh, not
  stale. A sidecar that exists but cannot be opened makes `load_cache`, and
  with it every entry point, fail.
- `save_cache` renames the new cache into place before it writes the
  sidecar. If the sidecar write fails, the error is returned and the new
  prompts are left beside the old sidecar, with its etag and timestamp.
- `is_stale` compares whole elapsed seconds, truncated, with `>`. A cache
  becomes stale one second after the time-to-live has fully passed.
- On Not Modified, `touch_cache` restamps the sidecar only when the sidecar
  reads back.
- The bulk path writes neither variable rows, nor full-text rows, nor
  `tags_text`.
- The listing queries load no variables, so `export` writes prompts
  without their variables.

## Model

| member | source | states |
|---|---|---|
| Text.AsciiLowerString | crates/jfp/src/types/prompt.rs:92-101 | lower-cases exactly the ASCII letters and keeps every other character, the basis of `eq_ignore_ascii_case` |
| Text.EqIgnoreAsciiCaseOfLowered | crates/jfp/src/types/prompt.rs:92-101 | two strings are equal ignoring ASCII case iff their ASCII-lowercased forms are equal |
| Text.Utf8Len | crates/jfp/src/commands/suggest.rs:149 | `str::len` counts UTF-8 bytes: between one and four per character |
| Text.LinesHaveNoNewline | crates/jfp/src/storage/jsonl.rs:103 | no line produced by `lines()` contains a newline |
| Text.LinesOfTerminated | crates/jfp/src/storage/jsonl.rs:67-74 | lines written each followed by "\n" read back with `lines()` as exactly those lines |
| Text.LinesOfJoinBound | crates/jfp/src/types/prompt.rs:83-89 | joining newline-free lines with "\n" and splitting again never yields more lines |
| Text.SplitWhitespace | crates/jfp/src/commands/suggest.rs:142 | the words are non-empty and contain no white space |
| Text.JoinSplit | crates/jfp/src/commands/render.rs:111 | splitting at a non-empty pattern and joining with it restores the string |
| Text.ReplaceIsSplitJoin | crates/jfp/src/commands/render.rs:111 | `replace` replaces every occurrence found left to right and nothing else (split, then join with the replacement) |
| Text.SplitPiecesAvoidPattern | crates/jfp/src/commands/render.rs:111 | no piece between separators still contains the pattern |
| Text.ReplaceAbsent | crates/jfp/src/commands/render.rs:110-111 | a string without the pattern is unchanged by `replace` |
| Text.TrimStart | crates/jfp/src/commands/render.rs:245 | the result is a suffix, the dropped prefix is blank, and the result does not start with white space |
| Text.TrimEnd | crates/jfp/src/commands/render.rs:245 | the result is a prefix, the dropped suffix is blank, and the result does not end with white space |
| Text.Trim | crates/jfp/src/commands/render.rs:245 | the trimmed text neither starts nor ends with white space |
| Text.TrimEmpty | crates/jfp/src/storage/jsonl.rs:107 | trimming gives the empty string iff the line is blank |
| Ordering.LtTrichotomy | crates/jfp/src/types/registry.rs:68 | byte-wise string order is total: two strings are equal or one precedes the other |
| Ordering.LtTransitive | crates/jfp/src/types/registry.rs:68 | byte-wise string order is transitive |
| Numbers.ParseInteger | crates/jfp/src/storage/database.rs:87 | a successful parse of a non-empty string yields a value inside the target range |
| Numbers.ParseIntegerOfDecimal | crates/jfp/src/storage/database.rs:87-95 | parsing what `to_string` printed gives back every value of the target range |
| Numbers.ParseI32OfDecimal | crates/jfp/src/storage/database.rs:87-95 | the schema version written as text reads back as the same `i32` |
| Numbers.NatToDecimal | crates/jfp/src/storage/database.rs:95 | `to_string` prints digits only, with no leading zero |
| Numbers.IntegerIsFloatLiteral | crates/jfp/src/commands/config.rs:338-341 | every integer text is also a float literal, so trying `i64` before `f64` decides the type |
| Numbers.TruncDiv | crates/jfp/src/registry/loader.rs:341-342 | chrono's whole-unit count of a duration rounds toward zero for both signs |
| Numbers.TruncDivGreater | crates/jfp/src/registry/loader.rs:342 | more than k whole units have elapsed iff the raw difference reaches k + 1 units |
| Counting.TallyFacts | crates/jfp/src/types/registry.rs:61-66 | the hash-map tally has one entry per distinct name, carrying its number of occurrences; the counts add up to the input length |
| Counting.BumpCount | crates/jfp/src/types/registry.rs:64 | one `entry().or_default() += 1` raises that name's count by one and no other |
| Counting.Sort | crates/jfp/src/types/registry.rs:67-68 | sorting the collected pairs is a permutation of them |
| Counting.SortSorted | crates/jfp/src/types/registry.rs:67-68 | sorting pairs with distinct names puts them strictly in the chosen order |
| Counting.CountsInFacts | crates/jfp/src/storage/database.rs:440-478 | grouped counts: strictly ordered, one entry per distinct name with its number of occurrences, adding up to the input length |
| PromptTypes.NewPrompt | crates/jfp/src/types/prompt.rs:64-79 | `Prompt::new` sets the three given fields and leaves every other field empty or false |
| PromptTypes.PreviewLineBound | crates/jfp/src/types/prompt.rs:83-89 | a preview of n lines reads back as at most n lines |
| PromptTypes.PreviewOfShortContent | crates/jfp/src/types/prompt.rs:83-89 | content that already has at most n lines (and no trailing empty line) is its own preview |
| PromptTypes.MatchesCategoryLowered | crates/jfp/src/types/prompt.rs:92-96 | the category matches iff both sides lower-case (ASCII) to the same text; no category matches nothing |
| PromptTypes.HasTagLowered | crates/jfp/src/types/prompt.rs:99-101 | a tag matches iff one of the prompt's tags lower-cases to the same text |
| PromptTypes.Summary | crates/jfp/src/types/prompt.rs:118-129 | the summary copies id, title, description, category, tags and featured unchanged |
| PromptTypes.VariableTypeNameRoundTrip | crates/jfp/src/types/prompt.rs:23-32 | a variable type's lowercase serde name reads back as that type |
| PromptTypes.VariableTypeOfName | crates/jfp/src/types/prompt.rs:23-32 | only the lowercase names are accepted, each as the type it names |
| PromptTypes.DecodeVariable | crates/jfp/src/types/prompt.rs:9-20 | a variable decodes iff it has a name and any given type is known; absent fields take their serde defaults |
| PromptTypes.DecodeVariables | crates/jfp/src/types/prompt.rs:46-47 | a variable list decodes iff every element does, element by element |
| PromptTypes.DecodePrompt | crates/jfp/src/types/prompt.rs:35-60 | a prompt decodes iff id, title and content are present (and its variables decode); every other field takes its default when absent, and the variables are the decoded list |
| PromptTypes.DecodeEncodePrompt | crates/jfp/src/types/prompt.rs:35-60 | decoding an encoded prompt gives the prompt back |
| PromptTypes.DecodeMinimal | crates/jfp/src/types/prompt.rs:64-79 | an object with only the three required fields decodes to what `Prompt::new` builds |
| Schema.GuardedBatch | crates/jfp/src/storage/schema.rs:7-86 | a batch of `IF NOT EXISTS` statements never fails and adds exactly the objects it names |
| Schema.CreateSchemaGuarded | crates/jfp/src/storage/schema.rs:9-85 | every statement of the creation script is guarded |
| Schema.CreateSchemaIdempotent | crates/jfp/src/storage/schema.rs:7-86 | running the creation script twice gives the same objects as running it once |
| Schema.DeletePrompt | crates/jfp/src/storage/schema.rs:26-64 | deleting a prompt leaves the full-text table, the meta table and the bundle ids untouched; this checks the schema's declared `ON DELETE CASCADE`, since the program itself never deletes a prompt row |
| Schema.DeletePromptCascades | crates/jfp/src/storage/schema.rs:26-63 | `ON DELETE CASCADE`: after the delete no tag, variable or bundle row refers to the id, the keys still hold, and other prompts keep their rows (a property of the declared schema, not of a path the program runs) |
| Schema.PromptsWithoutKeeps | crates/jfp/src/storage/schema.rs:9-10 | a delete keeps every other id's row |
| Schema.WriteMeta | crates/jfp/src/storage/database.rs:561-567 | `INSERT OR REPLACE` sets the key to the value, keeps every other key, and touches no other table |
| Store.VarTypeToStr | crates/jfp/src/storage/database.rs:570-578 | the stored type text is the type's serde name |
| Store.VarTypeRoundTrip | crates/jfp/src/storage/database.rs:570-588 | storing a variable type and reading it back gives the same type |
| Store.StrToVarTypeTotal | crates/jfp/src/storage/database.rs:580-588 | reading never fails: an unknown text reads as `Text`, and any other result is the type whose name was stored |
| Store.PromptOfRowOf | crates/jfp/src/storage/database.rs:255-294 | a prompt written as a row reads back as itself, given its tags and variables |
| Store.FindRow | crates/jfp/src/storage/database.rs:261 | the lookup by id finds a row with that id, and finds nothing iff no row has it |
| Store.WritePromptRowFacts | crates/jfp/src/storage/database.rs:111-141 | `ON CONFLICT(id) DO UPDATE`: the id holds the written row, every other id keeps its row, and a row is added iff the id was new |
| Store.WritePromptRowUnique | crates/jfp/src/storage/schema.rs:10 | the write keeps ids unique |
| Store.WritePromptRowIds | crates/jfp/src/storage/database.rs:111-141 | the ids present after the write are the old ones plus the written one |
| Store.WritePromptRowTwice | crates/jfp/src/storage/database.rs:111-141 | writing the same row twice equals writing it once |
| Store.FirstRepeatFacts | crates/jfp/src/storage/database.rs:149-155 | the tags before the first repeat are distinct, and all tags go in iff none repeats |
| Store.InsertTagsResult | crates/jfp/src/storage/database.rs:149-155 | inserting tags after the delete adds rows up to the first repeated tag, and succeeds iff no tag repeats |
| Store.TagsOfMember | crates/jfp/src/storage/database.rs:297-305 | a prompt's loaded tags are exactly the tags of its tag rows |
| Store.ReplaceTagsShape | crates/jfp/src/storage/database.rs:144-155 | delete-then-insert: other prompts' tag rows untouched and in order, then this prompt's tags up to the first repeat |
| Store.ReplaceTagsOf | crates/jfp/src/storage/database.rs:144-155 | after the replacement the prompt holds its new tags (up to a repeat) and other prompts hold theirs |
| Store.ReplaceTagsUnique | crates/jfp/src/storage/schema.rs:29 | the replacement keeps the (prompt_id, tag) key unique |
| Store.ReplaceTagsTwice | crates/jfp/src/storage/database.rs:144-155 | replacing a prompt's tags a second time changes nothing |
| Store.UpsertSucceeds | crates/jfp/src/storage/database.rs:108-200 | `upsert_prompt` fails exactly when the prompt lists a tag twice |
| Store.UpsertReplaces | crates/jfp/src/storage/database.rs:108-200 | after a successful upsert the row, tags, variables and the single full-text row are exactly the prompt's: replaced, never merged |
| Store.UpsertFailureLeftovers | crates/jfp/src/storage/database.rs:108-155 | a failed upsert has still written the row and the tags before the repeat, and left the old variable and full-text rows |
| Store.UpsertOthersUntouched | crates/jfp/src/storage/database.rs:108-200 | an upsert changes no other prompt's rows, the meta table or the bundle tables |
| Store.UpsertCount | crates/jfp/src/storage/database.rs:108-141 | the prompt count grows by one iff the id was new |
| Store.UpsertTwice | crates/jfp/src/storage/database.rs:108-200 | upserting the same prompt twice gives the same tables and outcome as once |
| Store.UpsertKeepsKeys | crates/jfp/src/storage/schema.rs:9-63 | an upsert keeps every key and foreign key of the schema |
| Store.BulkAllOrNothing | crates/jfp/src/storage/database.rs:203-252 | the bulk upsert commits iff no prompt repeats a tag; on failure the tables are unchanged |
| Store.BulkLeavesOtherTables | crates/jfp/src/storage/database.rs:203-252 | the bulk path writes no variable rows, no full-text rows and no meta |
| Store.BulkStepRow | crates/jfp/src/storage/database.rs:207-247 | a bulk step writes the new values with the old `tags_text` and replaces the tags as the single upsert does |
| Store.BulkStepKeepsKeys | crates/jfp/src/storage/database.rs:207-247 | a bulk step keeps the keys, keeps every existing prompt and adds this one |
| Store.BulkKeepsKeys | crates/jfp/src/storage/database.rs:203-252 | a committed bulk upsert keeps the keys and leaves a row for every prompt given |
| Queries.FetchPrompt | crates/jfp/src/storage/database.rs:255-294 | `get_prompt` finds a prompt iff its row exists, with the stored tags and variables |
| Queries.FetchAfterUpsert | crates/jfp/src/storage/database.rs:255-294 | a prompt upserted without a repeated tag reads back as itself |
| Queries.FetchAfterUpsertOther | crates/jfp/src/storage/database.rs:108-200 | an upsert changes what no other id reads back |
| Queries.FetchAfterBulkStep | crates/jfp/src/storage/database.rs:203-252 | a prompt written by the bulk path reads back with its new fields and tags but with the variables stored before |
| Queries.FetchAfterDelete | crates/jfp/src/storage/schema.rs:26-43 | after a delete the prompt, its tags and its variables are gone (a property of the declared schema; the program upserts and never deletes a prompt) |
| Queries.FilterRowsAll | crates/jfp/src/storage/database.rs:392-397 | with no condition the WHERE clause keeps every row |
| Queries.SortByTitle | crates/jfp/src/storage/database.rs:402 | `ORDER BY title` is a permutation of the rows |
| Queries.SortByTitleSorted | crates/jfp/src/storage/database.rs:402 | `ORDER BY title` leaves titles ascending |
| Queries.ListedRowsFacts | crates/jfp/src/storage/database.rs:370-428 | the listed rows are exactly the stored rows meeting every condition, each as often as stored, ordered by title |
| Queries.ListPromptsFiltered | crates/jfp/src/storage/database.rs:370-437 | one prompt per listed row, with its id, and without variables |
| Queries.ListPromptsFilteredFacts | crates/jfp/src/storage/database.rs:370-437 | AND semantics: every listed prompt has the category, carries the tag and is featured when asked; every matching row is listed; titles ascend |
| Queries.ListedPromptAt | crates/jfp/src/storage/database.rs:370-437 | the prompt at each listed place meets every filter and carries its stored tags and no variables |
| Queries.ListedMatches | crates/jfp/src/storage/database.rs:370-437 | every stored row meeting the filter is listed, with its stored tags |
| Queries.CategoryFilterImpliesMatch | crates/jfp/src/storage/database.rs:379-383 | whatever the exact category condition admits also passes `matches_category` |
| Queries.CategoryFilterIsCaseSensitive | crates/jfp/src/storage/database.rs:379-383 | the converse fails: "Coding" matches "coding" ignoring case but is not listed for it |
| Queries.ListPromptsCount | crates/jfp/src/storage/database.rs:332-367 | the unfiltered list has one entry per stored prompt, the number `prompt_count` reports |
| Queries.CategoryCountsFacts | crates/jfp/src/storage/database.rs:440-458 | one entry per category in use, names strictly ascending, each with its number of prompts, adding up to at most the prompt count |
| Queries.TagCountsFacts | crates/jfp/src/storage/database.rs:461-478 | one entry per tag in use, by count descending then name, each with its number of tag rows, adding up to the number of tag rows |
| Queries.JoinPrompts | crates/jfp/src/storage/database.rs:496-497 | the join keeps exactly the hits whose id has a prompt row |
| Queries.JoinKeepsOrder | crates/jfp/src/storage/database.rs:496-499 | the join keeps the bm25 order |
| Queries.Search | crates/jfp/src/storage/database.rs:489-534 | `LIMIT` bounds the results by the limit and by the matches |
| Queries.SearchFacts | crates/jfp/src/storage/database.rs:489-534 | each result is a stored prompt the index matched, with its tags and no variables, scored by the negated bm25; most relevant first |
| Queries.GetMeta | crates/jfp/src/storage/database.rs:551-558 | `get_meta` succeeds iff the key has a row; a missing key is an error, not an empty value |
| Queries.GetAfterSet | crates/jfp/src/storage/database.rs:551-567 | a value set is read back, and other keys read as before |
| Queries.StoredSchemaVersion | crates/jfp/src/storage/database.rs:82-89 | the version read is an `i32`; 0 stands for a missing table, a missing row or bad text |
| Queries.CreateSchemaHasMeta | crates/jfp/src/storage/schema.rs:67-71 | the creation script creates the meta table |
| Queries.RecordVersion | crates/jfp/src/storage/database.rs:93-96 | recording the version makes the stored version current |
| Queries.InitSchemaFacts | crates/jfp/src/storage/database.rs:80-100 | set-up never fails; below the current version it creates every object and records the version; it touches no data table |
| Queries.InitSchemaIdempotent | crates/jfp/src/storage/database.rs:80-100 | running set-up a second time changes nothing |
| Storage.Database.Attach | crates/jfp/src/storage/database.rs:54-57 | a handle on the path holding the existing tables |
| Storage.Database.InitSchema | crates/jfp/src/storage/database.rs:80-100 | the method's new state is the set-up function of the old state; the data tables are untouched |
| Storage.Database.ReplaceTagRows | crates/jfp/src/storage/database.rs:144-155 | the delete-and-insert loop leaves the tag rows the replacement function gives, stopping at the first rejected tag |
| Storage.Database.WriteVariableRows | crates/jfp/src/storage/database.rs:157-178 | the prompt's old variable rows are deleted and one row per variable is appended in order; no other table changes |
| Storage.Database.UpsertPrompt | crates/jfp/src/storage/database.rs:108-200 | the new tables are the upsert function of the old ones; it succeeds iff no tag repeats; the keys are preserved |
| Storage.Database.BulkUpsertPrompts | crates/jfp/src/storage/database.rs:203-252 | the transaction's result is the bulk function of the old tables (rolled back on failure); it succeeds iff no prompt repeats a tag |
| Storage.Database.BulkStepRows | crates/jfp/src/storage/database.rs:207-247 | one prompt's statements inside the transaction |
| Storage.Database.Restore | crates/jfp/src/storage/database.rs:204-250 | the rollback restores every table to its state at the start of the transaction |
| Storage.Database.LoadTags | crates/jfp/src/storage/database.rs:297-305 | the row loop returns the prompt's tags in row order |
| Storage.Database.LoadVariables | crates/jfp/src/storage/database.rs:308-329 | the row loop returns the prompt's variables, each type read back by `str_to_var_type` |
| Storage.Database.GetPrompt | crates/jfp/src/storage/database.rs:255-294 | returns what `FetchPrompt` specifies |
| Storage.Database.ListPromptsFiltered | crates/jfp/src/storage/database.rs:370-437 | the query and its tag loop return what the listing function specifies |
| Storage.Database.ListPrompts | crates/jfp/src/storage/database.rs:332-367 | one prompt per stored row |
| Storage.Database.CategoryCounts | crates/jfp/src/storage/database.rs:440-458 | the grouped counts, adding up to at most the prompt count |
| Storage.Database.TagCounts | crates/jfp/src/storage/database.rs:461-478 | the grouped counts, adding up to the number of tag rows |
| Storage.Database.PromptCount | crates/jfp/src/storage/database.rs:481-486 | the number of prompt rows |
| Storage.Database.Search | crates/jfp/src/storage/database.rs:489-534 | the result loop returns what `Search` specifies, at most `limit` results |
| Storage.Database.GetMeta | crates/jfp/src/storage/database.rs:551-558 | succeeds iff the key is stored |
| Storage.Database.SetMeta | crates/jfp/src/storage/database.rs:561-567 | the key holds the value afterwards and the keys are preserved |
| Storage.OpenAt | crates/jfp/src/storage/database.rs:38-63 | opening never fails at set-up; the new store holds the set-up tables and is valid when the old ones were |
| Embedded.Bundled | crates/jfp/src/registry/embedded.rs:11-30 | a bundled prompt carries its literal fields, no variables, and is not local |
| Embedded.BundledFacts | crates/jfp/src/registry/embedded.rs:220-240 | eight prompts with distinct ids; each has an id, a title and content; none has variables; at least one is featured |
| RegistryTypes.NewMeta | crates/jfp/src/types/registry.rs:25-32 | version "1.0.0", no etag, stamped now, with the given count |
| RegistryTypes.NewRegistry | crates/jfp/src/types/registry.rs:45-51 | the metadata counts the prompts given |
| RegistryTypes.Get | crates/jfp/src/types/registry.rs:54-56 | finds a prompt with the id iff one exists |
| RegistryTypes.GetFirst | crates/jfp/src/types/registry.rs:54-56 | the prompt found is the first one with the id |
| RegistryTypes.Keep | crates/jfp/src/types/registry.rs:87-102 | `filter().collect()` keeps exactly the prompts that pass |
| RegistryTypes.KeepAppend | crates/jfp/src/types/registry.rs:87-102 | filtering keeps relative order (it distributes over concatenation) |
| RegistryTypes.FilterByCategory | crates/jfp/src/types/registry.rs:87-92 | exactly the prompts whose category matches |
| RegistryTypes.FilterByTag | crates/jfp/src/types/registry.rs:95-97 | exactly the prompts carrying the tag, ignoring ASCII case |
| RegistryTypes.Featured | crates/jfp/src/types/registry.rs:100-102 | exactly the featured prompts |
| RegistryTypes.FilterByCategoryIgnoresCase | crates/jfp/src/types/registry.rs:87-92 | two category names that differ only in ASCII case select the same prompts |
| RegistryTypes.CategoryNamesCount | crates/jfp/src/types/registry.rs:62-66 | each prompt with a category is counted once |
| RegistryTypes.Categories | crates/jfp/src/types/registry.rs:59-70 | one pair per category in use, names strictly ascending, each with its number of prompts, adding up to the categorised prompts |
| RegistryTypes.CountTags | crates/jfp/src/types/registry.rs:77-79 | the inner tag loop extends the tally by the prompt's tags |
| RegistryTypes.TagCountsFacts | crates/jfp/src/types/registry.rs:73-84 | the tag tally, sorted: counts descending, one entry per distinct tag, adding up to the tag occurrences |
| RegistryTypes.Tags | crates/jfp/src/types/registry.rs:73-84 | `Registry::tags`: counts descending, distinct names, each with its occurrence count, adding up to all tag occurrences |
| RegistryTypes.SourceNamesDistinct | crates/jfp/src/types/registry.rs:107-114 | the four sources serialise to four different lowercase names |
| Jsonl.DecodeEncodeLine | crates/jfp/src/storage/jsonl.rs:119-121 | a prompt written as one JSON line reads back as itself, and the line is neither multi-line nor blank |
| Jsonl.MarkedLineNotBlank | crates/jfp/src/storage/jsonl.rs:107-112 | a line holding the `_meta` key is never skipped as blank |
| Jsonl.DataVersion | crates/jfp/src/storage/jsonl.rs:134-137 | the stored data version, or the current time when none is stored |
| Jsonl.ExportReadsBack | crates/jfp/src/storage/jsonl.rs:47-74 | the export is one header line whose count is the number of prompts, followed by one line per listed prompt in order |
| Jsonl.WriteLines | crates/jfp/src/storage/jsonl.rs:58-74 | the writer loop produces the header and each prompt, each followed by "\n" |
| Jsonl.ExportJsonl | crates/jfp/src/storage/jsonl.rs:40-89 | on success the file holds the export text, the count is returned and the data version is recorded; on an I/O failure nothing changes |
| Jsonl.ParseLinesOk | crates/jfp/src/storage/jsonl.rs:103-122 | the import parse succeeds iff every line is accepted |
| Jsonl.ParseLinesRecords | crates/jfp/src/storage/jsonl.rs:103-122 | a successful parse yields one prompt per record line, in file order |
| Jsonl.ParseLinesErrors | crates/jfp/src/storage/jsonl.rs:111-120 | a bad header is reported only for line 1; a bad record names its physical line, and every earlier line was accepted |
| Jsonl.HeaderAfterBlankLine | crates/jfp/src/storage/jsonl.rs:104-120 | after a leading blank line, a `_meta` line is parsed as a prompt and aborts the import at line 2 |
| Jsonl.ParseAfterHeader | crates/jfp/src/storage/jsonl.rs:112-116 | a well-formed header on line 1 is skipped |
| Jsonl.ParseWritten | crates/jfp/src/storage/jsonl.rs:103-122 | a header followed by encoded prompts parses back to those prompts |
| Jsonl.ParseExport | crates/jfp/src/storage/jsonl.rs:40-131 | every export parses back to the listed prompts |
| Jsonl.ImportTables | crates/jfp/src/storage/jsonl.rs:95-131 | an import of an existing file succeeds only when every line parses |
| Jsonl.ImportJsonl | crates/jfp/src/storage/jsonl.rs:95-131 | a missing file or a bad line ends the import before anything is written; a failed bulk upsert rolls back; otherwise all prompts are applied and the version recorded |
| Jsonl.StoredTagsDistinct | crates/jfp/src/storage/schema.rs:29 | under the tag key a prompt never holds a tag twice |
| Jsonl.BulkIds | crates/jfp/src/storage/database.rs:203-252 | a committed bulk upsert leaves the old ids plus the ids given |
| Jsonl.ListedIds | crates/jfp/src/storage/database.rs:332-367 | the unfiltered list names every stored id and no other |
| Jsonl.ExportImportIds | crates/jfp/src/storage/jsonl.rs:151-178 | export then import into a store without prompts succeeds, counts every exported prompt, and leaves exactly the exported ids |
| Loader.FetchRemote | crates/jfp/src/registry/loader.rs:346-388 | an unbuilt client and an unsent request are errors of their own; then 304 is Not Modified; any other non-2xx status is an error carrying that status; a 2xx whose body does not parse is the JSON error; a 2xx with a parsed body is new data with the response's etag |
| Loader.RequestEtag | crates/jfp/src/registry/loader.rs:357-359 | `If-None-Match` is sent iff the cached sidecar has an etag, and carries it |
| Loader.DefaultMeta | crates/jfp/src/registry/loader.rs:264-276 | no version, no etag, stamped now, counting the cached prompts |
| Loader.LoadCache | crates/jfp/src/registry/loader.rs:250-280 | no cache gives nothing; a cache that cannot be opened or parsed is an error with its context; a sidecar that cannot be opened is an I/O error; otherwise the prompts with their sidecar, or with the default one when the sidecar is missing or does not parse |
| Loader.IsStaleIff | crates/jfp/src/registry/loader.rs:336-343 | stale iff the timestamp does not parse or at least ttl + 1 whole seconds have passed |
| Loader.StaleBoundary | crates/jfp/src/registry/loader.rs:341-342 | exactly the time-to-live, and up to 999 ms past it, is fresh; one more second is stale; a future timestamp is fresh |
| Loader.DefaultMetaFresh | crates/jfp/src/registry/loader.rs:262-277 | a cache whose sidecar is missing or does not parse sends no etag and reads as fresh |
| Loader.SaveCacheOf | crates/jfp/src/registry/loader.rs:283-315 | succeeds iff both writes do, leaving the prompts and a sidecar with the etag, version, timestamp and count; a failing cache write changes nothing; a failing sidecar write leaves the new cache beside the old sidecar; either failure is returned |
| Loader.TouchCacheOf | crates/jfp/src/registry/loader.rs:318-333 | only a sidecar that opens and parses is restamped, and only its timestamp changes; it fails, changing nothing, iff such a sidecar cannot be rewritten |
| Loader.SaveCacheReadsBack | crates/jfp/src/registry/loader.rs:250-315 | a completed save reads back as written, sends its etag next time, and is fresh when written |
| Loader.HalfWrittenSave | crates/jfp/src/registry/loader.rs:294-312 | after a failed sidecar write the new prompts read back with the old sidecar, whose etag is sent next time |
| Loader.AfterWrite | crates/jfp/src/registry/loader.rs:215 | the `?` on a write: its error, or the result once it succeeded |
| Loader.LoadOf | crates/jfp/src/registry/loader.rs:107-136 | `load` never fetches: it fails exactly when `load_cache` does (an unopenable or unparseable cache, an unopenable sidecar); no cache gives the loader's bundled prompts fresh, a readable cache its prompts |
| Loader.RefreshAsksOnce | crates/jfp/src/registry/loader.rs:208-212 | `refresh` depends on the service only through its answer to the one conditional request |
| Loader.RefreshNewData | crates/jfp/src/registry/loader.rs:214-220 | new data is saved with its etag, version and count, and returned as remote and fresh; a failing cache write is returned with nothing changed, a failing sidecar write after the new cache is in place |
| Loader.RefreshNotModified | crates/jfp/src/registry/loader.rs:221-232 | Not Modified returns the cache fresh and restamps it, or returns the error rewriting the sidecar with nothing changed; without a cache it is `load` |
| Loader.RefreshFetchError | crates/jfp/src/registry/loader.rs:234-245 | a failed fetch returns the cache marked stale, or, without a cache, the fetch's own error with its reason; nothing is written |
| Loader.UnreadableCacheStops | crates/jfp/src/registry/loader.rs:140-210 | a cache that cannot be opened or parsed, or a sidecar that cannot be opened, stops both entry points with `load_cache`'s error before any request, writing nothing |
| Loader.LoadSyncFresh | crates/jfp/src/registry/loader.rs:145-153 | `load_sync` on a fresh cache returns it without a request or a write |
| Loader.LoadSyncFetchError | crates/jfp/src/registry/loader.rs:188-203 | `load_sync` never fails for the network: the stale cache or the bundled prompts |
| Loader.LoadSyncIsRefreshWhenStale | crates/jfp/src/registry/loader.rs:140-247 | with a missing or stale cache `load_sync` does what `refresh` does, write errors included, except where `refresh` fails without cache and network |
| Loader.RegistryLoader.WithPaths | crates/jfp/src/registry/loader.rs:79-86 | the given files with the default time-to-live of 3600 s, falling back to the prompts compiled into the program (`Embedded.BundledPrompts`) |
| Loader.RegistryLoader.WithTtl | crates/jfp/src/registry/loader.rs:89-92 | changes the time-to-live only |
| Loader.RegistryLoader.Load | crates/jfp/src/registry/loader.rs:107-136 | returns what `LoadOf` specifies from the current files |
| Loader.RegistryLoader.SaveCache | crates/jfp/src/registry/loader.rs:283-315 | the error, if any, and the files are `SaveCacheOf` the old files: the cache, then the sidecar, each stopping at its write's error |
| Loader.RegistryLoader.TouchCache | crates/jfp/src/registry/loader.rs:318-333 | the error, if any, and the files are `TouchCacheOf` the old files |
| Loader.RegistryLoader.Refresh | crates/jfp/src/registry/loader.rs:208-247 | result and files are `RefreshOf` the old files, write errors included |
| Loader.RegistryLoader.LoadSync | crates/jfp/src/registry/loader.rs:140-205 | result and files are `LoadSyncOf` the old files, write errors included |
| Upserts.UpsertAllCounts | crates/jfp/src/commands/refresh.rs:64-70 | the loaded count is the number of prompts without a repeated tag |
| Upserts.UpsertWritesRow | crates/jfp/src/storage/database.rs:111-141 | an upsert writes the prompt row whether or not its tags go in |
| Upserts.UpsertAllRows | crates/jfp/src/commands/refresh.rs:66-70 | every offered prompt has a row afterwards, even after a failed upsert, and no row disappears |
| Upserts.UpsertEach | crates/jfp/src/commands/refresh.rs:64-70 | the upsert loop's tables and count are those of the repeated upsert function |
| Upserts.Seeded | crates/jfp/src/commands/export.rs:65-72 | a store holding prompts is left unchanged |
| Upserts.SeedIfEmpty | crates/jfp/src/commands/export.rs:65-72 | seeding leaves the store `Seeded` specifies and keeps it valid |
| Upserts.SeededHoldsBundled | crates/jfp/src/commands/render.rs:53-60 | seeding an empty store stores every bundled prompt; either way the seeded store is not empty |
| RefreshCommand.LoaderErrorText | crates/jfp/src/commands/refresh.rs:54-60 | a loader error's displayed text is never empty; an I/O error shows its own description, and a failed fetch the text of its reason |
| RefreshCommand.FetchFailureText | crates/jfp/src/registry/loader.rs:346-381 | the four ways a fetch fails show four texts; exactly the bad status's text starts with "Registry request failed with status ", followed by the status as displayed |
| RefreshCommand.StatusTextInjective | crates/jfp/src/registry/loader.rs:371-373 | two bad-status messages are equal only for the same status code |
| RefreshCommand.FetchFailureTextInjective | crates/jfp/src/registry/loader.rs:346-381 | different fetch failures are displayed by different texts |
| RefreshCommand.LoaderErrorTextInjective | crates/jfp/src/commands/refresh.rs:54-60 | apart from bare I/O errors, the fallback note names the loader error unambiguously |
| RefreshCommand.Select | crates/jfp/src/commands/refresh.rs:42-62 | a failed refresh falls back to the bundled prompts with a note; a success keeps its prompts and source, with a note only for a stale cache |
| RefreshCommand.RefreshTables | crates/jfp/src/commands/refresh.rs:64-73 | the upserts, then `last_sync` set to now |
| RefreshCommand.ReportOf | crates/jfp/src/commands/refresh.rs:75-83 | the reported count is the store's, or the successful upserts when counting fails |
| RefreshCommand.RefreshStoresSelection | crates/jfp/src/commands/refresh.rs:42-73 | every selected prompt is in the store afterwards; after a failed refresh every bundled one is |
| RefreshCommand.Run | crates/jfp/src/commands/refresh.rs:25-100 | no store is an error; otherwise the store and cache files are the refresh function's, and the command succeeds |
| StatusCommand.SyncStale | crates/jfp/src/commands/status.rs:56-67 | a missing or unparseable sync stamp is stale; otherwise stale iff at least one whole hour has passed |
| StatusCommand.LastSync | crates/jfp/src/commands/status.rs:42-54 | the sync stamp exists iff the store opened and holds `last_sync` |
| StatusCommand.Status | crates/jfp/src/commands/status.rs:37-90 | the path and existence, the count (0 without a store), the stamp, staleness, and the source "bundled", "local (stale)" or "local" |
| StatusCommand.StatusStricterThanLoader | crates/jfp/src/commands/status.rs:57-66 | for a timestamp both parsers read alike, whatever the loader's default time-to-live finds stale the status finds stale, and a sync one hour old is stale here but fresh to the loader; a timestamp only the command's lenient parser reads may be stale to the loader alone |
| StatusCommand.StatusAfterRefresh | crates/jfp/src/commands/status.rs:42-76 | right after `jfp refresh` the status is local and fresh with the refreshed count |
| RenderCommand.PlaceholderInjective | crates/jfp/src/commands/render.rs:109 | different variables have different placeholders `{{name}}` |
| RenderCommand.Lookup | crates/jfp/src/commands/render.rs:210 | `HashMap::get` finds the value of an entry with the name, and nothing iff there is none |
| RenderCommand.LookupFindsEntry | crates/jfp/src/commands/render.rs:210 | over entries with distinct keys, looking a key up finds that key's own entry, whatever the order |
| RenderCommand.FillValue | crates/jfp/src/commands/render.rs:210-213 | the context's value, else the variable's default, else the empty string |
| RenderCommand.QuietFilledExact | crates/jfp/src/commands/render.rs:209-224 | quietly, exactly the variables with a non-empty value are recorded, with that value |
| RenderCommand.TypedValue | crates/jfp/src/commands/render.rs:244-250 | the trimmed answer, or the quiet value when the answer is blank |
| RenderCommand.PromptedFilledAll | crates/jfp/src/commands/render.rs:228-262 | at a terminal every variable whose line was read is recorded, even with an empty value |
| RenderCommand.FillVariables | crates/jfp/src/commands/render.rs:199-263 | quietly the content is the quiet filling, otherwise the prompted one |
| RenderCommand.FillQuietly | crates/jfp/src/commands/render.rs:208-226 | the quiet loop computes the quiet content and record |
| RenderCommand.FillPrompted | crates/jfp/src/commands/render.rs:228-262 | the prompting loop computes the prompted content and record |
| RenderCommand.ContextRecordsEntries | crates/jfp/src/commands/render.rs:108-117 | every recorded pair is an entry of the context |
| RenderCommand.ContextWithoutPlaceholders | crates/jfp/src/commands/render.rs:108-119 | with no placeholder present the content is unchanged and nothing is recorded |
| RenderCommand.ContextReplacesAll | crates/jfp/src/commands/render.rs:110-116 | a present placeholder is replaced everywhere by the value and recorded |
| RenderCommand.ApplyContext | crates/jfp/src/commands/render.rs:103-119 | the loop's content and record; `None` iff nothing was recorded |
| RenderCommand.Rendered | crates/jfp/src/commands/render.rs:101-122 | without filling and context the content is unchanged; filling always records a list |
| RenderCommand.Process | crates/jfp/src/commands/render.rs:101-122 | the branches compute what `Rendered` specifies |
| RenderCommand.ValueToString | crates/jfp/src/commands/render.rs:184-196 | strings pass through unquoted; other values are their serialisation |
| RenderCommand.Stringify | crates/jfp/src/commands/render.rs:150-166 | every entry keeps its key and order, with its value stringified |
| RenderCommand.LoadContextFile | crates/jfp/src/commands/render.rs:146-182 | ".json" is JSON only, ".toml" TOML only, anything else JSON then TOML; an unreadable file fails; readers that yield maps give entries with distinct keys |
| RenderCommand.Run | crates/jfp/src/commands/render.rs:34-143 | no store is an error; the store is seeded; an unknown id is NotFound; otherwise the rendered prompt |
| SuggestCommand.FirstMention | crates/jfp/src/commands/suggest.rs:148-153 | the first task word longer than two bytes that the text contains, and none iff no word does |
| SuggestCommand.ReasonsShape | crates/jfp/src/commands/suggest.rs:144-175 | at most one title reason, at most one description reason (none without a description), then the tag reasons |
| SuggestCommand.TagReasonsExact | crates/jfp/src/commands/suggest.rs:166-175 | a tag gets a reason iff it contains, or is contained in, some task word |
| SuggestCommand.BlankTaskDefault | crates/jfp/src/commands/suggest.rs:177-178 | a task without words gives the default reason |
| SuggestCommand.ReasonJoins | crates/jfp/src/commands/suggest.rs:177-181 | the reasons joined by "; ", and never an empty text |
| SuggestCommand.FindMention | crates/jfp/src/commands/suggest.rs:148-153 | the word loop with `break` finds the first mention |
| SuggestCommand.TagHit | crates/jfp/src/commands/suggest.rs:169-174 | the inner tag loop decides whether some word matches the tag |
| SuggestCommand.CollectTagReasons | crates/jfp/src/commands/suggest.rs:167-175 | the outer tag loop collects the tag reasons |
| SuggestCommand.GenerateReason | crates/jfp/src/commands/suggest.rs:135-182 | the loops compute the reason `Reason` specifies |
| SuggestCommand.Suggestions | crates/jfp/src/commands/suggest.rs:79-93 | one suggestion per search result, in order, with its id, title, score and reason |
| SuggestCommand.Suggest | crates/jfp/src/commands/suggest.rs:81-91 | one result becomes the suggestion `SuggestionOf` specifies, with its generated reason |
| SuggestCommand.Run | crates/jfp/src/commands/suggest.rs:34-132 | no store is an error; the store is seeded; a rejected query fails; otherwise the suggestions for the hits |
| ExportCommand.TagsLine | crates/jfp/src/commands/export.rs:224-226 | the tag line is printed iff there are tags, and shows them joined by ", " |
| ExportCommand.VariableLine | crates/jfp/src/commands/export.rs:232-239 | a variable line opens with its `{{name}}` marker and ends the line |
| ExportCommand.FormatPrompt | crates/jfp/src/commands/export.rs:207-272 | both layouts open with the title heading; "skill" ends with the fenced content; every other format ends with the content after a rule |
| ExportCommand.VariableLinesList | crates/jfp/src/commands/export.rs:231-240 | every variable is listed by its marker |
| ExportCommand.SkillShowsTags | crates/jfp/src/commands/export.rs:224-226 | the skill layout shows the tags joined by ", " |
| ExportCommand.MarkdownShowsTags | crates/jfp/src/commands/export.rs:261-263 | the Markdown layout shows the tags joined by ", " |
| ExportCommand.SkillListsVariables | crates/jfp/src/commands/export.rs:229-242 | the skill layout lists every variable of the prompt |
| ExportCommand.WriteVariables | crates/jfp/src/commands/export.rs:231-240 | the variable loop produces the specified lines |
| ExportCommand.WritePrompt | crates/jfp/src/commands/export.rs:207-272 | appending section by section produces `FormatPrompt` |
| ExportCommand.Fetched | crates/jfp/src/commands/export.rs:89-110 | at most one prompt per id; each is a stored prompt named by an id |
| ExportCommand.FetchedEmpty | crates/jfp/src/commands/export.rs:89-120 | nothing is fetched iff none of the ids is stored |
| ExportCommand.SelectAllAfterSeeding | crates/jfp/src/commands/export.rs:65-87 | exporting everything from a seeded store selects every stored prompt, and there is at least one |
| ExportCommand.FetchEach | crates/jfp/src/commands/export.rs:90-110 | the id loop returns what `Fetched` specifies |
| ExportCommand.WriteAllFacts | crates/jfp/src/commands/export.rs:157-182 | each entry names a file that was written; the files gain exactly those paths; others are unchanged; with no failure every prompt is exported |
| ExportCommand.WriteAllContent | crates/jfp/src/commands/export.rs:157-182 | a file holds the formatted text of the last prompt written to it |
| ExportCommand.PrintedEntries | crates/jfp/src/commands/export.rs:125-139 | standard output records every prompt, without a file |
| ExportCommand.Outcome | crates/jfp/src/commands/export.rs:113-183 | an empty selection fails; standard output writes no file and lists every prompt; the count is the number exported; a missing directory that cannot be made fails; otherwise the files and the entries are those of writing every selected prompt into the output directory (or the default) |
| ExportCommand.WriteEach | crates/jfp/src/commands/export.rs:157-182 | the file loop's files and entries are `WriteAll`'s |
| ExportCommand.PrintEach | crates/jfp/src/commands/export.rs:127-139 | the standard-output loop's entries |
| ExportCommand.ExportSelected | crates/jfp/src/commands/export.rs:122-183 | writing the chosen prompts, as `Export` specifies |
| ExportCommand.Run | crates/jfp/src/commands/export.rs:35-204 | a bad format or no store fails with nothing written; otherwise the store is seeded and files and result are the `Outcome` |
| Bundles.TitleMap | crates/jfp/src/commands/bundles.rs:72-77 | every id has a title, and every key comes from some pair |
| Bundles.TitleMapOfDistinct | crates/jfp/src/commands/bundles.rs:72-77 | with distinct ids each id maps to its own title |
| Bundles.PresentCount | crates/jfp/src/commands/bundles.rs:83-87 | at most the ids given, and all of them iff every id has a title |
| Bundles.Present | crates/jfp/src/commands/bundles.rs:101-110 | the ids with a title, each with that title, as many as `PresentCount` counts |
| Bundles.PresentOne | crates/jfp/src/commands/bundles.rs:101-110 | a single id is kept, with its title, exactly when it has a title |
| Bundles.PresentAppend | crates/jfp/src/commands/bundles.rs:101-110 | the filter distributes over concatenation, so with `PresentOne` it is the ordered filter of the ids |
| Bundles.PresentAll | crates/jfp/src/commands/bundles.rs:101-110 | when every id has a title nothing is dropped and the order is kept |
| Bundles.SummaryOf | crates/jfp/src/commands/bundles.rs:79-95 | the bundle's id, title and description, counting the ids that have a title |
| Bundles.OutputOf | crates/jfp/src/commands/bundles.rs:97-118 | the bundle's id, title and description, with as many prompts as the summary counts: the titled ids in their order |
| Bundles.ListBundles | crates/jfp/src/commands/bundles.rs:121-131 | one summary per definition, in order, each the definition's summary against the bundled titles, and the count is their number |
| Bundles.FindBundle | crates/jfp/src/commands/bundles.rs:163 | the definition found has the id; none iff no definition has it |
| Bundles.ShowBundle | crates/jfp/src/commands/bundles.rs:161-173 | an unknown id is `NotFound`; otherwise the output of that bundle |
| Bundles.FindDistinct | crates/jfp/src/commands/bundles.rs:163 | among definitions with distinct ids, each is the one found under its own id |
| Bundles.BundleIdsUnique | crates/jfp/src/commands/bundles.rs:204-214 | the bundle ids are pairwise distinct |
| Bundles.BundlePromptsExist | crates/jfp/src/commands/bundles.rs:216-229 | every id a bundle names is a bundled prompt |
| Bundles.BundlesComplete | crates/jfp/src/commands/bundles.rs:231-240 | every bundle shows all its prompts, in order, under their titles, and its summary counts them all |
| Bundles.BundleTitles | crates/jfp/src/commands/bundles.rs:72-77 | the titles shown are the bundled prompts' own titles |
| Paths.JoinPath | crates/jfp/src/config/mod.rs:10 | an absolute name replaces the directory; otherwise the name follows the directory, after a separator when needed |
| Paths.ConfigDir | crates/jfp/src/config/mod.rs:7-16 | without `JFP_HOME` the platform's directory; with it a directory under that home |
| Paths.CacheDir | crates/jfp/src/config/mod.rs:19-28 | without `JFP_HOME` the platform's directory; with it a directory under that home |
| Paths.HomeLayout | crates/jfp/src/config/mod.rs:7-28 | with `JFP_HOME=h` the directories are h/.config/jfp and h/.cache/jfp |
| Paths.OverrideWins | crates/jfp/src/config/mod.rs:7-28 | the override takes precedence over the platform's directories |
| Paths.OverrideDistinct | crates/jfp/src/config/mod.rs:7-28 | under the override the configuration and cache directories differ |
| ConfigCommand.ConfigPath | crates/jfp/src/commands/config.rs:14-21 | a path exists iff the platform has a configuration directory, and it ends in config.toml |
| ConfigCommand.InferValue | crates/jfp/src/commands/config.rs:333-344 | "true"/"false" are Booleans, then an `i64`, then a float, else a string, each case iff the earlier ones fail |
| ConfigCommand.InferValueRust | crates/jfp/src/commands/config.rs:333-344 | with Rust's `f64` grammar as the float test, a value is a float iff it is an `f64` literal that is neither a Boolean nor an `i64`, and every `i64` text is also an `f64` literal |
| ConfigCommand.Lookup | crates/jfp/src/commands/config.rs:238 | `Value::get` finds a key only in a table |
| ConfigCommand.ReadConfig | crates/jfp/src/commands/config.rs:214-236 | an unreadable file is a read error, unparsable text a parse error, otherwise the document |
| ConfigCommand.ShowPath | crates/jfp/src/commands/config.rs:92-123 | JSON reports the path or its absence; text fails iff there is no path |
| ConfigCommand.ListConfig | crates/jfp/src/commands/config.rs:125-190 | no path fails; a missing file lists as an empty table; otherwise the document read |
| ConfigCommand.GetConfig | crates/jfp/src/commands/config.rs:192-267 | no path fails; a missing file or key is `NotFound`; read and parse errors are passed on; otherwise the value |
| ConfigCommand.ExistingTable | crates/jfp/src/commands/config.rs:294-331 | an empty table without a file; otherwise the document, which must be a table |
| ConfigCommand.SetOf | crates/jfp/src/commands/config.rs:269-384 | succeeds iff there is a path, the directory is made and the old table reads, the new table renders and the write succeeds; each failure gives its own error (no path, directory, old table, serialise, write) and leaves the file unchanged |
| ConfigCommand.ResetOf | crates/jfp/src/commands/config.rs:386-425 | no path fails; an existing file is removed |
| ConfigCommand.RunOf | crates/jfp/src/commands/config.rs:52-90 | unknown actions and missing arguments fail with the file unchanged; only `set` and `reset` change the file; each known action with its arguments is the matching operation |
| ConfigCommand.SetReadsBack | crates/jfp/src/commands/config.rs:346-367 | the file a successful `set` leaves reads back as the old table with the key set to the inferred value |
| ConfigCommand.SetThenGet | crates/jfp/src/commands/config.rs:192-384 | after `set`, `get` of the key gives the inferred value |
| ConfigCommand.SetKeepsOthers | crates/jfp/src/commands/config.rs:346 | after `set`, every other key reads as before |
| ConfigCommand.ResetThenGet | crates/jfp/src/commands/config.rs:386-408 | after `reset`, every key is not found |
| ConfigCommand.SetUnchangedTable | crates/jfp/src/commands/config.rs:346-367 | a `set` on a file whose table already maps the key to the value succeeds and rewrites the same text |
| ConfigCommand.SetTwice | crates/jfp/src/commands/config.rs:269-384 | setting the same value twice leaves the same file as once |
| ConfigCommand.ConfigStore.Set | crates/jfp/src/commands/config.rs:269-384 | the method's result and file are `SetOf` the old file |
| ConfigCommand.ConfigStore.Reset | crates/jfp/src/commands/config.rs:386-425 | the method's result and file are `ResetOf` the old file |
| ConfigCommand.ConfigStore.Run | crates/jfp/src/commands/config.rs:52-90 | the method's result and file are `RunOf` the old file |
| Credentials.TierFacts | crates/jfp/src/types/credentials.rs:8-20 | only `Premium` is premium, and the default tier is not |
| Credentials.ParseTier | crates/jfp/src/types/credentials.rs:8-14 | only "free" and "premium" are tiers, read as what they name |
| Credentials.TierNameRoundTrip | crates/jfp/src/types/credentials.rs:8-14 | a tier's lowercase name reads back as the tier |
| Credentials.DecodeCredentials | crates/jfp/src/types/credentials.rs:31-41 | credentials decode iff the four required fields are present and any tier is known; a missing refresh token or tier takes its default |
| Credentials.MissingTierIsFree | crates/jfp/src/types/credentials.rs:38-59 | credentials without a tier are not premium |
| Credentials.IsExpired | crates/jfp/src/types/credentials.rs:45-54 | expired iff the expiry does not parse or now is at least five minutes before it |
| Credentials.ExpiryIsPermanent | crates/jfp/src/types/credentials.rs:45-54 | once expired, credentials stay expired |
| Credentials.ExpiryBoundary | crates/jfp/src/types/credentials.rs:52-53 | exactly five minutes before the expiry they are expired, one millisecond earlier not |
| Credentials.DefaultAuthStatus | crates/jfp/src/types/credentials.rs:84-94 | not authenticated, no source, no details |
| Credentials.AuthStatusOf | crates/jfp/src/types/credentials.rs:96-106 | authenticated from the file, with the credentials' email, tier and expiry |

## Left out

- SQLite itself is not part of this model:
  - the engine, WAL and the other PRAGMAs, the busy timeout;
  - `integrity_check`, `checkpoint`, `in_memory` and `db_path`;
  - bm25 scoring and FTS5 `MATCH`. The rows a query matches, with their
    scores, are a parameter `hits`;
  - `updated_at`/`created_at` timestamps.
- The order of rows with equal titles and the order of tags are left open
  by the SQL (there is no `ORDER BY`). The model fixes both to rowid order.
- File I/O is modelled as values:
  - creating directories is a flag (`dirReady`, `mkdirOk`);
  - the write to a temporary file, `fsync` and the atomic rename are one
    step that either happens or not (`ioOk`, the `failing` set);
  - a failing write leaves the file unchanged;
  - the registry cache's writes fail through `DiskFaults`, one optional
    error for the cache file's steps and one for the sidecar's;
  - reading a file is its contents or a marker for a missing or unreadable
    file.
- serde JSON, serde on credentials and the TOML crate are not modelled in
  detail. They are codecs given as parameters, with their round-trip laws as
  `Lawful` hypotheses:
  - float parsing is the predicate `isFloat`, and a TOML float keeps its
    literal text. `RustFloats` states that `isFloat` is the `f64` grammar
    `Numbers.IsFloatLiteral`, and `InferValueRust` proves the type
    inference under it;
  - rendering a TOML value as text is left out, so the output keeps the
    value itself.
- chrono is not modelled in detail:
  - times are whole milliseconds;
  - RFC 3339 parsing (`parse_from_rfc3339`, in the loader) and the more
    lenient `str::parse::<DateTime<Utc>>` (in `jfp status`) are two
    parameters;
  - `Utc::now()` is an argument (`clock`, `now`).
- HTTP, through `reqwest`, is a function from the `If-None-Match` value to
  an optional response. Headers other than `ETag` are not modelled, and
  neither are the timeout and the user agent.
- `Database::open` failures are a `null` store.
- A failing `prompt_count` read in `jfp refresh` is the flag `countFails`.
  The other commands' `unwrap_or(0)` on the count is not modelled as a
  separate error.
- The ignored result of `set_meta` in `jfp refresh` is treated as always
  succeeding.
- `HashMap` iteration order:
  - context entries are kept in file order. Their keys are distinct
    (`DistinctKeys`), so a lookup does not depend on that order;
  - `Registry::categories` sorts distinct names, so its output does not
    depend on that order;
  - `tags`: the program leaves the order of equal counts to `HashMap`
    iteration. The model breaks such ties by name, and its contract
    promises only the count order.
- `to_lowercase` is modelled as ASCII lowercasing. Unicode case mapping is
  left out.
- `f64` relevance scores are `real`.
- Printing is not modelled: the human-readable and JSON output of every
  command, `show_path`'s "(file exists)" note, and the "\n---\n" separator
  between prompts on standard output.
- `Credentials` is not read from disk or the environment. The
  `Environment` auth source is only a value.
- ConfigCommand.ConfigPath uses the platform directory only, as
  `commands/config.rs` does. `JFP_HOME` does not affect it.
- ConfigCommand.GetConfig: the JSON branch prints a `not_found` object
  before failing. The model returns `NotFound` in both branches.
- `interactive` terminals are not modelled:
  - whether standard input is a terminal is a flag;
  - the typed answers are a parameter;
  - a failed `read_line` is a missing answer.
- The `jfp list`, `search`, `show`, `copy`, `random`, `doctor`, `tags`,
  `categories` and `open` commands are not part of this model, and neither
  is the CLI parser in `main.rs`.
- Invalid UTF-8 in an import file is not modelled.
- Paths.JoinPath models Unix `Path::join` and display only.
- Loader.RegistryLoader.WithPaths: the request timeout (`with_timeout`) is
  not modelled.
- Loader.IsStaleIff: the `u64` to `i64` cast of the time-to-live is
  modelled without wrap-around, since the time-to-live is a `nat`.
- Error values carry no `anyhow` context chain. A loader error is shown as
  `anyhow` displays it:
  - its outermost context;
  - the message of `bail!` for a bad status;
  - or the description of an I/O error that has no context.
- RefreshCommand.LoaderErrorText: the reason phrase shown after a bad
  status code (`500 Internal Server Error`) is the parameter `phrase`. The
  `http` crate's table of canonical reason phrases is not part of this
  model.

=== FILE: bundles.dfy ===
/** `jfp bundles` and `jfp bundle <id>`: fixed groups of bundled prompts,
    summarised with the number of their prompts that exist, or listed
    prompt by prompt with each prompt's title. */
module Bundles {
  import opened Wrappers
  import opened PromptTypes
  import Embedded

  /** `BundleDefinition`. */
  datatype BundleDefinition = BundleDefinition(id: string, title: string, description: string, promptIds: seq<string>)

  /** `BundleSummary`. */
  datatype BundleSummary = BundleSummary(id: string, title: string, description: Option<string>, promptCount: nat)

  /** `BundlePrompt`. */
  datatype BundlePrompt = BundlePrompt(id: string, title: string)

  /** `BundleOutput`. */
  datatype BundleOutput = BundleOutput(id: string, title: string, description: Option<string>, prompts: seq<BundlePrompt>)

  /** `BundlesOutput`. */
  datatype BundlesOutput = BundlesOutput(bundles: seq<BundleSummary>, count: nat)

  datatype BundleError = NotFound(id: string)

  /** `BUNDLE_DEFINITIONS`. */
  const BUNDLE_DEFINITIONS: seq<BundleDefinition> := [
    BundleDefinition("getting-started", "Getting Started", "Essential prompts for new users",
                     ["code-review", "debug", "explain-code"]),
    BundleDefinition("quality-essentials", "Quality Essentials", "Core prompts for code quality and refactoring",
                     ["write-tests", "refactor", "optimize"]),
    BundleDefinition("docs-and-design", "Docs & Design", "Prompts for documentation and API design",
                     ["documentation", "api-design", "explain-code"])
  ]

  /** Each bundled prompt's id with its title. */
  function TitlePairs(ps: seq<Prompt>): (pairs: seq<(string, string)>)
    ensures |pairs| == |ps|
    ensures forall i :: 0 <= i < |ps| ==> pairs[i] == (ps[i].id, ps[i].title)
  {
    seq(|ps|, i requires 0 <= i < |ps| => (ps[i].id, ps[i].title))
  }

  /** Titles by id, collected in order, so a later pair with the same id
      would win. */
  function TitleMap(pairs: seq<(string, string)>): (titles: map<string, string>)
    ensures forall i :: 0 <= i < |pairs| ==> pairs[i].0 in titles
    ensures forall id :: id in titles ==> exists i :: 0 <= i < |pairs| && pairs[i].0 == id
  {
    if pairs == [] then map[]
    else
      var init := pairs[..|pairs| - 1];
      assert forall i :: 0 <= i < |init| ==> init[i] == pairs[i];
      TitleMap(init)[pairs[|pairs| - 1].0 := pairs[|pairs| - 1].1]
  }

  /** With distinct ids, each id maps to its own title. */
  lemma {:induction false} TitleMapOfDistinct(pairs: seq<(string, string)>, i: nat)
    requires forall j, k :: 0 <= j < k < |pairs| ==> pairs[j].0 != pairs[k].0
    requires i < |pairs|
    ensures TitleMap(pairs)[pairs[i].0] == pairs[i].1
  {
    if i < |pairs| - 1 {
      var init := pairs[..|pairs| - 1];
      assert init[i] == pairs[i];
      TitleMapOfDistinct(init, i);
    }
  }

  /** `prompt_title_map`. */
  function PromptTitles(): map<string, string>
  {
    TitleMap(TitlePairs(Embedded.BundledPrompts()))
  }

  /** The bundled ids and titles, in order. */
  const BUNDLED_TITLES: seq<(string, string)> := [
    ("code-review", "Code Review Assistant"), ("explain-code", "Code Explainer"),
    ("write-tests", "Test Generator"), ("refactor", "Refactoring Assistant"),
    ("debug", "Debug Helper"), ("documentation", "Documentation Writer"),
    ("optimize", "Performance Optimizer"), ("api-design", "API Design Review")]

  lemma BundledTitlePairs()
    ensures TitlePairs(Embedded.BundledPrompts()) == BUNDLED_TITLES
  {
    var pairs := TitlePairs(Embedded.BundledPrompts());
    assert |pairs| == 8;
    forall i | 0 <= i < 8
      ensures pairs[i] == BUNDLED_TITLES[i]
    {
    }
  }

  /** The number of ids that have a title. */
  function PresentCount(ids: seq<string>, titles: map<string, string>): (n: nat)
    ensures n <= |ids|
    ensures n == |ids| <==> forall id :: id in ids ==> id in titles
  {
    if ids == [] then 0
    else
      assert forall id :: id in ids <==> id == ids[0] || id in ids[1..];
      (if ids[0] in titles then 1 else 0) + PresentCount(ids[1..], titles)
  }

  /** The ids that have a title, in the order given, each with its title. */
  function Present(ids: seq<string>, titles: map<string, string>): (prompts: seq<BundlePrompt>)
    ensures |prompts| == PresentCount(ids, titles)
    ensures forall p :: p in prompts ==> p.id in ids && p.id in titles && p.title == titles[p.id]
  {
    if ids == [] then []
    else
      (if ids[0] in titles then [BundlePrompt(ids[0], titles[ids[0]])] else []) + Present(ids[1..], titles)
  }

  /** One id is kept, with its title, exactly when it has a title. */
  lemma PresentOne(id: string, titles: map<string, string>)
    ensures Present([id], titles) == if id in titles then [BundlePrompt(id, titles[id])] else []
  {
    assert [id][1..] == [];
  }

  /** Filtering a concatenation filters each part: together with
      `PresentOne` this pins `Present` down as the ordered filter of the ids. */
  lemma {:induction false} PresentAppend(a: seq<string>, b: seq<string>, titles: map<string, string>)
    ensures Present(a + b, titles) == Present(a, titles) + Present(b, titles)
  {
    if a == [] {
      assert a + b == b;
    } else {
      assert (a + b)[0] == a[0];
      assert (a + b)[1..] == a[1..] + b;
      PresentAppend(a[1..], b, titles);
    }
  }

  /** When every id has a title, nothing is dropped and the order is kept. */
  lemma {:induction false} PresentAll(ids: seq<string>, titles: map<string, string>)
    requires forall id :: id in ids ==> id in titles
    ensures |Present(ids, titles)| == |ids|
    ensures forall k :: 0 <= k < |ids| ==> Present(ids, titles)[k] == BundlePrompt(ids[k], titles[ids[k]])
  {
    if ids != [] {
      assert forall id :: id in ids[1..] ==> id in ids;
      PresentAll(ids[1..], titles);
      assert forall k :: 1 <= k < |ids| ==> ids[1..][k - 1] == ids[k];
    }
  }

  /** `build_bundle_summary`. */
  function SummaryOf(b: BundleDefinition, titles: map<string, string>): (s: BundleSummary)
    ensures s.id == b.id && s.title == b.title && s.description == Some(b.description)
    ensures s.promptCount <= |b.promptIds|
    ensures s.promptCount == |b.promptIds| <==> forall id :: id in b.promptIds ==> id in titles
  {
    BundleSummary(b.id, b.title, Some(b.description), PresentCount(b.promptIds, titles))
  }

  /** `build_bundle_output`. */
  function OutputOf(b: BundleDefinition, titles: map<string, string>): (o: BundleOutput)
    ensures o.id == b.id && o.title == b.title && o.description == Some(b.description)
    ensures |o.prompts| == SummaryOf(b, titles).promptCount
    ensures forall p :: p in o.prompts ==> p.id in b.promptIds && p.id in titles && p.title == titles[p.id]
    ensures o.prompts == Present(b.promptIds, titles)
  {
    BundleOutput(b.id, b.title, Some(b.description), Present(b.promptIds, titles))
  }

  /** `list_bundles`: one summary per definition, in order. */
  function ListBundles(): (out: BundlesOutput)
    ensures out.count == |out.bundles| == |BUNDLE_DEFINITIONS|
    ensures forall i :: 0 <= i < |BUNDLE_DEFINITIONS| ==> out.bundles[i].id == BUNDLE_DEFINITIONS[i].id
    ensures forall i :: 0 <= i < |BUNDLE_DEFINITIONS| ==> out.bundles[i] == SummaryOf(BUNDLE_DEFINITIONS[i], PromptTitles())
  {
    var bundles := seq(|BUNDLE_DEFINITIONS|, i requires 0 <= i < |BUNDLE_DEFINITIONS| =>
                         SummaryOf(BUNDLE_DEFINITIONS[i], PromptTitles()));
    BundlesOutput(bundles, |bundles|)
  }

  /** The first definition with the id. */
  function FindBundle(defs: seq<BundleDefinition>, id: string): (r: Option<BundleDefinition>)
    ensures r.None? <==> forall b :: b in defs ==> b.id != id
    ensures r.Some? ==> r.value in defs && r.value.id == id
  {
    if defs == [] then None
    else if defs[0].id == id then Some(defs[0])
    else
      assert forall b :: b in defs <==> b == defs[0] || b in defs[1..];
      FindBundle(defs[1..], id)
  }

  /** `show_bundle`: an unknown id fails. */
  function ShowBundle(id: string): (r: Result<BundleOutput, BundleError>)
    ensures r.Err? <==> forall b :: b in BUNDLE_DEFINITIONS ==> b.id != id
    ensures r.Err? ==> r.error == NotFound(id)
    ensures r.Ok? ==> r.value.id == id
  {
    match FindBundle(BUNDLE_DEFINITIONS, id)
    case None => Err(NotFound(id))
    case Some(b) => Ok(OutputOf(b, PromptTitles()))
  }

  /** The bundle ids are pairwise distinct. */
  lemma BundleIdsUnique()
    ensures forall i, j :: 0 <= i < j < |BUNDLE_DEFINITIONS| ==> BUNDLE_DEFINITIONS[i].id != BUNDLE_DEFINITIONS[j].id
  {
  }

  /** Every id a bundle names is among the bundled titles. */
  lemma DefinitionsUseBundledIds()
    ensures forall b, id :: b in BUNDLE_DEFINITIONS && id in b.promptIds ==> id in TitleMap(BUNDLED_TITLES)
  {
    var titles := TitleMap(BUNDLED_TITLES);
    assert BUNDLED_TITLES[0].0 in titles && BUNDLED_TITLES[1].0 in titles;
    assert BUNDLED_TITLES[2].0 in titles && BUNDLED_TITLES[3].0 in titles;
    assert BUNDLED_TITLES[4].0 in titles && BUNDLED_TITLES[5].0 in titles;
    assert BUNDLED_TITLES[6].0 in titles && BUNDLED_TITLES[7].0 in titles;
    forall b, id | b in BUNDLE_DEFINITIONS && id in b.promptIds
      ensures id in titles
    {
      assert b == BUNDLE_DEFINITIONS[0] || b == BUNDLE_DEFINITIONS[1] || b == BUNDLE_DEFINITIONS[2];
    }
  }

  /** Every id a bundle names is a bundled prompt. */
  lemma BundlePromptsExist()
    ensures forall b, id :: b in BUNDLE_DEFINITIONS && id in b.promptIds ==> id in PromptTitles()
  {
    BundledTitlePairs();
    DefinitionsUseBundledIds();
  }

  /** With distinct ids, a definition is the one found under its id. */
  lemma {:induction false} FindDistinct(defs: seq<BundleDefinition>, b: BundleDefinition)
    requires forall i, j :: 0 <= i < j < |defs| ==> defs[i].id != defs[j].id
    requires b in defs
    ensures FindBundle(defs, b.id) == Some(b)
  {
    if defs[0] != b {
      assert defs[0].id != b.id by {
        var k :| 0 <= k < |defs| && defs[k] == b;
      }
      assert b in defs[1..];
      FindDistinct(defs[1..], b);
    }
  }

  /** Hence every bundle is listed with all its prompts, in the order of
      its definition, each under its bundled title. */
  lemma BundlesComplete(b: BundleDefinition)
    requires b in BUNDLE_DEFINITIONS
    ensures ShowBundle(b.id) == Ok(OutputOf(b, PromptTitles()))
    ensures |OutputOf(b, PromptTitles()).prompts| == |b.promptIds|
    ensures forall k :: 0 <= k < |b.promptIds| ==>
              OutputOf(b, PromptTitles()).prompts[k] == BundlePrompt(b.promptIds[k], PromptTitles()[b.promptIds[k]])
    ensures SummaryOf(b, PromptTitles()).promptCount == |b.promptIds|
  {
    var titles := PromptTitles();
    BundlePromptsExist();
    assert forall id :: id in b.promptIds ==> id in titles;
    BundleIdsUnique();
    FindDistinct(BUNDLE_DEFINITIONS, b);
    PresentAll(b.promptIds, titles);
  }

  /** The titles shown are the bundled prompts' own titles. */
  lemma BundleTitles(i: nat)
    requires i < |Embedded.BundledPrompts()|
    ensures PromptTitles()[Embedded.BundledPrompts()[i].id] == Embedded.BundledPrompts()[i].title
  {
    Embedded.BundledFacts();
    TitleMapOfDistinct(TitlePairs(Embedded.BundledPrompts()), i);
  }
}

=== FILE: config_command.dfy ===
/** `jfp config <action>`: show the configuration file's path, list it,
    get one key, set one key (inferring the value's TOML type), or reset it
    by removing the file. The file is the `file` field of a `ConfigStore`;
    TOML parsing and rendering, the float syntax, the platform's
    configuration directory and the outcome of each file-system call are
    parameters. */
module ConfigCommand {
  import opened Wrappers
  import Numbers
  import Paths

  /** `toml::Value`; a float keeps the text it was parsed from. */
  datatype TomlValue =
    | Boolean(b: bool)
    | Integer(n: int)
    | Float(literal: string)
    | TomlString(s: string)
    | Datetime(literal: string)
    | Array(items: seq<TomlValue>)
    | Table(entries: map<string, TomlValue>)

  /** The configuration file: not there, there but unreadable, or its text. */
  datatype ConfigFile = Missing | Unreadable | Contents(text: string)

  /** TOML as the command uses it: parsing a document, rendering a table
      (which can fail), and whether a string parses as an `f64`. */
  datatype TomlCodec = TomlCodec(
    parse: string -> Option<TomlValue>,
    render: map<string, TomlValue> -> Option<string>,
    isFloat: string -> bool)

  /** Rendering a table and parsing the text gives the table back. */
  ghost predicate Lawful(codec: TomlCodec)
  {
    forall m :: codec.render(m).Some? ==> codec.parse(codec.render(m).value) == Some(Table(m))
  }

  /** The codec's float test is the grammar `str::parse::<f64>` accepts. */
  ghost predicate RustFloats(codec: TomlCodec)
  {
    forall s :: codec.isFloat(s) == Numbers.IsFloatLiteral(s)
  }

  /** The platform's configuration directory, if there is one, and whether
      creating the directory, writing the file and removing it succeed. */
  datatype ConfigEnv = ConfigEnv(platformDir: Option<string>, mkdirOk: bool, writeOk: bool, removeOk: bool)

  /** `ConfigOutput` for a successful action. */
  datatype ConfigOutput = ConfigOutput(
    action: string,
    key: Option<string>,
    value: Option<TomlValue>,
    path: Option<string>,
    config: Option<TomlValue>)

  datatype ConfigError =
    | MissingKey
    | MissingKeyOrValue
    | InvalidAction(action: string)
    | NoConfigPath
    | ReadError
    | ParseError
    | NotFound(key: string)
    | MkdirError
    | InvalidConfigFormat
    | SerializeError
    | WriteError
    | RemoveError

  const APP_DIR: string := "jfp"
  const CONFIG_FILE: string := "config.toml"

  /** `config_path`: the application's directory under the platform's
      configuration directory, and the file in it. `JFP_HOME` plays no part
      here. */
  function ConfigPath(platformDir: Option<string>): (path: Option<string>)
    ensures path.Some? <==> platformDir.Some?
    ensures path.Some? ==> |path.value| >= |CONFIG_FILE| && path.value[|path.value| - |CONFIG_FILE|..] == CONFIG_FILE
  {
    match platformDir
    case Some(d) =>
      assert !Paths.Absolute(CONFIG_FILE);
      Some(Paths.JoinPath(Paths.JoinPath(d, APP_DIR), CONFIG_FILE))
    case None => None
  }

  // ---------------------------------------------------------------------
  // Value inference

  /** The type `set` gives a value: "true" and "false" are Booleans before
      any number is tried, then a 64-bit integer, then a float, and
      anything else is a string. */
  function InferValue(value: string, isFloat: string -> bool): (v: TomlValue)
    ensures value == "true" <==> v == Boolean(true)
    ensures value == "false" <==> v == Boolean(false)
    ensures v.Integer? <==> value != "true" && value != "false" && Numbers.ParseI64(value).Some?
    ensures v.Integer? ==> Some(v.n) == Numbers.ParseI64(value) && Numbers.I64_MIN <= v.n <= Numbers.I64_MAX
    ensures v.Float? <==> value != "true" && value != "false" && Numbers.ParseI64(value).None? && isFloat(value)
    ensures v.Float? ==> v.literal == value
    ensures v.TomlString? ==> v.s == value
    ensures v.Boolean? || v.Integer? || v.Float? || v.TomlString?
  {
    if value == "true" then Boolean(true)
    else if value == "false" then Boolean(false)
    else
      match Numbers.ParseI64(value)
      case Some(n) => Integer(n)
      case None => if isFloat(value) then Float(value) else TomlString(value)
  }

  /** With Rust's float grammar, a value becomes a float exactly when it is
      an `f64` literal that is neither a Boolean nor an `i64`. Every `i64`
      text is also an `f64` literal, so trying the integer first is what
      makes it an integer. */
  lemma InferValueRust(value: string, codec: TomlCodec)
    requires RustFloats(codec)
    ensures var v := InferValue(value, codec.isFloat);
            (v.Float? <==> value != "true" && value != "false" && Numbers.ParseI64(value).None?
                           && Numbers.IsFloatLiteral(value))
            && (v.Integer? ==> Numbers.IsFloatLiteral(value))
  {
    if Numbers.ParseI64(value).Some? {
      Numbers.IntegerIsFloatLiteral(value, Numbers.I64_MIN, Numbers.I64_MAX);
    }
  }

  // ---------------------------------------------------------------------
  // Reading

  /** `Value::get` with a string key: only a table has entries. */
  function Lookup(config: TomlValue, key: string): (v: Option<TomlValue>)
    ensures v.Some? <==> config.Table? && key in config.entries
    ensures v.Some? ==> v.value == config.entries[key]
  {
    if config.Table? && key in config.entries then Some(config.entries[key]) else None
  }

  /** The document in an existing file. */
  function ReadConfig(file: ConfigFile, codec: TomlCodec): (r: Result<TomlValue, ConfigError>)
    requires !file.Missing?
    ensures file.Unreadable? ==> r == Err(ReadError)
    ensures file.Contents? ==> (r.Ok? <==> codec.parse(file.text).Some?)
    ensures file.Contents? && r.Ok? ==> r.value == codec.parse(file.text).value
    ensures file.Contents? && r.Err? ==> r.error == ParseError
  {
    match file
    case Unreadable => Err(ReadError)
    case Contents(text) =>
      match codec.parse(text)
      case Some(v) => Ok(v)
      case None => Err(ParseError)
  }

  /** `show_path`: JSON output reports the path or its absence; text
      output fails without a path. */
  function ShowPath(env: ConfigEnv, useJson: bool): (r: Result<ConfigOutput, ConfigError>)
    ensures useJson ==> r == Ok(ConfigOutput("path", None, None, ConfigPath(env.platformDir), None))
    ensures !useJson ==> (r.Err? <==> env.platformDir.None?)
    ensures r.Err? ==> r.error == NoConfigPath
    ensures r.Ok? ==> r.value.path == ConfigPath(env.platformDir)
  {
    var path := ConfigPath(env.platformDir);
    if useJson || path.Some? then Ok(ConfigOutput("path", None, None, path, None)) else Err(NoConfigPath)
  }

  /** `list_config`: a missing file lists as an empty table. */
  function ListConfig(file: ConfigFile, env: ConfigEnv, codec: TomlCodec): (r: Result<ConfigOutput, ConfigError>)
    ensures env.platformDir.None? ==> r == Err(NoConfigPath)
    ensures env.platformDir.Some? && file.Missing? ==> r.Ok? && r.value.config == Some(Table(map[]))
    ensures env.platformDir.Some? && !file.Missing? ==>
              (r.Ok? <==> ReadConfig(file, codec).Ok?)
              && (r.Ok? ==> r.value.config == Some(ReadConfig(file, codec).value))
              && (r.Err? ==> r.error == ReadConfig(file, codec).error)
    ensures r.Ok? ==> r.value.path == ConfigPath(env.platformDir) && r.value.action == "list"
  {
    match ConfigPath(env.platformDir)
    case None => Err(NoConfigPath)
    case Some(path) =>
      if file.Missing? then Ok(ConfigOutput("list", None, None, Some(path), Some(Table(map[]))))
      else
        match ReadConfig(file, codec)
        case Err(e) => Err(e)
        case Ok(config) => Ok(ConfigOutput("list", None, None, Some(path), Some(config)))
  }

  /** `get_config`: fails without a file, and when the key is absent. */
  function GetConfig(file: ConfigFile, key: string, env: ConfigEnv, codec: TomlCodec): (r: Result<ConfigOutput, ConfigError>)
    ensures env.platformDir.None? ==> r == Err(NoConfigPath)
    ensures env.platformDir.Some? && file.Missing? ==> r == Err(NotFound(key))
    ensures env.platformDir.Some? && !file.Missing? && ReadConfig(file, codec).Err? ==> r == Err(ReadConfig(file, codec).error)
    ensures env.platformDir.Some? && !file.Missing? && ReadConfig(file, codec).Ok? ==>
              match Lookup(ReadConfig(file, codec).value, key)
              case None => r == Err(NotFound(key))
              case Some(v) => r == Ok(ConfigOutput("get", Some(key), Some(v), None, None))
  {
    if ConfigPath(env.platformDir).None? then Err(NoConfigPath)
    else if file.Missing? then Err(NotFound(key))
    else
      match ReadConfig(file, codec)
      case Err(e) => Err(e)
      case Ok(config) =>
        match Lookup(config, key)
        case None => Err(NotFound(key))
        case Some(v) => Ok(ConfigOutput("get", Some(key), Some(v), None, None))
  }

  // ---------------------------------------------------------------------
  // Writing

  /** The table `set` starts from: empty without a file, and otherwise the
      document, which must be a table. */
  function ExistingTable(file: ConfigFile, codec: TomlCodec): (r: Result<map<string, TomlValue>, ConfigError>)
    ensures file.Missing? ==> r == Ok(map[])
    ensures !file.Missing? && ReadConfig(file, codec).Err? ==> r == Err(ReadConfig(file, codec).error)
    ensures !file.Missing? && ReadConfig(file, codec).Ok? ==>
              if ReadConfig(file, codec).value.Table? then r == Ok(ReadConfig(file, codec).value.entries)
              else r == Err(InvalidConfigFormat)
  {
    if file.Missing? then Ok(map[])
    else
      match ReadConfig(file, codec)
      case Err(e) => Err(e)
      case Ok(config) => if config.Table? then Ok(config.entries) else Err(InvalidConfigFormat)
  }

  /** `set_config`: the result and the file afterwards. */
  function SetOf(file: ConfigFile, key: string, value: string, env: ConfigEnv, codec: TomlCodec)
    : (o: (Result<ConfigOutput, ConfigError>, ConfigFile))
    ensures o.0.Err? ==> o.1 == file
    ensures o.0.Ok? <==> env.platformDir.Some? && env.mkdirOk && ExistingTable(file, codec).Ok?
                         && codec.render(ExistingTable(file, codec).value[key := InferValue(value, codec.isFloat)]).Some?
                         && env.writeOk
    ensures o.0.Ok? ==>
              var table := ExistingTable(file, codec).value[key := InferValue(value, codec.isFloat)];
              o.1 == Contents(codec.render(table).value)
              && o.0.value == ConfigOutput("set", Some(key), Some(InferValue(value, codec.isFloat)),
                                           ConfigPath(env.platformDir), None)
    ensures env.platformDir.None? ==> o.0 == Err(NoConfigPath)
    ensures env.platformDir.Some? && !env.mkdirOk ==> o.0 == Err(MkdirError)
    ensures env.platformDir.Some? && env.mkdirOk && ExistingTable(file, codec).Err? ==>
              o.0 == Err(ExistingTable(file, codec).error)
    ensures env.platformDir.Some? && env.mkdirOk && ExistingTable(file, codec).Ok?
            && codec.render(ExistingTable(file, codec).value[key := InferValue(value, codec.isFloat)]).None? ==>
              o.0 == Err(SerializeError)
    ensures env.platformDir.Some? && env.mkdirOk && ExistingTable(file, codec).Ok?
            && codec.render(ExistingTable(file, codec).value[key := InferValue(value, codec.isFloat)]).Some?
            && !env.writeOk ==>
              o.0 == Err(WriteError)
  {
    match ConfigPath(env.platformDir)
    case None => (Err(NoConfigPath), file)
    case Some(path) =>
      if !env.mkdirOk then (Err(MkdirError), file)
      else
        match ExistingTable(file, codec)
        case Err(e) => (Err(e), file)
        case Ok(table) =>
          var parsed := InferValue(value, codec.isFloat);
          match codec.render(table[key := parsed])
          case None => (Err(SerializeError), file)
          case Some(text) =>
            if !env.writeOk then (Err(WriteError), file)
            else (Ok(ConfigOutput("set", Some(key), Some(parsed), Some(path), None)), Contents(text))
  }

  /** `reset_config`: a file that is there is removed. */
  function ResetOf(file: ConfigFile, env: ConfigEnv): (o: (Result<ConfigOutput, ConfigError>, ConfigFile))
    ensures env.platformDir.None? ==> o == (Err(NoConfigPath), file)
    ensures env.platformDir.Some? ==>
              if !file.Missing? && !env.removeOk then o == (Err(RemoveError), file)
              else o.1 == Missing && o.0 == Ok(ConfigOutput("reset", None, None, ConfigPath(env.platformDir), None))
  {
    match ConfigPath(env.platformDir)
    case None => (Err(NoConfigPath), file)
    case Some(path) =>
      if !file.Missing? && !env.removeOk then (Err(RemoveError), file)
      else (Ok(ConfigOutput("reset", None, None, Some(path), None)), Missing)
  }

  /** `run`: the action dispatch. */
  function RunOf(file: ConfigFile, action: string, key: Option<string>, value: Option<string>,
                 env: ConfigEnv, codec: TomlCodec, useJson: bool)
    : (o: (Result<ConfigOutput, ConfigError>, ConfigFile))
    ensures action !in {"path", "list", "get", "set", "reset"} ==> o == (Err(InvalidAction(action)), file)
    ensures action == "get" && key.None? ==> o == (Err(MissingKey), file)
    ensures action == "set" && (key.None? || value.None?) ==> o == (Err(MissingKeyOrValue), file)
    ensures action != "set" && action != "reset" ==> o.1 == file
    ensures action == "path" ==> o == (ShowPath(env, useJson), file)
    ensures action == "list" ==> o == (ListConfig(file, env, codec), file)
    ensures action == "get" && key.Some? ==> o == (GetConfig(file, key.value, env, codec), file)
    ensures action == "set" && key.Some? && value.Some? ==> o == SetOf(file, key.value, value.value, env, codec)
    ensures action == "reset" ==> o == ResetOf(file, env)
  {
    match action
    case "path" => (ShowPath(env, useJson), file)
    case "list" => (ListConfig(file, env, codec), file)
    case "get" =>
      if key.Some? then (GetConfig(file, key.value, env, codec), file) else (Err(MissingKey), file)
    case "set" =>
      if key.Some? && value.Some? then SetOf(file, key.value, value.value, env, codec)
      else (Err(MissingKeyOrValue), file)
    case "reset" => ResetOf(file, env)
    case _ => (Err(InvalidAction(action)), file)
  }

  /** The file a successful `set` leaves reads back as the old table with
      the key set to the inferred value. */
  lemma SetReadsBack(file: ConfigFile, key: string, value: string, env: ConfigEnv, codec: TomlCodec)
    requires Lawful(codec)
    requires SetOf(file, key, value, env, codec).0.Ok?
    ensures var after := SetOf(file, key, value, env, codec).1;
            !after.Missing? && ReadConfig(after, codec)
              == Ok(Table(ExistingTable(file, codec).value[key := InferValue(value, codec.isFloat)]))
  {
    var table := ExistingTable(file, codec).value[key := InferValue(value, codec.isFloat)];
    assert codec.parse(codec.render(table).value) == Some(Table(table));
  }

  /** After a successful `set`, getting the key gives the inferred value. */
  lemma SetThenGet(file: ConfigFile, key: string, value: string, env: ConfigEnv, codec: TomlCodec)
    requires Lawful(codec)
    requires SetOf(file, key, value, env, codec).0.Ok?
    ensures GetConfig(SetOf(file, key, value, env, codec).1, key, env, codec)
              == Ok(ConfigOutput("get", Some(key), Some(InferValue(value, codec.isFloat)), None, None))
  {
    SetReadsBack(file, key, value, env, codec);
  }

  /** After a successful `set`, every other key reads as it did before. */
  lemma SetKeepsOthers(file: ConfigFile, key: string, value: string, env: ConfigEnv, codec: TomlCodec, other: string)
    requires Lawful(codec)
    requires SetOf(file, key, value, env, codec).0.Ok?
    requires other != key
    ensures var before := ExistingTable(file, codec).value;
            var got := GetConfig(SetOf(file, key, value, env, codec).1, other, env, codec);
            if other in before then got == Ok(ConfigOutput("get", Some(other), Some(before[other]), None, None))
            else got == Err(NotFound(other))
  {
    SetReadsBack(file, key, value, env, codec);
  }

  /** After a successful reset every key is missing. */
  lemma ResetThenGet(file: ConfigFile, env: ConfigEnv, codec: TomlCodec, key: string)
    requires ResetOf(file, env).0.Ok?
    ensures GetConfig(ResetOf(file, env).1, key, env, codec) == Err(NotFound(key))
  {
  }

  /** A `set` on a file whose table already maps the key to the value
      rewrites the same text. */
  lemma SetUnchangedTable(file: ConfigFile, key: string, value: string, env: ConfigEnv, codec: TomlCodec,
                          table: map<string, TomlValue>)
    requires ExistingTable(file, codec) == Ok(table)
    requires key in table && table[key] == InferValue(value, codec.isFloat)
    requires codec.render(table).Some? && file == Contents(codec.render(table).value)
    requires env.platformDir.Some? && env.mkdirOk && env.writeOk
    ensures SetOf(file, key, value, env, codec)
              == (Ok(ConfigOutput("set", Some(key), Some(InferValue(value, codec.isFloat)), ConfigPath(env.platformDir), None)),
                  file)
  {
    assert table[key := InferValue(value, codec.isFloat)] == table;
  }

  /** Setting a key to a value and then to the same value again leaves the
      same file as setting it once. */
  lemma SetTwice(file: ConfigFile, key: string, value: string, env: ConfigEnv, codec: TomlCodec)
    requires Lawful(codec)
    requires SetOf(file, key, value, env, codec).0.Ok?
    ensures var once := SetOf(file, key, value, env, codec);
            SetOf(once.1, key, value, env, codec) == once
  {
    var once := SetOf(file, key, value, env, codec);
    var table := ExistingTable(file, codec).value[key := InferValue(value, codec.isFloat)];
    SetReadsBack(file, key, value, env, codec);
    SetUnchangedTable(once.1, key, value, env, codec, table);
  }

  /** The configuration file as the command finds and leaves it. */
  class ConfigStore {
    var file: ConfigFile

    constructor (file: ConfigFile)
      ensures this.file == file
    {
      this.file := file;
    }

    /** `set_config` as written: the table is read, the key inserted, and
        the rendered table written back. */
    method Set(key: string, value: string, env: ConfigEnv, codec: TomlCodec)
      returns (r: Result<ConfigOutput, ConfigError>)
      modifies this
      ensures (r, file) == SetOf(old(file), key, value, env, codec)
    {
      var path := ConfigPath(env.platformDir);
      if path.None? {
        return Err(NoConfigPath);
      }
      if !env.mkdirOk {
        return Err(MkdirError);
      }
      var existing := ExistingTable(file, codec);
      if existing.Err? {
        return Err(existing.error);
      }
      var config := existing.value;
      var parsedValue := InferValue(value, codec.isFloat);
      config := config[key := parsedValue];
      var content := codec.render(config);
      if content.None? {
        return Err(SerializeError);
      }
      if !env.writeOk {
        return Err(WriteError);
      }
      file := Contents(content.value);
      r := Ok(ConfigOutput("set", Some(key), Some(parsedValue), path, None));
    }

    /** `reset_config`. */
    method Reset(env: ConfigEnv) returns (r: Result<ConfigOutput, ConfigError>)
      modifies this
      ensures (r, file) == ResetOf(old(file), env)
    {
      var path := ConfigPath(env.platformDir);
      if path.None? {
        return Err(NoConfigPath);
      }
      if !file.Missing? {
        if !env.removeOk {
          return Err(RemoveError);
        }
        file := Missing;
      }
      r := Ok(ConfigOutput("reset", None, None, path, None));
    }

    /** `run`. */
    method Run(action: string, key: Option<string>, value: Option<string>, env: ConfigEnv, codec: TomlCodec,
               useJson: bool)
      returns (r: Result<ConfigOutput, ConfigError>)
      modifies this
      ensures (r, file) == RunOf(old(file), action, key, value, env, codec, useJson)
    {
      if action == "path" {
        r := ShowPath(env, useJson);
      } else if action == "list" {
        r := ListConfig(file, env, codec);
      } else if action == "get" {
        if key.None? {
          return Err(MissingKey);
        }
        r := GetConfig(file, key.value, env, codec);
      } else if action == "set" {
        if key.None? || value.None? {
          return Err(MissingKeyOrValue);
        }
        r := Set(key.value, value.value, env, codec);
      } else if action == "reset" {
        r := Reset(env);
      } else {
        r := Err(InvalidAction(action));
      }
    }
  }
}

=== FILE: counting.dfy ===
/** Counting occurrences of names and ordering the (name, count) pairs:
    the shape of `GROUP BY ... COUNT(*) ... ORDER BY` in the store and of
    the hash-map tallies in the registry. */
module Counting {
  import opened Ordering

  /** Number of occurrences of `x` in `xs`. */
  function Count(xs: seq<string>, x: string): (n: nat)
    ensures n <= |xs|
    ensures n > 0 <==> x in xs
  {
    if xs == [] then 0
    else Count(xs[..|xs| - 1], x) + (if xs[|xs| - 1] == x then 1 else 0)
  }

  /** A name with the number of times it occurred. */
  datatype Entry = Entry(name: string, count: nat)

  predicate DistinctNames(es: seq<Entry>)
  {
    forall i, j :: 0 <= i < j < |es| ==> es[i].name != es[j].name
  }

  predicate HasName(es: seq<Entry>, x: string)
  {
    exists i :: 0 <= i < |es| && es[i].name == x
  }

  function Total(es: seq<Entry>): nat
  {
    if es == [] then 0 else es[0].count + Total(es[1..])
  }

  /** One more occurrence of `x`: its entry goes up by one, or a new entry
      with count 1 is added at the end. */
  function Bump(es: seq<Entry>, x: string): (r: seq<Entry>)
    ensures |r| == |es| || |r| == |es| + 1
  {
    if es == [] then [Entry(x, 1)]
    else if es[0].name == x then [Entry(x, es[0].count + 1)] + es[1..]
    else [es[0]] + Bump(es[1..], x)
  }

  /** The counts of the distinct names of `xs`, in order of first
      occurrence. */
  function Tally(xs: seq<string>): seq<Entry>
  {
    if xs == [] then [] else Bump(Tally(xs[..|xs| - 1]), xs[|xs| - 1])
  }

  /** The count recorded for `y`: that of the first entry named `y`, or 0. */
  function CountOf(es: seq<Entry>, y: string): nat
  {
    if es == [] then 0 else if es[0].name == y then es[0].count else CountOf(es[1..], y)
  }

  lemma {:induction false} BumpCount(es: seq<Entry>, x: string, y: string)
    ensures CountOf(Bump(es, x), y) == CountOf(es, y) + (if y == x then 1 else 0)
  {
    if es != [] && es[0].name != x {
      BumpCount(es[1..], x, y);
    }
  }

  lemma {:induction false} BumpTotal(es: seq<Entry>, x: string)
    ensures Total(Bump(es, x)) == Total(es) + 1
  {
    if es != [] {
      if es[0].name == x {
        assert Bump(es, x)[1..] == es[1..];
      } else {
        BumpTotal(es[1..], x);
        assert Bump(es, x)[1..] == Bump(es[1..], x);
      }
    }
  }

  lemma {:induction false} BumpNames(es: seq<Entry>, x: string)
    ensures forall y :: HasName(Bump(es, x), y) <==> y == x || HasName(es, y)
  {
    var r := Bump(es, x);
    if es == [] {
      assert r[0].name == x;
    } else if es[0].name == x {
      assert |r| == |es|;
      assert forall i :: 0 <= i < |r| ==> r[i].name == es[i].name;
      forall y ensures HasName(r, y) <==> y == x || HasName(es, y) {
        if y == x {
          assert r[0].name == y;
        }
        if HasName(r, y) {
          var i :| 0 <= i < |r| && r[i].name == y;
          assert es[i].name == y;
        }
        if HasName(es, y) {
          var i :| 0 <= i < |es| && es[i].name == y;
          assert r[i].name == y;
        }
      }
    } else {
      var rest := Bump(es[1..], x);
      BumpNames(es[1..], x);
      assert r == [es[0]] + rest;
      forall y ensures HasName(r, y) <==> y == x || HasName(es, y) {
        if HasName(r, y) {
          var i :| 0 <= i < |r| && r[i].name == y;
          if i > 0 {
            assert rest[i - 1].name == y;
            assert HasName(rest, y);
            if y != x {
              assert HasName(es[1..], y);
              var k :| 0 <= k < |es[1..]| && es[1..][k].name == y;
              assert es[k + 1].name == y;
            }
          }
        }
        if y == x {
          assert HasName(rest, y);
          var k :| 0 <= k < |rest| && rest[k].name == y;
          assert r[k + 1].name == y;
        } else if HasName(es, y) {
          var i :| 0 <= i < |es| && es[i].name == y;
          if i > 0 {
            assert es[1..][i - 1].name == y;
            assert HasName(rest, y);
            var k :| 0 <= k < |rest| && rest[k].name == y;
            assert r[k + 1].name == y;
          } else {
            assert r[0].name == y;
          }
        }
      }
    }
  }

  lemma {:induction false} BumpDistinct(es: seq<Entry>, x: string)
    requires DistinctNames(es)
    ensures DistinctNames(Bump(es, x))
  {
    var r := Bump(es, x);
    if es != [] && es[0].name != x {
      var tail := es[1..];
      assert DistinctNames(tail) by {
        forall i, j | 0 <= i < j < |tail| ensures tail[i].name != tail[j].name {
          assert tail[i] == es[i + 1] && tail[j] == es[j + 1];
        }
      }
      BumpDistinct(tail, x);
      BumpNames(tail, x);
      var rest := Bump(tail, x);
      assert r == [es[0]] + rest;
      assert !HasName(tail, es[0].name);
      forall i, j | 0 <= i < j < |r| ensures r[i].name != r[j].name {
        if i == 0 {
          assert r[j] == rest[j - 1];
          assert HasName(rest, r[j].name);
        } else {
          assert r[i] == rest[i - 1] && r[j] == rest[j - 1];
        }
      }
    }
  }

  /** With distinct names, every entry carries the count recorded for its
      name. */
  lemma {:induction false} EntryCount(es: seq<Entry>, i: nat)
    requires DistinctNames(es) && i < |es|
    ensures es[i].count == CountOf(es, es[i].name)
  {
    if i > 0 {
      var tail := es[1..];
      assert DistinctNames(tail) by {
        forall a, b | 0 <= a < b < |tail| ensures tail[a].name != tail[b].name {
          assert tail[a] == es[a + 1] && tail[b] == es[b + 1];
        }
      }
      assert es[i] == tail[i - 1];
      EntryCount(tail, i - 1);
    }
  }

  /** What a tally says: each name of `xs` appears exactly once, with the
      number of its occurrences, and the counts add up to `|xs|`. */
  lemma {:induction false} TallyFacts(xs: seq<string>)
    ensures DistinctNames(Tally(xs))
    ensures Total(Tally(xs)) == |xs|
    ensures forall x :: HasName(Tally(xs), x) <==> x in xs
    ensures forall x :: CountOf(Tally(xs), x) == Count(xs, x)
  {
    if xs != [] {
      var init := xs[..|xs| - 1];
      var x := xs[|xs| - 1];
      TallyFacts(init);
      var es := Tally(init);
      BumpDistinct(es, x);
      BumpTotal(es, x);
      BumpNames(es, x);
      assert xs == init + [x];
      forall y ensures CountOf(Tally(xs), y) == Count(xs, y) {
        BumpCount(es, x, y);
      }
    }
  }

  lemma TallyEntries(xs: seq<string>)
    ensures forall i :: 0 <= i < |Tally(xs)| ==> Tally(xs)[i].count == Count(xs, Tally(xs)[i].name)
  {
    TallyFacts(xs);
    forall i | 0 <= i < |Tally(xs)| ensures Tally(xs)[i].count == Count(xs, Tally(xs)[i].name) {
      EntryCount(Tally(xs), i);
    }
  }

  // ---------------------------------------------------------------------
  // Ordering entries

  /** The two orders the program asks for: by name, or by count from the
      largest down with ties broken by name. */
  datatype EntryOrder = ByName | ByCountThenName

  predicate Precedes(order: EntryOrder, a: Entry, b: Entry)
  {
    match order
    case ByName => Lt(a.name, b.name)
    case ByCountThenName => a.count > b.count || (a.count == b.count && Lt(a.name, b.name))
  }

  lemma PrecedesTotal(order: EntryOrder, a: Entry, b: Entry)
    requires a.name != b.name
    ensures Precedes(order, a, b) || Precedes(order, b, a)
  {
    LtTrichotomy(a.name, b.name);
  }

  lemma PrecedesTransitive(order: EntryOrder, a: Entry, b: Entry, c: Entry)
    requires Precedes(order, a, b) && Precedes(order, b, c)
    ensures Precedes(order, a, c)
  {
    if order.ByName? || (a.count == b.count && b.count == c.count) {
      LtTransitive(a.name, b.name, c.name);
    }
  }

  lemma PrecedesIrreflexive(order: EntryOrder, a: Entry)
    ensures !Precedes(order, a, a)
  {
    LtIrreflexive(a.name);
  }

  predicate SortedBy(order: EntryOrder, es: seq<Entry>)
  {
    forall i, j :: 0 <= i < j < |es| ==> Precedes(order, es[i], es[j])
  }

  function Insert(order: EntryOrder, es: seq<Entry>, e: Entry): (r: seq<Entry>)
    ensures multiset(r) == multiset(es) + multiset{e}
    ensures forall y :: y in r <==> y == e || y in es
    ensures Total(r) == Total(es) + e.count
  {
    if es == [] then [e]
    else if Precedes(order, e, es[0]) then [e] + es
    else
      var rest := Insert(order, es[1..], e);
      assert es == [es[0]] + es[1..];
      [es[0]] + rest
  }

  function Sort(order: EntryOrder, es: seq<Entry>): (r: seq<Entry>)
    ensures multiset(r) == multiset(es)
    ensures forall y :: y in r <==> y in es
    ensures Total(r) == Total(es)
  {
    if es == [] then []
    else
      assert es == [es[0]] + es[1..];
      Insert(order, Sort(order, es[1..]), es[0])
  }

  lemma {:induction false} InsertSorted(order: EntryOrder, es: seq<Entry>, e: Entry)
    requires SortedBy(order, es)
    requires forall i :: 0 <= i < |es| ==> es[i].name != e.name
    ensures SortedBy(order, Insert(order, es, e))
  {
    var r := Insert(order, es, e);
    if es == [] {
    } else if Precedes(order, e, es[0]) {
      assert r == [e] + es;
      forall i, j | 0 <= i < j < |r| ensures Precedes(order, r[i], r[j]) {
        if i == 0 && j > 1 {
          PrecedesTransitive(order, e, es[0], es[j - 1]);
        }
      }
    } else {
      PrecedesTotal(order, e, es[0]);
      var tail := es[1..];
      assert SortedBy(order, tail) by {
        forall i, j | 0 <= i < j < |tail| ensures Precedes(order, tail[i], tail[j]) {
          assert tail[i] == es[i + 1] && tail[j] == es[j + 1];
        }
      }
      InsertSorted(order, tail, e);
      var rest := Insert(order, tail, e);
      assert r == [es[0]] + rest;
      forall k | 0 <= k < |rest| ensures Precedes(order, es[0], rest[k]) {
        assert rest[k] in rest;
        if rest[k] != e {
          var m :| 0 <= m < |tail| && tail[m] == rest[k];
          assert es[m + 1] == rest[k];
        }
      }
      forall i, j | 0 <= i < j < |r| ensures Precedes(order, r[i], r[j]) {
        if i == 0 {
          assert r[j] == rest[j - 1];
        } else {
          assert r[i] == rest[i - 1] && r[j] == rest[j - 1];
        }
      }
    }
  }

  lemma TailDistinct(es: seq<Entry>)
    requires es != [] && DistinctNames(es)
    ensures DistinctNames(es[1..])
  {
    var tail := es[1..];
    forall i, j | 0 <= i < j < |tail| ensures tail[i].name != tail[j].name {
      assert tail[i] == es[i + 1] && tail[j] == es[j + 1];
    }
  }

  lemma ConsDistinct(x: Entry, rest: seq<Entry>)
    requires DistinctNames(rest)
    requires forall k :: 0 <= k < |rest| ==> rest[k].name != x.name
    ensures DistinctNames([x] + rest)
  {
    var r := [x] + rest;
    forall i, j | 0 <= i < j < |r| ensures r[i].name != r[j].name {
      if i == 0 {
        assert r[j] == rest[j - 1];
      } else {
        assert r[i] == rest[i - 1] && r[j] == rest[j - 1];
      }
    }
  }

  lemma {:induction false} InsertKeepsDistinct(order: EntryOrder, es: seq<Entry>, e: Entry)
    requires DistinctNames(es)
    requires forall i :: 0 <= i < |es| ==> es[i].name != e.name
    ensures DistinctNames(Insert(order, es, e))
  {
    if es == [] {
    } else if Precedes(order, e, es[0]) {
      ConsDistinct(e, es);
    } else {
      var tail := es[1..];
      TailDistinct(es);
      forall i | 0 <= i < |tail| ensures tail[i].name != e.name {
        assert tail[i] == es[i + 1];
      }
      InsertKeepsDistinct(order, tail, e);
      var rest := Insert(order, tail, e);
      forall k | 0 <= k < |rest| ensures rest[k].name != es[0].name {
        assert rest[k] in rest;
        if rest[k] != e {
          var m :| 0 <= m < |tail| && tail[m] == rest[k];
          assert es[m + 1] == rest[k];
        } else {
          assert es[0].name != e.name;
        }
      }
      ConsDistinct(es[0], rest);
    }
  }

  /** Sorting entries with distinct names keeps them distinct and puts them
      strictly in the chosen order. */
  lemma {:induction false} SortSorted(order: EntryOrder, es: seq<Entry>)
    requires DistinctNames(es)
    ensures SortedBy(order, Sort(order, es))
    ensures DistinctNames(Sort(order, es))
  {
    if es != [] {
      var tail := es[1..];
      assert DistinctNames(tail) by {
        forall i, j | 0 <= i < j < |tail| ensures tail[i].name != tail[j].name {
          assert tail[i] == es[i + 1] && tail[j] == es[j + 1];
        }
      }
      SortSorted(order, tail);
      var s := Sort(order, tail);
      forall i | 0 <= i < |s| ensures s[i].name != es[0].name {
        assert s[i] in s;
        var k :| 0 <= k < |tail| && tail[k] == s[i];
        assert es[k + 1] == s[i];
      }
      InsertSorted(order, s, es[0]);
      InsertKeepsDistinct(order, s, es[0]);
    }
  }

  /** Counting `xs` and ordering the result: what a `GROUP BY` with
      `COUNT(*)` and `ORDER BY` produces. */
  function CountsIn(order: EntryOrder, xs: seq<string>): seq<Entry>
  {
    Sort(order, Tally(xs))
  }

  /** The grouped counts: one entry per distinct name of `xs`, carrying the
      number of its occurrences, strictly ordered, adding up to `|xs|`. */
  lemma CountsInFacts(order: EntryOrder, xs: seq<string>)
    ensures SortedBy(order, CountsIn(order, xs))
    ensures DistinctNames(CountsIn(order, xs))
    ensures Total(CountsIn(order, xs)) == |xs|
    ensures forall x :: HasName(CountsIn(order, xs), x) <==> x in xs
    ensures forall i :: 0 <= i < |CountsIn(order, xs)| ==>
      CountsIn(order, xs)[i].count == Count(xs, CountsIn(order, xs)[i].name)
  {
    var t := Tally(xs);
    TallyFacts(xs);
    TallyEntries(xs);
    SortSorted(order, t);
    var r := CountsIn(order, xs);
    forall x ensures HasName(r, x) <==> x in xs {
      if HasName(r, x) {
        var i :| 0 <= i < |r| && r[i].name == x;
        assert r[i] in r;
        var k :| 0 <= k < |t| && t[k] == r[i];
      }
      if x in xs {
        var k :| 0 <= k < |t| && t[k].name == x;
        assert t[k] in t;
        var i :| 0 <= i < |r| && r[i] == t[k];
      }
    }
    forall i | 0 <= i < |r| ensures r[i].count == Count(xs, r[i].name) {
      assert r[i] in r;
      var k :| 0 <= k < |t| && t[k] == r[i];
    }
  }
}

=== FILE: credentials.dfy ===
/** Stored login credentials: the user's tier, expiry with a five-minute
    safety margin, and the authentication status shown to the user. Times
    are whole milliseconds; RFC 3339 parsing is a parameter and the current
    time an argument. */
module Credentials {
  import opened Wrappers

  /** `UserTier`; `Free` is the default. */
  datatype UserTier = Free | Premium

  const DEFAULT_TIER: UserTier := Free

  /** `UserTier::is_premium`. */
  predicate IsPremium(tier: UserTier)
  {
    tier.Premium?
  }

  /** Only the premium tier is premium, and the default tier is not. */
  lemma TierFacts(tier: UserTier)
    ensures IsPremium(tier) <==> tier == Premium
    ensures !IsPremium(DEFAULT_TIER)
  {
  }

  /** `Credentials`. */
  datatype Credentials = Credentials(
    accessToken: string,
    refreshToken: Option<string>,
    expiresAt: string,
    email: string,
    tier: UserTier,
    userId: string)

  /** The fields of a decoded credentials object, each possibly absent. */
  datatype CredentialFields = CredentialFields(
    accessToken: Option<string>,
    refreshToken: Option<string>,
    expiresAt: Option<string>,
    email: Option<string>,
    tier: Option<string>,
    userId: Option<string>)

  /** The tier's lowercase name, as serialised. */
  function TierName(tier: UserTier): string
  {
    match tier
    case Free => "free"
    case Premium => "premium"
  }

  /** Reading a tier name back; any other name is refused. */
  function ParseTier(name: string): (tier: Option<UserTier>)
    ensures tier.Some? <==> name == "free" || name == "premium"
    ensures tier.Some? ==> TierName(tier.value) == name
  {
    if name == "free" then Some(Free)
    else if name == "premium" then Some(Premium)
    else None
  }

  lemma TierNameRoundTrip(tier: UserTier)
    ensures ParseTier(TierName(tier)) == Some(tier)
  {
  }

  /** Decoding with serde's defaults: the refresh token and the tier may be
      missing (no token, `Free`); every other field is required. */
  function DecodeCredentials(f: CredentialFields): (c: Option<Credentials>)
    ensures c.Some? <==> f.accessToken.Some? && f.expiresAt.Some? && f.email.Some? && f.userId.Some?
                         && (f.tier.None? || ParseTier(f.tier.value).Some?)
    ensures c.Some? ==> c.value.refreshToken == f.refreshToken && c.value.accessToken == f.accessToken.value
                        && c.value.expiresAt == f.expiresAt.value && c.value.email == f.email.value
                        && c.value.userId == f.userId.value
    ensures c.Some? && f.tier.None? ==> c.value.tier == DEFAULT_TIER
    ensures c.Some? && f.tier.Some? ==> TierName(c.value.tier) == f.tier.value
  {
    if f.accessToken.None? || f.expiresAt.None? || f.email.None? || f.userId.None? then None
    else
      var tier := if f.tier.None? then Some(DEFAULT_TIER) else ParseTier(f.tier.value);
      if tier.None? then None
      else Some(Credentials(f.accessToken.value, f.refreshToken, f.expiresAt.value, f.email.value,
                            tier.value, f.userId.value))
  }

  /** `Credentials::is_premium`: the tier decides. */
  predicate CredentialsPremium(c: Credentials)
  {
    IsPremium(c.tier)
  }

  /** A decoded object without a tier is never premium. */
  lemma MissingTierIsFree(f: CredentialFields)
    requires f.tier.None? && DecodeCredentials(f).Some?
    ensures !CredentialsPremium(DecodeCredentials(f).value)
  {
  }

  // ---------------------------------------------------------------------
  // Expiry

  /** RFC 3339 parsing to milliseconds since the epoch; `None` when the
      text is not a valid timestamp. */
  type TimeParser = string -> Option<int>

  /** Five minutes. */
  const EXPIRY_BUFFER_MILLIS: int := 5 * 60 * 1000

  /** `is_expired`: an unparseable expiry counts as expired; otherwise the
      credentials expire five minutes before the stated time. */
  function IsExpired(c: Credentials, parseTime: TimeParser, now: int): (expired: bool)
    ensures expired <==> parseTime(c.expiresAt).None? || now >= parseTime(c.expiresAt).value - EXPIRY_BUFFER_MILLIS
  {
    match parseTime(c.expiresAt)
    case None => true
    case Some(expires) => now >= expires - EXPIRY_BUFFER_MILLIS
  }

  /** Once expired, credentials stay expired. */
  lemma ExpiryIsPermanent(c: Credentials, parseTime: TimeParser, now: int, later: int)
    requires now <= later && IsExpired(c, parseTime, now)
    ensures IsExpired(c, parseTime, later)
  {
  }

  /** The margin's edge: exactly five minutes before the stated time the
      credentials are expired, a millisecond earlier they are not. */
  lemma ExpiryBoundary(c: Credentials, parseTime: TimeParser)
    requires parseTime(c.expiresAt).Some?
    ensures var expires := parseTime(c.expiresAt).value;
            IsExpired(c, parseTime, expires - 300_000) && !IsExpired(c, parseTime, expires - 300_001)
  {
  }

  // ---------------------------------------------------------------------
  // AuthStatus

  /** `AuthSource`. */
  datatype AuthSource = NoSource | FileSource | EnvironmentSource

  /** `AuthStatus`. */
  datatype AuthStatus = AuthStatus(
    authenticated: bool,
    email: Option<string>,
    tier: Option<UserTier>,
    expiresAt: Option<string>,
    source: AuthSource)

  /** `AuthStatus::default`: not logged in. */
  function DefaultAuthStatus(): (s: AuthStatus)
    ensures !s.authenticated && s.source == NoSource
    ensures s.email.None? && s.tier.None? && s.expiresAt.None?
  {
    AuthStatus(false, None, None, None, NoSource)
  }

  /** `AuthStatus::from`: logged in from the credentials file, with the
      credentials' email, tier and expiry. */
  function AuthStatusOf(c: Credentials): (s: AuthStatus)
    ensures s.authenticated && s.source == FileSource
    ensures s.email == Some(c.email) && s.tier == Some(c.tier) && s.expiresAt == Some(c.expiresAt)
  {
    AuthStatus(true, Some(c.email), Some(c.tier), Some(c.expiresAt), FileSource)
  }
}

=== FILE: database.dfy ===
/** The `Database` handle: the tables of one SQLite file as fields, and
    each operation as the sequence of statements it runs. Every method is
    proved to leave the tables the way the matching function of `Store` or
    `Queries` says, or to return what that function reads. */
module Storage {
  import opened Wrappers
  import opened Schema
  import opened PromptTypes
  import opened Store
  import opened Queries
  import Text
  import Counting

  class Database {
    /** Where the file lives; ":memory:" for an in-memory store. */
    const path: string

    var objects: set<string>
    var prompts: seq<PromptRow>
    var tagRows: seq<TagRow>
    var variableRows: seq<VariableRow>
    var ftsRows: seq<FtsRow>
    var bundleIds: seq<string>
    var bundlePromptRows: seq<BundlePromptRow>
    var meta: map<string, string>

    /** The contents of the file. */
    function State(): Tables
      reads this
    {
      Tables(objects, prompts, tagRows, variableRows, ftsRows, bundleIds, bundlePromptRows, meta)
    }

    /** The schema's keys and foreign keys hold. */
    predicate Valid()
      reads this
    {
      KeysHold(State())
    }

    /** A handle on the file at `path`, holding `existing`, before the
        schema is set up. */
    constructor Attach(path: string, existing: Tables)
      ensures this.path == path
      ensures State() == existing
    {
      this.path := path;
      objects := existing.objects;
      prompts := existing.prompts;
      tagRows := existing.tagRows;
      variableRows := existing.variableRows;
      ftsRows := existing.ftsRows;
      bundleIds := existing.bundleIds;
      bundlePromptRows := existing.bundlePromptRows;
      meta := existing.meta;
    }

    /** `init_schema`: read the stored version; below the current one, run
        the creation script statement by statement and record the version. */
    method InitSchema() returns (r: Result<(), SqlError>)
      modifies this
      ensures r.Ok? <==> InitSchemaTables(old(State())).Ok?
      ensures r.Ok? ==> State() == InitSchemaTables(old(State())).value
      ensures r.Err? ==> r.error == InitSchemaTables(old(State())).error
      ensures prompts == old(prompts) && tagRows == old(tagRows) && variableRows == old(variableRows)
      ensures bundleIds == old(bundleIds) && bundlePromptRows == old(bundlePromptRows)
    {
      var version := StoredSchemaVersion(State());
      if version < SCHEMA_VERSION {
        var batch := ExecuteBatch(objects, CREATE_SCHEMA);
        var i := 0;
        while i < |CREATE_SCHEMA|
          invariant 0 <= i <= |CREATE_SCHEMA|
          invariant ExecuteBatch(objects, CREATE_SCHEMA[i..]) == batch
          invariant State() == old(State()).(objects := objects)
          decreases |CREATE_SCHEMA| - i
        {
          var step := ExecuteStatement(objects, CREATE_SCHEMA[i]);
          assert CREATE_SCHEMA[i..][0] == CREATE_SCHEMA[i];
          assert CREATE_SCHEMA[i..][1..] == CREATE_SCHEMA[i + 1..];
          if step.Err? {
            return Err(step.error);
          }
          objects := step.value;
          i := i + 1;
        }
        assert CREATE_SCHEMA[i..] == [];
        meta := meta["schema_version" := Numbers.IntToDecimal(SCHEMA_VERSION)];
      }
      return Ok(());
    }

    /** `DELETE FROM prompt_tags WHERE prompt_id = ?` and one insert per
        tag, stopping at the first one the key rejects. */
    method ReplaceTagRows(p: Prompt) returns (ok: bool)
      modifies this
      ensures tagRows == ReplaceTags(old(tagRows), p).0
      ensures ok == ReplaceTags(old(tagRows), p).1
      ensures State() == old(State()).(tagRows := tagRows)
    {
      var goal := ReplaceTags(tagRows, p);
      tagRows := TagRowsWithout(tagRows, p.id);
      var i := 0;
      while i < |p.tags|
        invariant 0 <= i <= |p.tags|
        invariant InsertTags(tagRows, p.id, p.tags[i..]) == goal
        invariant State() == old(State()).(tagRows := tagRows)
        decreases |p.tags| - i
      {
        var row := TagRow(p.id, p.tags[i]);
        assert p.tags[i..][0] == p.tags[i];
        assert p.tags[i..][1..] == p.tags[i + 1..];
        if row in tagRows {
          return false;
        }
        tagRows := tagRows + [row];
        i := i + 1;
      }
      assert p.tags[i..] == [];
      return true;
    }

    /** `upsert_prompt`: the prompt row, then the tags, then the variables
        and the full-text row, each as its own statement. A tag the key
        rejects ends the call with an error and with the earlier
        statements' effects kept. */
    method UpsertPrompt(p: Prompt) returns (ok: bool)
      modifies this
      ensures State() == UpsertTables(old(State()), p).tables
      ensures ok == UpsertTables(old(State()), p).ok
      ensures ok <==> NoDuplicates(p.tags)
      ensures old(Valid()) ==> Valid()
    {
      ghost var t0 := State();
      UpsertSucceeds(t0, p);
      if Valid() {
        UpsertKeepsKeys(t0, p);
      }
      var tagsText := Text.Join(p.tags, " ");
      prompts := WritePromptRow(prompts, RowOf(p, Some(tagsText)), false);
      ok := ReplaceTagRows(p);
      if !ok {
        return;
      }
      ghost var t1 := State();
      WriteVariableRows(p);
      assert variableRows == VariableRowsWithout(t1.variableRows, p.id) + VariableRowsFor(p.id, p.variables);
      ftsRows := FtsRowsWithout(ftsRows, p.id);
      ftsRows := ftsRows + [FtsRowOf(p)];
      assert variableRows == VariableRowsWithout(t0.variableRows, p.id) + VariableRowsFor(p.id, p.variables);
      assert ftsRows == FtsRowsWithout(t0.ftsRows, p.id) + [FtsRowOf(p)];
    }

    /** The variable statements of `upsert_prompt`: the prompt's old
        variable rows are deleted, then one row per variable is inserted
        in order. */
    method WriteVariableRows(p: Prompt)
      modifies this
      ensures variableRows == VariableRowsWithout(old(variableRows), p.id) + VariableRowsFor(p.id, p.variables)
      ensures State() == old(State()).(variableRows := variableRows)
    {
      var base := VariableRowsWithout(variableRows, p.id);
      variableRows := base;
      var i := 0;
      while i < |p.variables|
        invariant 0 <= i <= |p.variables|
        invariant State() == old(State()).(variableRows := variableRows)
        invariant variableRows == base + VariableRowsFor(p.id, p.variables[..i])
        decreases |p.variables| - i
      {
        assert VariableRowsFor(p.id, p.variables[..i + 1]) ==
               VariableRowsFor(p.id, p.variables[..i]) + [VariableRowOf(p.id, p.variables[i])];
        variableRows := variableRows + [VariableRowOf(p.id, p.variables[i])];
        i := i + 1;
      }
      assert p.variables[..i] == p.variables;
    }

    /** `bulk_upsert_prompts`: one transaction over all prompts. The first
        failing statement rolls every change back. */
    method BulkUpsertPrompts(ps: seq<Prompt>) returns (ok: bool)
      modifies this
      ensures State() == BulkUpsertTables(old(State()), ps).tables
      ensures ok == BulkUpsertTables(old(State()), ps).ok
      ensures ok <==> forall i :: 0 <= i < |ps| ==> NoDuplicates(ps[i].tags)
      ensures old(Valid()) ==> Valid()
    {
      var snapshot := State();
      BulkAllOrNothing(snapshot, ps);
      if Valid() {
        BulkKeepsKeys(snapshot, ps);
      }
      var i := 0;
      while i < |ps|
        invariant 0 <= i <= |ps|
        invariant BulkApply(State(), ps[i..]) == BulkApply(snapshot, ps)
        decreases |ps| - i
      {
        assert ps[i..][0] == ps[i];
        assert ps[i..][1..] == ps[i + 1..];
        var stepOk := BulkStepRows(ps[i]);
        if !stepOk {
          Restore(snapshot);
          return false;
        }
        i := i + 1;
      }
      assert ps[i..] == [];
      return true;
    }

    /** The statements the bulk path runs for one prompt. */
    method BulkStepRows(p: Prompt) returns (ok: bool)
      modifies this
      ensures State() == BulkStep(old(State()), p).tables
      ensures ok == BulkStep(old(State()), p).ok
    {
      prompts := WritePromptRow(prompts, RowOf(p, None), true);
      ok := ReplaceTagRows(p);
    }

    /** ROLLBACK: every table as it was when the transaction began. */
    method Restore(t: Tables)
      modifies this
      ensures State() == t
    {
      objects, prompts, tagRows, variableRows := t.objects, t.prompts, t.tagRows, t.variableRows;
      ftsRows, bundleIds, bundlePromptRows, meta := t.ftsRows, t.bundleIds, t.bundlePromptRows, t.meta;
    }

    /** `get_prompt_tags`: the tags of the prompt's tag rows, in row
        order. */
    method LoadTags(id: string) returns (tags: seq<string>)
      ensures tags == TagsOf(tagRows, id)
    {
      var rows := tagRows;
      tags := [];
      var i := 0;
      while i < |rows|
        invariant 0 <= i <= |rows|
        invariant tags + TagsOf(rows[i..], id) == TagsOf(rows, id)
        decreases |rows| - i
      {
        assert rows[i..][0] == rows[i];
        assert rows[i..][1..] == rows[i + 1..];
        if rows[i].promptId == id {
          tags := tags + [rows[i].tag];
        }
        i := i + 1;
      }
      assert rows[i..] == [];
    }

    /** `get_prompt_variables`: the variables of the prompt's rows, in row
        order, with the stored type text read back by `str_to_var_type`. */
    method LoadVariables(id: string) returns (vars: seq<PromptVariable>)
      ensures vars == VariablesOf(variableRows, id)
    {
      var rows := variableRows;
      vars := [];
      var i := 0;
      while i < |rows|
        invariant 0 <= i <= |rows|
        invariant vars + VariablesOf(rows[i..], id) == VariablesOf(rows, id)
        decreases |rows| - i
      {
        assert rows[i..][0] == rows[i];
        assert rows[i..][1..] == rows[i + 1..];
        if rows[i].promptId == id {
          vars := vars + [VariableOfRow(rows[i])];
        }
        i := i + 1;
      }
      assert rows[i..] == [];
    }

    /** `get_prompt`: the row by id, then its tags, then its variables. */
    method GetPrompt(id: string) returns (r: Option<Prompt>)
      ensures r == FetchPrompt(State(), id)
    {
      var i := 0;
      while i < |prompts| && prompts[i].id != id
        invariant 0 <= i <= |prompts|
        invariant FindRow(prompts[i..], id) == FindRow(prompts, id)
        decreases |prompts| - i
      {
        assert prompts[i..][1..] == prompts[i + 1..];
        i := i + 1;
      }
      if i == |prompts| {
        assert prompts[i..] == [];
        return None;
      }
      assert prompts[i..][0] == prompts[i];
      var tags := LoadTags(id);
      var vars := LoadVariables(id);
      return Some(PromptOfRow(prompts[i], tags, vars));
    }

    /** `list_prompts_filtered`: the query, then the tags of each row. */
    method ListPromptsFiltered(category: Option<string>, tag: Option<string>, featuredOnly: bool)
      returns (ps: seq<Prompt>)
      ensures ps == Queries.ListPromptsFiltered(State(), Filter(category, tag, featuredOnly))
    {
      var f := Filter(category, tag, featuredOnly);
      var rows := ListedRows(State(), f);
      ghost var goal := Queries.ListPromptsFiltered(State(), f);
      ps := [];
      var i := 0;
      while i < |rows|
        invariant 0 <= i <= |rows|
        invariant ps == goal[..i]
        decreases |rows| - i
      {
        var tags := LoadTags(rows[i].id);
        assert goal[..i + 1] == goal[..i] + [goal[i]];
        ps := ps + [PromptOfRow(rows[i], tags, [])];
        i := i + 1;
      }
      assert goal[..i] == goal;
    }

    /** `list_prompts`. */
    method ListPrompts() returns (ps: seq<Prompt>)
      ensures ps == Queries.ListPrompts(State())
      ensures |ps| == |prompts|
    {
      ListPromptsCount(State());
      ps := ListPromptsFiltered(None, None, false);
    }

    /** `category_counts`: one grouped query. */
    method CategoryCounts() returns (counts: seq<Counting.Entry>)
      ensures counts == Queries.CategoryCounts(State())
      ensures Counting.Total(counts) <= |prompts|
    {
      CategoryCountsFacts(State());
      counts := Queries.CategoryCounts(State());
    }

    /** `tag_counts`: one grouped query. */
    method TagCounts() returns (counts: seq<Counting.Entry>)
      ensures counts == Queries.TagCounts(State())
      ensures Counting.Total(counts) == |tagRows|
    {
      TagCountsFacts(State());
      counts := Queries.TagCounts(State());
    }

    /** `prompt_count`. */
    method PromptCount() returns (n: nat)
      ensures n == Queries.PromptCount(State())
      ensures n == |prompts|
    {
      n := |prompts|;
    }

    /** `search`: `hits` stand for what `MATCH query ORDER BY bm25` selects
        from the full-text table; the joined query keeps the first `limit`,
        then each result gets its tags and its score negated. */
    method Search(hits: seq<FtsHit>, limit: nat) returns (rs: seq<SearchHit>)
      ensures rs == Queries.Search(State(), hits, limit)
      ensures |rs| <= limit
    {
      var t := State();
      var joined := Take(JoinPrompts(t, hits), limit);
      ghost var goal := Queries.Search(t, hits, limit);
      rs := [];
      var i := 0;
      while i < |joined|
        invariant 0 <= i <= |joined|
        invariant rs == goal[..i]
        decreases |joined| - i
      {
        var h := joined[i];
        assert h in JoinPrompts(t, hits);
        var row := FindRow(prompts, h.id).value;
        var tags := LoadTags(h.id);
        var result := SearchHit(PromptOfRow(row, tags, []), -h.score);
        assert goal[i] == result;
        assert goal[..i + 1] == goal[..i] + [result];
        rs := rs + [result];
        i := i + 1;
      }
      assert goal[..i] == goal;
    }

    /** `get_meta`. */
    method GetMeta(key: string) returns (r: Result<string, SqlError>)
      ensures r == Queries.GetMeta(State(), key)
      ensures r.Ok? <==> key in meta
    {
      if key in meta {
        return Ok(meta[key]);
      }
      return Err(NoRows);
    }

    /** `set_meta`: insert or replace. */
    method SetMeta(key: string, value: string)
      modifies this
      ensures State() == WriteMeta(old(State()), key, value)
      ensures meta[key] == value
      ensures old(Valid()) ==> Valid()
    {
      meta := meta[key := value];
    }
  }

  /** `open_at`: the file at `path`, holding `existing`, with the schema
      set up. An in-memory store is `EMPTY_TABLES` under the path
      ":memory:". */
  method OpenAt(path: string, existing: Tables) returns (db: Database)
    ensures fresh(db) && db.path == path
    ensures InitSchemaTables(existing).Ok? && db.State() == InitSchemaTables(existing).value
    ensures KeysHold(existing) ==> db.Valid()
  {
    db := new Database.Attach(path, existing);
    ghost var init := InitSchemaTables(existing);
    InitSchemaOk(existing);
    var r := db.InitSchema();
    assert r.Ok?;
    assert db.State() == init.value;
  }
}

=== FILE: embedded.dfy ===
/** The prompts compiled into the program, used when neither the network
    nor a cache can supply the registry. */
module Embedded {
  import opened Wrappers
  import opened PromptTypes

  /** A bundled prompt: version "1.0.0", author "JeffreysPrompts", no
      variables, not saved locally. */
  function Bundled(id: string, title: string, content: string, description: string,
                   category: string, tags: seq<string>, featured: bool): (p: Prompt)
    ensures p.id == id && p.title == title && p.content == content && p.tags == tags
    ensures p.description == Some(description) && p.category == Some(category)
    ensures p.featured == featured && p.variables == [] && !p.isLocal && p.savedAt.None?
  {
    Prompt(id, title, content, Some(description), Some(category), tags, [], featured,
           Some("1.0.0"), Some("JeffreysPrompts"), None, false)
  }

  const CODE_REVIEW_CONTENT: string := @"Review this code for:
1. Bugs and potential issues
2. Performance problems
3. Security vulnerabilities
4. Code style and readability
5. Best practices

Code to review:
{{CODE}}

Provide specific, actionable feedback."

  const EXPLAIN_CODE_CONTENT: string := @"Explain this code in detail:

{{CODE}}

Include:
- What the code does overall
- Key functions/methods and their purposes
- Important data structures
- Any notable patterns or techniques used"

  const WRITE_TESTS_CONTENT: string := @"Write comprehensive tests for this code:

{{CODE}}

Requirements:
- Cover edge cases
- Include both positive and negative test cases
- Use appropriate testing patterns
- Add meaningful test descriptions"

  const REFACTOR_CONTENT: string := @"Refactor this code to improve:
- Readability
- Maintainability
- Performance (where applicable)
- Adherence to {{LANGUAGE}} best practices

Code to refactor:
{{CODE}}

Explain each change you make."

  const DEBUG_CONTENT: string := @"Help me debug this issue:

Error message:
{{ERROR}}

Relevant code:
{{CODE}}

What I've tried:
{{ATTEMPTS}}

Please:
1. Analyze the error
2. Identify likely causes
3. Suggest specific fixes
4. Explain why the fix works"

  const DOCUMENTATION_CONTENT: string := @"Write documentation for this code:

{{CODE}}

Include:
- Overview/purpose
- Usage examples
- Parameter descriptions
- Return value documentation
- Any important notes or caveats"

  const OPTIMIZE_CONTENT: string := @"Analyze and optimize this code for performance:

{{CODE}}

Focus on:
- Time complexity improvements
- Memory usage optimization
- I/O efficiency
- Caching opportunities
- Parallelization potential

Explain the performance impact of each change."

  const API_DESIGN_CONTENT: string := @"Review this API design:

{{API_SPEC}}

Evaluate:
- RESTful principles adherence
- Naming conventions
- Error handling approach
- Versioning strategy
- Security considerations
- Documentation completeness

Suggest improvements for each area."

  /** `bundled_prompts`. */
  function BundledPrompts(): seq<Prompt>
  {
    [
      Bundled("code-review", "Code Review Assistant", CODE_REVIEW_CONTENT,
              "Comprehensive code review with actionable feedback", "debugging", ["review", "quality"], true),
      Bundled("explain-code", "Code Explainer", EXPLAIN_CODE_CONTENT,
              "Get clear explanations of complex code", "documentation", ["explain", "learning"], true),
      Bundled("write-tests", "Test Generator", WRITE_TESTS_CONTENT,
              "Generate comprehensive test suites", "testing", ["tests", "quality"], true),
      Bundled("refactor", "Refactoring Assistant", REFACTOR_CONTENT,
              "Get suggestions for cleaner, better code", "refactoring", ["refactor", "clean-code"], false),
      Bundled("debug", "Debug Helper", DEBUG_CONTENT,
              "Systematic debugging assistance", "debugging", ["debug", "troubleshoot"], true),
      Bundled("documentation", "Documentation Writer", DOCUMENTATION_CONTENT,
              "Generate clear, comprehensive documentation", "documentation", ["docs", "readme"], false),
      Bundled("optimize", "Performance Optimizer", OPTIMIZE_CONTENT,
              "Get performance optimization suggestions", "refactoring", ["performance", "optimization"], false),
      Bundled("api-design", "API Design Review", API_DESIGN_CONTENT,
              "Get expert API design feedback", "ideation", ["api", "design"], false)
    ]
  }

  /** The bundled set has eight prompts with distinct ids; each has an id,
      a title and content, none has variables or is marked local, and at
      least one is featured. */
  lemma BundledFacts()
    ensures |BundledPrompts()| == 8
    ensures forall i, j :: 0 <= i < j < |BundledPrompts()| ==> BundledPrompts()[i].id != BundledPrompts()[j].id
    ensures forall i :: 0 <= i < |BundledPrompts()| ==>
      |BundledPrompts()[i].id| > 0 && |BundledPrompts()[i].title| > 0 && |BundledPrompts()[i].content| > 0
    ensures forall i :: 0 <= i < |BundledPrompts()| ==>
      BundledPrompts()[i].variables == [] && !BundledPrompts()[i].isLocal
    ensures exists i :: 0 <= i < |BundledPrompts()| && BundledPrompts()[i].featured
  {
    var ps := BundledPrompts();
    assert ps[0].featured;
  }
}

=== FILE: export.dfy ===
/** `jfp export`: check the format, seed an empty store, pick the prompts
    (all of them, or the named ids that exist), and write each one as
    Markdown or as a SKILL.md-style document, either to standard output or
    to one file per prompt. Files are the values of a `Jsonl.Disk`; whether
    the output directory is there (or can be created) and which paths
    refuse a write are parameters. */
module ExportCommand {
  import opened Wrappers
  import opened PromptTypes
  import opened Schema
  import opened Text
  import Storage
  import Queries
  import Upserts
  import Embedded
  import Jsonl
  import Paths

  const SKILL_FORMAT: string := "skill"
  const MARKDOWN_FORMAT: string := "md"
  const DEFAULT_OUTPUT_DIR: string := "."
  const FILE_EXTENSION: string := ".md"
  const TAG_SEPARATOR: string := ", "

  /** `ExportedPrompt`: the id and, when written to a file, its path. */
  datatype ExportedPrompt = ExportedPrompt(id: string, file: Option<string>)

  /** `ExportOutput`. */
  datatype ExportOutput = ExportOutput(exported: seq<ExportedPrompt>, count: nat, format: string, outputDir: Option<string>)

  datatype ExportError = InvalidFormat(format: string) | DatabaseError | NoPrompts | MkdirFailed

  predicate ValidFormat(format: string)
  {
    format == MARKDOWN_FORMAT || format == SKILL_FORMAT
  }

  // ---------------------------------------------------------------------
  // format_prompt

  /** A line printed only when the value is present. */
  function OptionalLine(value: Option<string>, before: string, after: string): (line: string)
    ensures value.None? ==> line == ""
    ensures value.Some? ==> StartsWith(line, before) && |line| == |before| + |value.value| + |after|
  {
    if value.Some? then before + value.value + after else ""
  }

  /** The tag line, printed only when there are tags. */
  function TagsLine(tags: seq<string>, before: string, after: string): (line: string)
    requires |before| > 0
    ensures line == "" <==> tags == []
    ensures tags != [] ==> Contains(line, before + Join(tags, TAG_SEPARATOR))
  {
    if tags == [] then ""
    else
      var line := before + Join(tags, TAG_SEPARATOR) + after;
      ContainsAt(line, before + Join(tags, TAG_SEPARATOR), 0);
      line
  }

  /** The marker a variable is listed under in the skill format. */
  function VariableMarker(name: string): string
  {
    "- `{{" + name + "}}`"
  }

  /** One variable in the skill format: its marker, then its description
      and its default when it has them. */
  function VariableLine(v: PromptVariable): (line: string)
    ensures StartsWith(line, VariableMarker(v.name)) && line[|line| - 1] == '\n'
  {
    VariableMarker(v.name)
      + (if v.description.Some? then ": " + v.description.value else "")
      + (if v.default.Some? then " (default: " + v.default.value + ")" else "")
      + "\n"
  }

  function VariableLines(vs: seq<PromptVariable>): string
  {
    if vs == [] then "" else VariableLines(vs[..|vs| - 1]) + VariableLine(vs[|vs| - 1])
  }

  function VariablesSection(vs: seq<PromptVariable>): string
  {
    if vs == [] then "" else "## Variables\n\n" + VariableLines(vs) + "\n"
  }

  /** The skill layout up to the tag line. */
  function SkillMetadata(p: Prompt): string
  {
    "# " + p.title + "\n\n"
      + OptionalLine(p.description, "> ", "\n\n")
      + "## Metadata\n\n"
      + ("- **ID**: " + p.id + "\n")
      + OptionalLine(p.category, "- **Category**: ", "\n")
  }

  function SkillText(p: Prompt): string
  {
    SkillMetadata(p)
      + TagsLine(p.tags, "- **Tags**: ", "\n")
      + "\n"
      + VariablesSection(p.variables)
      + ("## Prompt\n\n```\n" + p.content + "\n```\n")
  }

  /** The Markdown layout up to the tag line. */
  function MarkdownHead(p: Prompt): string
  {
    "# " + p.title + "\n\n"
      + OptionalLine(p.description, "", "\n\n")
      + OptionalLine(p.category, "**Category**: ", "\n\n")
  }

  function MarkdownText(p: Prompt): string
  {
    MarkdownHead(p)
      + TagsLine(p.tags, "**Tags**: ", "\n\n")
      + ("---\n\n" + p.content + "\n")
  }

  predicate EndsWith(s: string, suffix: string)
  {
    |suffix| <= |s| && s[|s| - |suffix|..] == suffix
  }

  /** `format_prompt`: "skill" selects the skill layout and every other
      format the Markdown one. Both open with the title as a heading; the
      skill layout closes with the content in a fenced block, the Markdown
      one with a rule and the content. */
  function FormatPrompt(p: Prompt, format: string): (text: string)
    ensures StartsWith(text, "# " + p.title + "\n\n")
    ensures format == SKILL_FORMAT ==> EndsWith(text, "## Prompt\n\n```\n" + p.content + "\n```\n")
    ensures format != SKILL_FORMAT ==> EndsWith(text, "---\n\n" + p.content + "\n")
  {
    if format == SKILL_FORMAT then SkillText(p) else MarkdownText(p)
  }

  /** Text appended after a match keeps it. */
  lemma ContainsBefore(s: string, b: string, pat: string)
    requires Contains(s, pat)
    ensures Contains(s + b, pat)
  {
    ContainsInContext("", s, b, pat);
    assert "" + s + b == s + b;
  }

  /** Every variable is listed by its marker, in the order declared. */
  lemma {:induction false} VariableLinesList(vs: seq<PromptVariable>, i: nat)
    requires i < |vs|
    ensures Contains(VariableLines(vs), VariableMarker(vs[i].name))
    decreases |vs|
  {
    var init := vs[..|vs| - 1];
    var line := VariableLine(vs[|vs| - 1]);
    if i == |vs| - 1 {
      ContainsAt(line, VariableMarker(vs[i].name), 0);
      ContainsInContext(VariableLines(init), line, "", VariableMarker(vs[i].name));
      assert VariableLines(init) + line + "" == VariableLines(vs);
    } else {
      assert init[i] == vs[i];
      VariableLinesList(init, i);
      ContainsBefore(VariableLines(init), line, VariableMarker(vs[i].name));
    }
  }

  /** The tags, joined by ", ", appear in the skill layout when there are
      any. */
  lemma SkillShowsTags(p: Prompt)
    requires p.tags != []
    ensures Contains(FormatPrompt(p, SKILL_FORMAT), "- **Tags**: " + Join(p.tags, TAG_SEPARATOR))
  {
    var pat := "- **Tags**: " + Join(p.tags, TAG_SEPARATOR);
    var withTags := SkillMetadata(p) + TagsLine(p.tags, "- **Tags**: ", "\n") + "\n";
    ContainsInContext(SkillMetadata(p), TagsLine(p.tags, "- **Tags**: ", "\n"), "\n", pat);
    ContainsBefore(withTags, VariablesSection(p.variables), pat);
    ContainsBefore(withTags + VariablesSection(p.variables), "## Prompt\n\n```\n" + p.content + "\n```\n", pat);
  }

  /** The same for the Markdown layout. */
  lemma MarkdownShowsTags(p: Prompt, format: string)
    requires p.tags != [] && format != SKILL_FORMAT
    ensures Contains(FormatPrompt(p, format), "**Tags**: " + Join(p.tags, TAG_SEPARATOR))
  {
    var pat := "**Tags**: " + Join(p.tags, TAG_SEPARATOR);
    ContainsInContext(MarkdownHead(p), TagsLine(p.tags, "**Tags**: ", "\n\n"), "---\n\n" + p.content + "\n", pat);
  }

  /** The skill layout lists every variable by its marker. */
  lemma SkillListsVariables(p: Prompt, v: PromptVariable)
    requires v in p.variables
    ensures Contains(FormatPrompt(p, SKILL_FORMAT), VariableMarker(v.name))
  {
    var i :| 0 <= i < |p.variables| && p.variables[i] == v;
    var pat := VariableMarker(v.name);
    var withTags := SkillMetadata(p) + TagsLine(p.tags, "- **Tags**: ", "\n") + "\n";
    VariableLinesList(p.variables, i);
    ContainsInContext(withTags + "## Variables\n\n", VariableLines(p.variables), "\n", pat);
    assert withTags + VariablesSection(p.variables) == withTags + "## Variables\n\n" + VariableLines(p.variables) + "\n";
    ContainsBefore(withTags + VariablesSection(p.variables), "## Prompt\n\n```\n" + p.content + "\n```\n", pat);
  }

  /** One variable line, appended piece by piece. */
  method WriteVariable(v: PromptVariable) returns (line: string)
    ensures line == VariableLine(v)
  {
    line := VariableMarker(v.name);
    if v.description.Some? {
      line := line + (": " + v.description.value);
    }
    if v.default.Some? {
      line := line + (" (default: " + v.default.value + ")");
    }
    line := line + "\n";
  }

  /** The variable loop of the skill layout. */
  method WriteVariables(vs: seq<PromptVariable>) returns (out: string)
    ensures out == VariableLines(vs)
  {
    out := "";
    var i := 0;
    while i < |vs|
      invariant 0 <= i <= |vs|
      invariant out == VariableLines(vs[..i])
    {
      var line := WriteVariable(vs[i]);
      assert vs[..i + 1][..i] == vs[..i];
      out := out + line;
      i := i + 1;
    }
    assert vs[..i] == vs;
  }

  method WriteSkill(p: Prompt) returns (out: string)
    ensures out == SkillText(p)
  {
    out := "# " + p.title + "\n\n";
    if p.description.Some? {
      out := out + ("> " + p.description.value + "\n\n");
    }
    out := out + "## Metadata\n\n";
    out := out + ("- **ID**: " + p.id + "\n");
    if p.category.Some? {
      out := out + ("- **Category**: " + p.category.value + "\n");
    }
    assert out == SkillMetadata(p);
    if p.tags != [] {
      out := out + ("- **Tags**: " + Join(p.tags, TAG_SEPARATOR) + "\n");
    }
    out := out + "\n";
    ghost var withTags := out;
    assert withTags == SkillMetadata(p) + TagsLine(p.tags, "- **Tags**: ", "\n") + "\n";
    if p.variables != [] {
      out := out + "## Variables\n\n";
      var lines := WriteVariables(p.variables);
      out := out + lines;
      out := out + "\n";
    }
    assert out == withTags + VariablesSection(p.variables);
    out := out + ("## Prompt\n\n```\n" + p.content + "\n```\n");
  }

  method WriteMarkdown(p: Prompt) returns (out: string)
    ensures out == MarkdownText(p)
  {
    out := "# " + p.title + "\n\n";
    if p.description.Some? {
      out := out + (p.description.value + "\n\n");
    }
    if p.category.Some? {
      out := out + ("**Category**: " + p.category.value + "\n\n");
    }
    if p.tags != [] {
      out := out + ("**Tags**: " + Join(p.tags, TAG_SEPARATOR) + "\n\n");
    }
    out := out + ("---\n\n" + p.content + "\n");
  }

  /** `format_prompt` as written: the text grows by appending, section by
      section. */
  method WritePrompt(p: Prompt, format: string) returns (out: string)
    ensures out == FormatPrompt(p, format)
  {
    if format == SKILL_FORMAT {
      out := WriteSkill(p);
    } else {
      out := WriteMarkdown(p);
    }
  }

  // ---------------------------------------------------------------------
  // Choosing the prompts

  /** No ids, or the single id "all", exports every prompt. */
  predicate SelectsAll(ids: seq<string>)
  {
    ids == [] || ids == ["all"]
  }

  /** The prompts of the named ids that exist, in the order named; a
      missing id is skipped. */
  function Fetched(t: Tables, ids: seq<string>): (ps: seq<Prompt>)
    ensures |ps| <= |ids|
    ensures forall p :: p in ps ==> p.id in ids && Queries.FetchPrompt(t, p.id) == Some(p)
  {
    if ids == [] then []
    else
      var init := Fetched(t, ids[..|ids| - 1]);
      match Queries.FetchPrompt(t, ids[|ids| - 1])
      case Some(p) => init + [p]
      case None => init
  }

  /** Nothing is fetched exactly when none of the ids is stored. */
  lemma {:induction false} FetchedEmpty(t: Tables, ids: seq<string>)
    ensures Fetched(t, ids) == [] <==> forall id :: id in ids ==> !HasPrompt(t, id)
  {
    if ids != [] {
      var init := ids[..|ids| - 1];
      FetchedEmpty(t, init);
      assert forall id :: id in ids <==> id in init || id == ids[|ids| - 1];
    }
  }

  /** The prompts an export covers. */
  function Selected(t: Tables, ids: seq<string>): seq<Prompt>
  {
    if SelectsAll(ids) then Queries.ListPrompts(t) else Fetched(t, ids)
  }

  /** Exporting everything from a seeded store never finds it empty. */
  lemma SelectAllAfterSeeding(t: Tables, ids: seq<string>)
    requires SelectsAll(ids)
    ensures |Selected(Upserts.Seeded(t), ids)| == Queries.PromptCount(Upserts.Seeded(t)) > 0
  {
    Embedded.BundledFacts();
    Upserts.SeededHoldsBundled(t, 0);
    Queries.ListPromptsCount(Upserts.Seeded(t));
  }

  /** The loop over the named ids. */
  method FetchEach(db: Storage.Database, ids: seq<string>) returns (ps: seq<Prompt>)
    ensures ps == Fetched(db.State(), ids)
  {
    ps := [];
    var i := 0;
    while i < |ids|
      invariant 0 <= i <= |ids|
      invariant ps == Fetched(db.State(), ids[..i])
    {
      var found := db.GetPrompt(ids[i]);
      assert ids[..i + 1][..i] == ids[..i];
      if found.Some? {
        ps := ps + [found.value];
      }
      i := i + 1;
    }
    assert ids[..i] == ids;
  }

  // ---------------------------------------------------------------------
  // Writing

  /** The file a prompt goes to: its id with the ".md" extension, in both
      formats. */
  function ExportPath(dir: string, p: Prompt): string
  {
    Paths.JoinPath(dir, p.id + FILE_EXTENSION)
  }

  /** The files after writing `ps` in order, and the entries of the writes
      that succeeded; a write to a path in `failing` is skipped. */
  function WriteAll(files: map<string, string>, ps: seq<Prompt>, format: string, dir: string, failing: set<string>)
    : (map<string, string>, seq<ExportedPrompt>)
  {
    if ps == [] then (files, [])
    else
      var before := WriteAll(files, ps[..|ps| - 1], format, dir, failing);
      var p := ps[|ps| - 1];
      var path := ExportPath(dir, p);
      if path in failing then before
      else (before.0[path := FormatPrompt(p, format)], before.1 + [ExportedPrompt(p.id, Some(path))])
  }

  /** Every entry names a written file that did not fail, the files gain
      exactly the entries' paths, every other file is unchanged, and the
      last prompt written to a path leaves its text there. */
  lemma {:induction false} WriteAllFacts(files: map<string, string>, ps: seq<Prompt>, format: string, dir: string,
                                         failing: set<string>)
    ensures var (after, entries) := WriteAll(files, ps, format, dir, failing);
            && |entries| <= |ps|
            && (forall e :: e in entries ==> e.file.Some? && e.file.value !in failing && e.file.value in after)
            && after.Keys == files.Keys + (set e | e in entries :: e.file.value)
            && (forall path :: path in files && path !in (set e | e in entries :: e.file.value) ==> after[path] == files[path])
    ensures (forall p :: p in ps ==> ExportPath(dir, p) !in failing) ==> |WriteAll(files, ps, format, dir, failing).1| == |ps|
  {
    if ps != [] {
      var init := ps[..|ps| - 1];
      WriteAllFacts(files, init, format, dir, failing);
      assert forall p :: p in init ==> p in ps;
    }
  }

  /** A file's text is the format of the last prompt written to it. */
  lemma {:induction false} WriteAllContent(files: map<string, string>, ps: seq<Prompt>, format: string, dir: string,
                                           failing: set<string>, i: nat)
    requires i < |ps| && ExportPath(dir, ps[i]) !in failing
    requires forall j :: i < j < |ps| ==> ExportPath(dir, ps[j]) != ExportPath(dir, ps[i])
    ensures var after := WriteAll(files, ps, format, dir, failing).0;
            ExportPath(dir, ps[i]) in after && after[ExportPath(dir, ps[i])] == FormatPrompt(ps[i], format)
  {
    if i < |ps| - 1 {
      var init := ps[..|ps| - 1];
      assert init[i] == ps[i];
      WriteAllContent(files, init, format, dir, failing, i);
    }
  }

  /** What standard output records: every prompt, without a file. */
  function PrintedEntries(ps: seq<Prompt>): (entries: seq<ExportedPrompt>)
    ensures |entries| == |ps|
    ensures forall i :: 0 <= i < |ps| ==> entries[i] == ExportedPrompt(ps[i].id, None)
  {
    if ps == [] then [] else PrintedEntries(ps[..|ps| - 1]) + [ExportedPrompt(ps[|ps| - 1].id, None)]
  }

  /** The export once the prompts are chosen: standard output records every
      prompt without a file; otherwise the directory must be ready and each
      write is recorded when it succeeds. */
  function Export(files: map<string, string>, ps: seq<Prompt>, format: string, outputDir: Option<string>,
                  toStdout: bool, dirReady: bool, failing: set<string>)
    : (map<string, string>, Result<seq<ExportedPrompt>, ExportError>)
  {
    if toStdout then (files, Ok(PrintedEntries(ps)))
    else if !dirReady then (files, Err(MkdirFailed))
    else
      var dir := if outputDir.Some? then outputDir.value else DEFAULT_OUTPUT_DIR;
      var (after, entries) := WriteAll(files, ps, format, dir, failing);
      (after, Ok(entries))
  }

  /** The whole command on a store that opened, after seeding. */
  function Outcome(t: Tables, files: map<string, string>, ids: seq<string>, format: string,
                   outputDir: Option<string>, toStdout: bool, dirReady: bool, failing: set<string>)
    : (o: (map<string, string>, Result<ExportOutput, ExportError>))
    ensures Selected(t, ids) == [] ==> o == (files, Err(NoPrompts))
    ensures toStdout ==> o.0 == files
    ensures o.1.Ok? ==> o.1.value.count == |o.1.value.exported| <= |Selected(t, ids)|
                        && o.1.value.format == format && o.1.value.outputDir == outputDir
    ensures toStdout && Selected(t, ids) != [] ==>
              o.1.Ok? && |o.1.value.exported| == |Selected(t, ids)|
              && forall i :: 0 <= i < |o.1.value.exported| ==>
                   o.1.value.exported[i] == ExportedPrompt(Selected(t, ids)[i].id, None)
    ensures !toStdout && !dirReady && Selected(t, ids) != [] ==> o == (files, Err(MkdirFailed))
    ensures !toStdout && dirReady && Selected(t, ids) != [] ==>
              var w := WriteAll(files, Selected(t, ids), format,
                                if outputDir.Some? then outputDir.value else DEFAULT_OUTPUT_DIR, failing);
              o == (w.0, Ok(ExportOutput(w.1, |w.1|, format, outputDir)))
  {
    var ps := Selected(t, ids);
    if ps == [] then (files, Err(NoPrompts))
    else
      var dir := if outputDir.Some? then outputDir.value else DEFAULT_OUTPUT_DIR;
      WriteAllFacts(files, ps, format, dir, failing);
      var (after, exported) := Export(files, ps, format, outputDir, toStdout, dirReady, failing);
      match exported
      case Err(e) => (after, Err(e))
      case Ok(entries) => (after, Ok(ExportOutput(entries, |entries|, format, outputDir)))
  }

  /** The file loop. */
  method WriteEach(disk: Jsonl.Disk, ps: seq<Prompt>, format: string, dir: string, failing: set<string>)
    returns (exported: seq<ExportedPrompt>)
    modifies disk
    ensures (disk.files, exported) == WriteAll(old(disk.files), ps, format, dir, failing)
  {
    exported := [];
    var i := 0;
    while i < |ps|
      invariant 0 <= i <= |ps|
      invariant (disk.files, exported) == WriteAll(old(disk.files), ps[..i], format, dir, failing)
    {
      var path := Paths.JoinPath(dir, ps[i].id + FILE_EXTENSION);
      var content := WritePrompt(ps[i], format);
      assert ps[..i + 1][..i] == ps[..i];
      if path !in failing {
        disk.files := disk.files[path := content];
        exported := exported + [ExportedPrompt(ps[i].id, Some(path))];
      }
      i := i + 1;
    }
    assert ps[..i] == ps;
  }

  /** The standard-output loop. */
  method PrintEach(ps: seq<Prompt>) returns (exported: seq<ExportedPrompt>)
    ensures exported == PrintedEntries(ps)
  {
    exported := [];
    var i := 0;
    while i < |ps|
      invariant 0 <= i <= |ps|
      invariant exported == PrintedEntries(ps[..i])
    {
      assert ps[..i + 1][..i] == ps[..i];
      exported := exported + [ExportedPrompt(ps[i].id, None)];
      i := i + 1;
    }
    assert ps[..i] == ps;
  }

  /** Writing the chosen prompts. */
  method ExportSelected(disk: Jsonl.Disk, ps: seq<Prompt>, format: string, outputDir: Option<string>,
                        toStdout: bool, dirReady: bool, failing: set<string>)
    returns (r: Result<seq<ExportedPrompt>, ExportError>)
    modifies disk
    ensures (disk.files, r) == Export(old(disk.files), ps, format, outputDir, toStdout, dirReady, failing)
  {
    if toStdout {
      var exported := PrintEach(ps);
      return Ok(exported);
    }
    var dir := if outputDir.Some? then outputDir.value else DEFAULT_OUTPUT_DIR;
    if !dirReady {
      return Err(MkdirFailed);
    }
    var exported := WriteEach(disk, ps, format, dir, failing);
    r := Ok(exported);
  }

  /** `run`: `db` is null when the store cannot be opened. */
  method Run(db: Storage.Database?, disk: Jsonl.Disk, ids: seq<string>, format: string, outputDir: Option<string>,
             toStdout: bool, dirReady: bool, failing: set<string>)
    returns (r: Result<ExportOutput, ExportError>)
    modifies db, disk
    ensures !ValidFormat(format) ==> r == Err(InvalidFormat(format)) && disk.files == old(disk.files)
                                     && (db != null ==> db.State() == old(db.State()))
    ensures ValidFormat(format) && db == null ==> r == Err(DatabaseError) && disk.files == old(disk.files)
    ensures ValidFormat(format) && db != null ==>
              db.State() == Upserts.Seeded(old(db.State()))
              && (disk.files, r) == Outcome(db.State(), old(disk.files), ids, format, outputDir, toStdout, dirReady, failing)
    ensures db != null && old(db.Valid()) ==> db.Valid()
  {
    if !ValidFormat(format) {
      return Err(InvalidFormat(format));
    }
    if db == null {
      return Err(DatabaseError);
    }
    Upserts.SeedIfEmpty(db);
    var ps: seq<Prompt>;
    if SelectsAll(ids) {
      ps := db.ListPromptsFiltered(None, None, false);
    } else {
      ps := FetchEach(db, ids);
    }
    assert ps == Selected(db.State(), ids);
    if ps == [] {
      return Err(NoPrompts);
    }
    var exported := ExportSelected(disk, ps, format, outputDir, toStdout, dirReady, failing);
    if exported.Err? {
      return Err(exported.error);
    }
    r := Ok(ExportOutput(exported.value, |exported.value|, format, outputDir));
  }
}

=== FILE: jsonl.dfy ===
/** JSONL backup of the prompt store: a header line carrying `_meta`, then
    one JSON object per prompt. JSON itself is abstract: a `JsonCodec`
    renders and parses the field records of `PromptTypes`, and `Lawful`
    states what serde guarantees of it (parsing what was rendered gives it
    back, and a rendered value is one non-blank line). Files are the
    values of a `Disk`. */
module Jsonl {
  import opened Wrappers
  import opened Text
  import opened PromptTypes
  import opened Schema
  import opened Store
  import opened Queries
  import opened Storage

  /** `MetaInfo`: the contents of the header. */
  datatype MetaInfo = MetaInfo(version: string, count: nat, exportedAt: string, schemaVersion: int)

  /** `JsonlMeta`: the header object, whose one key is `_meta`. */
  datatype JsonlMeta = JsonlMeta(meta: MetaInfo)

  /** serde_json for the two record types of the file. */
  datatype JsonCodec = JsonCodec(
    renderPrompt: PromptFields -> string,
    parsePrompt: string -> Option<PromptFields>,
    renderMeta: JsonlMeta -> string,
    parseMeta: string -> Option<JsonlMeta>)

  /** The quoted key that marks the header line. */
  const META_KEY: string := "\"_meta\""

  /** The meta key under which the export time is kept. */
  const DATA_VERSION_KEY: string := "data_version"

  /** What serde_json promises: a rendered value parses back to itself,
      `to_writer` writes one line that is not blank, and the header object
      is written under its `_meta` key. */
  ghost predicate Lawful(c: JsonCodec)
  {
    && (forall f :: c.parsePrompt(c.renderPrompt(f)) == Some(f))
    && (forall f :: SingleLine(c.renderPrompt(f)) && !IsBlank(c.renderPrompt(f)))
    && (forall m :: c.parseMeta(c.renderMeta(m)) == Some(m))
    && (forall m :: SingleLine(c.renderMeta(m)) && Contains(c.renderMeta(m), META_KEY))
  }

  /** One prompt as a line of the file. */
  function EncodeLine(c: JsonCodec, p: Prompt): string
  {
    c.renderPrompt(EncodePrompt(p))
  }

  /** `serde_json::from_str::<Prompt>`: parse the object, then apply the
      field defaults. */
  function DecodeLine(c: JsonCodec, line: string): Option<Prompt>
  {
    match c.parsePrompt(line)
    case None => None
    case Some(f) => DecodePrompt(f)
  }

  lemma DecodeEncodeLine(c: JsonCodec, p: Prompt)
    requires Lawful(c)
    ensures DecodeLine(c, EncodeLine(c, p)) == Some(p)
    ensures SingleLine(EncodeLine(c, p)) && !IsBlank(EncodeLine(c, p))
  {
    DecodeEncodePrompt(p);
  }

  /** A line holding the `_meta` key is never blank. */
  lemma MarkedLineNotBlank(line: string)
    requires Contains(line, META_KEY)
    ensures !IsBlank(line)
  {
    var i := ContainsWitness(line, META_KEY);
    assert line[i] == META_KEY[0];
  }

  datatype JsonlError =
    | OpenFailed          // the file to import does not exist
    | WriteFailed         // creating, writing, syncing or renaming the export failed
    | BadHeader           // line 1 holds `_meta` but is not a header object
    | BadPrompt(line: nat) // the physical line number of a record that does not parse
    | BulkFailed          // `bulk_upsert_prompts` failed and rolled back

  /** The file system, as far as backup needs it: the text of each file. */
  class Disk {
    var files: map<string, string>

    constructor (files: map<string, string>)
      ensures this.files == files
    {
      this.files := files;
    }
  }

  // ---------------------------------------------------------------------
  // Export

  /** `get_data_version`: the stored marker, or the current time when the
      store has none. */
  function DataVersion(t: Tables, now: string): (v: string)
    ensures DATA_VERSION_KEY in t.meta ==> v == t.meta[DATA_VERSION_KEY]
    ensures DATA_VERSION_KEY !in t.meta ==> v == now
  {
    match GetMeta(t, DATA_VERSION_KEY)
    case Ok(v) => v
    case Err(_) => now
  }

  function ExportHeader(t: Tables, now: string): JsonlMeta
  {
    JsonlMeta(MetaInfo(DataVersion(t, now), |ListPrompts(t)|, now, SCHEMA_VERSION))
  }

  function EncodeLines(c: JsonCodec, ps: seq<Prompt>): (ls: seq<string>)
    ensures |ls| == |ps|
  {
    seq(|ps|, i requires 0 <= i < |ps| => EncodeLine(c, ps[i]))
  }

  /** The lines of an export: the header, then the listed prompts. */
  function ExportLines(c: JsonCodec, t: Tables, now: string): seq<string>
  {
    [c.renderMeta(ExportHeader(t, now))] + EncodeLines(c, ListPrompts(t))
  }

  /** The text `export_jsonl` writes: every line ends in "\n". */
  function ExportText(c: JsonCodec, t: Tables, now: string): string
  {
    Terminated(ExportLines(c, t, now))
  }

  lemma {:induction false} TerminatedSnoc(ls: seq<string>, l: string)
    ensures Terminated(ls + [l]) == Terminated(ls) + l + "\n"
  {
    if ls != [] {
      assert (ls + [l])[1..] == ls[1..] + [l];
      TerminatedSnoc(ls[1..], l);
    } else {
      assert [l][1..] == [];
    }
  }

  /** The export reads back, line by line, as a header whose count is the
      number of listed prompts, followed by exactly one line per listed
      prompt in list order. */
  lemma ExportReadsBack(c: JsonCodec, t: Tables, now: string)
    requires Lawful(c)
    ensures |Lines(ExportText(c, t, now))| == 1 + PromptCount(t)
    ensures Contains(Lines(ExportText(c, t, now))[0], META_KEY)
    ensures c.parseMeta(Lines(ExportText(c, t, now))[0]) == Some(ExportHeader(t, now))
    ensures ExportHeader(t, now).meta.count == PromptCount(t)
    ensures forall i :: 0 <= i < PromptCount(t) ==>
      DecodeLine(c, Lines(ExportText(c, t, now))[i + 1]) == Some(ListPrompts(t)[i])
  {
    var ls := ExportLines(c, t, now);
    ListPromptsCount(t);
    ExportLinesSingle(c, t, now);
    LinesOfTerminated(ls);
    forall i | 0 <= i < PromptCount(t)
      ensures DecodeLine(c, ls[i + 1]) == Some(ListPrompts(t)[i])
    {
      DecodeEncodeLine(c, ListPrompts(t)[i]);
    }
  }

  /** The writer: the header line, then one line per prompt, each
      followed by "\n". */
  method WriteLines(c: JsonCodec, header: JsonlMeta, prompts: seq<Prompt>) returns (text: string)
    ensures text == Terminated([c.renderMeta(header)] + EncodeLines(c, prompts))
  {
    ghost var lines := [c.renderMeta(header)] + EncodeLines(c, prompts);
    text := c.renderMeta(header) + "\n";
    assert lines[..1] == [c.renderMeta(header)];
    assert Terminated(lines[..1]) == text;
    var i := 0;
    while i < |prompts|
      invariant 0 <= i <= |prompts|
      invariant text == Terminated(lines[..i + 1])
      decreases |prompts| - i
    {
      assert lines[..i + 2] == lines[..i + 1] + [EncodeLine(c, prompts[i])];
      TerminatedSnoc(lines[..i + 1], EncodeLine(c, prompts[i]));
      text := text + EncodeLine(c, prompts[i]) + "\n";
      i := i + 1;
    }
    assert lines[..i + 1] == lines;
  }

  /** `export_jsonl`: list the prompts, write the header and one line per
      prompt, then replace the file and only then record the new data
      version. `ioOk` says whether creating, writing, syncing and renaming
      the file succeed; when they fail, neither the file nor the store
      changes. */
  method ExportJsonl(db: Database, disk: Disk, path: string, c: JsonCodec, now: string, ioOk: bool)
    returns (r: Result<nat, JsonlError>)
    modifies db, disk
    ensures ioOk ==> r == Ok(PromptCount(old(db.State())))
    ensures ioOk ==> disk.files == old(disk.files)[path := ExportText(c, old(db.State()), now)]
    ensures ioOk ==> db.State() == WriteMeta(old(db.State()), DATA_VERSION_KEY, now)
    ensures !ioOk ==> r == Err(WriteFailed) && disk.files == old(disk.files) && db.State() == old(db.State())
    ensures old(db.Valid()) ==> db.Valid()
  {
    ghost var t := db.State();
    var prompts := db.ListPrompts();
    var count := |prompts|;
    var version := db.GetMeta(DATA_VERSION_KEY);
    var header := JsonlMeta(MetaInfo(if version.Ok? then version.value else now, count, now, SCHEMA_VERSION));
    assert header == ExportHeader(t, now);
    var text := WriteLines(c, header, prompts);
    assert text == ExportText(c, t, now);
    if !ioOk {
      return Err(WriteFailed);
    }
    disk.files := disk.files[path := text];
    db.SetMeta(DATA_VERSION_KEY, now);
    return Ok(count);
  }

  // ---------------------------------------------------------------------
  // Import

  /** The import loop over the lines after `n` have been read, with `acc`
      the prompts parsed so far. Blank lines are skipped but counted; the
      header is recognised only as physical line 1; the first line that
      does not parse ends the import. */
  function ParseLines(c: JsonCodec, lines: seq<string>, n: nat, acc: seq<Prompt>): Result<seq<Prompt>, JsonlError>
    decreases |lines|
  {
    if lines == [] then Ok(acc)
    else
      var num := n + 1;
      var line := lines[0];
      if IsBlank(line) then ParseLines(c, lines[1..], num, acc)
      else if num == 1 && Contains(line, META_KEY) then
        if c.parseMeta(line).None? then Err(BadHeader) else ParseLines(c, lines[1..], num, acc)
      else
        match DecodeLine(c, line)
        case None => Err(BadPrompt(num))
        case Some(p) => ParseLines(c, lines[1..], num, acc + [p])
  }

  /** Whether line `k` of `lines`, read after `n` earlier lines, is the
      header. */
  predicate IsHeaderLine(lines: seq<string>, n: nat, k: nat)
    requires k < |lines|
  {
    n + k == 0 && Contains(lines[k], META_KEY)
  }

  /** Whether line `k` is accepted: blank, a well-formed header, or a
      prompt. */
  predicate LineAccepted(c: JsonCodec, lines: seq<string>, n: nat, k: nat)
    requires k < |lines|
  {
    || IsBlank(lines[k])
    || (IsHeaderLine(lines, n, k) && c.parseMeta(lines[k]).Some?)
    || (!IsHeaderLine(lines, n, k) && DecodeLine(c, lines[k]).Some?)
  }

  /** The lines that hold prompt records: neither blank nor the header. */
  function RecordLines(lines: seq<string>, n: nat): (rs: seq<string>)
    ensures |rs| <= |lines|
    decreases |lines|
  {
    if lines == [] then []
    else
      (if IsBlank(lines[0]) || (n == 0 && Contains(lines[0], META_KEY)) then [] else [lines[0]])
      + RecordLines(lines[1..], n + 1)
  }

  predicate AllAccepted(c: JsonCodec, lines: seq<string>, n: nat)
  {
    forall k :: 0 <= k < |lines| ==> LineAccepted(c, lines, n, k)
  }

  lemma AcceptedShift(c: JsonCodec, lines: seq<string>, n: nat)
    requires |lines| > 0
    ensures AllAccepted(c, lines, n) <==> LineAccepted(c, lines, n, 0) && AllAccepted(c, lines[1..], n + 1)
  {
    var rest := lines[1..];
    var m := n + 1;
    if AllAccepted(c, lines, n) {
      forall k | 0 <= k < |rest| ensures LineAccepted(c, rest, m, k) {
        assert LineAccepted(c, lines, n, k + 1);
      }
    }
    if LineAccepted(c, lines, n, 0) && AllAccepted(c, rest, m) {
      forall k | 0 <= k < |lines| ensures LineAccepted(c, lines, n, k) {
        if k > 0 {
          assert LineAccepted(c, rest, m, k - 1);
        }
      }
    }
  }

  /** The import parse succeeds exactly when every line is accepted. */
  lemma {:induction false} ParseLinesOk(c: JsonCodec, lines: seq<string>, n: nat, acc: seq<Prompt>)
    ensures ParseLines(c, lines, n, acc).Ok? <==> AllAccepted(c, lines, n)
    decreases |lines|
  {
    if lines != [] {
      var line := lines[0];
      AcceptedShift(c, lines, n);
      if IsBlank(line) || (n == 0 && Contains(line, META_KEY)) {
        ParseLinesOk(c, lines[1..], n + 1, acc);
      } else {
        var d := DecodeLine(c, line);
        if d.Some? {
          ParseLinesOk(c, lines[1..], n + 1, acc + [d.value]);
        }
      }
    }
  }

  /** A successful parse yields one prompt per record line, in file
      order, after those parsed before. */
  lemma {:induction false} ParseLinesRecords(c: JsonCodec, lines: seq<string>, n: nat, acc: seq<Prompt>)
    requires ParseLines(c, lines, n, acc).Ok?
    ensures var ps := ParseLines(c, lines, n, acc).value;
      var rs := RecordLines(lines, n);
      && |ps| == |acc| + |rs|
      && ps[..|acc|] == acc
      && forall j :: 0 <= j < |rs| ==> DecodeLine(c, rs[j]) == Some(ps[|acc| + j])
    decreases |lines|
  {
    if lines != [] {
      var line := lines[0];
      var rest := lines[1..];
      if IsBlank(line) || (n == 0 && Contains(line, META_KEY)) {
        ParseLinesRecords(c, rest, n + 1, acc);
        assert RecordLines(lines, n) == RecordLines(rest, n + 1);
      } else {
        var d := DecodeLine(c, line).value;
        var acc' := acc + [d];
        ParseLinesRecords(c, rest, n + 1, acc');
        var ps := ParseLines(c, rest, n + 1, acc').value;
        var rs := RecordLines(lines, n);
        var rs' := RecordLines(rest, n + 1);
        assert rs == [line] + rs';
        assert ps[..|acc|] == ps[..|acc'|][..|acc|];
        assert ps[|acc|] == ps[..|acc'|][|acc|];
        forall j | 0 <= j < |rs| ensures DecodeLine(c, rs[j]) == Some(ps[|acc| + j]) {
          if j > 0 {
            assert rs[j] == rs'[j - 1];
            assert |acc| + j == |acc'| + (j - 1);
          }
        }
      }
    }
  }

  /** How an import parse fails: `BadHeader` only for physical line 1,
      and `BadPrompt(k)` names the physical line `k` (blank lines
      included) of the first record that does not decode, every line
      before it being accepted. */
  lemma {:induction false} ParseLinesErrors(c: JsonCodec, lines: seq<string>, n: nat, acc: seq<Prompt>)
    ensures ParseLines(c, lines, n, acc) == Err(BadHeader) ==>
      n == 0 && |lines| > 0 && Contains(lines[0], META_KEY) && c.parseMeta(lines[0]).None?
    ensures forall k: nat :: ParseLines(c, lines, n, acc) == Err(BadPrompt(k)) ==>
      && n < k <= n + |lines|
      && !IsBlank(lines[k - n - 1]) && !IsHeaderLine(lines, n, k - n - 1)
      && DecodeLine(c, lines[k - n - 1]).None?
      && forall j :: 0 <= j < k - n - 1 ==> LineAccepted(c, lines, n, j)
    ensures ParseLines(c, lines, n, acc).Err? ==>
      ParseLines(c, lines, n, acc).error.BadHeader? || ParseLines(c, lines, n, acc).error.BadPrompt?
    decreases |lines|
  {
    if lines != [] {
      var line := lines[0];
      var rest := lines[1..];
      assert forall k :: 1 <= k < |lines| ==> lines[k] == rest[k - 1];
      assert forall k :: 1 <= k < |lines| ==>
        (LineAccepted(c, lines, n, k) <==> LineAccepted(c, rest, n + 1, k - 1));
      var d := DecodeLine(c, line);
      if IsBlank(line) || (n == 0 && Contains(line, META_KEY) && c.parseMeta(line).Some?) {
        ParseLinesErrors(c, rest, n + 1, acc);
      } else if !(n == 0 && Contains(line, META_KEY)) && d.Some? {
        ParseLinesErrors(c, rest, n + 1, acc + [d.value]);
      }
    }
  }

  /** A header that is not on physical line 1 is read as a prompt record:
      after a leading blank line, a `_meta` line that does not decode as a
      prompt aborts the import at line 2. */
  lemma HeaderAfterBlankLine(c: JsonCodec, blank: string, header: string, rest: seq<string>)
    requires IsBlank(blank) && !IsBlank(header) && DecodeLine(c, header).None?
    ensures ParseLines(c, [blank, header] + rest, 0, []) == Err(BadPrompt(2))
  {
    var lines := [blank, header] + rest;
    assert lines[1..] == [header] + rest;
    assert ([header] + rest)[0] == header;
  }

  /** Every rendered line of an export is a single line. */
  lemma ExportLinesSingle(c: JsonCodec, t: Tables, now: string)
    requires Lawful(c)
    ensures forall k :: 0 <= k < |ExportLines(c, t, now)| ==> SingleLine(ExportLines(c, t, now)[k])
  {
    var ls := ExportLines(c, t, now);
    forall k | 0 <= k < |ls| ensures SingleLine(ls[k]) {
      if k > 0 {
        DecodeEncodeLine(c, ListPrompts(t)[k - 1]);
      }
    }
  }

  /** A header line followed by encoded prompts parses back to those
      prompts. */
  lemma ParseWritten(c: JsonCodec, header: JsonlMeta, ps: seq<Prompt>)
    requires Lawful(c)
    ensures ParseLines(c, Lines(Terminated([c.renderMeta(header)] + EncodeLines(c, ps))), 0, []) == Ok(ps)
  {
    var h := c.renderMeta(header);
    var ls := [h] + EncodeLines(c, ps);
    WrittenLinesSingle(c, h, ps);
    LinesOfTerminated(ls);
    ParseAfterHeader(c, h, EncodeLines(c, ps));
    ParseRecords(c, EncodeLines(c, ps), 1, [], ps);
    assert [] + ps == ps;
  }

  lemma WrittenLinesSingle(c: JsonCodec, h: string, ps: seq<Prompt>)
    requires Lawful(c) && SingleLine(h)
    ensures forall k :: 0 <= k < |[h] + EncodeLines(c, ps)| ==> SingleLine(([h] + EncodeLines(c, ps))[k])
  {
    var ls := [h] + EncodeLines(c, ps);
    forall k | 0 <= k < |ls| ensures SingleLine(ls[k]) {
      if k > 0 {
        assert ls[k] == EncodeLine(c, ps[k - 1]);
        DecodeEncodeLine(c, ps[k - 1]);
      }
    }
  }

  /** A well-formed header on line 1 is passed over. */
  lemma ParseAfterHeader(c: JsonCodec, h: string, rest: seq<string>)
    requires Contains(h, META_KEY) && c.parseMeta(h).Some?
    ensures ParseLines(c, [h] + rest, 0, []) == ParseLines(c, rest, 1, [])
  {
    MarkedLineNotBlank(h);
    assert ([h] + rest)[1..] == rest;
  }

  /** Every export parses back to the listed prompts. */
  lemma ParseExport(c: JsonCodec, t: Tables, now: string)
    requires Lawful(c)
    ensures ParseLines(c, Lines(ExportText(c, t, now)), 0, []) == Ok(ListPrompts(t))
  {
    ParseWritten(c, ExportHeader(t, now), ListPrompts(t));
  }

  lemma {:induction false} ParseRecords(c: JsonCodec, lines: seq<string>, n: nat, acc: seq<Prompt>, ps: seq<Prompt>)
    requires Lawful(c) && n > 0
    requires lines == EncodeLines(c, ps)
    ensures ParseLines(c, lines, n, acc) == Ok(acc + ps)
    decreases |lines|
  {
    if lines == [] {
      assert acc + ps == acc;
    } else {
      DecodeEncodeLine(c, ps[0]);
      assert lines[1..] == EncodeLines(c, ps[1..]);
      ParseRecords(c, lines[1..], n + 1, acc + [ps[0]], ps[1..]);
      assert acc + [ps[0]] + ps[1..] == acc + ps;
    }
  }

  /** The outcome of an import: the new tables and the number of prompts
      applied. */
  datatype Imported = Imported(tables: Tables, count: nat)

  /** `import_jsonl` on the text of an existing file: parse every line,
      apply all prompts in one bulk call, then record the data version. */
  function ImportTables(c: JsonCodec, t: Tables, text: string, now: string): (r: Result<Imported, JsonlError>)
    ensures r.Ok? ==> ParseLines(c, Lines(text), 0, []).Ok?
                      && r.value.count == |ParseLines(c, Lines(text), 0, []).value|
    ensures r.Err? ==> r.error != OpenFailed && r.error != WriteFailed
  {
    match ParseLines(c, Lines(text), 0, [])
    case Err(e) => ParseLinesErrors(c, Lines(text), 0, []); Err(e)
    case Ok(ps) =>
      var b := BulkUpsertTables(t, ps);
      if !b.ok then Err(BulkFailed)
      else Ok(Imported(WriteMeta(b.tables, DATA_VERSION_KEY, now), |ps|))
  }

  /** `import_jsonl`. A missing file or a line that does not parse ends the
      import before anything is written; a failing bulk upsert rolls back;
      otherwise every parsed prompt is applied and the data version is
      recorded. */
  method ImportJsonl(db: Database, disk: Disk, path: string, c: JsonCodec, now: string)
    returns (r: Result<nat, JsonlError>)
    modifies db
    ensures path !in disk.files ==> r == Err(OpenFailed) && db.State() == old(db.State())
    ensures path in disk.files ==>
      var expected := ImportTables(c, old(db.State()), disk.files[path], now);
      && (expected.Ok? ==> r == Ok(expected.value.count) && db.State() == expected.value.tables)
      && (expected.Err? ==> r == Err(expected.error) && db.State() == old(db.State()))
    ensures old(db.Valid()) ==> db.Valid()
  {
    if path !in disk.files {
      return Err(OpenFailed);
    }
    var lines := Lines(disk.files[path]);
    ghost var parsed := ParseLines(c, lines, 0, []);
    var prompts := [];
    var lineNum := 0;
    while lineNum < |lines|
      invariant 0 <= lineNum <= |lines|
      invariant ParseLines(c, lines[lineNum..], lineNum, prompts) == parsed
      decreases |lines| - lineNum
    {
      var line := lines[lineNum];
      assert lines[lineNum..][0] == line;
      assert lines[lineNum..][1..] == lines[lineNum + 1..];
      lineNum := lineNum + 1;
      if IsBlank(line) {
        continue;
      }
      if lineNum == 1 && Contains(line, META_KEY) {
        if c.parseMeta(line).None? {
          return Err(BadHeader);
        }
        continue;
      }
      var prompt := DecodeLine(c, line);
      if prompt.None? {
        return Err(BadPrompt(lineNum));
      }
      prompts := prompts + [prompt.value];
    }
    assert lines[lineNum..] == [];
    var ok := db.BulkUpsertPrompts(prompts);
    if !ok {
      return Err(BulkFailed);
    }
    db.SetMeta(DATA_VERSION_KEY, now);
    return Ok(|prompts|);
  }

  // ---------------------------------------------------------------------
  // Round trip

  /** Under the keys of the schema a prompt never holds a tag twice. */
  lemma {:induction false} StoredTagsDistinct(rows: seq<TagRow>, id: string)
    requires UniqueTagKeys(rows)
    ensures NoDuplicates(TagsOf(rows, id))
  {
    if rows != [] {
      var rest := rows[1..];
      assert UniqueTagKeys(rest) by {
        forall i, j | 0 <= i < j < |rest| ensures rest[i] != rest[j] {
          assert rest[i] == rows[i + 1] && rest[j] == rows[j + 1];
        }
      }
      StoredTagsDistinct(rest, id);
      if rows[0].promptId == id {
        var tags := TagsOf(rows, id);
        assert tags == [rows[0].tag] + TagsOf(rest, id);
        TagsOfMember(rest, id, rows[0].tag);
        assert rows[0].tag !in TagsOf(rest, id);
        forall i, j | 0 <= i < j < |tags| ensures tags[i] != tags[j] {
          assert tags[j] == TagsOf(rest, id)[j - 1];
          if i > 0 {
            assert tags[i] == TagsOf(rest, id)[i - 1];
          }
        }
      }
    }
  }

  /** The ids a committed bulk upsert leaves are the ids that were there
      and the ids it was given. */
  lemma {:induction false} BulkIds(t: Tables, ps: seq<Prompt>, id: string)
    requires BulkUpsertTables(t, ps).ok
    ensures HasPrompt(BulkUpsertTables(t, ps).tables, id) <==>
      HasPrompt(t, id) || exists i :: 0 <= i < |ps| && ps[i].id == id
    decreases |ps|
  {
    if ps != [] {
      var s := BulkStep(t, ps[0]);
      assert BulkApply(t, ps) == BulkApply(s.tables, ps[1..]);
      BulkIds(s.tables, ps[1..], id);
      HasPromptFind(t, id);
      HasPromptFind(s.tables, id);
      WritePromptRowIds(t.prompts, RowOf(ps[0], None), true, id);
      assert forall i :: 1 <= i < |ps| ==> ps[i] == ps[1..][i - 1];
      if exists i :: 0 <= i < |ps[1..]| && ps[1..][i].id == id {
        var i :| 0 <= i < |ps[1..]| && ps[1..][i].id == id;
        assert ps[i + 1].id == id;
      }
    }
  }

  /** The listed prompts carry no tag twice when the keys hold. */
  lemma ListedTagsDistinct(t: Tables)
    requires KeysHold(t)
    ensures forall i :: 0 <= i < |ListPrompts(t)| ==> NoDuplicates(ListPrompts(t)[i].tags)
  {
    var ps := ListPrompts(t);
    ListPromptsFilteredFacts(t, NO_FILTER);
    forall i | 0 <= i < |ps| ensures NoDuplicates(ps[i].tags) {
      assert ps[i] in ps;
      StoredTagsDistinct(t.tagRows, ps[i].id);
    }
  }

  lemma SameRowsSameIds(rows: seq<PromptRow>, stored: seq<PromptRow>, id: string)
    requires forall r :: r in rows <==> r in stored
    ensures HasId(rows, id) <==> HasId(stored, id)
  {
    if HasId(rows, id) {
      var i :| 0 <= i < |rows| && rows[i].id == id;
      assert rows[i] in stored;
    }
    if HasId(stored, id) {
      var k :| 0 <= k < |stored| && stored[k].id == id;
      assert stored[k] in rows;
    }
  }

  /** The unfiltered list names every stored id and no other. */
  lemma ListedIds(t: Tables, id: string)
    ensures HasPrompt(t, id) <==> exists i :: 0 <= i < |ListPrompts(t)| && ListPrompts(t)[i].id == id
  {
    var ps := ListPrompts(t);
    var rows := ListedRows(t, NO_FILTER);
    assert |ps| == |rows| && forall i :: 0 <= i < |ps| ==> ps[i].id == rows[i].id;
    ListedRowsFacts(t, NO_FILTER);
    SameRowsSameIds(rows, t.prompts, id);
    if HasId(rows, id) {
      var i :| 0 <= i < |rows| && rows[i].id == id;
      assert ps[i].id == id;
    }
  }

  /** Exporting a store whose keys hold and importing the file into a
      store without prompts succeeds, counts every exported prompt and
      leaves exactly the exported ids. */
  lemma ExportImportIds(c: JsonCodec, t: Tables, target: Tables, exportedAt: string, importedAt: string)
    requires Lawful(c) && KeysHold(t) && target.prompts == []
    ensures var r := ImportTables(c, target, ExportText(c, t, exportedAt), importedAt);
      && r.Ok?
      && r.value.count == PromptCount(t)
      && forall id :: HasPrompt(r.value.tables, id) <==> HasPrompt(t, id)
  {
    var ps := ListPrompts(t);
    ParseExport(c, t, exportedAt);
    ListPromptsCount(t);
    ListedTagsDistinct(t);
    BulkAllOrNothing(target, ps);
    var u := BulkUpsertTables(target, ps).tables;
    forall id ensures HasPrompt(u, id) <==> HasPrompt(t, id) {
      BulkIds(target, ps, id);
      ListedIds(t, id);
    }
  }
}

=== FILE: loader.dfy ===
/** The stale-while-revalidate registry loader: a cache file of prompts with
    a metadata sidecar, a time-to-live, a conditional fetch from the web
    service, and the bundled prompts as the last resort.

    The two files are fields of the loader; the clock is a `Clock` value
    read once per operation; the network and the server are one function
    from the `If-None-Match` value sent to the response received. */
module Loader {
  import opened Wrappers
  import opened PromptTypes
  import opened RegistryTypes
  import Embedded
  import Numbers

  /** Seconds a cache stays fresh unless configured otherwise. */
  const DEFAULT_CACHE_TTL: nat := 3600

  const MILLIS_PER_SECOND: nat := 1000

  /** HTTP 304 Not Modified. */
  const NOT_MODIFIED: nat := 304

  /** `CacheMeta`, the sidecar written next to the cache. */
  datatype CacheMeta = CacheMeta(version: Option<string>, etag: Option<string>, fetchedAt: string, promptCount: nat)

  /** What a path holds: nothing, a file that cannot be opened (with the
      operating system's description of why), text that does not parse as
      `T`, or a `T`. */
  datatype StoredFile<T> = Missing | Unopenable(reason: IoMessage) | Unparseable | Holds(value: T)

  datatype CacheFiles = CacheFiles(cache: StoredFile<seq<Prompt>>, meta: StoredFile<CacheMeta>)

  /** A readable cache: its prompts and its (possibly defaulted) metadata. */
  datatype Cached = Cached(prompts: seq<Prompt>, meta: CacheMeta)

  /** The description of an I/O error, which is never empty. */
  type IoMessage = s: string | |s| > 0 witness "I/O error"

  /** Why `fetch_remote` fails: the HTTP client cannot be built, the request
      cannot be sent, the status is neither 304 nor a success (carrying the
      status), or the body is not a registry payload. */
  datatype FetchFailure = ClientBuildFailed | SendFailed | BadStatus(status: nat) | BadJson

  /** The errors the loader returns: the two contexts `load_cache` adds to
      a cache it cannot open or parse, a failed fetch with its reason, and a
      bare I/O error (opening the sidecar, writing either file). */
  datatype LoaderError = CacheUnopenable | CacheUnreadable | FetchFailed(reason: FetchFailure) | Io(message: IoMessage)

  /** Which of the writes of one operation fail, and how: `cacheWrite` is
      the first error among creating the cache directory, writing the
      temporary cache file and renaming it over the cache; `metaWrite` the
      first error among writing the temporary sidecar and renaming it over
      the sidecar. `None` means those steps succeed. */
  datatype DiskFaults = DiskFaults(cacheWrite: Option<IoMessage>, metaWrite: Option<IoMessage>)

  /** The outcome of a write operation, its error if it fails, and the files
      it leaves behind. */
  datatype Written = Written(failure: Option<LoaderError>, files: CacheFiles)

  /** The current instant, as whole milliseconds since the epoch and as
      RFC 3339 text. */
  datatype Clock = Clock(millis: int, text: string)

  /** RFC 3339 parsing, to milliseconds since the epoch. */
  type TimeParser = string -> Option<int>

  /** `RegistryApiPayload`; a body that does not parse is `None` in
      `HttpResponse`. */
  datatype ApiPayload = ApiPayload(version: Option<string>, prompts: seq<Prompt>)

  datatype HttpResponse = HttpResponse(status: nat, etag: Option<string>, body: Option<ApiPayload>)

  /** What one attempt to ask the service gives: no client, no response, or
      a response. */
  datatype Exchange = ClientUnbuilt | Unsent | Received(response: HttpResponse)

  /** `RemoteFetchResult` or the error `fetch_remote` returns. */
  datatype FetchOutcome =
    | NewData(prompts: seq<Prompt>, etag: Option<string>, version: Option<string>)
    | NotModified
    | FetchError(reason: FetchFailure)

  /** The service as seen from the loader: the `If-None-Match` value sent
      (if any) determines the exchange. */
  type Service = Option<string> -> Exchange

  // Fetching

  /** `fetch_remote`'s classification of an exchange: the client and the
      request first, then 304, then any other non-2xx status, then a body
      that does not parse. */
  function FetchRemote(x: Exchange): (o: FetchOutcome)
    ensures o == FetchError(ClientBuildFailed) <==> x.ClientUnbuilt?
    ensures o == FetchError(SendFailed) <==> x.Unsent?
    ensures o.NotModified? <==> x.Received? && x.response.status == NOT_MODIFIED
    ensures o.FetchError? && o.reason.BadStatus? <==>
              x.Received? && x.response.status != NOT_MODIFIED && !(200 <= x.response.status < 300)
    ensures o.FetchError? && o.reason.BadStatus? ==> o.reason.status == x.response.status
    ensures o == FetchError(BadJson) <==> x.Received? && 200 <= x.response.status < 300 && x.response.body.None?
    ensures o.NewData? <==> x.Received? && 200 <= x.response.status < 300 && x.response.body.Some?
    ensures o.NewData? ==> o.prompts == x.response.body.value.prompts && o.etag == x.response.etag
                           && o.version == x.response.body.value.version
  {
    match x
    case ClientUnbuilt => FetchError(ClientBuildFailed)
    case Unsent => FetchError(SendFailed)
    case Received(r) =>
      if r.status == NOT_MODIFIED then NotModified
      else if !(200 <= r.status < 300) then FetchError(BadStatus(r.status))
      else match r.body
        case None => FetchError(BadJson)
        case Some(p) => NewData(p.prompts, r.etag, p.version)
  }

  /** The `If-None-Match` value sent: the cached metadata's etag. */
  function RequestEtag(cached: Option<Cached>): (sent: Option<string>)
    ensures sent.Some? <==> cached.Some? && cached.value.meta.etag.Some?
    ensures sent.Some? ==> sent == cached.value.meta.etag
  {
    match cached
    case None => None
    case Some(c) => c.meta.etag
  }

  // Reading the cache

  /** The metadata assumed when the sidecar is missing or does not parse. */
  function DefaultMeta(promptCount: nat, clock: Clock): (m: CacheMeta)
    ensures m.version.None? && m.etag.None?
    ensures m.fetchedAt == clock.text && m.promptCount == promptCount
  {
    CacheMeta(None, None, clock.text, promptCount)
  }

  /** `load_cache`: a cache that cannot be opened or parsed is an error, and
      so is a sidecar that exists but cannot be opened; a sidecar that does
      not parse is replaced by the default metadata. */
  function LoadCache(f: CacheFiles, clock: Clock): (r: Result<Option<Cached>, LoaderError>)
    ensures r.Ok? <==> f.cache.Missing? || (f.cache.Holds? && !f.meta.Unopenable?)
    ensures r == Ok(None) <==> f.cache.Missing?
    ensures r == Err(CacheUnopenable) <==> f.cache.Unopenable?
    ensures r == Err(CacheUnreadable) <==> f.cache.Unparseable?
    ensures f.cache.Holds? && f.meta.Unopenable? <==> r.Err? && r.error.Io?
    ensures r.Err? && r.error.Io? ==> f.meta.Unopenable? && r.error.message == f.meta.reason
    ensures r.Ok? && r.value.Some? ==> f.cache.Holds? && r.value.value.prompts == f.cache.value
    ensures r.Ok? && r.value.Some? && f.meta.Holds? ==> r.value.value.meta == f.meta.value
    ensures r.Ok? && r.value.Some? && !f.meta.Holds? ==>
              r.value.value.meta.etag.None? && r.value.value.meta.fetchedAt == clock.text
              && f.cache.Holds? && r.value.value.meta.promptCount == |f.cache.value|
  {
    match f.cache
    case Missing => Ok(None)
    case Unopenable(_) => Err(CacheUnopenable)
    case Unparseable => Err(CacheUnreadable)
    case Holds(ps) =>
      match f.meta
      case Unopenable(reason) => Err(Io(reason))
      case Holds(m) => Ok(Some(Cached(ps, m)))
      case _ => Ok(Some(Cached(ps, DefaultMeta(|ps|, clock))))
  }

  /** `is_stale`: whole seconds elapsed, truncated toward zero, beyond the
      time-to-live; an unparseable timestamp is stale. */
  function IsStale(ttl: nat, parseTime: TimeParser, m: CacheMeta, now: int): bool
  {
    match parseTime(m.fetchedAt)
    case None => true
    case Some(fetched) => Numbers.TruncDiv(now - fetched, MILLIS_PER_SECOND) > ttl
  }

  /** A cache is stale exactly when its timestamp does not parse or at least
      `ttl + 1` whole seconds have passed. */
  lemma IsStaleIff(ttl: nat, parseTime: TimeParser, m: CacheMeta, now: int)
    ensures IsStale(ttl, parseTime, m, now) <==>
              parseTime(m.fetchedAt).None?
              || now - parseTime(m.fetchedAt).value >= (ttl + 1) * MILLIS_PER_SECOND
  {
    if parseTime(m.fetchedAt).Some? {
      Numbers.TruncDivGreater(now - parseTime(m.fetchedAt).value, MILLIS_PER_SECOND, ttl);
    }
  }

  /** Elapsed time of exactly the time-to-live, or up to a second past it,
      is still fresh; one more second is stale; a timestamp in the future
      is fresh. */
  lemma StaleBoundary(ttl: nat, parseTime: TimeParser, m: CacheMeta, fetched: int)
    requires parseTime(m.fetchedAt) == Some(fetched)
    ensures !IsStale(ttl, parseTime, m, fetched + ttl * MILLIS_PER_SECOND)
    ensures !IsStale(ttl, parseTime, m, fetched + ttl * MILLIS_PER_SECOND + 999)
    ensures IsStale(ttl, parseTime, m, fetched + (ttl + 1) * MILLIS_PER_SECOND)
    ensures forall now: int :: now <= fetched ==> !IsStale(ttl, parseTime, m, now)
  {
    IsStaleIff(ttl, parseTime, m, fetched + ttl * MILLIS_PER_SECOND);
    IsStaleIff(ttl, parseTime, m, fetched + ttl * MILLIS_PER_SECOND + 999);
    IsStaleIff(ttl, parseTime, m, fetched + (ttl + 1) * MILLIS_PER_SECOND);
    forall now: int | now <= fetched ensures !IsStale(ttl, parseTime, m, now) {
      IsStaleIff(ttl, parseTime, m, now);
    }
  }

  /** A cache whose sidecar is missing or does not parse carries no etag
      and reads as fresh, since its assumed timestamp is the current instant. */
  lemma DefaultMetaFresh(ttl: nat, parseTime: TimeParser, f: CacheFiles, clock: Clock)
    requires f.cache.Holds? && (f.meta.Missing? || f.meta.Unparseable?)
    requires parseTime(clock.text) == Some(clock.millis)
    ensures LoadCache(f, clock).Ok? && LoadCache(f, clock).value.Some?
    ensures RequestEtag(LoadCache(f, clock).value).None?
    ensures !IsStale(ttl, parseTime, LoadCache(f, clock).value.value.meta, clock.millis)
  {
    StaleBoundary(ttl, parseTime, LoadCache(f, clock).value.value.meta, clock.millis);
  }

  // Writing the cache

  /** The files after `save_cache`: the prompts are renamed into place
      first, then the sidecar, and the first failing step ends the
      operation with its error, leaving whatever was already renamed. */
  function SaveCacheOf(f: CacheFiles, prompts: seq<Prompt>, etag: Option<string>, version: Option<string>,
                       clock: Clock, disk: DiskFaults): (w: Written)
    ensures w.failure.None? <==> disk.cacheWrite.None? && disk.metaWrite.None?
    ensures disk.cacheWrite.Some? ==> w == Written(Some(Io(disk.cacheWrite.value)), f)
    ensures disk.cacheWrite.None? ==> w.files.cache == Holds(prompts)
    ensures disk.cacheWrite.None? && disk.metaWrite.Some? ==>
              w.failure == Some(Io(disk.metaWrite.value)) && w.files.meta == f.meta
    ensures w.failure.None? ==> w.files.meta == Holds(CacheMeta(version, etag, clock.text, |prompts|))
  {
    match disk.cacheWrite
    case Some(e) => Written(Some(Io(e)), f)
    case None =>
      var renamed := f.(cache := Holds(prompts));
      match disk.metaWrite
      case Some(e) => Written(Some(Io(e)), renamed)
      case None => Written(None, renamed.(meta := Holds(CacheMeta(version, etag, clock.text, |prompts|))))
  }

  /** The files after `touch_cache`: a sidecar that opens and parses is
      rewritten with the current time, and an error writing it is returned;
      any other sidecar is left alone without error. */
  function TouchCacheOf(f: CacheFiles, clock: Clock, disk: DiskFaults): (w: Written)
    ensures w.files.cache == f.cache
    ensures w.failure.Some? <==> f.meta.Holds? && disk.metaWrite.Some?
    ensures f.meta.Holds? && disk.metaWrite.Some? ==> w == Written(Some(Io(disk.metaWrite.value)), f)
    ensures !f.meta.Holds? ==> w.files == f
    ensures f.meta.Holds? && disk.metaWrite.None? ==> w.files.meta == Holds(f.meta.value.(fetchedAt := clock.text))
  {
    match f.meta
    case Holds(m) =>
      if disk.metaWrite.Some? then Written(Some(Io(disk.metaWrite.value)), f)
      else Written(None, CacheFiles(f.cache, Holds(m.(fetchedAt := clock.text))))
    case _ => Written(None, f)
  }

  /** A completed save reads back as written, with the response's etag and
      version, and is fresh at the instant it was written. */
  lemma SaveCacheReadsBack(ttl: nat, parseTime: TimeParser, f: CacheFiles, prompts: seq<Prompt>,
                           etag: Option<string>, version: Option<string>, clock: Clock, disk: DiskFaults)
    requires parseTime(clock.text) == Some(clock.millis)
    requires disk.cacheWrite.None? && disk.metaWrite.None?
    ensures var g := SaveCacheOf(f, prompts, etag, version, clock, disk).files;
            LoadCache(g, clock) == Ok(Some(Cached(prompts, CacheMeta(version, etag, clock.text, |prompts|))))
            && RequestEtag(LoadCache(g, clock).value) == etag
    ensures !IsStale(ttl, parseTime, CacheMeta(version, etag, clock.text, |prompts|), clock.millis)
  {
    StaleBoundary(ttl, parseTime, CacheMeta(version, etag, clock.text, |prompts|), clock.millis);
  }

  /** A save whose sidecar write fails leaves the new prompts beside the old
      sidecar: the next load reads them with the old etag and timestamp. */
  lemma HalfWrittenSave(f: CacheFiles, prompts: seq<Prompt>, etag: Option<string>, version: Option<string>,
                        clock: Clock, disk: DiskFaults)
    requires disk.cacheWrite.None? && disk.metaWrite.Some?
    requires f.meta.Holds?
    ensures var g := SaveCacheOf(f, prompts, etag, version, clock, disk).files;
            LoadCache(g, clock) == Ok(Some(Cached(prompts, f.meta.value)))
            && RequestEtag(LoadCache(g, clock).value) == f.meta.value.etag
  {
  }

  // The three entry points, as functions of the files and the inputs

  function CacheResult(prompts: seq<Prompt>, stale: bool, clock: Clock): LoadResult
  {
    LoadResult(NewRegistry(prompts, clock.text), Cache, stale)
  }

  function BundledResult(bundled: seq<Prompt>, clock: Clock): LoadResult
  {
    LoadResult(NewRegistry(bundled, clock.text), Bundled, false)
  }

  /** A write's error, or the given result once the write has succeeded. */
  function AfterWrite(failure: Option<LoaderError>, result: LoadResult): (r: Result<LoadResult, LoaderError>)
    ensures failure.None? <==> r == Ok(result)
    ensures failure.Some? ==> r == Err(failure.value)
  {
    match failure
    case Some(e) => Err(e)
    case None => Ok(result)
  }

  /** `load`: never fetches. */
  function LoadOf(ttl: nat, parseTime: TimeParser, bundled: seq<Prompt>, f: CacheFiles, clock: Clock): (r: Result<LoadResult, LoaderError>)
    ensures r.Err? <==> LoadCache(f, clock).Err?
    ensures LoadCache(f, clock).Err? ==> r == Err(LoadCache(f, clock).error)
    ensures f.cache.Unopenable? <==> r == Err(CacheUnopenable)
    ensures f.cache.Unparseable? <==> r == Err(CacheUnreadable)
    ensures f.cache.Holds? && f.meta.Unopenable? ==> r == Err(Io(f.meta.reason))
    ensures r.Ok? ==> r.value.registry.meta.promptCount == |r.value.registry.prompts|
    ensures f.cache.Missing? ==> r.Ok? && r.value.source == Bundled && !r.value.stale
                                 && r.value.registry.prompts == bundled
    ensures f.cache.Holds? && !f.meta.Unopenable? ==>
              r.Ok? && r.value.source == Cache && r.value.registry.prompts == f.cache.value
              && r.value.stale == IsStale(ttl, parseTime, LoadCache(f, clock).value.value.meta, clock.millis)
  {
    match LoadCache(f, clock)
    case Err(e) => Err(e)
    case Ok(None) => Ok(BundledResult(bundled, clock))
    case Ok(Some(c)) => Ok(CacheResult(c.prompts, IsStale(ttl, parseTime, c.meta, clock.millis), clock))
  }

  /** `refresh`: always asks the service, conditionally on the cached etag;
      an error saving or touching the cache is returned. */
  function RefreshOf(ttl: nat, parseTime: TimeParser, bundled: seq<Prompt>, f: CacheFiles, service: Service, clock: Clock, disk: DiskFaults)
    : (Result<LoadResult, LoaderError>, CacheFiles)
  {
    match LoadCache(f, clock)
    case Err(e) => (Err(e), f)
    case Ok(cached) =>
      match FetchRemote(service(RequestEtag(cached)))
      case NewData(ps, etag, version) =>
        var w := SaveCacheOf(f, ps, etag, version, clock, disk);
        (AfterWrite(w.failure, LoadResult(NewRegistry(ps, clock.text), Remote, false)), w.files)
      case NotModified =>
        if cached.Some? then
          var w := TouchCacheOf(f, clock, disk);
          (AfterWrite(w.failure, CacheResult(cached.value.prompts, false, clock)), w.files)
        else (LoadOf(ttl, parseTime, bundled, f, clock), f)
      case FetchError(why) =>
        if cached.Some? then (Ok(CacheResult(cached.value.prompts, true, clock)), f)
        else (Err(FetchFailed(why)), f)
  }

  /** `load_sync`: a fresh cache is used as is; otherwise as `refresh`,
      except that a failed fetch without a cache yields the bundled prompts. */
  function LoadSyncOf(ttl: nat, parseTime: TimeParser, bundled: seq<Prompt>, f: CacheFiles, service: Service, clock: Clock, disk: DiskFaults)
    : (Result<LoadResult, LoaderError>, CacheFiles)
  {
    match LoadCache(f, clock)
    case Err(e) => (Err(e), f)
    case Ok(cached) =>
      if cached.Some? && !IsStale(ttl, parseTime, cached.value.meta, clock.millis) then
        (Ok(CacheResult(cached.value.prompts, false, clock)), f)
      else
        match FetchRemote(service(RequestEtag(cached)))
        case NewData(ps, etag, version) =>
          var w := SaveCacheOf(f, ps, etag, version, clock, disk);
          (AfterWrite(w.failure, LoadResult(NewRegistry(ps, clock.text), Remote, false)), w.files)
        case NotModified =>
          if cached.Some? then
            var w := TouchCacheOf(f, clock, disk);
            (AfterWrite(w.failure, CacheResult(cached.value.prompts, false, clock)), w.files)
          else (Ok(BundledResult(bundled, clock)), f)
        case FetchError(_) =>
          if cached.Some? then (Ok(CacheResult(cached.value.prompts, true, clock)), f)
          else (Ok(BundledResult(bundled, clock)), f)
  }

  // Properties of refresh and load_sync

  /** `refresh` sends one request, whose `If-None-Match` is the cached etag:
      two services that answer that request alike give the same outcome. */
  lemma RefreshAsksOnce(ttl: nat, parseTime: TimeParser, bundled: seq<Prompt>, f: CacheFiles, s1: Service, s2: Service, clock: Clock,
                        disk: DiskFaults)
    requires LoadCache(f, clock).Ok?
    requires s1(RequestEtag(LoadCache(f, clock).value)) == s2(RequestEtag(LoadCache(f, clock).value))
    ensures RefreshOf(ttl, parseTime, bundled, f, s1, clock, disk) == RefreshOf(ttl, parseTime, bundled, f, s2, clock, disk)
  {
  }

  /** New data is saved with its etag, version and count, and returned as
      remote and fresh; a failing write is returned as the error, after the
      cache alone when only the sidecar could not be written. */
  lemma RefreshNewData(ttl: nat, parseTime: TimeParser, bundled: seq<Prompt>, f: CacheFiles, service: Service, clock: Clock,
                       disk: DiskFaults)
    requires LoadCache(f, clock).Ok?
    requires FetchRemote(service(RequestEtag(LoadCache(f, clock).value))).NewData?
    ensures var o := FetchRemote(service(RequestEtag(LoadCache(f, clock).value)));
            var (r, g) := RefreshOf(ttl, parseTime, bundled, f, service, clock, disk);
            (disk.cacheWrite.None? && disk.metaWrite.None? ==>
               r.Ok? && r.value.source == Remote && !r.value.stale && r.value.registry.prompts == o.prompts
               && g.cache == Holds(o.prompts)
               && g.meta == Holds(CacheMeta(o.version, o.etag, clock.text, |o.prompts|)))
            && (disk.cacheWrite.Some? ==> r == Err(Io(disk.cacheWrite.value)) && g == f)
            && (disk.cacheWrite.None? && disk.metaWrite.Some? ==>
                  r == Err(Io(disk.metaWrite.value)) && g == f.(cache := Holds(o.prompts)))
  {
  }

  /** Not Modified with a cache returns the cached prompts as fresh and
      rewrites only the sidecar's timestamp, or returns the error writing
      it; without a cache it is `load`, which then yields the bundled
      prompts. */
  lemma RefreshNotModified(ttl: nat, parseTime: TimeParser, bundled: seq<Prompt>, f: CacheFiles, service: Service, clock: Clock,
                           disk: DiskFaults)
    requires LoadCache(f, clock).Ok?
    requires FetchRemote(service(RequestEtag(LoadCache(f, clock).value))).NotModified?
    ensures var (r, g) := RefreshOf(ttl, parseTime, bundled, f, service, clock, disk);
            g.cache == f.cache
            && (f.cache.Holds? && f.meta.Holds? && disk.metaWrite.Some? ==>
                  r == Err(Io(disk.metaWrite.value)) && g == f)
            && (f.cache.Holds? && !(f.meta.Holds? && disk.metaWrite.Some?) ==>
                  r.Ok? && !r.value.stale && r.value.source == Cache && r.value.registry.prompts == f.cache.value
                  && g == TouchCacheOf(f, clock, disk).files)
            && (f.cache.Missing? ==> r == LoadOf(ttl, parseTime, bundled, f, clock) && r.Ok? && !r.value.stale
                                     && r.value.source == Bundled && g == f)
  {
  }

  /** A failed fetch falls back to the cache, marked stale, and leaves the
      files alone; without a cache the fetch's own error is returned. */
  lemma RefreshFetchError(ttl: nat, parseTime: TimeParser, bundled: seq<Prompt>, f: CacheFiles, service: Service, clock: Clock,
                          disk: DiskFaults)
    requires LoadCache(f, clock).Ok?
    requires FetchRemote(service(RequestEtag(LoadCache(f, clock).value))).FetchError?
    ensures var o := FetchRemote(service(RequestEtag(LoadCache(f, clock).value)));
            var (r, g) := RefreshOf(ttl, parseTime, bundled, f, service, clock, disk);
            g == f
            && (f.cache.Holds? ==> r.Ok? && r.value.source == Cache && r.value.stale
                                   && r.value.registry.prompts == f.cache.value)
            && (f.cache.Missing? ==> r == Err(FetchFailed(o.reason)))
  {
  }

  /** A cache that cannot be opened or parsed, or a sidecar that cannot be
      opened, stops both entry points before any request, and nothing is
      written. */
  lemma UnreadableCacheStops(ttl: nat, parseTime: TimeParser, bundled: seq<Prompt>, f: CacheFiles, service: Service, clock: Clock,
                             disk: DiskFaults)
    requires f.cache.Unopenable? || f.cache.Unparseable? || (f.cache.Holds? && f.meta.Unopenable?)
    ensures LoadCache(f, clock).Err?
    ensures RefreshOf(ttl, parseTime, bundled, f, service, clock, disk) == (Err(LoadCache(f, clock).error), f)
    ensures LoadSyncOf(ttl, parseTime, bundled, f, service, clock, disk) == (Err(LoadCache(f, clock).error), f)
  {
  }

  /** `load_sync` on a fresh cache returns it without consulting the service
      and without writing. */
  lemma LoadSyncFresh(ttl: nat, parseTime: TimeParser, bundled: seq<Prompt>, f: CacheFiles, service: Service, clock: Clock,
                      disk: DiskFaults)
    requires f.cache.Holds? && !f.meta.Unopenable?
    requires !IsStale(ttl, parseTime, LoadCache(f, clock).value.value.meta, clock.millis)
    ensures LoadSyncOf(ttl, parseTime, bundled, f, service, clock, disk) == (Ok(CacheResult(f.cache.value, false, clock)), f)
  {
  }

  /** `load_sync` never fails for want of the network: a failed fetch gives
      the cache (stale) or the bundled prompts. */
  lemma LoadSyncFetchError(ttl: nat, parseTime: TimeParser, bundled: seq<Prompt>, f: CacheFiles, service: Service, clock: Clock,
                           disk: DiskFaults)
    requires LoadCache(f, clock).Ok?
    requires FetchRemote(service(RequestEtag(LoadCache(f, clock).value))).FetchError?
    ensures var (r, g) := LoadSyncOf(ttl, parseTime, bundled, f, service, clock, disk);
            r.Ok? && g == f
            && (f.cache.Missing? ==> r == Ok(BundledResult(bundled, clock)))
  {
  }

  /** When the cache is missing or stale, `load_sync` does what `refresh`
      does, writes and write errors included, except where `refresh` fails
      for want of both cache and network. */
  lemma LoadSyncIsRefreshWhenStale(ttl: nat, parseTime: TimeParser, bundled: seq<Prompt>, f: CacheFiles, service: Service, clock: Clock,
                                   disk: DiskFaults)
    requires LoadCache(f, clock).Ok?
    requires f.cache.Holds? ==> IsStale(ttl, parseTime, LoadCache(f, clock).value.value.meta, clock.millis)
    ensures !(RefreshOf(ttl, parseTime, bundled, f, service, clock, disk).0.Err?
              && RefreshOf(ttl, parseTime, bundled, f, service, clock, disk).0.error.FetchFailed?) ==>
              LoadSyncOf(ttl, parseTime, bundled, f, service, clock, disk) == RefreshOf(ttl, parseTime, bundled, f, service, clock, disk)
  {
  }

  // The loader object

  /** `RegistryLoader`, holding the cache and sidecar it reads and writes. */
  class RegistryLoader {
    var ttl: nat
    const parseTime: TimeParser
    /** The prompts compiled into the program. */
    const bundled: seq<Prompt>
    var cache: StoredFile<seq<Prompt>>
    var meta: StoredFile<CacheMeta>

    function Files(): CacheFiles
      reads this
    {
      CacheFiles(cache, meta)
    }

    /** `with_paths`: the default time-to-live over the given files. */
    constructor WithPaths(files: CacheFiles, parseTime: TimeParser)
      ensures Files() == files && ttl == DEFAULT_CACHE_TTL && this.parseTime == parseTime
      ensures bundled == Embedded.BundledPrompts()
    {
      ttl := DEFAULT_CACHE_TTL;
      this.parseTime := parseTime;
      bundled := Embedded.BundledPrompts();
      cache := files.cache;
      meta := files.meta;
    }

    /** `with_ttl`. */
    method WithTtl(ttl: nat)
      modifies this
      ensures this.ttl == ttl && Files() == old(Files())
    {
      this.ttl := ttl;
    }

    method Load(clock: Clock) returns (r: Result<LoadResult, LoaderError>)
      ensures r == LoadOf(ttl, parseTime, bundled, Files(), clock)
    {
      var cached := LoadCache(Files(), clock);
      match cached {
        case Err(e) =>
          r := Err(e);
        case Ok(None) =>
          r := Ok(BundledResult(bundled, clock));
        case Ok(Some(c)) =>
          var stale := IsStale(ttl, parseTime, c.meta, clock.millis);
          r := Ok(CacheResult(c.prompts, stale, clock));
      }
    }

    /** `save_cache`: the prompts first, then the sidecar, each stopping at
        its write's error. */
    method SaveCache(prompts: seq<Prompt>, etag: Option<string>, version: Option<string>, clock: Clock,
                     disk: DiskFaults)
      returns (failure: Option<LoaderError>)
      modifies this
      ensures Written(failure, Files()) == SaveCacheOf(old(Files()), prompts, etag, version, clock, disk)
      ensures ttl == old(ttl)
    {
      if disk.cacheWrite.Some? {
        return Some(Io(disk.cacheWrite.value));
      }
      cache := Holds(prompts);
      if disk.metaWrite.Some? {
        return Some(Io(disk.metaWrite.value));
      }
      meta := Holds(CacheMeta(version, etag, clock.text, |prompts|));
      failure := None;
    }

    /** `touch_cache`: restamps a readable sidecar; otherwise does nothing. */
    method TouchCache(clock: Clock, disk: DiskFaults) returns (failure: Option<LoaderError>)
      modifies this
      ensures Written(failure, Files()) == TouchCacheOf(old(Files()), clock, disk)
      ensures ttl == old(ttl)
    {
      failure := None;
      if meta.Holds? {
        if disk.metaWrite.Some? {
          return Some(Io(disk.metaWrite.value));
        }
        var m := meta.value;
        m := m.(fetchedAt := clock.text);
        meta := Holds(m);
      }
    }

    method Refresh(service: Service, clock: Clock, disk: DiskFaults) returns (r: Result<LoadResult, LoaderError>)
      modifies this
      ensures (r, Files()) == RefreshOf(ttl, parseTime, bundled, old(Files()), service, clock, disk)
      ensures ttl == old(ttl)
    {
      var cached := LoadCache(Files(), clock);
      if cached.Err? {
        return Err(cached.error);
      }
      var outcome := FetchRemote(service(RequestEtag(cached.value)));
      match outcome {
        case NewData(ps, etag, version) =>
          var saved := SaveCache(ps, etag, version, clock, disk);
          r := AfterWrite(saved, LoadResult(NewRegistry(ps, clock.text), Remote, false));
        case NotModified =>
          if cached.value.Some? {
            var touched := TouchCache(clock, disk);
            r := AfterWrite(touched, CacheResult(cached.value.value.prompts, false, clock));
          } else {
            r := Load(clock);
          }
        case FetchError(why) =>
          if cached.value.Some? {
            r := Ok(CacheResult(cached.value.value.prompts, true, clock));
          } else {
            r := Err(FetchFailed(why));
          }
      }
    }

    method LoadSync(service: Service, clock: Clock, disk: DiskFaults) returns (r: Result<LoadResult, LoaderError>)
      modifies this
      ensures (r, Files()) == LoadSyncOf(ttl, parseTime, bundled, old(Files()), service, clock, disk)
      ensures ttl == old(ttl)
    {
      var cached := LoadCache(Files(), clock);
      if cached.Err? {
        return Err(cached.error);
      }
      if cached.value.Some? && !IsStale(ttl, parseTime, cached.value.value.meta, clock.millis) {
        return Ok(CacheResult(cached.value.value.prompts, false, clock));
      }
      var outcome := FetchRemote(service(RequestEtag(cached.value)));
      match outcome {
        case NewData(ps, etag, version) =>
          var saved := SaveCache(ps, etag, version, clock, disk);
          r := AfterWrite(saved, LoadResult(NewRegistry(ps, clock.text), Remote, false));
        case NotModified =>
          if cached.value.Some? {
            var touched := TouchCache(clock, disk);
            r := AfterWrite(touched, CacheResult(cached.value.value.prompts, false, clock));
          } else {
            r := Ok(BundledResult(bundled, clock));
          }
        case FetchError(_) =>
          if cached.value.Some? {
            r := Ok(CacheResult(cached.value.value.prompts, true, clock));
          } else {
            r := Ok(BundledResult(bundled, clock));
          }
      }
    }
  }
}

=== FILE: numbers.dfy ===
/** Decimal numbers as Rust reads and writes them: `str::parse` for the
    integer types, `to_string` for integers, the grammar `str::parse::<f64>`
    accepts, and the truncating division chrono uses for whole seconds and
    hours. */
module Numbers {
  import opened Wrappers

  predicate IsDigit(c: char)
  {
    '0' <= c <= '9'
  }

  predicate AllDigits(s: string)
  {
    forall i :: 0 <= i < |s| ==> IsDigit(s[i])
  }

  /** Value of a string of decimal digits, most significant first. */
  function DigitsValue(s: string): (n: nat)
    requires AllDigits(s)
    decreases |s|
  {
    if s == [] then 0
    else 10 * DigitsValue(s[..|s| - 1]) + (s[|s| - 1] as int - '0' as int)
  }

  /** `<iN as FromStr>::from_str` for a type with range lo..=hi: an optional
      '+' or '-', then at least one ASCII digit and nothing else, and the
      value must lie in range. */
  function ParseInteger(s: string, lo: int, hi: int): (r: Option<int>)
    ensures r.Some? ==> lo <= r.value <= hi
    ensures r.Some? ==> |s| > 0
  {
    if s == [] then None
    else
      var negative := s[0] == '-';
      var digits := if s[0] == '-' || s[0] == '+' then s[1..] else s;
      if digits == [] || !AllDigits(digits) then None
      else
        var v: int := if negative then -(DigitsValue(digits) as int) else DigitsValue(digits);
        if lo <= v <= hi then Some(v) else None
  }

  const I32_MIN: int := -0x8000_0000
  const I32_MAX: int := 0x7FFF_FFFF
  const I64_MIN: int := -0x8000_0000_0000_0000
  const I64_MAX: int := 0x7FFF_FFFF_FFFF_FFFF

  /** `s.parse::<i32>()`. */
  function ParseI32(s: string): (r: Option<int>)
    ensures r.Some? ==> I32_MIN <= r.value <= I32_MAX
  {
    ParseInteger(s, I32_MIN, I32_MAX)
  }

  /** `s.parse::<i64>()`. */
  function ParseI64(s: string): (r: Option<int>)
    ensures r.Some? ==> I64_MIN <= r.value <= I64_MAX
  {
    ParseInteger(s, I64_MIN, I64_MAX)
  }

  function DigitChar(d: nat): (c: char)
    requires d < 10
    ensures IsDigit(c) && c as int - '0' as int == d
  {
    ('0' as int + d) as char
  }

  /** `n.to_string()` for a non-negative integer: no leading zeros. */
  function NatToDecimal(n: nat): (s: string)
    ensures |s| > 0 && AllDigits(s)
    ensures s[0] == '0' ==> n == 0
  {
    if n < 10 then [DigitChar(n)] else NatToDecimal(n / 10) + [DigitChar(n % 10)]
  }

  /** `n.to_string()` for a signed integer. */
  function IntToDecimal(n: int): (s: string)
    ensures |s| > 0
  {
    if n < 0 then "-" + NatToDecimal(-n) else NatToDecimal(n)
  }

  lemma {:induction false} DigitsOfDecimal(n: nat)
    ensures DigitsValue(NatToDecimal(n)) == n
  {
    if n >= 10 {
      var s := NatToDecimal(n);
      assert s[..|s| - 1] == NatToDecimal(n / 10);
      DigitsOfDecimal(n / 10);
    }
  }

  /** Parsing what `to_string` printed gives the number back, for every
      value in the target type's range. */
  lemma ParseIntegerOfDecimal(n: int, lo: int, hi: int)
    requires lo <= n <= hi
    ensures ParseInteger(IntToDecimal(n), lo, hi) == Some(n)
  {
    var s := IntToDecimal(n);
    if n < 0 {
      assert s[1..] == NatToDecimal(-n);
      DigitsOfDecimal(-n);
    } else {
      DigitsOfDecimal(n);
    }
  }

  lemma ParseI32OfDecimal(n: int)
    requires I32_MIN <= n <= I32_MAX
    ensures ParseI32(IntToDecimal(n)) == Some(n)
  {
    ParseIntegerOfDecimal(n, I32_MIN, I32_MAX);
  }

  // ---------------------------------------------------------------------
  // Floating point literals

  predicate IsSign(c: char)
  {
    c == '+' || c == '-'
  }

  /** Digit+ | Digit+ '.' Digit* | Digit* '.' Digit+ */
  predicate IsMantissa(s: string)
  {
    if forall i :: 0 <= i < |s| ==> s[i] != '.' then |s| > 0 && AllDigits(s)
    else
      exists k :: 0 <= k < |s| && s[k] == '.' && AllDigits(s[..k]) && AllDigits(s[k + 1..]) && |s| > 1
  }

  /** 'e' or 'E', an optional sign, and at least one digit. */
  predicate IsExponent(s: string)
  {
    |s| >= 2 && (s[0] == 'e' || s[0] == 'E')
    && var d := if IsSign(s[1]) then s[2..] else s[1..];
       |d| > 0 && AllDigits(d)
  }

  /** A decimal number: a mantissa with an optional exponent. */
  predicate IsDecimalNumber(s: string)
  {
    IsMantissa(s)
    || exists k :: 0 < k < |s| && (s[k] == 'e' || s[k] == 'E') && IsMantissa(s[..k]) && IsExponent(s[k..])
  }

  /** "inf", "infinity" or "nan" in any mix of letter case. */
  predicate IsSpecialFloat(s: string)
  {
    var l := seq(|s|, i requires 0 <= i < |s| => if 'A' <= s[i] <= 'Z' then (s[i] as int + 32) as char else s[i]);
    l == "inf" || l == "infinity" || l == "nan"
  }

  /** The strings `str::parse::<f64>` accepts: an optional sign, then a
      decimal number or one of the special names. */
  predicate IsFloatLiteral(s: string)
  {
    var body := if |s| > 0 && IsSign(s[0]) then s[1..] else s;
    IsDecimalNumber(body) || IsSpecialFloat(body)
  }

  /** Every string that parses as an integer is also a float literal, so
      the order of the two attempts decides which one wins. */
  lemma IntegerIsFloatLiteral(s: string, lo: int, hi: int)
    requires ParseInteger(s, lo, hi).Some?
    ensures IsFloatLiteral(s)
  {
    var body := if |s| > 0 && IsSign(s[0]) then s[1..] else s;
    assert forall i :: 0 <= i < |body| ==> body[i] != '.';
    assert IsMantissa(body);
  }

  // ---------------------------------------------------------------------
  // Truncating division

  /** Integer division rounding toward zero, as chrono's `num_seconds`,
      `num_hours` and `num_minutes` do; Dafny's `/` rounds toward negative
      infinity for a positive divisor. */
  function TruncDiv(a: int, d: nat): (q: int)
    requires d > 0
    ensures a >= 0 ==> 0 <= q && q * d <= a < (q + 1) * d
    ensures a < 0 ==> q <= 0 && (q - 1) * d < a <= q * d
  {
    if a >= 0 then a / d else -((-a) / d)
  }

  /** A whole-unit difference exceeds `k` exactly when the raw difference
      reaches `k + 1` units. */
  lemma TruncDivGreater(a: int, d: nat, k: nat)
    requires d > 0
    ensures TruncDiv(a, d) > k <==> a >= (k + 1) * d
  {
  }
}

=== FILE: ordering.dfy ===
/** The order on strings that both Rust's `String: Ord` and SQLite's BINARY
    collation use. Both compare UTF-8 bytes, and comparing UTF-8 bytes
    lexicographically is the same as comparing code points
    lexicographically, which is what `Lt` does. */
module Ordering {

  /** `a` sorts strictly before `b`. */
  predicate Lt(a: string, b: string)
  {
    if a == [] then b != []
    else if b == [] then false
    else a[0] < b[0] || (a[0] == b[0] && Lt(a[1..], b[1..]))
  }

  predicate Le(a: string, b: string)
  {
    a == b || Lt(a, b)
  }

  lemma {:induction false} LtIrreflexive(a: string)
    ensures !Lt(a, a)
  {
    if a != [] {
      LtIrreflexive(a[1..]);
    }
  }

  lemma {:induction false} LtTransitive(a: string, b: string, c: string)
    requires Lt(a, b) && Lt(b, c)
    ensures Lt(a, c)
  {
    if a != [] && a[0] == b[0] && b[0] == c[0] {
      LtTransitive(a[1..], b[1..], c[1..]);
    }
  }

  lemma {:induction false} LtTrichotomy(a: string, b: string)
    ensures Lt(a, b) || a == b || Lt(b, a)
  {
    if a != [] && b != [] && a[0] == b[0] {
      LtTrichotomy(a[1..], b[1..]);
      if a[1..] == b[1..] {
        assert a == [a[0]] + a[1..] && b == [b[0]] + b[1..];
      }
    }
  }

  lemma LtAsymmetric(a: string, b: string)
    requires Lt(a, b)
    ensures !Lt(b, a)
  {
    if Lt(b, a) {
      LtTransitive(a, b, a);
      LtIrreflexive(a);
    }
  }

  lemma LeTotal(a: string, b: string)
    ensures Le(a, b) || Le(b, a)
  {
    LtTrichotomy(a, b);
  }

  lemma LeTransitive(a: string, b: string, c: string)
    requires Le(a, b) && Le(b, c)
    ensures Le(a, c)
  {
    if Lt(a, b) && Lt(b, c) {
      LtTransitive(a, b, c);
    }
  }

  /** Each name is strictly smaller than the next: sorted and free of
      duplicates, as the result of a GROUP BY ... ORDER BY or of a sort of
      hash-map keys is. */
  predicate StrictlyAscending(s: seq<string>)
  {
    forall i, j :: 0 <= i < j < |s| ==> Lt(s[i], s[j])
  }

  predicate Ascending(s: seq<string>)
  {
    forall i, j :: 0 <= i < j < |s| ==> Le(s[i], s[j])
  }

  lemma StrictlyAscendingDistinct(s: seq<string>)
    requires StrictlyAscending(s)
    ensures forall i, j :: 0 <= i < j < |s| ==> s[i] != s[j]
  {
    forall i, j | 0 <= i < j < |s| ensures s[i] != s[j] {
      LtIrreflexive(s[i]);
    }
  }

  /** `x` inserted at its place in a strictly ascending list. */
  function InsertDistinct(s: seq<string>, x: string): (r: seq<string>)
    requires StrictlyAscending(s)
    requires x !in s
    ensures StrictlyAscending(r)
    ensures |r| == |s| + 1
    ensures forall y :: y in r <==> y == x || y in s
  {
    if s == [] then [x]
    else
      LtTrichotomy(x, s[0]);
      if Lt(x, s[0]) then
        assert forall j :: 0 < j < |s| ==> Lt(x, s[j]) by {
          forall j | 0 < j < |s| ensures Lt(x, s[j]) {
            LtTransitive(x, s[0], s[j]);
          }
        }
        [x] + s
      else
        var rest := InsertDistinct(s[1..], x);
        assert forall y :: y in rest ==> Lt(s[0], y) by {
          forall y | y in rest ensures Lt(s[0], y) {
            if y != x {
              var j :| 0 <= j < |s[1..]| && s[1..][j] == y;
              assert s[j + 1] == y;
            }
          }
        }
        assert s == [s[0]] + s[1..];
        [s[0]] + rest
  }
}

=== FILE: paths.dfy ===
/** Where jfp keeps its configuration and its cache: under `JFP_HOME` when
    that variable is set, otherwise in the platform's directories for the
    application. The variable's value and the platform directories are
    parameters. */
module Paths {
  import opened Wrappers
  import Text

  /** `Path::join` of a directory and a relative or absolute name, as
      displayed on a Unix system: an absolute name replaces the directory,
      and a separator is added only when the directory is non-empty and
      does not already end in one. */
  function JoinPath(dir: string, name: string): (path: string)
    ensures Absolute(name) ==> path == name
    ensures !Absolute(name) ==> |dir| + |name| <= |path| && path[..|dir|] == dir && path[|path| - |name|..] == name
    ensures !Absolute(name) && dir != "" && dir[|dir| - 1] != '/' ==> path == dir + "/" + name
  {
    if Absolute(name) then name
    else if dir == "" || dir[|dir| - 1] == '/' then dir + name
    else dir + "/" + name
  }

  /** A Unix path is absolute when it starts with the separator. */
  predicate Absolute(path: string)
  {
    |path| > 0 && path[0] == '/'
  }

  const CONFIG_SUBDIR: string := ".config"
  const CACHE_SUBDIR: string := ".cache"
  const APP_DIR: string := "jfp"

  /** `config_dir`: `home` is the value of `JFP_HOME` if set, `platform`
      the platform's configuration directory for the application, if any. */
  function ConfigDir(home: Option<string>, platform: Option<string>): (dir: Option<string>)
    ensures home.None? ==> dir == platform
    ensures home.Some? ==> dir.Some? && |home.value| <= |dir.value| && dir.value[..|home.value|] == home.value
  {
    match home
    case Some(h) =>
      var parent := JoinPath(h, CONFIG_SUBDIR);
      assert JoinPath(parent, APP_DIR)[..|parent|][..|h|] == h;
      Some(JoinPath(parent, APP_DIR))
    case None => platform
  }

  /** `cache_dir`, the same choice for the cache. */
  function CacheDir(home: Option<string>, platform: Option<string>): (dir: Option<string>)
    ensures home.None? ==> dir == platform
    ensures home.Some? ==> dir.Some? && |home.value| <= |dir.value| && dir.value[..|home.value|] == home.value
  {
    match home
    case Some(h) =>
      var parent := JoinPath(h, CACHE_SUBDIR);
      assert JoinPath(parent, APP_DIR)[..|parent|][..|h|] == h;
      Some(JoinPath(parent, APP_DIR))
    case None => platform
  }

  /** With `JFP_HOME` set to an ordinary directory `h`, the directories are
      `h/.config/jfp` and `h/.cache/jfp`, whatever the platform says. */
  lemma HomeLayout(h: string, platformConfig: Option<string>, platformCache: Option<string>)
    requires h != "" && h[|h| - 1] != '/'
    ensures ConfigDir(Some(h), platformConfig) == Some(h + "/.config/jfp")
    ensures CacheDir(Some(h), platformCache) == Some(h + "/.cache/jfp")
  {
    var config := JoinPath(h, CONFIG_SUBDIR);
    var cache := JoinPath(h, CACHE_SUBDIR);
    assert config == h + "/" + CONFIG_SUBDIR && config[|config| - 1] == 'g';
    assert cache == h + "/" + CACHE_SUBDIR && cache[|cache| - 1] == 'e';
    assert JoinPath(config, APP_DIR) == config + "/" + APP_DIR == h + "/.config/jfp";
    assert JoinPath(cache, APP_DIR) == cache + "/" + APP_DIR == h + "/.cache/jfp";
  }

  /** The override takes precedence over the platform's directories. */
  lemma OverrideWins(h: string, a: Option<string>, b: Option<string>)
    ensures ConfigDir(Some(h), a) == ConfigDir(Some(h), b)
    ensures CacheDir(Some(h), a) == CacheDir(Some(h), b)
  {
  }

  /** Under the override the two directories differ, whatever `h` is. */
  lemma OverrideDistinct(h: string, a: Option<string>, b: Option<string>)
    ensures ConfigDir(Some(h), a) != CacheDir(Some(h), b)
  {
    var config := JoinPath(h, CONFIG_SUBDIR);
    var cache := JoinPath(h, CACHE_SUBDIR);
    assert |config| == |cache| + 1;
    assert config[|config| - 1] == 'g' && cache[|cache| - 1] == 'e';
    assert |JoinPath(config, APP_DIR)| == |config| + 4;
    assert |JoinPath(cache, APP_DIR)| == |cache| + 4;
  }
}

=== FILE: prompt.dfy ===
/** The prompt record and its helpers: construction, preview, category and
    tag matching, the summary view, and decoding with the field defaults
    serde applies. */
module PromptTypes {
  import opened Wrappers
  import Text

  /** How a template variable is filled; `Text` is the default. */
  datatype VariableType = Text | Multiline | File | Path | Select

  const DEFAULT_VARIABLE_TYPE: VariableType := Text

  datatype PromptVariable = PromptVariable(
    name: string,
    varType: VariableType,
    required: bool,
    description: Option<string>,
    default: Option<string>)

  datatype Prompt = Prompt(
    id: string,
    title: string,
    content: string,
    description: Option<string>,
    category: Option<string>,
    tags: seq<string>,
    variables: seq<PromptVariable>,
    featured: bool,
    version: Option<string>,
    author: Option<string>,
    savedAt: Option<string>,
    isLocal: bool)

  /** `Prompt::new`: the three required fields, every other field empty. */
  function NewPrompt(id: string, title: string, content: string): (p: Prompt)
    ensures p.id == id && p.title == title && p.content == content
    ensures p.description.None? && p.category.None? && p.version.None?
    ensures p.author.None? && p.savedAt.None?
    ensures p.tags == [] && p.variables == []
    ensures !p.featured && !p.isLocal
  {
    Prompt(id, title, content, None, None, [], [], false, None, None, None, false)
  }

  function Take<T>(s: seq<T>, n: nat): seq<T>
  {
    if n <= |s| then s[..n] else s
  }

  /** `Prompt::preview`: the first `n` lines of the content joined by "\n". */
  function Preview(p: Prompt, n: nat): string
  {
    Text.Join(Take(Text.Lines(p.content), n), "\n")
  }

  /** A preview of `n` lines reads back as at most `n` lines. */
  lemma PreviewLineBound(p: Prompt, n: nat)
    ensures |Text.Lines(Preview(p, n))| <= n
  {
    var ls := Text.Lines(p.content);
    Text.LinesHaveNoNewline(p.content);
    var t := Take(ls, n);
    assert forall k :: 0 <= k < |t| ==> t[k] == ls[k];
    Text.LinesOfJoinBound(t);
  }

  /** A content that already has at most `n` lines, each without a carriage
      return at its end, is its own preview. */
  lemma PreviewOfShortContent(p: Prompt, n: nat, ls: seq<string>)
    requires p.content == Text.Join(ls, "\n")
    requires |ls| <= n
    requires forall k :: 0 <= k < |ls| ==> Text.SingleLine(ls[k])
    requires |ls| > 0 ==> ls[|ls| - 1] != ""
    ensures Preview(p, n) == p.content
  {
    JoinedLines(ls);
    assert Text.Lines(p.content) == ls;
    assert Take(ls, n) == ls;
  }

  lemma {:induction false} JoinedLines(ls: seq<string>)
    requires forall k :: 0 <= k < |ls| ==> Text.SingleLine(ls[k])
    requires |ls| > 0 ==> ls[|ls| - 1] != ""
    ensures Text.Lines(Text.Join(ls, "\n")) == ls
  {
    if |ls| == 1 {
      assert Text.NewlineIndex(ls[0]) == |ls[0]|;
    } else if |ls| > 1 {
      var l := ls[0];
      var s := Text.Join(ls, "\n");
      assert s == l + "\n" + Text.Join(ls[1..], "\n");
      assert s[|l|] == '\n';
      assert forall k :: 0 <= k < |l| ==> s[k] == l[k];
      assert Text.NewlineIndex(s) == |l|;
      assert s[..|l|] == l;
      assert s[|l| + 1..] == Text.Join(ls[1..], "\n");
      JoinedLines(ls[1..]);
    }
  }

  /** `Prompt::matches_category`. */
  predicate MatchesCategory(p: Prompt, category: string)
  {
    p.category.Some? && Text.EqIgnoreAsciiCase(p.category.value, category)
  }

  /** `Prompt::has_tag`. */
  predicate HasTag(p: Prompt, tag: string)
  {
    exists i :: 0 <= i < |p.tags| && Text.EqIgnoreAsciiCase(p.tags[i], tag)
  }

  /** A category matches exactly when both sides lower-case to the same
      text; a prompt without a category matches nothing. */
  lemma MatchesCategoryLowered(p: Prompt, category: string)
    ensures MatchesCategory(p, category) <==>
      (p.category.Some? && Text.AsciiLowerString(p.category.value) == Text.AsciiLowerString(category))
    ensures p.category.None? ==> !MatchesCategory(p, category)
  {
    if p.category.Some? {
      Text.EqIgnoreAsciiCaseOfLowered(p.category.value, category);
    }
  }

  /** A tag matches exactly when one of the prompt's tags lower-cases to the
      same text. */
  lemma HasTagLowered(p: Prompt, tag: string)
    ensures HasTag(p, tag) <==>
      exists i :: 0 <= i < |p.tags| && Text.AsciiLowerString(p.tags[i]) == Text.AsciiLowerString(tag)
  {
    forall i | 0 <= i < |p.tags| {
      Text.EqIgnoreAsciiCaseOfLowered(p.tags[i], tag);
    }
  }

  /** The list view of a prompt. */
  datatype PromptSummary = PromptSummary(
    id: string,
    title: string,
    description: Option<string>,
    category: Option<string>,
    tags: seq<string>,
    featured: bool)

  /** `PromptSummary::from`: the listed fields are copied unchanged. */
  function Summary(p: Prompt): (s: PromptSummary)
    ensures s.id == p.id && s.title == p.title
    ensures s.description == p.description && s.category == p.category
    ensures s.tags == p.tags && s.featured == p.featured
  {
    PromptSummary(p.id, p.title, p.description, p.category, p.tags, p.featured)
  }

  // ---------------------------------------------------------------------
  // Decoding with serde defaults

  /** The lowercase wire name of a variable type. */
  function VariableTypeName(t: VariableType): (s: string)
    ensures |s| > 0
  {
    match t
    case Text => "text"
    case Multiline => "multiline"
    case File => "file"
    case Path => "path"
    case Select => "select"
  }

  /** serde's reading of a variable type: only the lowercase names. */
  function VariableTypeOfName(s: string): (r: Option<VariableType>)
    ensures r.Some? ==> VariableTypeName(r.value) == s
  {
    if s == "text" then Some(Text)
    else if s == "multiline" then Some(Multiline)
    else if s == "file" then Some(File)
    else if s == "path" then Some(Path)
    else if s == "select" then Some(Select)
    else None
  }

  lemma VariableTypeNameRoundTrip(t: VariableType)
    ensures VariableTypeOfName(VariableTypeName(t)) == Some(t)
  {
  }

  /** A decoded JSON object for a variable: each field as found, `None`
      when absent. */
  datatype VariableFields = VariableFields(
    name: Option<string>,
    varType: Option<string>,
    required: Option<bool>,
    description: Option<string>,
    default: Option<string>)

  /** A decoded JSON object for a prompt. */
  datatype PromptFields = PromptFields(
    id: Option<string>,
    title: Option<string>,
    content: Option<string>,
    description: Option<string>,
    category: Option<string>,
    tags: Option<seq<string>>,
    variables: Option<seq<VariableFields>>,
    featured: Option<bool>,
    version: Option<string>,
    author: Option<string>,
    savedAt: Option<string>,
    isLocal: Option<bool>)

  /** Deserialising a variable: `name` is required, a present `type` must be
      a known name, and the other fields fall back to their defaults. */
  function DecodeVariable(f: VariableFields): (r: Option<PromptVariable>)
    ensures r.Some? <==> f.name.Some? && (f.varType.None? || VariableTypeOfName(f.varType.value).Some?)
    ensures r.Some? ==> r.value.name == f.name.value
    ensures r.Some? && f.varType.None? ==> r.value.varType == DEFAULT_VARIABLE_TYPE
    ensures r.Some? ==> r.value.required == f.required.GetOr(false)
    ensures r.Some? ==> r.value.description == f.description && r.value.default == f.default
  {
    if f.name.None? then None
    else
      var t := if f.varType.None? then Some(DEFAULT_VARIABLE_TYPE) else VariableTypeOfName(f.varType.value);
      if t.None? then None
      else Some(PromptVariable(f.name.value, t.value, f.required.GetOr(false), f.description, f.default))
  }

  function DecodeVariables(fs: seq<VariableFields>): (r: Option<seq<PromptVariable>>)
    ensures r.Some? <==> forall i :: 0 <= i < |fs| ==> DecodeVariable(fs[i]).Some?
    ensures r.Some? ==> |r.value| == |fs| && forall i :: 0 <= i < |fs| ==> r.value[i] == DecodeVariable(fs[i]).value
  {
    if fs == [] then Some([])
    else
      var head := DecodeVariable(fs[0]);
      var tail := DecodeVariables(fs[1..]);
      if head.None? || tail.None? then
        assert head.None? ==> !DecodeVariable(fs[0]).Some?;
        None
      else Some([head.value] + tail.value)
  }

  /** Deserialising a prompt: `id`, `title` and `content` are required;
      every other field takes its default (None, empty, false) when
      absent; a bad variable fails the whole prompt. */
  function DecodePrompt(f: PromptFields): (r: Option<Prompt>)
    ensures r.Some? <==> f.id.Some? && f.title.Some? && f.content.Some?
                         && (f.variables.None? || DecodeVariables(f.variables.value).Some?)
    ensures r.Some? ==> r.value.id == f.id.value && r.value.title == f.title.value
                        && r.value.content == f.content.value
    ensures r.Some? ==> r.value.description == f.description && r.value.category == f.category
                        && r.value.version == f.version && r.value.author == f.author
                        && r.value.savedAt == f.savedAt
    ensures r.Some? ==> r.value.tags == f.tags.GetOr([])
    ensures r.Some? && f.variables.None? ==> r.value.variables == []
    ensures r.Some? && f.variables.Some? ==> r.value.variables == DecodeVariables(f.variables.value).value
    ensures r.Some? ==> r.value.featured == f.featured.GetOr(false) && r.value.isLocal == f.isLocal.GetOr(false)
  {
    if f.id.None? || f.title.None? || f.content.None? then None
    else
      var vars := if f.variables.None? then Some([]) else DecodeVariables(f.variables.value);
      if vars.None? then None
      else Some(Prompt(f.id.value, f.title.value, f.content.value, f.description, f.category,
                       f.tags.GetOr([]), vars.value, f.featured.GetOr(false), f.version,
                       f.author, f.savedAt, f.isLocal.GetOr(false)))
  }

  /** serde's serialisation writes every field. */
  function EncodeVariable(v: PromptVariable): VariableFields
  {
    VariableFields(Some(v.name), Some(VariableTypeName(v.varType)), Some(v.required), v.description, v.default)
  }

  function EncodePrompt(p: Prompt): PromptFields
  {
    PromptFields(Some(p.id), Some(p.title), Some(p.content), p.description, p.category, Some(p.tags),
                 Some(seq(|p.variables|, i requires 0 <= i < |p.variables| => EncodeVariable(p.variables[i]))),
                 Some(p.featured), p.version, p.author, p.savedAt, Some(p.isLocal))
  }

  /** Decoding what was encoded gives the prompt back. */
  lemma DecodeEncodePrompt(p: Prompt)
    ensures DecodePrompt(EncodePrompt(p)) == Some(p)
  {
    var fs := EncodePrompt(p).variables.value;
    forall i | 0 <= i < |fs| ensures DecodeVariable(fs[i]) == Some(p.variables[i]) {
      VariableTypeNameRoundTrip(p.variables[i].varType);
    }
    assert DecodeVariables(fs).value == p.variables;
  }

  /** An object holding only the three required fields decodes to the
      prompt `Prompt::new` builds from them. */
  lemma DecodeMinimal(id: string, title: string, content: string)
    ensures DecodePrompt(PromptFields(Some(id), Some(title), Some(content), None, None, None, None,
                                      None, None, None, None, None)) == Some(NewPrompt(id, title, content))
  {
  }
}

=== FILE: queries.dfy ===
/** What each query of the prompt store reads from the tables: a prompt by
    id, the filtered list ordered by title, the grouped category and tag
    counts, the prompt count, the joined full-text results, the meta
    table, and the schema set-up run when the store is opened. */
module Queries {
  import opened Wrappers
  import opened Schema
  import opened PromptTypes
  import opened Store
  import opened Ordering
  import Numbers
  import Counting
  import Text

  // ---------------------------------------------------------------------
  // get_prompt

  /** `get_prompt`: the row with the id, with its tags and its variables,
      or nothing. */
  function FetchPrompt(t: Tables, id: string): (r: Option<Prompt>)
    ensures r.Some? <==> HasPrompt(t, id)
    ensures r.Some? ==> r.value.id == id
    ensures r.Some? ==> r.value.tags == TagsOf(t.tagRows, id) && r.value.variables == VariablesOf(t.variableRows, id)
  {
    match FindRow(t.prompts, id)
    case None => None
    case Some(row) => Some(PromptOfRow(row, TagsOf(t.tagRows, id), VariablesOf(t.variableRows, id)))
  }

  /** A prompt upserted without a repeated tag reads back as itself. */
  lemma FetchAfterUpsert(t: Tables, p: Prompt)
    requires NoDuplicates(p.tags)
    ensures FetchPrompt(UpsertTables(t, p).tables, p.id) == Some(p)
  {
    UpsertReplaces(t, p);
    PromptOfRowOf(p, Some(Text.Join(p.tags, " ")));
  }

  /** An upsert changes what no other id reads back. */
  lemma FetchAfterUpsertOther(t: Tables, p: Prompt, id: string)
    requires id != p.id
    ensures FetchPrompt(UpsertTables(t, p).tables, id) == FetchPrompt(t, id)
  {
    UpsertOthersUntouched(t, p, id);
  }

  /** A prompt written by the bulk path reads back with its new fields and
      tags but with the variables that were stored before, since that path
      writes no variable rows. */
  lemma FetchAfterBulkStep(t: Tables, p: Prompt)
    requires BulkStep(t, p).ok
    ensures FetchPrompt(BulkStep(t, p).tables, p.id) == Some(p.(variables := VariablesOf(t.variableRows, p.id)))
  {
    BulkStepRow(t, p);
  }

  /** After a delete the prompt is gone together with its tags and
      variables. */
  lemma FetchAfterDelete(t: Tables, id: string)
    ensures FetchPrompt(DeletePrompt(t, id), id).None?
    ensures TagsOf(DeletePrompt(t, id).tagRows, id) == []
    ensures VariablesOf(DeletePrompt(t, id).variableRows, id) == []
  {
    TagsOfWithout(t.tagRows, id, id);
    VariablesOfWithout(t.variableRows, id, id);
  }

  // ---------------------------------------------------------------------
  // list_prompts and list_prompts_filtered

  /** The optional filters of `list_prompts_filtered`. */
  datatype Filter = Filter(category: Option<string>, tag: Option<string>, featuredOnly: bool)

  /** `list_prompts` is the filtered list with no filter. */
  const NO_FILTER: Filter := Filter(None, None, false)

  /** The WHERE clause: every supplied condition, joined by AND. The
      comparisons are SQL `=`, so they are case-sensitive and a NULL
      category matches no category. */
  predicate RowMatches(t: Tables, f: Filter, r: PromptRow)
  {
    && (f.category.Some? ==> r.category == Some(f.category.value))
    && (f.tag.Some? ==> TagRow(r.id, f.tag.value) in t.tagRows)
    && (f.featuredOnly ==> r.featured)
  }

  function FilterRows(t: Tables, f: Filter, rows: seq<PromptRow>): (out: seq<PromptRow>)
    ensures forall r :: r in out <==> r in rows && RowMatches(t, f, r)
    ensures |out| <= |rows|
  {
    if rows == [] then []
    else (if RowMatches(t, f, rows[0]) then [rows[0]] else []) + FilterRows(t, f, rows[1..])
  }

  lemma {:induction false} FilterRowsAll(t: Tables, rows: seq<PromptRow>)
    ensures FilterRows(t, NO_FILTER, rows) == rows
  {
    if rows != [] {
      FilterRowsAll(t, rows[1..]);
      assert rows == [rows[0]] + rows[1..];
    }
  }

  predicate TitleSorted(rows: seq<PromptRow>)
  {
    forall i, j :: 0 <= i < j < |rows| ==> Le(rows[i].title, rows[j].title)
  }

  /** Insertion at the first place whose title is not smaller. */
  function InsertByTitle(rows: seq<PromptRow>, r: PromptRow): (out: seq<PromptRow>)
    ensures multiset(out) == multiset(rows) + multiset{r}
    ensures |out| == |rows| + 1
  {
    if rows == [] then [r]
    else if Le(r.title, rows[0].title) then [r] + rows
    else
      assert rows == [rows[0]] + rows[1..];
      [rows[0]] + InsertByTitle(rows[1..], r)
  }

  /** `ORDER BY title`. SQLite leaves the order of equal titles open; the
      model keeps them in row order. */
  function SortByTitle(rows: seq<PromptRow>): (out: seq<PromptRow>)
    ensures multiset(out) == multiset(rows)
    ensures |out| == |rows|
  {
    if rows == [] then []
    else
      assert rows == [rows[0]] + rows[1..];
      InsertByTitle(SortByTitle(rows[1..]), rows[0])
  }

  /** Whatever the insertion returns is the inserted row or one of the
      rows it was given. */
  lemma InsertByTitleMembers(rows: seq<PromptRow>, r: PromptRow)
    ensures forall y :: y in InsertByTitle(rows, r) ==> y == r || y in rows
  {
    forall y | y in InsertByTitle(rows, r) ensures y == r || y in rows {
      assert y in multiset(InsertByTitle(rows, r));
    }
  }

  lemma PrependSorted(x: PromptRow, rest: seq<PromptRow>)
    requires TitleSorted(rest)
    requires forall y :: y in rest ==> Le(x.title, y.title)
    ensures TitleSorted([x] + rest)
  {
    var out := [x] + rest;
    forall i, j | 0 <= i < j < |out| ensures Le(out[i].title, out[j].title) {
      assert out[j] == rest[j - 1];
      if i == 0 {
        assert rest[j - 1] in rest;
      } else {
        assert out[i] == rest[i - 1];
      }
    }
  }

  lemma {:induction false} InsertByTitleSorted(rows: seq<PromptRow>, r: PromptRow)
    requires TitleSorted(rows)
    ensures TitleSorted(InsertByTitle(rows, r))
  {
    if rows == [] {
    } else if Le(r.title, rows[0].title) {
      forall y | y in rows ensures Le(r.title, y.title) {
        var k :| 0 <= k < |rows| && rows[k] == y;
        if k > 0 {
          LeTransitive(r.title, rows[0].title, y.title);
        }
      }
      PrependSorted(r, rows);
    } else {
      var rest := InsertByTitle(rows[1..], r);
      assert TitleSorted(rows[1..]) by {
        forall i, j | 0 <= i < j < |rows[1..]| ensures Le(rows[1..][i].title, rows[1..][j].title) {
          assert rows[1..][i] == rows[i + 1] && rows[1..][j] == rows[j + 1];
        }
      }
      InsertByTitleSorted(rows[1..], r);
      InsertByTitleMembers(rows[1..], r);
      LeTotal(r.title, rows[0].title);
      forall y | y in rest ensures Le(rows[0].title, y.title) {
        if y != r {
          var k :| 0 <= k < |rows[1..]| && rows[1..][k] == y;
          assert rows[k + 1] == y;
        }
      }
      PrependSorted(rows[0], rest);
    }
  }

  lemma {:induction false} SortByTitleSorted(rows: seq<PromptRow>)
    ensures TitleSorted(SortByTitle(rows))
  {
    if rows != [] {
      SortByTitleSorted(rows[1..]);
      InsertByTitleSorted(SortByTitle(rows[1..]), rows[0]);
    }
  }

  /** The rows the filtered query returns, in order. */
  function ListedRows(t: Tables, f: Filter): seq<PromptRow>
  {
    SortByTitle(FilterRows(t, f, t.prompts))
  }

  /** The listed rows are exactly the stored rows that meet every supplied
      filter, each as often as it is stored, ordered by title. */
  lemma ListedRowsFacts(t: Tables, f: Filter)
    ensures forall r :: r in ListedRows(t, f) <==> r in t.prompts && RowMatches(t, f, r)
    ensures multiset(ListedRows(t, f)) == multiset(FilterRows(t, f, t.prompts))
    ensures TitleSorted(ListedRows(t, f))
  {
    SortByTitleSorted(FilterRows(t, f, t.prompts));
    forall r ensures r in ListedRows(t, f) <==> r in FilterRows(t, f, t.prompts) {
      assert r in ListedRows(t, f) <==> r in multiset(ListedRows(t, f));
      assert r in FilterRows(t, f, t.prompts) <==> r in multiset(FilterRows(t, f, t.prompts));
    }
  }

  /** `list_prompts_filtered`: each listed row with its tags loaded; the
      query does not load variables, so every listed prompt has none. */
  function ListPromptsFiltered(t: Tables, f: Filter): (ps: seq<Prompt>)
    ensures |ps| == |ListedRows(t, f)|
    ensures forall i :: 0 <= i < |ps| ==> ps[i].id == ListedRows(t, f)[i].id && ps[i].variables == []
  {
    var rows := ListedRows(t, f);
    seq(|rows|, i requires 0 <= i < |rows| => PromptOfRow(rows[i], TagsOf(t.tagRows, rows[i].id), []))
  }

  /** `list_prompts`. */
  function ListPrompts(t: Tables): seq<Prompt>
  {
    ListPromptsFiltered(t, NO_FILTER)
  }

  /** The filter's AND semantics on the listed prompts: every listed prompt
      has the requested category, carries the requested tag and is
      featured when asked, its tags are its stored tags, and titles
      ascend; and every stored prompt meeting all the filters is listed. */
  lemma ListPromptsFilteredFacts(t: Tables, f: Filter)
    ensures forall p :: p in ListPromptsFiltered(t, f) ==>
      && (f.category.Some? ==> p.category == Some(f.category.value))
      && (f.tag.Some? ==> f.tag.value in p.tags)
      && (f.featuredOnly ==> p.featured)
      && p.tags == TagsOf(t.tagRows, p.id)
      && p.variables == []
    ensures forall r :: r in t.prompts && RowMatches(t, f, r) ==>
      PromptOfRow(r, TagsOf(t.tagRows, r.id), []) in ListPromptsFiltered(t, f)
    ensures forall i, j :: 0 <= i < j < |ListPromptsFiltered(t, f)| ==>
      Le(ListPromptsFiltered(t, f)[i].title, ListPromptsFiltered(t, f)[j].title)
  {
    var rows := ListedRows(t, f);
    var ps := ListPromptsFiltered(t, f);
    forall p | p in ps
      ensures && (f.category.Some? ==> p.category == Some(f.category.value))
              && (f.tag.Some? ==> f.tag.value in p.tags)
              && (f.featuredOnly ==> p.featured)
              && p.tags == TagsOf(t.tagRows, p.id)
              && p.variables == []
    {
      var i :| 0 <= i < |ps| && ps[i] == p;
      ListedPromptAt(t, f, i);
    }
    ListedMatches(t, f);
    ListedRowsFacts(t, f);
    forall i, j | 0 <= i < j < |ps| ensures Le(ps[i].title, ps[j].title) {
      assert ps[i].title == rows[i].title && ps[j].title == rows[j].title;
    }
  }

  /** Every stored row meeting the filter is listed, read back with its
      tags. */
  lemma ListedMatches(t: Tables, f: Filter)
    ensures forall r :: r in t.prompts && RowMatches(t, f, r) ==>
      PromptOfRow(r, TagsOf(t.tagRows, r.id), []) in ListPromptsFiltered(t, f)
  {
    var rows := ListedRows(t, f);
    var ps := ListPromptsFiltered(t, f);
    ListedRowsFacts(t, f);
    forall r | r in t.prompts && RowMatches(t, f, r)
      ensures PromptOfRow(r, TagsOf(t.tagRows, r.id), []) in ps
    {
      var i :| 0 <= i < |rows| && rows[i] == r;
      assert ps[i] == PromptOfRow(r, TagsOf(t.tagRows, r.id), []);
    }
  }

  /** One listed prompt: the row at its place, read back with its tags,
      meets every filter. */
  lemma ListedPromptAt(t: Tables, f: Filter, i: nat)
    requires i < |ListPromptsFiltered(t, f)|
    ensures var p := ListPromptsFiltered(t, f)[i];
            && (f.category.Some? ==> p.category == Some(f.category.value))
            && (f.tag.Some? ==> f.tag.value in p.tags)
            && (f.featuredOnly ==> p.featured)
            && p.tags == TagsOf(t.tagRows, p.id)
            && p.variables == []
  {
    var rows := ListedRows(t, f);
    var p := ListPromptsFiltered(t, f)[i];
    ListedRowsFacts(t, f);
    assert p == PromptOfRow(rows[i], TagsOf(t.tagRows, rows[i].id), []);
    assert rows[i] in rows;
    if f.tag.Some? {
      TagsOfMember(t.tagRows, p.id, f.tag.value);
    }
  }

  /** The filter on the store compares the category exactly, so whatever
      it admits also passes the case-insensitive `matches_category` of
      the prompt read back. */
  lemma CategoryFilterImpliesMatch(t: Tables, c: string, r: PromptRow)
    requires RowMatches(t, Filter(Some(c), None, false), r)
    ensures MatchesCategory(PromptOfRow(r, TagsOf(t.tagRows, r.id), []), c)
  {
    Text.EqIgnoreAsciiCaseOfLowered(c, c);
  }

  /** The converse fails: a prompt in category "Coding" matches "coding"
      case-insensitively but is not listed for it. */
  lemma CategoryFilterIsCaseSensitive()
    ensures var r := PromptRow("a", "A", "", None, Some("Coding"), None, false, None, None, None, false);
            && MatchesCategory(PromptOfRow(r, [], []), "coding")
            && !RowMatches(EMPTY_TABLES, Filter(Some("coding"), None, false), r)
  {
    var r := PromptRow("a", "A", "", None, Some("Coding"), None, false, None, None, None, false);
    assert Text.AsciiLowerString("Coding") == "coding";
    assert Text.AsciiLowerString("coding") == "coding";
    Text.EqIgnoreAsciiCaseOfLowered("Coding", "coding");
    assert Some("Coding") != Some("coding") by {
      assert "Coding"[0] != "coding"[0];
    }
  }

  /** `prompt_count`. */
  function PromptCount(t: Tables): nat
  {
    |t.prompts|
  }

  /** The unfiltered list has one entry per stored prompt. */
  lemma ListPromptsCount(t: Tables)
    ensures |ListPrompts(t)| == PromptCount(t)
  {
    FilterRowsAll(t, t.prompts);
  }

  // ---------------------------------------------------------------------
  // category_counts and tag_counts

  /** The non-NULL categories of the rows, in row order. */
  function Categories(rows: seq<PromptRow>): (cs: seq<string>)
    ensures |cs| <= |rows|
    ensures forall c :: c in cs <==> exists i :: 0 <= i < |rows| && rows[i].category == Some(c)
  {
    if rows == [] then []
    else
      var rest := Categories(rows[1..]);
      assert forall c :: (exists i :: 0 <= i < |rows[1..]| && rows[1..][i].category == Some(c)) <==>
                         (exists i :: 1 <= i < |rows| && rows[i].category == Some(c)) by {
        forall c | exists i :: 1 <= i < |rows| && rows[i].category == Some(c)
          ensures exists i :: 0 <= i < |rows[1..]| && rows[1..][i].category == Some(c)
        {
          var i :| 1 <= i < |rows| && rows[i].category == Some(c);
          assert rows[1..][i - 1] == rows[i];
        }
      }
      (if rows[0].category.Some? then [rows[0].category.value] else []) + rest
  }

  /** The number of rows in category `c`. */
  function RowsInCategory(rows: seq<PromptRow>, c: string): nat
  {
    if rows == [] then 0
    else (if rows[0].category == Some(c) then 1 else 0) + RowsInCategory(rows[1..], c)
  }

  lemma {:induction false} CountCategories(rows: seq<PromptRow>, c: string)
    ensures Counting.Count(Categories(rows), c) == RowsInCategory(rows, c)
  {
    if rows != [] {
      CountCategories(rows[1..], c);
      var head := if rows[0].category.Some? then [rows[0].category.value] else [];
      CountAppend(head, Categories(rows[1..]), c);
    }
  }

  lemma {:induction false} CountAppend(a: seq<string>, b: seq<string>, x: string)
    ensures Counting.Count(a + b, x) == Counting.Count(a, x) + Counting.Count(b, x)
    decreases |b|
  {
    if b == [] {
      assert a + b == a;
    } else {
      assert (a + b)[..|a + b| - 1] == a + b[..|b| - 1];
      CountAppend(a, b[..|b| - 1], x);
    }
  }

  /** `category_counts`: `GROUP BY category ORDER BY category` over the rows
      with a category. */
  function CategoryCounts(t: Tables): seq<Counting.Entry>
  {
    Counting.CountsIn(Counting.ByName, Categories(t.prompts))
  }

  /** One entry per category in use, names strictly ascending, each with
      the number of prompts in that category; prompts without a category
      are not counted, so the counts add up to at most the prompt count. */
  lemma CategoryCountsFacts(t: Tables)
    ensures forall i, j :: 0 <= i < j < |CategoryCounts(t)| ==> Lt(CategoryCounts(t)[i].name, CategoryCounts(t)[j].name)
    ensures forall c :: Counting.HasName(CategoryCounts(t), c) <==> exists i :: 0 <= i < |t.prompts| && t.prompts[i].category == Some(c)
    ensures forall i :: 0 <= i < |CategoryCounts(t)| ==> CategoryCounts(t)[i].count == RowsInCategory(t.prompts, CategoryCounts(t)[i].name)
    ensures Counting.Total(CategoryCounts(t)) <= PromptCount(t)
  {
    var cs := Categories(t.prompts);
    Counting.CountsInFacts(Counting.ByName, cs);
    forall i | 0 <= i < |CategoryCounts(t)|
      ensures CategoryCounts(t)[i].count == RowsInCategory(t.prompts, CategoryCounts(t)[i].name)
    {
      CountCategories(t.prompts, CategoryCounts(t)[i].name);
    }
  }

  /** Every tag of every tag row, in row order. */
  function AllTags(rows: seq<TagRow>): (tags: seq<string>)
    ensures |tags| == |rows|
    ensures forall i :: 0 <= i < |rows| ==> tags[i] == rows[i].tag
  {
    seq(|rows|, i requires 0 <= i < |rows| => rows[i].tag)
  }

  /** `tag_counts`: `GROUP BY tag ORDER BY count DESC, tag`. */
  function TagCounts(t: Tables): seq<Counting.Entry>
  {
    Counting.CountsIn(Counting.ByCountThenName, AllTags(t.tagRows))
  }

  /** One entry per tag in use; a higher count comes first and equal
      counts are ordered by name; each count is the number of tag rows
      with that tag, and the counts add up to the number of tag rows. */
  lemma TagCountsFacts(t: Tables)
    ensures forall i, j :: 0 <= i < j < |TagCounts(t)| ==>
      TagCounts(t)[i].count > TagCounts(t)[j].count
      || (TagCounts(t)[i].count == TagCounts(t)[j].count && Lt(TagCounts(t)[i].name, TagCounts(t)[j].name))
    ensures forall g :: Counting.HasName(TagCounts(t), g) <==> exists i :: 0 <= i < |t.tagRows| && t.tagRows[i].tag == g
    ensures forall i :: 0 <= i < |TagCounts(t)| ==> TagCounts(t)[i].count == Counting.Count(AllTags(t.tagRows), TagCounts(t)[i].name)
    ensures Counting.Total(TagCounts(t)) == |t.tagRows|
  {
    var tags := AllTags(t.tagRows);
    Counting.CountsInFacts(Counting.ByCountThenName, tags);
    forall g ensures (g in tags) <==> exists i :: 0 <= i < |t.tagRows| && t.tagRows[i].tag == g {
      if g in tags {
        var i :| 0 <= i < |tags| && tags[i] == g;
      }
    }
  }

  // ---------------------------------------------------------------------
  // search

  /** A row the full-text index matched, with its bm25 score (lower is
      more relevant). */
  datatype FtsHit = FtsHit(id: string, score: real)

  /** A search result: the prompt and its relevance (higher is better). */
  datatype SearchHit = SearchHit(prompt: Prompt, score: real)

  /** The JOIN with `prompts` on the id: hits whose id has no prompt row
      drop out, the order is kept. */
  function JoinPrompts(t: Tables, hits: seq<FtsHit>): (out: seq<FtsHit>)
    ensures |out| <= |hits|
    ensures forall h :: h in out <==> h in hits && FindRow(t.prompts, h.id).Some?
  {
    if hits == [] then []
    else (if FindRow(t.prompts, hits[0].id).Some? then [hits[0]] else []) + JoinPrompts(t, hits[1..])
  }

  predicate ScoresAscending(hits: seq<FtsHit>)
  {
    forall i, j :: 0 <= i < j < |hits| ==> hits[i].score <= hits[j].score
  }

  lemma {:induction false} JoinKeepsOrder(t: Tables, hits: seq<FtsHit>)
    requires ScoresAscending(hits)
    ensures ScoresAscending(JoinPrompts(t, hits))
  {
    if hits != [] {
      var tail := hits[1..];
      assert ScoresAscending(tail) by {
        forall i, j | 0 <= i < j < |tail| ensures tail[i].score <= tail[j].score {
          assert tail[i] == hits[i + 1] && tail[j] == hits[j + 1];
        }
      }
      JoinKeepsOrder(t, tail);
      var rest := JoinPrompts(t, tail);
      if FindRow(t.prompts, hits[0].id).Some? {
        forall k | 0 <= k < |rest| ensures hits[0].score <= rest[k].score {
          assert rest[k] in tail;
          var m :| 0 <= m < |tail| && tail[m] == rest[k];
          assert hits[m + 1] == rest[k];
        }
        ConsAscending(hits[0], rest);
      }
    }
  }

  lemma ConsAscending(h: FtsHit, rest: seq<FtsHit>)
    requires ScoresAscending(rest)
    requires forall k :: 0 <= k < |rest| ==> h.score <= rest[k].score
    ensures ScoresAscending([h] + rest)
  {
    var out := [h] + rest;
    forall i, j | 0 <= i < j < |out| ensures out[i].score <= out[j].score {
      assert out[j] == rest[j - 1];
      if i > 0 {
        assert out[i] == rest[i - 1];
      }
    }
  }

  function ResultOf(t: Tables, h: FtsHit): SearchHit
    requires FindRow(t.prompts, h.id).Some?
  {
    SearchHit(PromptOfRow(FindRow(t.prompts, h.id).value, TagsOf(t.tagRows, h.id), []), -h.score)
  }

  /** `search`: `hits` are the rows `prompts_fts MATCH query` selects,
      ordered by bm25 score; after the join, `LIMIT` keeps the first
      `limit`; each result gets its tags and the negated score. */
  function Search(t: Tables, hits: seq<FtsHit>, limit: nat): (rs: seq<SearchHit>)
    ensures |rs| <= limit && |rs| <= |hits|
  {
    var joined := Take(JoinPrompts(t, hits), limit);
    seq(|joined|, i requires 0 <= i < |joined| =>
      assert joined[i] in JoinPrompts(t, hits);
      ResultOf(t, joined[i]))
  }

  /** Every result is a stored prompt the index matched, with its tags and
      without variables, scored by the negated bm25 value; when the index
      ranks by ascending bm25 the results come most relevant first. */
  lemma SearchFacts(t: Tables, hits: seq<FtsHit>, limit: nat)
    ensures forall r :: r in Search(t, hits, limit) ==>
      && HasPrompt(t, r.prompt.id)
      && FtsHit(r.prompt.id, -r.score) in hits
      && r.prompt.tags == TagsOf(t.tagRows, r.prompt.id)
      && r.prompt.variables == []
    ensures ScoresAscending(hits) ==> forall i, j :: 0 <= i < j < |Search(t, hits, limit)| ==>
      Search(t, hits, limit)[i].score >= Search(t, hits, limit)[j].score
  {
    var joined := JoinPrompts(t, hits);
    var kept := Take(joined, limit);
    var rs := Search(t, hits, limit);
    assert forall k :: 0 <= k < |kept| ==> kept[k] == joined[k];
    forall r | r in rs
      ensures && HasPrompt(t, r.prompt.id)
              && FtsHit(r.prompt.id, -r.score) in hits
              && r.prompt.tags == TagsOf(t.tagRows, r.prompt.id)
              && r.prompt.variables == []
    {
      var i :| 0 <= i < |rs| && rs[i] == r;
      assert kept[i] in joined;
      assert r.prompt.id == kept[i].id;
      assert FtsHit(r.prompt.id, -r.score) == kept[i];
      var row := FindRow(t.prompts, kept[i].id).value;
      assert row in t.prompts;
    }
    if ScoresAscending(hits) {
      JoinKeepsOrder(t, hits);
      forall i, j | 0 <= i < j < |rs| ensures rs[i].score >= rs[j].score {
        assert kept[i].score <= kept[j].score;
      }
    }
  }

  // ---------------------------------------------------------------------
  // registry_meta

  /** `get_meta`: a missing key is an error (no row), not an empty value. */
  function GetMeta(t: Tables, key: string): (r: Result<string, SqlError>)
    ensures r.Ok? <==> key in t.meta
    ensures r.Err? ==> r.error == NoRows
  {
    if key in t.meta then Ok(t.meta[key]) else Err(NoRows)
  }

  /** A value set is read back, and other keys read as before. */
  lemma GetAfterSet(t: Tables, key: string, value: string, other: string)
    ensures GetMeta(WriteMeta(t, key, value), key) == Ok(value)
    ensures other != key ==> GetMeta(WriteMeta(t, key, value), other) == GetMeta(t, other)
  {
  }

  // ---------------------------------------------------------------------
  // init_schema

  /** The stored schema version: 0 when the meta table or the row is
      missing, or when the text is not an `i32`. */
  function StoredSchemaVersion(t: Tables): (v: int)
    ensures Numbers.I32_MIN <= v <= Numbers.I32_MAX
  {
    if "registry_meta" !in t.objects || "schema_version" !in t.meta then 0
    else Numbers.ParseI32(t.meta["schema_version"]).GetOr(0)
  }

  /** `init_schema`: below the current version, run the schema script and
      record the version. */
  function InitSchemaTables(t: Tables): Result<Tables, SqlError>
  {
    if StoredSchemaVersion(t) < SCHEMA_VERSION then
      match ExecuteBatch(t.objects, CREATE_SCHEMA)
      case Err(e) => Err(e)
      case Ok(objects) => Ok(WriteMeta(t.(objects := objects), "schema_version", Numbers.IntToDecimal(SCHEMA_VERSION)))
    else Ok(t)
  }

  /** The script run on any set of objects succeeds and adds its names. */
  lemma CreateSchemaRuns(objects: set<string>)
    ensures ExecuteBatch(objects, CREATE_SCHEMA) == Ok(objects + Names(CREATE_SCHEMA))
  {
    CreateSchemaGuarded();
    GuardedBatch(objects, CREATE_SCHEMA);
  }

  /** The script creates the meta table. */
  lemma CreateSchemaHasMeta()
    ensures "registry_meta" in Names(CREATE_SCHEMA)
  {
    var stmts := CREATE_SCHEMA;
    assert stmts[5].name == "registry_meta";
    assert stmts[5].name in Names(stmts);
  }

  /** Recording the current version makes the stored version current,
      provided the meta table exists. */
  lemma RecordVersion(t: Tables, objects: set<string>)
    requires "registry_meta" in objects
    ensures StoredSchemaVersion(WriteMeta(t.(objects := objects), "schema_version", Numbers.IntToDecimal(SCHEMA_VERSION))) == SCHEMA_VERSION
  {
    Numbers.ParseI32OfDecimal(SCHEMA_VERSION);
  }

  /** Set-up never fails, because every statement of the script is
      guarded by IF NOT EXISTS; afterwards every schema object exists (or
      the stored version was already current), the stored version is at
      least the current one, and no row of any table has changed. */
  lemma InitSchemaFacts(t: Tables)
    ensures InitSchemaTables(t).Ok?
    ensures StoredSchemaVersion(t) < SCHEMA_VERSION ==>
      InitSchemaTables(t).value.objects == t.objects + Names(CREATE_SCHEMA)
    ensures StoredSchemaVersion(t) < SCHEMA_VERSION ==>
      GetMeta(InitSchemaTables(t).value, "schema_version") == Ok("2")
    ensures StoredSchemaVersion(InitSchemaTables(t).value) >= SCHEMA_VERSION
    ensures InitSchemaTables(t).value.(objects := t.objects, meta := t.meta) == t
  {
    CreateSchemaRuns(t.objects);
    if StoredSchemaVersion(t) < SCHEMA_VERSION {
      CreateSchemaHasMeta();
      RecordVersion(t, t.objects + Names(CREATE_SCHEMA));
      assert Numbers.IntToDecimal(SCHEMA_VERSION) == "2";
    }
  }

  /** Set-up never reports an error. */
  lemma InitSchemaOk(t: Tables)
    ensures InitSchemaTables(t).Ok?
  {
    InitSchemaFacts(t);
  }

  /** Opening the store a second time changes nothing. */
  lemma InitSchemaIdempotent(t: Tables)
    ensures InitSchemaTables(t).Ok? && InitSchemaTables(InitSchemaTables(t).value) == InitSchemaTables(t)
  {
    InitSchemaFacts(t);
  }
}

=== FILE: refresh.dfy ===
/** `jfp refresh`: load the registry through the loader's forced refresh,
    fall back to the bundled prompts when that fails, upsert every prompt
    into the local store one by one, and stamp the time of the sync. */
module RefreshCommand {
  import opened Wrappers
  import opened PromptTypes
  import opened Schema
  import opened Store
  import opened RegistryTypes
  import opened Loader
  import Storage
  import Embedded
  import Queries
  import Numbers
  import opened Upserts

  const LAST_SYNC_KEY: string := "last_sync"

  const STALE_CACHE_MESSAGE: string := "Remote refresh failed; using cached registry"

  const BUNDLED_FALLBACK_PREFIX: string := "Remote refresh failed; loaded bundled prompts instead ("

  /** `RefreshOutput`. */
  datatype RefreshReport = RefreshReport(refreshed: bool, promptCount: nat, source: string, message: Option<string>)

  datatype RunError = DatabaseError

  const BAD_STATUS_PREFIX: string := "Registry request failed with status "

  /** The reason phrase the `http` crate shows after a status code (its
      canonical phrase, or `<unknown status code>`). */
  type ReasonPhrase = nat -> string

  /** A status as `StatusCode` displays it: the code, a space, the phrase. */
  function StatusText(status: nat, phrase: ReasonPhrase): (text: string)
    ensures |text| > 0 && text[0] != ' '
  {
    Numbers.NatToDecimal(status) + " " + phrase(status)
  }

  /** Why a fetch failed, as displayed: the context of the failing step, or
      the message the bad status itself carries. */
  function FetchFailureText(why: FetchFailure, phrase: ReasonPhrase): (text: string)
    ensures |text| > 0
    ensures why.BadStatus? <==> |BAD_STATUS_PREFIX| <= |text| && text[..|BAD_STATUS_PREFIX|] == BAD_STATUS_PREFIX
    ensures why.BadStatus? ==> text[|BAD_STATUS_PREFIX|..] == StatusText(why.status, phrase)
  {
    assert BAD_STATUS_PREFIX[0] == 'R';
    match why
    case ClientBuildFailed => var t := "Failed to build registry HTTP client"; assert t[0] == 'F'; t
    case SendFailed => var t := "Failed to fetch registry"; assert t[0] == 'F'; t
    case BadStatus(status) => BAD_STATUS_PREFIX + StatusText(status, phrase)
    case BadJson => var t := "Failed to parse registry JSON"; assert t[0] == 'F'; t
  }

  /** A loader error as it is displayed: its outermost context, the bad
      status's own message, or the description of an I/O error. */
  function LoaderErrorText(e: LoaderError, phrase: ReasonPhrase): (text: string)
    ensures |text| > 0
    ensures e.Io? ==> text == e.message
    ensures e.FetchFailed? ==> text == FetchFailureText(e.reason, phrase)
  {
    match e
    case CacheUnopenable => "Failed to open registry cache"
    case CacheUnreadable => "Failed to parse registry cache"
    case FetchFailed(why) => FetchFailureText(why, phrase)
    case Io(message) => message
  }

  /** In a run of digits followed by a space, the first space is that one. */
  lemma DigitsThenSpace(d: string, rest: string)
    requires Numbers.AllDigits(d)
    ensures (d + " " + rest)[|d|] == ' '
    ensures forall i :: 0 <= i < |d| ==> (d + " " + rest)[i] != ' '
  {
  }

  /** Two status texts are equal only for the same code. */
  lemma {:induction false} StatusTextInjective(a: nat, b: nat, phrase: ReasonPhrase)
    requires StatusText(a, phrase) == StatusText(b, phrase)
    ensures a == b
  {
    var da, db := Numbers.NatToDecimal(a), Numbers.NatToDecimal(b);
    var t := StatusText(a, phrase);
    DigitsThenSpace(da, phrase(a));
    DigitsThenSpace(db, phrase(b));
    assert |da| == |db|;
    assert da == t[..|da|] == db;
    Numbers.DigitsOfDecimal(a);
    Numbers.DigitsOfDecimal(b);
  }

  /** Each reason for a failed fetch is displayed by a text of its own, and
      a bad status by a text naming that status. */
  lemma FetchFailureTextInjective(x: FetchFailure, y: FetchFailure, phrase: ReasonPhrase)
    requires FetchFailureText(x, phrase) == FetchFailureText(y, phrase)
    ensures x == y
  {
    if x.BadStatus? && y.BadStatus? {
      StatusTextInjective(x.status, y.status, phrase);
    }
  }

  /** Every loader error other than a bare I/O error is told apart by its
      text. */
  lemma LoaderErrorTextInjective(x: LoaderError, y: LoaderError, phrase: ReasonPhrase)
    requires !x.Io? && !y.Io?
    requires LoaderErrorText(x, phrase) == LoaderErrorText(y, phrase)
    ensures x == y
  {
    if x.FetchFailed? && y.FetchFailed? {
      FetchFailureTextInjective(x.reason, y.reason, phrase);
    }
  }

  /** The prompts to store, the source to report and the note to print. */
  datatype Selection = Selection(prompts: seq<Prompt>, source: string, message: Option<string>)

  /** A failed refresh falls back to the bundled prompts with a note naming
      the error; a successful one keeps its prompts and source, with a note
      only when a stale cache stood in for the service. */
  function Select(loaded: Result<LoadResult, LoaderError>, phrase: ReasonPhrase): (s: Selection)
    ensures loaded.Err? ==> s.prompts == Embedded.BundledPrompts() && s.source == "bundled"
                            && s.message == Some(BUNDLED_FALLBACK_PREFIX + LoaderErrorText(loaded.error, phrase) + ")")
    ensures loaded.Ok? ==> s.prompts == loaded.value.registry.prompts && s.source == SourceName(loaded.value.source)
    ensures loaded.Ok? ==> (s.message.Some? <==> loaded.value.source == Cache && loaded.value.stale)
    ensures loaded.Ok? && s.message.Some? ==> s.message.value == STALE_CACHE_MESSAGE
  {
    match loaded
    case Ok(result) =>
      Selection(result.registry.prompts, SourceName(result.source),
                if result.source == Cache && result.stale then Some(STALE_CACHE_MESSAGE) else None)
    case Err(e) =>
      Selection(Embedded.BundledPrompts(), "bundled", Some(BUNDLED_FALLBACK_PREFIX + LoaderErrorText(e, phrase) + ")"))
  }

  /** The store after the command: the upserts, then `last_sync`. */
  function RefreshTables(t: Tables, loaded: Result<LoadResult, LoaderError>, now: string, phrase: ReasonPhrase): (r: Tables)
    ensures LAST_SYNC_KEY in r.meta && r.meta[LAST_SYNC_KEY] == now
    ensures r.prompts == UpsertAll(t, Select(loaded, phrase).prompts).0.prompts
  {
    WriteMeta(UpsertAll(t, Select(loaded, phrase).prompts).0, LAST_SYNC_KEY, now)
  }

  /** The report: the store's count unless reading it fails, then the
      number of successful upserts. */
  function ReportOf(t: Tables, loaded: Result<LoadResult, LoaderError>, now: string, phrase: ReasonPhrase, countFails: bool)
    : (r: RefreshReport)
    ensures r.refreshed
    ensures r.source == Select(loaded, phrase).source && r.message == Select(loaded, phrase).message
    ensures !countFails ==> r.promptCount == Queries.PromptCount(RefreshTables(t, loaded, now, phrase))
    ensures countFails ==> r.promptCount == |Keep(Select(loaded, phrase).prompts, DistinctTags)|
  {
    var s := Select(loaded, phrase);
    var upserted := UpsertAll(t, s.prompts);
    UpsertAllCounts(t, s.prompts);
    var count := if countFails then upserted.1 else Queries.PromptCount(WriteMeta(upserted.0, LAST_SYNC_KEY, now));
    RefreshReport(true, count, s.source, s.message)
  }

  /** A successful refresh leaves every loaded prompt in the store; a
      failed one leaves every bundled prompt there. */
  lemma RefreshStoresSelection(t: Tables, loaded: Result<LoadResult, LoaderError>, now: string, phrase: ReasonPhrase, i: nat)
    requires i < |Select(loaded, phrase).prompts|
    ensures FindRow(RefreshTables(t, loaded, now, phrase).prompts, Select(loaded, phrase).prompts[i].id).Some?
    ensures loaded.Err? ==> FindRow(RefreshTables(t, loaded, now, phrase).prompts, Embedded.BundledPrompts()[i].id).Some?
  {
    UpsertAllRows(t, Select(loaded, phrase).prompts, Select(loaded, phrase).prompts[i].id);
  }

  /** `run`: `db` is null when the store cannot be opened; `disk` says
      which of the loader's cache writes fail; `phrase` is how a status is
      displayed; `countFails` stands for an error reading the prompt count
      back. */
  method Run(db: Storage.Database?, loader: RegistryLoader, service: Service, clock: Clock, disk: DiskFaults,
             phrase: ReasonPhrase, countFails: bool)
    returns (r: Result<RefreshReport, RunError>)
    modifies db, loader
    ensures db == null ==> r == Err(DatabaseError) && loader.Files() == old(loader.Files())
    ensures db != null ==>
              var (loaded, files) := RefreshOf(old(loader.ttl), loader.parseTime, loader.bundled, old(loader.Files()), service, clock, disk);
              loader.Files() == files
              && db.State() == RefreshTables(old(db.State()), loaded, clock.text, phrase)
              && r == Ok(ReportOf(old(db.State()), loaded, clock.text, phrase, countFails))
    ensures db != null ==> r.Ok? && r.value.refreshed
    ensures db != null && old(db.Valid()) ==> db.Valid()
  {
    if db == null {
      return Err(DatabaseError);
    }
    ghost var t0 := db.State();
    var loaded := loader.Refresh(service, clock, disk);
    var selection := Select(loaded, phrase);
    var count := UpsertEach(db, selection.prompts);
    ghost var upserted := db.State();
    db.SetMeta(LAST_SYNC_KEY, clock.text);
    if !countFails {
      count := db.PromptCount();
    }
    r := Ok(RefreshReport(true, count, selection.source, selection.message));
  }
}

=== FILE: registry.dfy ===
/** The registry as delivered by the web service: a list of prompts with
    metadata for cache management, the lookups and filters over it, and
    where a loaded registry came from. */
module RegistryTypes {
  import opened Wrappers
  import opened PromptTypes
  import opened Counting
  import opened Ordering
  import Text

  /** `RegistryMeta`: `fetched_at` is RFC 3339 text. */
  datatype RegistryMeta = RegistryMeta(version: string, etag: Option<string>, fetchedAt: string, promptCount: nat)

  datatype Registry = Registry(prompts: seq<Prompt>, meta: RegistryMeta)

  const INITIAL_VERSION: string := "1.0.0"

  /** `RegistryMeta::new`, with the current time as `now`. */
  function NewMeta(promptCount: nat, now: string): (m: RegistryMeta)
    ensures m.version == INITIAL_VERSION && m.etag.None?
    ensures m.fetchedAt == now && m.promptCount == promptCount
  {
    RegistryMeta(INITIAL_VERSION, None, now, promptCount)
  }

  /** `Registry::new`: the metadata counts the prompts it is given. */
  function NewRegistry(prompts: seq<Prompt>, now: string): (r: Registry)
    ensures r.prompts == prompts
    ensures r.meta.promptCount == |prompts| && r.meta.version == INITIAL_VERSION && r.meta.etag.None?
  {
    Registry(prompts, NewMeta(|prompts|, now))
  }

  /** `Registry::get`: the first prompt with the id. */
  function Get(r: Registry, id: string): (found: Option<Prompt>)
    ensures found.None? <==> forall i :: 0 <= i < |r.prompts| ==> r.prompts[i].id != id
    ensures found.Some? ==> found.value.id == id
    ensures found.Some? ==> exists i :: 0 <= i < |r.prompts| && r.prompts[i] == found.value
                                        && forall j :: 0 <= j < i ==> r.prompts[j].id != id
  {
    FindPrompt(r.prompts, id, 0)
  }

  function FindPrompt(ps: seq<Prompt>, id: string, from: nat): (found: Option<Prompt>)
    requires from <= |ps|
    requires forall j :: 0 <= j < from ==> ps[j].id != id
    ensures found.None? <==> forall i :: 0 <= i < |ps| ==> ps[i].id != id
    ensures found.Some? ==> found.value.id == id
    ensures found.Some? ==> exists i :: from <= i < |ps| && ps[i] == found.value
                                        && forall j :: 0 <= j < i ==> ps[j].id != id
    decreases |ps| - from
  {
    if from == |ps| then None
    else if ps[from].id == id then Some(ps[from])
    else FindPrompt(ps, id, from + 1)
  }

  lemma GetFirst(r: Registry, id: string, i: nat)
    requires i < |r.prompts| && r.prompts[i].id == id
    requires forall j :: 0 <= j < i ==> r.prompts[j].id != id
    ensures Get(r, id) == Some(r.prompts[i])
  {
  }

  // ---------------------------------------------------------------------
  // Order-preserving filters

  /** `iter().filter(keep).collect()`. */
  function Keep(ps: seq<Prompt>, keep: Prompt -> bool): (out: seq<Prompt>)
    ensures |out| <= |ps|
    ensures forall p :: p in out <==> p in ps && keep(p)
  {
    if ps == [] then []
    else (if keep(ps[0]) then [ps[0]] else []) + Keep(ps[1..], keep)
  }

  /** Filtering distributes over concatenation: the kept prompts stay in
      their relative order. */
  lemma {:induction false} KeepAppend(a: seq<Prompt>, b: seq<Prompt>, keep: Prompt -> bool)
    ensures Keep(a + b, keep) == Keep(a, keep) + Keep(b, keep)
  {
    if a == [] {
      assert a + b == b;
    } else {
      assert (a + b)[1..] == a[1..] + b;
      KeepAppend(a[1..], b, keep);
    }
  }

  /** Every prompt that passes is kept, and the filter removes nothing
      else: keeping everything gives the list back. */
  lemma {:induction false} KeepAll(ps: seq<Prompt>, keep: Prompt -> bool)
    requires forall i :: 0 <= i < |ps| ==> keep(ps[i])
    ensures Keep(ps, keep) == ps
  {
    if ps != [] {
      KeepAll(ps[1..], keep);
    }
  }

  function FilterByCategory(r: Registry, category: string): (out: seq<Prompt>)
    ensures forall p :: p in out <==> p in r.prompts && MatchesCategory(p, category)
  {
    Keep(r.prompts, p => MatchesCategory(p, category))
  }

  function FilterByTag(r: Registry, tag: string): (out: seq<Prompt>)
    ensures forall p :: p in out <==> p in r.prompts && HasTag(p, tag)
  {
    Keep(r.prompts, p => HasTag(p, tag))
  }

  function Featured(r: Registry): (out: seq<Prompt>)
    ensures forall p :: p in out <==> p in r.prompts && p.featured
  {
    Keep(r.prompts, (p: Prompt) => p.featured)
  }

  /** The category filter ignores ASCII case. */
  lemma FilterByCategoryIgnoresCase(r: Registry, a: string, b: string)
    requires Text.AsciiLowerString(a) == Text.AsciiLowerString(b)
    ensures FilterByCategory(r, a) == FilterByCategory(r, b)
  {
    forall p ensures MatchesCategory(p, a) == MatchesCategory(p, b) {
      MatchesCategoryLowered(p, a);
      MatchesCategoryLowered(p, b);
    }
    KeepSame(r.prompts, p => MatchesCategory(p, a), p => MatchesCategory(p, b));
  }

  lemma {:induction false} KeepSame(ps: seq<Prompt>, f: Prompt -> bool, g: Prompt -> bool)
    requires forall p :: f(p) == g(p)
    ensures Keep(ps, f) == Keep(ps, g)
  {
    if ps != [] {
      KeepSame(ps[1..], f, g);
    }
  }

  // ---------------------------------------------------------------------
  // Counting

  /** The categories of the prompts that have one, in prompt order. */
  function CategoryNames(ps: seq<Prompt>): (cs: seq<string>)
    ensures |cs| <= |ps|
  {
    if ps == [] then []
    else
      var last := ps[|ps| - 1];
      CategoryNames(ps[..|ps| - 1]) + (if last.category.Some? then [last.category.value] else [])
  }

  /** Every tag of every prompt, in prompt order. */
  function TagNames(ps: seq<Prompt>): seq<string>
  {
    if ps == [] then [] else TagNames(ps[..|ps| - 1]) + ps[|ps| - 1].tags
  }

  /** The categorised prompts are counted, each once. */
  lemma {:induction false} CategoryNamesCount(ps: seq<Prompt>)
    ensures |CategoryNames(ps)| == |Keep(ps, (p: Prompt) => p.category.Some?)|
  {
    if ps != [] {
      var init := ps[..|ps| - 1];
      CategoryNamesCount(init);
      assert ps == init + [ps[|ps| - 1]];
      KeepAppend(init, [ps[|ps| - 1]], (p: Prompt) => p.category.Some?);
    }
  }

  /** One more name for a tally kept in order of first occurrence. */
  lemma TallySnoc(xs: seq<string>, x: string)
    ensures Tally(xs + [x]) == Bump(Tally(xs), x)
  {
    assert (xs + [x])[..|xs|] == xs;
  }

  /** `Registry::categories`: a count per category in a hash map, then the
      pairs sorted by name. The hash map is kept as entries in order of
      first insertion. */
  method Categories(r: Registry) returns (result: seq<Entry>)
    ensures result == CountsIn(ByName, CategoryNames(r.prompts))
    ensures forall i, j :: 0 <= i < j < |result| ==> Lt(result[i].name, result[j].name)
    ensures forall c :: HasName(result, c) <==> exists i :: 0 <= i < |r.prompts| && r.prompts[i].category == Some(c)
    ensures forall i :: 0 <= i < |result| ==> result[i].count == Count(CategoryNames(r.prompts), result[i].name)
    ensures Total(result) == |Keep(r.prompts, (p: Prompt) => p.category.Some?)|
  {
    var counts: seq<Entry> := [];
    var i := 0;
    while i < |r.prompts|
      invariant 0 <= i <= |r.prompts|
      invariant counts == Tally(CategoryNames(r.prompts[..i]))
      decreases |r.prompts| - i
    {
      var p := r.prompts[i];
      assert r.prompts[..i + 1][..i] == r.prompts[..i];
      assert CategoryNames(r.prompts[..i + 1]) ==
        CategoryNames(r.prompts[..i]) + (if p.category.Some? then [p.category.value] else []);
      if p.category.Some? {
        TallySnoc(CategoryNames(r.prompts[..i]), p.category.value);
        counts := Bump(counts, p.category.value);
      } else {
        assert CategoryNames(r.prompts[..i]) + [] == CategoryNames(r.prompts[..i]);
      }
      i := i + 1;
    }
    assert r.prompts[..i] == r.prompts;
    result := Sort(ByName, counts);
    CountsInFacts(ByName, CategoryNames(r.prompts));
    CategoryNamesCount(r.prompts);
    forall c ensures c in CategoryNames(r.prompts) <==> exists i :: 0 <= i < |r.prompts| && r.prompts[i].category == Some(c) {
      CategoryNamesMember(r.prompts, c);
    }
  }

  lemma {:induction false} CategoryNamesMember(ps: seq<Prompt>, c: string)
    ensures c in CategoryNames(ps) <==> exists i :: 0 <= i < |ps| && ps[i].category == Some(c)
  {
    if ps != [] {
      var init := ps[..|ps| - 1];
      CategoryNamesMember(init, c);
      if exists i :: 0 <= i < |init| && init[i].category == Some(c) {
        var i :| 0 <= i < |init| && init[i].category == Some(c);
        assert ps[i] == init[i];
      }
      if exists i :: 0 <= i < |ps| && ps[i].category == Some(c) {
        var i :| 0 <= i < |ps| && ps[i].category == Some(c);
        if i < |init| {
          assert init[i] == ps[i];
        }
      }
    }
  }

  lemma {:induction false} TagNamesMember(ps: seq<Prompt>, g: string)
    ensures g in TagNames(ps) <==> exists i :: 0 <= i < |ps| && g in ps[i].tags
  {
    if ps != [] {
      var init := ps[..|ps| - 1];
      TagNamesMember(init, g);
      if exists i :: 0 <= i < |init| && g in init[i].tags {
        var i :| 0 <= i < |init| && g in init[i].tags;
        assert ps[i] == init[i];
      }
      if exists i :: 0 <= i < |ps| && g in ps[i].tags {
        var i :| 0 <= i < |ps| && g in ps[i].tags;
        if i < |init| {
          assert init[i] == ps[i];
        }
      }
    }
  }

  /** The tag tally the loops of `Registry::tags` build, sorted: counts
      from the largest down, one entry per distinct tag with its number of
      occurrences, adding up to the number of tag occurrences. */
  lemma TagCountsFacts(ps: seq<Prompt>)
    ensures var es := CountsIn(ByCountThenName, TagNames(ps));
      && (forall i, j :: 0 <= i < j < |es| ==> es[i].count >= es[j].count)
      && DistinctNames(es)
      && (forall g :: HasName(es, g) <==> exists i :: 0 <= i < |ps| && g in ps[i].tags)
      && (forall i :: 0 <= i < |es| ==> es[i].count == Count(TagNames(ps), es[i].name))
      && Total(es) == |TagNames(ps)|
  {
    CountsInFacts(ByCountThenName, TagNames(ps));
    forall g ensures g in TagNames(ps) <==> exists i :: 0 <= i < |ps| && g in ps[i].tags {
      TagNamesMember(ps, g);
    }
  }

  /** One prompt's tags counted into the tally. */
  method CountTags(counts: seq<Entry>, tags: seq<string>, ghost before: seq<string>) returns (out: seq<Entry>)
    requires counts == Tally(before)
    ensures out == Tally(before + tags)
  {
    out := counts;
    var j := 0;
    assert before + tags[..0] == before;
    while j < |tags|
      invariant 0 <= j <= |tags|
      invariant out == Tally(before + tags[..j])
      decreases |tags| - j
    {
      TallySnoc(before + tags[..j], tags[j]);
      assert before + tags[..j + 1] == before + tags[..j] + [tags[j]];
      out := Bump(out, tags[j]);
      j := j + 1;
    }
    assert tags[..j] == tags;
  }

  /** `Registry::tags`: a count per tag occurrence in a hash map, then the
      pairs sorted by count from the largest down. Equal counts come out in
      hash-map order, which the program leaves open; the model breaks such
      ties by name, and the contract promises only the count order. */
  method Tags(r: Registry) returns (result: seq<Entry>)
    ensures forall i, j :: 0 <= i < j < |result| ==> result[i].count >= result[j].count
    ensures DistinctNames(result)
    ensures forall g :: HasName(result, g) <==> exists i :: 0 <= i < |r.prompts| && g in r.prompts[i].tags
    ensures forall i :: 0 <= i < |result| ==> result[i].count == Count(TagNames(r.prompts), result[i].name)
    ensures Total(result) == |TagNames(r.prompts)|
  {
    var counts: seq<Entry> := [];
    var i := 0;
    while i < |r.prompts|
      invariant 0 <= i <= |r.prompts|
      invariant counts == Tally(TagNames(r.prompts[..i]))
      decreases |r.prompts| - i
    {
      assert r.prompts[..i + 1][..i] == r.prompts[..i];
      counts := CountTags(counts, r.prompts[i].tags, TagNames(r.prompts[..i]));
      i := i + 1;
    }
    assert r.prompts[..i] == r.prompts;
    result := Sort(ByCountThenName, counts);
    TagCountsFacts(r.prompts);
  }

  // ---------------------------------------------------------------------
  // Load results

  /** `RegistrySource`. */
  datatype RegistrySource = Remote | Cache | Bundled | Local

  /** The serialised, lower-case name of a source. */
  function SourceName(s: RegistrySource): (name: string)
    ensures name in {"remote", "cache", "bundled", "local"}
  {
    match s
    case Remote => "remote"
    case Cache => "cache"
    case Bundled => "bundled"
    case Local => "local"
  }

  lemma SourceNamesDistinct(a: RegistrySource, b: RegistrySource)
    ensures SourceName(a) == SourceName(b) <==> a == b
  {
  }

  /** `RegistryLoadResult`. */
  datatype LoadResult = LoadResult(registry: Registry, source: RegistrySource, stale: bool)
}

=== FILE: render.dfy ===
/** `jfp render`: a prompt's content with its `{{name}}` placeholders
    replaced, from a context file, from the variables' defaults, or from
    answers typed at the terminal. */
module RenderCommand {
  import opened Wrappers
  import opened PromptTypes
  import opened Text
  import Storage
  import Queries
  import Upserts

  // Placeholders

  /** The placeholder standing for variable `name` in a prompt's content. */
  function Placeholder(name: string): (p: string)
    ensures |p| == |name| + 4
    ensures p[..2] == "{{" && p[2..|p| - 2] == name && p[|p| - 2..] == "}}"
  {
    "{{" + name + "}}"
  }

  /** Different variables have different placeholders. */
  lemma PlaceholderInjective(a: string, b: string)
    ensures Placeholder(a) == Placeholder(b) <==> a == b
  {
    if Placeholder(a) == Placeholder(b) {
      assert a == Placeholder(a)[2..|a| + 2];
    }
  }

  /** `FilledVariable`. */
  datatype FilledVariable = FilledVariable(name: string, value: string)

  /** A context file's values: the entries of the map in the order the map
      yields them. A map names each key once (`DistinctKeys`). */
  type Context = seq<(string, string)>

  /** Entries name each key at most once, as those of a map do. */
  predicate DistinctKeys<V>(entries: seq<(string, V)>)
  {
    forall i, j :: 0 <= i < j < |entries| ==> entries[i].0 != entries[j].0
  }

  /** `HashMap::get`. */
  function Lookup(ctx: Context, name: string): (v: Option<string>)
    ensures v.None? <==> forall i :: 0 <= i < |ctx| ==> ctx[i].0 != name
    ensures v.Some? ==> exists i :: 0 <= i < |ctx| && ctx[i] == (name, v.value)
  {
    if ctx == [] then None
    else if ctx[0].0 == name then Some(ctx[0].1)
    else
      var rest := Lookup(ctx[1..], name);
      assert forall i :: 1 <= i < |ctx| ==> ctx[i] == ctx[1..][i - 1];
      rest
  }

  /** Over a map's entries, looking a key up finds that key's entry,
      wherever the map's order puts it. */
  lemma LookupFindsEntry(ctx: Context, i: nat)
    requires DistinctKeys(ctx) && i < |ctx|
    ensures Lookup(ctx, ctx[i].0) == Some(ctx[i].1)
  {
  }

  /** The value a variable takes without asking: the context's, else the
      variable's default, else the empty string. */
  function FillValue(ctx: Context, v: PromptVariable): (value: string)
    ensures Lookup(ctx, v.name).Some? ==> value == Lookup(ctx, v.name).value
    ensures Lookup(ctx, v.name).None? && v.default.Some? ==> value == v.default.value
    ensures Lookup(ctx, v.name).None? && v.default.None? ==> value == ""
  {
    match Lookup(ctx, v.name)
    case Some(c) => c
    case None => if v.default.Some? then v.default.value else ""
  }

  // The fill without a terminal

  /** The content after the variables' placeholders are replaced in order,
      each by its value. */
  function QuietContent(content: string, ctx: Context, vars: seq<PromptVariable>): string
  {
    if vars == [] then content
    else
      var v := vars[|vars| - 1];
      Replace(QuietContent(content, ctx, vars[..|vars| - 1]), Placeholder(v.name), FillValue(ctx, v))
  }

  /** The variables recorded: those whose value is not empty, in order. */
  function QuietFilled(ctx: Context, vars: seq<PromptVariable>): seq<FilledVariable>
  {
    if vars == [] then []
    else
      var v := vars[|vars| - 1];
      var value := FillValue(ctx, v);
      QuietFilled(ctx, vars[..|vars| - 1]) + (if value != "" then [FilledVariable(v.name, value)] else [])
  }

  /** `f` is a variable of `vars` with the non-empty value it is filled with. */
  predicate RecordedFrom(ctx: Context, vars: seq<PromptVariable>, f: FilledVariable)
  {
    f.value != "" && exists i :: 0 <= i < |vars| && f == FilledVariable(vars[i].name, FillValue(ctx, vars[i]))
  }

  /** Exactly the variables with a non-empty value are recorded, each with
      that value. */
  lemma {:induction false} QuietFilledExact(ctx: Context, vars: seq<PromptVariable>)
    ensures |QuietFilled(ctx, vars)| <= |vars|
    ensures forall f :: f in QuietFilled(ctx, vars) <==> RecordedFrom(ctx, vars, f)
  {
    if vars != [] {
      var init := vars[..|vars| - 1];
      var v := vars[|vars| - 1];
      QuietFilledExact(ctx, init);
      forall f ensures f in QuietFilled(ctx, vars) <==> RecordedFrom(ctx, vars, f) {
        if RecordedFrom(ctx, vars, f) {
          var i :| 0 <= i < |vars| && f == FilledVariable(vars[i].name, FillValue(ctx, vars[i]));
          if i < |init| {
            assert init[i] == vars[i];
            assert RecordedFrom(ctx, init, f);
          }
        }
        if RecordedFrom(ctx, init, f) {
          var i :| 0 <= i < |init| && f == FilledVariable(init[i].name, FillValue(ctx, init[i]));
          assert vars[i] == init[i];
        }
      }
    }
  }

  // The fill at a terminal

  /** The line read for the `i`th variable: `None` when reading fails; at
      the end of input the line is empty. */
  function AnswerAt(answers: seq<Option<string>>, i: nat): Option<string>
  {
    if i < |answers| then answers[i] else Some("")
  }

  /** The trimmed answer, or the value taken without asking when the
      answer is blank. */
  function TypedValue(ctx: Context, v: PromptVariable, line: string): (value: string)
    ensures IsBlank(line) ==> value == FillValue(ctx, v)
    ensures !IsBlank(line) ==> value == Trim(line) && value != ""
  {
    TrimEmpty(line);
    if Trim(line) == "" then FillValue(ctx, v) else Trim(line)
  }

  function PromptedContent(content: string, ctx: Context, vars: seq<PromptVariable>, answers: seq<Option<string>>): string
  {
    if vars == [] then content
    else
      var n := |vars| - 1;
      var before := PromptedContent(content, ctx, vars[..n], answers);
      match AnswerAt(answers, n)
      case None => before
      case Some(line) => Replace(before, Placeholder(vars[n].name), TypedValue(ctx, vars[n], line))
  }

  function PromptedFilled(ctx: Context, vars: seq<PromptVariable>, answers: seq<Option<string>>): seq<FilledVariable>
  {
    if vars == [] then []
    else
      var n := |vars| - 1;
      var before := PromptedFilled(ctx, vars[..n], answers);
      match AnswerAt(answers, n)
      case None => before
      case Some(line) => before + [FilledVariable(vars[n].name, TypedValue(ctx, vars[n], line))]
  }

  /** At a terminal every variable whose line was read is recorded, even
      with an empty value; when every read succeeds, the record follows the
      variables one for one. */
  lemma {:induction false} PromptedFilledAll(ctx: Context, vars: seq<PromptVariable>, answers: seq<Option<string>>)
    ensures |PromptedFilled(ctx, vars, answers)| <= |vars|
    ensures (forall i :: 0 <= i < |vars| ==> AnswerAt(answers, i).Some?) ==>
              |PromptedFilled(ctx, vars, answers)| == |vars|
              && forall i :: 0 <= i < |vars| ==> PromptedFilled(ctx, vars, answers)[i].name == vars[i].name
  {
    if vars != [] {
      var n := |vars| - 1;
      PromptedFilledAll(ctx, vars[..n], answers);
      if forall i :: 0 <= i < |vars| ==> AnswerAt(answers, i).Some? {
        assert forall i :: 0 <= i < n ==> vars[..n][i] == vars[i];
      }
    }
  }

  /** `fill_variables`: `quiet` when the output is JSON or standard input
      is not a terminal. Either way a list is returned. */
  method FillVariables(prompt: Prompt, ctx: Context, quiet: bool, answers: seq<Option<string>>)
    returns (content: string, filled: Option<seq<FilledVariable>>)
    ensures quiet ==> content == QuietContent(prompt.content, ctx, prompt.variables)
                      && filled == Some(QuietFilled(ctx, prompt.variables))
    ensures !quiet ==> content == PromptedContent(prompt.content, ctx, prompt.variables, answers)
                       && filled == Some(PromptedFilled(ctx, prompt.variables, answers))
  {
    var list: seq<FilledVariable>;
    if quiet {
      content, list := FillQuietly(prompt.content, ctx, prompt.variables);
    } else {
      content, list := FillPrompted(prompt.content, ctx, prompt.variables, answers);
    }
    filled := Some(list);
  }

  /** The quiet loop: each variable's context value or default, without
      asking. */
  method FillQuietly(text: string, ctx: Context, vars: seq<PromptVariable>)
    returns (content: string, list: seq<FilledVariable>)
    ensures content == QuietContent(text, ctx, vars)
    ensures list == QuietFilled(ctx, vars)
  {
    content := text;
    list := [];
    var i := 0;
    while i < |vars|
      invariant 0 <= i <= |vars|
      invariant content == QuietContent(text, ctx, vars[..i])
      invariant list == QuietFilled(ctx, vars[..i])
      decreases |vars| - i
    {
      assert vars[..i + 1][..i] == vars[..i];
      var v := vars[i];
      var value := FillValue(ctx, v);
      content := Replace(content, Placeholder(v.name), value);
      if value != "" {
        list := list + [FilledVariable(v.name, value)];
      }
      i := i + 1;
    }
    assert vars[..i] == vars;
  }

  /** The prompting loop: one line read per variable. */
  method FillPrompted(text: string, ctx: Context, vars: seq<PromptVariable>, answers: seq<Option<string>>)
    returns (content: string, list: seq<FilledVariable>)
    ensures content == PromptedContent(text, ctx, vars, answers)
    ensures list == PromptedFilled(ctx, vars, answers)
  {
    content := text;
    list := [];
    var i := 0;
    while i < |vars|
      invariant 0 <= i <= |vars|
      invariant content == PromptedContent(text, ctx, vars[..i], answers)
      invariant list == PromptedFilled(ctx, vars[..i], answers)
      decreases |vars| - i
    {
      assert vars[..i + 1][..i] == vars[..i];
      var line := AnswerAt(answers, i);
      if line.Some? {
        var value := TypedValue(ctx, vars[i], line.value);
        content := Replace(content, Placeholder(vars[i].name), value);
        list := list + [FilledVariable(vars[i].name, value)];
      }
      i := i + 1;
    }
    assert vars[..i] == vars;
  }

  // The context without a fill

  /** Each context entry in turn: when its placeholder occurs in the content
      as it stands, every occurrence is replaced and the entry recorded. */
  function ContextApplied(content: string, ctx: Context): (string, seq<FilledVariable>)
  {
    if ctx == [] then (content, [])
    else
      var n := |ctx| - 1;
      var before := ContextApplied(content, ctx[..n]);
      var placeholder := Placeholder(ctx[n].0);
      if Contains(before.0, placeholder) then
        (Replace(before.0, placeholder, ctx[n].1), before.1 + [FilledVariable(ctx[n].0, ctx[n].1)])
      else before
  }

  /** Every recorded pair is an entry of the context. */
  lemma {:induction false} ContextRecordsEntries(content: string, ctx: Context)
    ensures |ContextApplied(content, ctx).1| <= |ctx|
    ensures forall f :: f in ContextApplied(content, ctx).1 ==> (f.name, f.value) in ctx
  {
    if ctx != [] {
      var n := |ctx| - 1;
      ContextRecordsEntries(content, ctx[..n]);
      assert forall e :: e in ctx[..n] ==> e in ctx;
    }
  }

  /** When no entry's placeholder occurs in the content, the content comes
      back unchanged and nothing is recorded. */
  lemma {:induction false} ContextWithoutPlaceholders(content: string, ctx: Context)
    requires forall i :: 0 <= i < |ctx| ==> !Contains(content, Placeholder(ctx[i].0))
    ensures ContextApplied(content, ctx) == (content, [])
  {
    if ctx != [] {
      var n := |ctx| - 1;
      assert forall i :: 0 <= i < n ==> ctx[..n][i] == ctx[i];
      ContextWithoutPlaceholders(content, ctx[..n]);
    }
  }

  /** An entry whose placeholder occurs is replaced everywhere: the result
      is the content split at the placeholder and joined with the value. */
  lemma ContextReplacesAll(content: string, name: string, value: string)
    requires Contains(content, Placeholder(name))
    ensures ContextApplied(content, [(name, value)]).0 == Join(Split(content, Placeholder(name)), value)
    ensures ContextApplied(content, [(name, value)]).1 == [FilledVariable(name, value)]
  {
    assert [(name, value)][..0] == [];
    ReplaceIsSplitJoin(content, Placeholder(name), value);
  }

  /** The context-only branch: `None` when nothing was recorded. */
  method ApplyContext(content: string, ctx: Context) returns (rendered: string, filled: Option<seq<FilledVariable>>)
    ensures rendered == ContextApplied(content, ctx).0
    ensures filled.None? <==> ContextApplied(content, ctx).1 == []
    ensures filled.Some? ==> filled.value == ContextApplied(content, ctx).1
  {
    rendered := content;
    var list: seq<FilledVariable> := [];
    var i := 0;
    while i < |ctx|
      invariant 0 <= i <= |ctx|
      invariant (rendered, list) == ContextApplied(content, ctx[..i])
      decreases |ctx| - i
    {
      assert ctx[..i + 1][..i] == ctx[..i];
      var (name, value) := ctx[i];
      var placeholder := Placeholder(name);
      if Contains(rendered, placeholder) {
        rendered := Replace(rendered, placeholder, value);
        list := list + [FilledVariable(name, value)];
      }
      i := i + 1;
    }
    assert ctx[..i] == ctx;
    filled := if list == [] then None else Some(list);
  }

  // Choosing the branch

  /** The rendered content and the recorded variables for a prompt. */
  function Rendered(prompt: Prompt, fill: bool, ctx: Context, quiet: bool, answers: seq<Option<string>>)
    : (r: (string, Option<seq<FilledVariable>>))
    ensures !(fill && prompt.variables != []) && ctx == [] ==> r == (prompt.content, None)
    ensures fill && prompt.variables != [] ==> r.1.Some?
  {
    if fill && prompt.variables != [] then
      if quiet then (QuietContent(prompt.content, ctx, prompt.variables), Some(QuietFilled(ctx, prompt.variables)))
      else (PromptedContent(prompt.content, ctx, prompt.variables, answers), Some(PromptedFilled(ctx, prompt.variables, answers)))
    else if ctx != [] then
      var applied := ContextApplied(content := prompt.content, ctx := ctx);
      (applied.0, if applied.1 == [] then None else Some(applied.1))
    else (prompt.content, None)
  }

  method Process(prompt: Prompt, fill: bool, ctx: Context, quiet: bool, answers: seq<Option<string>>)
    returns (rendered: string, filled: Option<seq<FilledVariable>>)
    ensures (rendered, filled) == Rendered(prompt, fill, ctx, quiet, answers)
  {
    if fill && prompt.variables != [] {
      rendered, filled := FillVariables(prompt, ctx, quiet, answers);
    } else if ctx != [] {
      rendered, filled := ApplyContext(prompt.content, ctx);
    } else {
      rendered, filled := prompt.content, None;
    }
  }

  // Context files

  /** A value read from a context file: a string, or anything else with
      its own serialisation. */
  datatype ContextValue = StringValue(s: string) | OtherValue(serialised: string)

  /** `value_to_string` and `toml_value_to_string`: strings are passed
      through without quotes. */
  function ValueToString(v: ContextValue): (s: string)
    ensures v.StringValue? ==> s == v.s
    ensures v.OtherValue? ==> s == v.serialised
  {
    match v
    case StringValue(s) => s
    case OtherValue(serialised) => serialised
  }

  function Stringify(entries: seq<(string, ContextValue)>): (ctx: Context)
    ensures |ctx| == |entries|
    ensures forall i :: 0 <= i < |ctx| ==> ctx[i] == (entries[i].0, ValueToString(entries[i].1))
  {
    if entries == [] then [] else [(entries[0].0, ValueToString(entries[0].1))] + Stringify(entries[1..])
  }

  datatype ContextError = ReadFailed | BadJson | BadToml | BadContextFile

  /** The JSON and TOML readers: a map's entries, or `None` when the text
      does not parse. */
  datatype ContextParsers = ContextParsers(
    json: string -> Option<seq<(string, ContextValue)>>,
    toml: string -> Option<seq<(string, ContextValue)>>)

  /** Both readers yield maps, whose keys are distinct. */
  ghost predicate ReadsMaps(parsers: ContextParsers)
  {
    && (forall t :: parsers.json(t).Some? ==> DistinctKeys(parsers.json(t).value))
    && (forall t :: parsers.toml(t).Some? ==> DistinctKeys(parsers.toml(t).value))
  }

  predicate EndsWith(s: string, suffix: string)
  {
    |suffix| <= |s| && s[|s| - |suffix|..] == suffix
  }

  /** `load_context_file`: ".json" is read as JSON only, ".toml" as TOML
      only, anything else as JSON and then as TOML. `text` is the file's
      contents, `None` when it cannot be read. */
  function LoadContextFile(path: string, text: Option<string>, parsers: ContextParsers): (r: Result<Context, ContextError>)
    ensures text.None? ==> r == Err(ReadFailed)
    ensures text.Some? && EndsWith(path, ".json") ==>
              match parsers.json(text.value)
              case Some(entries) => r == Ok(Stringify(entries))
              case None => r == Err(BadJson)
    ensures text.Some? && !EndsWith(path, ".json") && EndsWith(path, ".toml") ==>
              match parsers.toml(text.value)
              case Some(entries) => r == Ok(Stringify(entries))
              case None => r == Err(BadToml)
    ensures text.Some? && !EndsWith(path, ".json") && !EndsWith(path, ".toml") ==>
              (r.Ok? <==> parsers.json(text.value).Some? || parsers.toml(text.value).Some?)
              && (parsers.json(text.value).Some? ==> r == Ok(Stringify(parsers.json(text.value).value)))
              && (r.Err? ==> r.error == BadContextFile)
    ensures ReadsMaps(parsers) && r.Ok? ==> DistinctKeys(r.value)
  {
    match text
    case None => Err(ReadFailed)
    case Some(t) =>
      if EndsWith(path, ".json") then
        match parsers.json(t)
        case Some(entries) => Ok(Stringify(entries))
        case None => Err(BadJson)
      else if EndsWith(path, ".toml") then
        match parsers.toml(t)
        case Some(entries) => Ok(Stringify(entries))
        case None => Err(BadToml)
      else
        match parsers.json(t)
        case Some(entries) => Ok(Stringify(entries))
        case None =>
          match parsers.toml(t)
          case Some(entries) => Ok(Stringify(entries))
          case None => Err(BadContextFile)
  }

  // The command

  /** `RenderOutput`. */
  datatype RenderOutput = RenderOutput(id: string, title: string, rendered: string,
                                       filledVariables: Option<seq<FilledVariable>>)

  datatype RenderError = DatabaseError | NotFound(id: string) | ContextFailed(error: ContextError)

  /** A context file named on the command line: its path and its contents,
      `None` when it cannot be read. */
  datatype ContextFile = ContextFile(path: string, text: Option<string>)

  /** `run`: `db` is null when the store cannot be opened; `stdinIsTty`
      says whether standard input is a terminal, and `answers` are the
      lines typed there. */
  method Run(db: Storage.Database?, id: string, fill: bool, context: Option<ContextFile>, parsers: ContextParsers,
             useJson: bool, stdinIsTty: bool, answers: seq<Option<string>>)
    returns (r: Result<RenderOutput, RenderError>)
    modifies db
    ensures db == null ==> r == Err(DatabaseError)
    ensures db != null ==> db.State() == Upserts.Seeded(old(db.State()))
    ensures db != null ==> (r == Err(NotFound(id)) <==> Queries.FetchPrompt(db.State(), id).None?)
    ensures db != null && Queries.FetchPrompt(db.State(), id).Some? ==>
              var p := Queries.FetchPrompt(db.State(), id).value;
              var loaded := if context.Some? then LoadContextFile(context.value.path, context.value.text, parsers)
                            else Ok([]);
              match loaded
              case Err(e) => r == Err(ContextFailed(e))
              case Ok(ctx) =>
                var (rendered, filled) := Rendered(p, fill, ctx, useJson || !stdinIsTty, answers);
                r == Ok(RenderOutput(p.id, p.title, rendered, filled))
  {
    if db == null {
      return Err(DatabaseError);
    }
    Upserts.SeedIfEmpty(db);
    var found := db.GetPrompt(id);
    if found.None? {
      return Err(NotFound(id));
    }
    var prompt := found.value;
    var ctx: Context := [];
    if context.Some? {
      var loaded := LoadContextFile(context.value.path, context.value.text, parsers);
      if loaded.Err? {
        return Err(ContextFailed(loaded.error));
      }
      ctx := loaded.value;
    }
    var rendered, filled := Process(prompt, fill, ctx, useJson || !stdinIsTty, answers);
    r := Ok(RenderOutput(prompt.id, prompt.title, rendered, filled));
  }
}

=== FILE: schema.dfy ===
/** The store's schema: its version, the statements of the creation
    script with their `IF NOT EXISTS` guards, the rows of each table, and
    the key, foreign-key and cascade rules that SQLite enforces on them. */
module Schema {
  import opened Wrappers

  /** The version the creation script brings a store to. */
  const SCHEMA_VERSION: int := 2

  /** The kinds of object the creation script makes. */
  datatype ObjectKind = Table | VirtualTable | Index

  /** One `CREATE ...` statement of the creation script. */
  datatype CreateStatement = Create(kind: ObjectKind, name: string, ifNotExists: bool)

  /** The creation script, statement by statement, in its order: the six
      tables, the full-text table, then the three indexes. */
  const CREATE_SCHEMA: seq<CreateStatement> := TABLE_STATEMENTS + [FTS_STATEMENT] + INDEX_STATEMENTS

  const TABLE_STATEMENTS: seq<CreateStatement> := [
    Create(Table, "prompts", true),
    Create(Table, "prompt_tags", true),
    Create(Table, "prompt_variables", true),
    Create(Table, "bundles", true),
    Create(Table, "bundle_prompts", true),
    Create(Table, "registry_meta", true)
  ]

  const FTS_STATEMENT: CreateStatement := Create(VirtualTable, "prompts_fts", true)

  const INDEX_STATEMENTS: seq<CreateStatement> := [
    Create(Index, "idx_prompts_category", true),
    Create(Index, "idx_prompts_featured", true),
    Create(Index, "idx_prompt_tags_tag", true)
  ]

  /** The names of the objects a statement list creates. */
  function Names(stmts: seq<CreateStatement>): (names: set<string>)
    ensures forall i :: 0 <= i < |stmts| ==> stmts[i].name in names
    ensures forall n :: n in names ==> exists i :: 0 <= i < |stmts| && stmts[i].name == n
  {
    if stmts == [] then {} else {stmts[0].name} + Names(stmts[1..])
  }

  datatype SqlError = AlreadyExists(name: string) | ConstraintViolation | NoRows

  /** Running one statement against the set of existing objects: an
      existing name is skipped under `IF NOT EXISTS` and an error
      otherwise. */
  function ExecuteStatement(objects: set<string>, s: CreateStatement): Result<set<string>, SqlError>
  {
    if s.name !in objects then Ok(objects + {s.name})
    else if s.ifNotExists then Ok(objects)
    else Err(AlreadyExists(s.name))
  }

  /** `execute_batch`: statements in order, stopping at the first error. */
  function ExecuteBatch(objects: set<string>, stmts: seq<CreateStatement>): Result<set<string>, SqlError>
    decreases |stmts|
  {
    if stmts == [] then Ok(objects)
    else
      match ExecuteStatement(objects, stmts[0])
      case Err(e) => Err(e)
      case Ok(o) => ExecuteBatch(o, stmts[1..])
  }

  predicate AllGuarded(stmts: seq<CreateStatement>)
  {
    forall i :: 0 <= i < |stmts| ==> stmts[i].ifNotExists
  }

  /** A batch of guarded statements never fails, whatever already exists,
      and leaves exactly the old objects plus the named ones. */
  lemma {:induction false} GuardedBatch(objects: set<string>, stmts: seq<CreateStatement>)
    requires AllGuarded(stmts)
    ensures ExecuteBatch(objects, stmts) == Ok(objects + Names(stmts))
    decreases |stmts|
  {
    if stmts != [] {
      var o := ExecuteStatement(objects, stmts[0]).value;
      assert o == objects + {stmts[0].name};
      assert ExecuteStatement(objects, stmts[0]) == Ok(o);
      assert ExecuteBatch(objects, stmts) == ExecuteBatch(o, stmts[1..]);
      assert AllGuarded(stmts[1..]) by {
        forall i | 0 <= i < |stmts[1..]| ensures stmts[1..][i].ifNotExists {
          assert stmts[1..][i] == stmts[i + 1];
        }
      }
      GuardedBatch(o, stmts[1..]);
      assert Names(stmts) == {stmts[0].name} + Names(stmts[1..]);
      assert o + Names(stmts[1..]) == objects + Names(stmts);
    } else {
      assert objects + Names(stmts) == objects;
    }
  }

  lemma CreateSchemaGuarded()
    ensures AllGuarded(CREATE_SCHEMA)
  {
  }

  /** Every statement of the creation script is guarded, so running it a
      second time changes nothing. */
  lemma CreateSchemaIdempotent(objects: set<string>)
    ensures ExecuteBatch(objects, CREATE_SCHEMA).Ok?
    ensures ExecuteBatch(ExecuteBatch(objects, CREATE_SCHEMA).value, CREATE_SCHEMA) == ExecuteBatch(objects, CREATE_SCHEMA)
  {
    CreateSchemaGuarded();
    var names := Names(CREATE_SCHEMA);
    GuardedBatch(objects, CREATE_SCHEMA);
    GuardedBatch(objects + names, CREATE_SCHEMA);
    assert objects + names + names == objects + names;
  }

  // ---------------------------------------------------------------------
  // Rows

  /** A row of `prompts`. `tagsText` is NULL when the row was created by
      the bulk path. The `created_at` and `updated_at` clock columns are
      not modelled. */
  datatype PromptRow = PromptRow(
    id: string,
    title: string,
    content: string,
    description: Option<string>,
    category: Option<string>,
    tagsText: Option<string>,
    featured: bool,
    version: Option<string>,
    author: Option<string>,
    savedAt: Option<string>,
    isLocal: bool)

  /** A row of `prompt_tags`, keyed by the pair. */
  datatype TagRow = TagRow(promptId: string, tag: string)

  /** A row of `prompt_variables`; the type is stored as its text name. */
  datatype VariableRow = VariableRow(
    promptId: string,
    name: string,
    varType: string,
    required: bool,
    description: Option<string>,
    defaultValue: Option<string>)

  /** A row of the standalone full-text table `prompts_fts`. It has no key:
      nothing stops two rows with the same id. */
  datatype FtsRow = FtsRow(
    id: string,
    title: string,
    description: Option<string>,
    content: string,
    tagsText: string)

  /** A row of `bundle_prompts`, keyed by (bundle, prompt). */
  datatype BundlePromptRow = BundlePromptRow(bundleId: string, promptId: string, position: int)

  /** The store's contents. Sequences keep rows in the order they were
      inserted (rowid order); `meta` is `registry_meta`, keyed by `key`. */
  datatype Tables = Tables(
    objects: set<string>,
    prompts: seq<PromptRow>,
    tagRows: seq<TagRow>,
    variableRows: seq<VariableRow>,
    ftsRows: seq<FtsRow>,
    bundleIds: seq<string>,
    bundlePromptRows: seq<BundlePromptRow>,
    meta: map<string, string>)

  const EMPTY_TABLES: Tables := Tables({}, [], [], [], [], [], [], map[])

  predicate HasId(rows: seq<PromptRow>, id: string)
  {
    exists i :: 0 <= i < |rows| && rows[i].id == id
  }

  predicate HasPrompt(t: Tables, id: string)
  {
    HasId(t.prompts, id)
  }

  predicate UniqueIds(rows: seq<PromptRow>)
  {
    forall i, j :: 0 <= i < j < |rows| ==> rows[i].id != rows[j].id
  }

  predicate UniqueTagKeys(rows: seq<TagRow>)
  {
    forall i, j :: 0 <= i < j < |rows| ==> rows[i] != rows[j]
  }

  predicate UniqueBundleKeys(rows: seq<BundlePromptRow>)
  {
    forall i, j :: 0 <= i < j < |rows| ==>
      rows[i].bundleId != rows[j].bundleId || rows[i].promptId != rows[j].promptId
  }

  /** The primary keys and foreign keys of the schema:
      `prompts.id`, `prompt_tags (prompt_id, tag)`, `bundles.id`,
      `bundle_prompts (bundle_id, prompt_id)` are unique, and every child
      row refers to an existing parent. */
  predicate KeysHold(t: Tables)
  {
    RowKeysHold(t.prompts, t.tagRows, t.variableRows, t.bundleIds, t.bundlePromptRows)
  }

  /** The keys are a property of the rows alone: the set of schema objects
      and the meta table play no part. */
  predicate RowKeysHold(prompts: seq<PromptRow>, tagRows: seq<TagRow>, variableRows: seq<VariableRow>,
                        bundleIds: seq<string>, bundlePromptRows: seq<BundlePromptRow>)
  {
    && UniqueIds(prompts)
    && UniqueTagKeys(tagRows)
    && (forall i, j :: 0 <= i < j < |bundleIds| ==> bundleIds[i] != bundleIds[j])
    && UniqueBundleKeys(bundlePromptRows)
    && (forall i :: 0 <= i < |tagRows| ==> HasId(prompts, tagRows[i].promptId))
    && (forall i :: 0 <= i < |variableRows| ==> HasId(prompts, variableRows[i].promptId))
    && (forall i :: 0 <= i < |bundlePromptRows| ==>
          HasId(prompts, bundlePromptRows[i].promptId) && bundlePromptRows[i].bundleId in bundleIds)
  }

  lemma EmptyKeysHold()
    ensures KeysHold(EMPTY_TABLES)
  {
  }

  // ---------------------------------------------------------------------
  // Cascade

  function PromptsWithout(rows: seq<PromptRow>, id: string): (r: seq<PromptRow>)
    ensures forall i :: 0 <= i < |r| ==> r[i].id != id && r[i] in rows
    ensures forall x :: x in rows && x.id != id ==> x in r
  {
    if rows == [] then []
    else (if rows[0].id == id then [] else [rows[0]]) + PromptsWithout(rows[1..], id)
  }

  function TagRowsWithout(rows: seq<TagRow>, id: string): (r: seq<TagRow>)
    ensures forall i :: 0 <= i < |r| ==> r[i].promptId != id && r[i] in rows
    ensures forall x :: x in rows && x.promptId != id ==> x in r
  {
    if rows == [] then []
    else (if rows[0].promptId == id then [] else [rows[0]]) + TagRowsWithout(rows[1..], id)
  }

  function VariableRowsWithout(rows: seq<VariableRow>, id: string): (r: seq<VariableRow>)
    ensures forall i :: 0 <= i < |r| ==> r[i].promptId != id && r[i] in rows
    ensures forall x :: x in rows && x.promptId != id ==> x in r
  {
    if rows == [] then []
    else (if rows[0].promptId == id then [] else [rows[0]]) + VariableRowsWithout(rows[1..], id)
  }

  function BundleRowsWithout(rows: seq<BundlePromptRow>, id: string): (r: seq<BundlePromptRow>)
    ensures forall i :: 0 <= i < |r| ==> r[i].promptId != id && r[i] in rows
    ensures forall x :: x in rows && x.promptId != id ==> x in r
  {
    if rows == [] then []
    else (if rows[0].promptId == id then [] else [rows[0]]) + BundleRowsWithout(rows[1..], id)
  }

  /** Deleting a prompt row: `ON DELETE CASCADE` removes its tag, variable
      and bundle rows with it. The full-text table is standalone and is not
      touched. */
  function DeletePrompt(t: Tables, id: string): (r: Tables)
    ensures r.ftsRows == t.ftsRows && r.meta == t.meta && r.bundleIds == t.bundleIds
  {
    t.(prompts := PromptsWithout(t.prompts, id),
       tagRows := TagRowsWithout(t.tagRows, id),
       variableRows := VariableRowsWithout(t.variableRows, id),
       bundlePromptRows := BundleRowsWithout(t.bundlePromptRows, id))
  }

  lemma {:induction false} FilterKeepsUniqueIds(rows: seq<PromptRow>, id: string)
    requires UniqueIds(rows)
    ensures UniqueIds(PromptsWithout(rows, id))
  {
    if rows != [] {
      var tail := rows[1..];
      assert UniqueIds(tail) by {
        forall i, j | 0 <= i < j < |tail| ensures tail[i].id != tail[j].id {
          assert tail[i] == rows[i + 1] && tail[j] == rows[j + 1];
        }
      }
      FilterKeepsUniqueIds(tail, id);
      var rest := PromptsWithout(tail, id);
      forall k | 0 <= k < |rest| ensures rest[k].id != rows[0].id {
        var m :| 0 <= m < |tail| && tail[m] == rest[k];
        assert rows[m + 1] == rest[k];
      }
    }
  }

  lemma {:induction false} FilterKeepsUniqueTagKeys(rows: seq<TagRow>, id: string)
    requires UniqueTagKeys(rows)
    ensures UniqueTagKeys(TagRowsWithout(rows, id))
  {
    if rows != [] {
      var tail := rows[1..];
      assert UniqueTagKeys(tail) by {
        forall i, j | 0 <= i < j < |tail| ensures tail[i] != tail[j] {
          assert tail[i] == rows[i + 1] && tail[j] == rows[j + 1];
        }
      }
      FilterKeepsUniqueTagKeys(tail, id);
      var rest := TagRowsWithout(tail, id);
      forall k | 0 <= k < |rest| ensures rest[k] != rows[0] {
        var m :| 0 <= m < |tail| && tail[m] == rest[k];
        assert rows[m + 1] == rest[k];
      }
    }
  }

  lemma {:induction false} FilterKeepsUniqueBundleKeys(rows: seq<BundlePromptRow>, id: string)
    requires UniqueBundleKeys(rows)
    ensures UniqueBundleKeys(BundleRowsWithout(rows, id))
  {
    if rows != [] {
      var tail := rows[1..];
      assert UniqueBundleKeys(tail) by {
        forall i, j | 0 <= i < j < |tail|
          ensures tail[i].bundleId != tail[j].bundleId || tail[i].promptId != tail[j].promptId
        {
          assert tail[i] == rows[i + 1] && tail[j] == rows[j + 1];
        }
      }
      FilterKeepsUniqueBundleKeys(tail, id);
      var rest := BundleRowsWithout(tail, id);
      forall k | 0 <= k < |rest|
        ensures rest[k].bundleId != rows[0].bundleId || rest[k].promptId != rows[0].promptId
      {
        var m :| 0 <= m < |tail| && tail[m] == rest[k];
        assert rows[m + 1] == rest[k];
      }
    }
  }

  /** Every id other than the deleted one that had a row still has it. */
  lemma PromptsWithoutKeeps(rows: seq<PromptRow>, id: string, x: string)
    requires HasId(rows, x) && x != id
    ensures HasId(PromptsWithout(rows, id), x)
  {
    var j :| 0 <= j < |rows| && rows[j].id == x;
    assert rows[j] in rows;
    var out := PromptsWithout(rows, id);
    var m :| 0 <= m < |out| && out[m] == rows[j];
  }

  /** After a cascading delete no row refers to the deleted id, the keys
      still hold, and every row of another prompt is kept. */
  lemma DeletePromptCascades(t: Tables, id: string)
    requires KeysHold(t)
    ensures KeysHold(DeletePrompt(t, id))
    ensures !HasPrompt(DeletePrompt(t, id), id)
    ensures forall r :: r in t.tagRows && r.promptId != id ==> r in DeletePrompt(t, id).tagRows
    ensures forall r :: r in t.variableRows && r.promptId != id ==> r in DeletePrompt(t, id).variableRows
    ensures forall r :: r in DeletePrompt(t, id).tagRows ==> r.promptId != id
    ensures forall r :: r in DeletePrompt(t, id).variableRows ==> r.promptId != id
    ensures forall r :: r in DeletePrompt(t, id).bundlePromptRows ==> r.promptId != id
  {
    var d := DeletePrompt(t, id);
    FilterKeepsUniqueIds(t.prompts, id);
    FilterKeepsUniqueTagKeys(t.tagRows, id);
    FilterKeepsUniqueBundleKeys(t.bundlePromptRows, id);
    forall i | 0 <= i < |d.tagRows| ensures HasId(d.prompts, d.tagRows[i].promptId) {
      var k :| 0 <= k < |t.tagRows| && t.tagRows[k] == d.tagRows[i];
      PromptsWithoutKeeps(t.prompts, id, t.tagRows[k].promptId);
    }
    forall i | 0 <= i < |d.variableRows| ensures HasId(d.prompts, d.variableRows[i].promptId) {
      var k :| 0 <= k < |t.variableRows| && t.variableRows[k] == d.variableRows[i];
      PromptsWithoutKeeps(t.prompts, id, t.variableRows[k].promptId);
    }
    forall i | 0 <= i < |d.bundlePromptRows|
      ensures HasId(d.prompts, d.bundlePromptRows[i].promptId) && d.bundlePromptRows[i].bundleId in d.bundleIds
    {
      var k :| 0 <= k < |t.bundlePromptRows| && t.bundlePromptRows[k] == d.bundlePromptRows[i];
      PromptsWithoutKeeps(t.prompts, id, t.bundlePromptRows[k].promptId);
    }
  }

  // ---------------------------------------------------------------------
  // registry_meta

  /** `INSERT OR REPLACE INTO registry_meta`: the key is unique, so the new
      value replaces any old one. */
  function WriteMeta(t: Tables, key: string, value: string): (r: Tables)
    ensures key in r.meta && r.meta[key] == value
    ensures forall k :: k != key ==> (k in r.meta <==> k in t.meta)
    ensures forall k :: k != key && k in t.meta ==> r.meta[k] == t.meta[k]
    ensures r.meta.Keys == t.meta.Keys + {key}
    ensures r.(meta := t.meta) == t
  {
    t.(meta := t.meta[key := value])
  }
}

=== FILE: status.dfy ===
/** `jfp status`: what the local store holds and whether its last sync is
    recent enough, classified from values already read. */
module StatusCommand {
  import opened Wrappers
  import opened Schema
  import Queries
  import Numbers
  import Loader
  import RefreshCommand
  import RegistryTypes

  const MILLIS_PER_HOUR: nat := 3_600_000

  /** `DatabaseStatus`. */
  datatype DatabaseStatus = DatabaseStatus(path: string, fileExists: bool, promptCount: nat, schemaVersion: Option<int>)

  /** `CacheStatus`. */
  datatype CacheStatus = CacheStatus(lastSync: Option<string>, stale: bool, source: string)

  datatype StatusOutput = StatusOutput(database: DatabaseStatus, cache: CacheStatus)

  /** The store as found: no file at the path, a file that does not open,
      or the tables of the opened store. */
  datatype StoreRead = NoFile | OpenFailed | Opened(tables: Tables)

  /** Whole hours elapsed, truncated toward zero, of at least one; a
      missing or unparseable timestamp is stale. `parseSync` is chrono's
      general `DateTime<Utc>` parsing, which accepts RFC 3339 and other
      forms besides, so it is not the loader's parser. */
  function SyncStale(lastSync: Option<string>, parseSync: Loader.TimeParser, now: int): (stale: bool)
    ensures stale <==> lastSync.None? || parseSync(lastSync.value).None?
                       || now - parseSync(lastSync.value).value >= MILLIS_PER_HOUR
  {
    match lastSync
    case None => true
    case Some(ts) =>
      match parseSync(ts)
      case None => true
      case Some(synced) => Numbers.TruncDiv(now - synced, MILLIS_PER_HOUR) >= 1
  }

  /** The value read for `last_sync`, if any. */
  function LastSync(read: StoreRead): (sync: Option<string>)
    ensures sync.Some? <==> read.Opened? && RefreshCommand.LAST_SYNC_KEY in read.tables.meta
    ensures sync.Some? ==> sync.value == read.tables.meta[RefreshCommand.LAST_SYNC_KEY]
  {
    match read
    case Opened(t) =>
      var r := Queries.GetMeta(t, RefreshCommand.LAST_SYNC_KEY);
      if r.Ok? then Some(r.value) else None
    case _ => None
  }

  /** `run`'s output. */
  function Status(path: string, read: StoreRead, parseSync: Loader.TimeParser, now: int): (out: StatusOutput)
    ensures out.database.path == path && out.database.fileExists == !read.NoFile?
    ensures !read.Opened? ==> out.database.promptCount == 0 && out.database.schemaVersion.None?
                              && out.cache.lastSync.None? && out.cache.stale
    ensures read.Opened? ==> out.database.promptCount == Queries.PromptCount(read.tables)
                             && out.database.schemaVersion == Some(SCHEMA_VERSION)
    ensures out.cache.lastSync == LastSync(read)
    ensures out.cache.stale == SyncStale(out.cache.lastSync, parseSync, now)
    ensures out.cache.source == (if read.NoFile? then "bundled" else if out.cache.stale then "local (stale)" else "local")
  {
    var fileExists := !read.NoFile?;
    var count := if read.Opened? then Queries.PromptCount(read.tables) else 0;
    var version := if read.Opened? then Some(SCHEMA_VERSION) else None;
    var sync := LastSync(read);
    var stale := SyncStale(sync, parseSync, now);
    var source := if !fileExists then "bundled" else if stale then "local (stale)" else "local";
    StatusOutput(DatabaseStatus(path, fileExists, count, version), CacheStatus(sync, stale, source))
  }

  /** The command's threshold is "at least an hour", the loader's "more
      than the time-to-live": a sync exactly one hour old is stale here but
      fresh to a loader with the default time-to-live, and whatever the
      loader calls stale, the status calls stale too, unless the timestamp
      is one only the command's more lenient parser reads. Both parsers
      read RFC 3339 text as the same instant. */
  lemma StatusStricterThanLoader(parseRfc3339: Loader.TimeParser, parseSync: Loader.TimeParser,
                                 m: Loader.CacheMeta, now: int)
    requires parseRfc3339(m.fetchedAt).Some? ==> parseSync(m.fetchedAt) == parseRfc3339(m.fetchedAt)
    ensures Loader.IsStale(Loader.DEFAULT_CACHE_TTL, parseRfc3339, m, now)
            && (parseRfc3339(m.fetchedAt).Some? || parseSync(m.fetchedAt).None?)
            ==> SyncStale(Some(m.fetchedAt), parseSync, now)
    ensures parseRfc3339(m.fetchedAt).Some? ==>
              var hourLater := parseRfc3339(m.fetchedAt).value + MILLIS_PER_HOUR;
              SyncStale(Some(m.fetchedAt), parseSync, hourLater)
              && !Loader.IsStale(Loader.DEFAULT_CACHE_TTL, parseRfc3339, m, hourLater)
  {
    Loader.IsStaleIff(Loader.DEFAULT_CACHE_TTL, parseRfc3339, m, now);
    if parseRfc3339(m.fetchedAt).Some? {
      Loader.StaleBoundary(Loader.DEFAULT_CACHE_TTL, parseRfc3339, m, parseRfc3339(m.fetchedAt).value);
    }
  }

  /** Right after `jfp refresh` stamped the store at the same instant, the
      status reports it as local and fresh with the refreshed count. */
  lemma StatusAfterRefresh(path: string, t: Tables, loaded: Result<RegistryTypes.LoadResult, Loader.LoaderError>,
                           parseSync: Loader.TimeParser, clock: Loader.Clock, phrase: RefreshCommand.ReasonPhrase)
    requires parseSync(clock.text) == Some(clock.millis)
    ensures var after := RefreshCommand.RefreshTables(t, loaded, clock.text, phrase);
            var out := Status(path, Opened(after), parseSync, clock.millis);
            out.cache == CacheStatus(Some(clock.text), false, "local")
            && out.database.promptCount == Queries.PromptCount(after)
  {
  }
}

=== FILE: store.dfy ===
/** What each operation of the prompt store does to the tables and what
    each query reads from them, as functions of the table contents. The
    `Database` class runs these step by step; the lemmas here state what
    the operations guarantee. */
module Store {
  import opened Wrappers
  import opened Schema
  import opened PromptTypes
  import Text
  import Numbers
  import opened Ordering
  import Counting

  // ---------------------------------------------------------------------
  // Variable types as stored text

  /** `var_type_to_str`. */
  function VarTypeToStr(t: VariableType): (s: string)
    ensures s == VariableTypeName(t)
  {
    match t
    case Text => "text"
    case Multiline => "multiline"
    case File => "file"
    case Path => "path"
    case Select => "select"
  }

  /** `str_to_var_type`: the four non-default names, and `Text` for any
      other text. */
  function StrToVarType(s: string): VariableType
  {
    if s == "multiline" then Multiline
    else if s == "file" then File
    else if s == "path" then Path
    else if s == "select" then Select
    else Text
  }

  /** Storing a type and reading it back gives the same type. */
  lemma VarTypeRoundTrip(t: VariableType)
    ensures StrToVarType(VarTypeToStr(t)) == t
  {
  }

  /** Reading never fails: text that names no type reads as `Text`, and
      only the five stored names read as what they name. */
  lemma StrToVarTypeTotal(s: string)
    ensures StrToVarType(s) != Text ==> VarTypeToStr(StrToVarType(s)) == s
    ensures (forall t :: VarTypeToStr(t) != s) ==> StrToVarType(s) == Text
  {
  }

  // ---------------------------------------------------------------------
  // Rows written for a prompt

  /** The `tags_text` column: the tags joined by single spaces. */
  function TagsText(p: Prompt): string
  {
    Text.Join(p.tags, " ")
  }

  function RowOf(p: Prompt, tagsText: Option<string>): (r: PromptRow)
    ensures r.id == p.id && r.tagsText == tagsText
  {
    PromptRow(p.id, p.title, p.content, p.description, p.category, tagsText,
              p.featured, p.version, p.author, p.savedAt, p.isLocal)
  }

  /** The prompt a row reads back as, given its tags and variables. */
  function PromptOfRow(r: PromptRow, tags: seq<string>, variables: seq<PromptVariable>): (p: Prompt)
    ensures p.id == r.id && p.tags == tags && p.variables == variables
  {
    Prompt(r.id, r.title, r.content, r.description, r.category, tags, variables,
           r.featured, r.version, r.author, r.savedAt, r.isLocal)
  }

  lemma PromptOfRowOf(p: Prompt, tagsText: Option<string>)
    ensures PromptOfRow(RowOf(p, tagsText), p.tags, p.variables) == p
  {
  }

  /** The first row with the given id. */
  function FindRow(rows: seq<PromptRow>, id: string): (r: Option<PromptRow>)
    ensures r.Some? ==> r.value in rows && r.value.id == id
    ensures r.None? <==> forall i :: 0 <= i < |rows| ==> rows[i].id != id
  {
    if rows == [] then None
    else if rows[0].id == id then Some(rows[0])
    else FindRow(rows[1..], id)
  }

  /** `INSERT ... ON CONFLICT(id) DO UPDATE`: an existing row keeps its
      place and takes the new values, except that `keepTagsText` leaves its
      `tags_text` as it was; a new row goes at the end. */
  function WritePromptRow(rows: seq<PromptRow>, r: PromptRow, keepTagsText: bool): (out: seq<PromptRow>)
    ensures |out| == |rows| || |out| == |rows| + 1
  {
    if rows == [] then [r]
    else if rows[0].id == r.id then [if keepTagsText then r.(tagsText := rows[0].tagsText) else r] + rows[1..]
    else [rows[0]] + WritePromptRow(rows[1..], r, keepTagsText)
  }

  /** The row a write leaves for the written id. */
  function WrittenRow(rows: seq<PromptRow>, r: PromptRow, keepTagsText: bool): PromptRow
  {
    match FindRow(rows, r.id)
    case Some(prev) => if keepTagsText then r.(tagsText := prev.tagsText) else r
    case None => r
  }

  /** After the write the id holds the written row, every other id keeps
      its row, and one row is added exactly when the id was new. */
  lemma {:induction false} WritePromptRowFacts(rows: seq<PromptRow>, r: PromptRow, keepTagsText: bool)
    ensures FindRow(WritePromptRow(rows, r, keepTagsText), r.id) == Some(WrittenRow(rows, r, keepTagsText))
    ensures forall id :: id != r.id ==> FindRow(WritePromptRow(rows, r, keepTagsText), id) == FindRow(rows, id)
    ensures |WritePromptRow(rows, r, keepTagsText)| == |rows| + (if FindRow(rows, r.id).Some? then 0 else 1)
  {
    if rows != [] && rows[0].id != r.id {
      WritePromptRowFacts(rows[1..], r, keepTagsText);
      assert WritePromptRow(rows, r, keepTagsText) == [rows[0]] + WritePromptRow(rows[1..], r, keepTagsText);
    }
  }

  lemma ConsUnique(x: PromptRow, rest: seq<PromptRow>)
    requires UniqueIds(rest)
    requires forall k :: 0 <= k < |rest| ==> rest[k].id != x.id
    ensures UniqueIds([x] + rest)
  {
    var out := [x] + rest;
    forall i, j | 0 <= i < j < |out| ensures out[i].id != out[j].id {
      assert out[j] == rest[j - 1];
      if i > 0 {
        assert out[i] == rest[i - 1];
      }
    }
  }

  lemma TailUnique(rows: seq<PromptRow>)
    requires UniqueIds(rows) && rows != []
    ensures UniqueIds(rows[1..])
    ensures forall k :: 0 <= k < |rows[1..]| ==> rows[1..][k].id != rows[0].id
  {
    var tail := rows[1..];
    forall i, j | 0 <= i < j < |tail| ensures tail[i].id != tail[j].id {
      assert tail[i] == rows[i + 1] && tail[j] == rows[j + 1];
    }
    forall k | 0 <= k < |tail| ensures tail[k].id != rows[0].id {
      assert tail[k] == rows[k + 1];
    }
  }

  /** A write never gives two rows the same id. */
  lemma {:induction false} WritePromptRowUnique(rows: seq<PromptRow>, r: PromptRow, keepTagsText: bool)
    requires UniqueIds(rows)
    ensures UniqueIds(WritePromptRow(rows, r, keepTagsText))
  {
    if rows != [] {
      TailUnique(rows);
      var tail := rows[1..];
      if rows[0].id != r.id {
        WritePromptRowUnique(tail, r, keepTagsText);
        WritePromptRowFacts(tail, r, keepTagsText);
        var rest := WritePromptRow(tail, r, keepTagsText);
        assert FindRow(rest, rows[0].id).None?;
        ConsUnique(rows[0], rest);
      } else {
        var head := if keepTagsText then r.(tagsText := rows[0].tagsText) else r;
        ConsUnique(head, tail);
      }
    }
  }

  /** The ids present after a write are the old ones and the written one. */
  lemma WritePromptRowIds(rows: seq<PromptRow>, r: PromptRow, keepTagsText: bool, id: string)
    ensures FindRow(WritePromptRow(rows, r, keepTagsText), id).Some? <==> id == r.id || FindRow(rows, id).Some?
  {
    WritePromptRowFacts(rows, r, keepTagsText);
  }

  /** Writing the same row twice is the same as writing it once. */
  lemma {:induction false} WritePromptRowTwice(rows: seq<PromptRow>, r: PromptRow, keepTagsText: bool)
    ensures WritePromptRow(WritePromptRow(rows, r, keepTagsText), r, keepTagsText) == WritePromptRow(rows, r, keepTagsText)
  {
    if rows == [] {
    } else if rows[0].id == r.id {
      var out := WritePromptRow(rows, r, keepTagsText);
      assert out[1..] == rows[1..];
    } else {
      WritePromptRowTwice(rows[1..], r, keepTagsText);
      var out := WritePromptRow(rows, r, keepTagsText);
      assert out[1..] == WritePromptRow(rows[1..], r, keepTagsText);
    }
  }

  // ---------------------------------------------------------------------
  // Tag rows

  predicate NoDuplicates(xs: seq<string>)
  {
    forall i, j :: 0 <= i < j < |xs| ==> xs[i] != xs[j]
  }

  lemma NoDuplicatesExtend(tags: seq<string>, k: nat)
    requires k < |tags| && NoDuplicates(tags[..k]) && tags[k] !in tags[..k]
    ensures NoDuplicates(tags[..k + 1])
  {
    var pre := tags[..k + 1];
    assert pre == tags[..k] + [tags[k]];
    forall i, j | 0 <= i < j < |pre| ensures pre[i] != pre[j] {
      if j == k {
        assert pre[i] == tags[..k][i];
      } else {
        assert pre[i] == tags[..k][i] && pre[j] == tags[..k][j];
      }
    }
  }

  /** Length of the longest duplicate-free prefix of `tags` that extends
      `tags[..k]`: the position of the first tag that repeats an earlier
      one, or `|tags|`. */
  function RepeatFrom(tags: seq<string>, k: nat): (n: nat)
    requires k <= |tags|
    ensures k <= n <= |tags|
    decreases |tags| - k
  {
    if k == |tags| then k
    else if tags[k] in tags[..k] then k
    else RepeatFrom(tags, k + 1)
  }

  /** The number of tags inserted before the first duplicate. */
  function FirstRepeat(tags: seq<string>): (n: nat)
    ensures n <= |tags|
  {
    RepeatFrom(tags, 0)
  }

  lemma {:induction false} RepeatFromFacts(tags: seq<string>, k: nat)
    requires k <= |tags| && NoDuplicates(tags[..k])
    ensures NoDuplicates(tags[..RepeatFrom(tags, k)])
    ensures RepeatFrom(tags, k) == |tags| <==> NoDuplicates(tags)
    decreases |tags| - k
  {
    if k == |tags| {
      assert tags[..k] == tags;
    } else if tags[k] in tags[..k] {
      var i :| 0 <= i < k && tags[..k][i] == tags[k];
      assert tags[i] == tags[k];
    } else {
      NoDuplicatesExtend(tags, k);
      RepeatFromFacts(tags, k + 1);
    }
  }

  /** The prompt's tags insert cleanly exactly when none repeats. */
  lemma FirstRepeatFacts(tags: seq<string>)
    ensures NoDuplicates(tags[..FirstRepeat(tags)])
    ensures FirstRepeat(tags) == |tags| <==> NoDuplicates(tags)
  {
    RepeatFromFacts(tags, 0);
  }

  /** The tag rows for a list of tags of one prompt. */
  function TagRowsFor(id: string, tags: seq<string>): (rows: seq<TagRow>)
    ensures |rows| == |tags|
    ensures forall i :: 0 <= i < |tags| ==> rows[i] == TagRow(id, tags[i])
  {
    seq(|tags|, i requires 0 <= i < |tags| => TagRow(id, tags[i]))
  }

  /** The insert loop for tags: each `INSERT INTO prompt_tags` fails when
      the (prompt_id, tag) key is already present, and the first failure
      ends the loop. */
  function InsertTags(rows: seq<TagRow>, id: string, tags: seq<string>): (seq<TagRow>, bool)
    decreases |tags|
  {
    if tags == [] then (rows, true)
    else if TagRow(id, tags[0]) in rows then (rows, false)
    else InsertTags(rows + [TagRow(id, tags[0])], id, tags[1..])
  }

  lemma {:induction false} InsertTagsFrom(base: seq<TagRow>, id: string, tags: seq<string>, k: nat)
    requires k <= |tags| && NoDuplicates(tags[..k])
    requires forall i :: 0 <= i < |base| ==> base[i].promptId != id
    ensures InsertTags(base + TagRowsFor(id, tags[..k]), id, tags[k..])
         == (base + TagRowsFor(id, tags[..RepeatFrom(tags, k)]), RepeatFrom(tags, k) == |tags|)
    decreases |tags| - k
  {
    var rows := base + TagRowsFor(id, tags[..k]);
    if k == |tags| {
      assert tags[k..] == [];
    } else {
      assert tags[k..][0] == tags[k];
      var row := TagRow(id, tags[k]);
      if tags[k] in tags[..k] {
        var i :| 0 <= i < k && tags[..k][i] == tags[k];
        assert rows[|base| + i] == row;
      } else {
        assert rows + [row] == base + TagRowsFor(id, tags[..k + 1]);
        assert tags[k..][1..] == tags[k + 1..];
        NoDuplicatesExtend(tags, k);
        InsertTagsFrom(base, id, tags, k + 1);
      }
    }
  }

  /** Inserting the tags of a prompt whose old tag rows were deleted adds
      the rows of the tags up to the first repeated one, and succeeds
      exactly when no tag repeats. */
  lemma InsertTagsResult(base: seq<TagRow>, id: string, tags: seq<string>)
    requires forall i :: 0 <= i < |base| ==> base[i].promptId != id
    ensures InsertTags(base, id, tags) == (base + TagRowsFor(id, tags[..FirstRepeat(tags)]), NoDuplicates(tags))
  {
    assert tags[..0] == [] && tags[0..] == tags;
    assert base + TagRowsFor(id, []) == base;
    InsertTagsFrom(base, id, tags, 0);
    FirstRepeatFacts(tags);
  }

  /** The tags of a prompt, as its tag rows list them. */
  function TagsOf(rows: seq<TagRow>, id: string): seq<string>
  {
    if rows == [] then []
    else (if rows[0].promptId == id then [rows[0].tag] else []) + TagsOf(rows[1..], id)
  }

  lemma {:induction false} TagsOfAppend(a: seq<TagRow>, b: seq<TagRow>, id: string)
    ensures TagsOf(a + b, id) == TagsOf(a, id) + TagsOf(b, id)
  {
    if a != [] {
      assert (a + b)[1..] == a[1..] + b;
      TagsOfAppend(a[1..], b, id);
    } else {
      assert a + b == b;
    }
  }

  lemma {:induction false} TagsOfWithout(rows: seq<TagRow>, id: string, other: string)
    ensures TagsOf(TagRowsWithout(rows, id), other) == (if other == id then [] else TagsOf(rows, other))
  {
    if rows != [] {
      TagsOfWithout(rows[1..], id, other);
      var w := TagRowsWithout(rows, id);
      var head := if rows[0].promptId == id then [] else [rows[0]];
      assert w == head + TagRowsWithout(rows[1..], id);
      TagsOfAppend(head, TagRowsWithout(rows[1..], id), other);
    }
  }

  lemma {:induction false} TagsOfRowsFor(id: string, tags: seq<string>, other: string)
    ensures TagsOf(TagRowsFor(id, tags), other) == (if other == id then tags else [])
  {
    if tags != [] {
      var rows := TagRowsFor(id, tags);
      assert rows[1..] == TagRowsFor(id, tags[1..]);
      TagsOfRowsFor(id, tags[1..], other);
      assert tags == [tags[0]] + tags[1..];
    }
  }

  lemma {:induction false} TagsOfMember(rows: seq<TagRow>, id: string, tag: string)
    ensures tag in TagsOf(rows, id) <==> TagRow(id, tag) in rows
  {
    if rows != [] {
      TagsOfMember(rows[1..], id, tag);
      assert rows == [rows[0]] + rows[1..];
    }
  }

  // ---------------------------------------------------------------------
  // Variable rows and full-text rows

  function VariableRowOf(id: string, v: PromptVariable): VariableRow
  {
    VariableRow(id, v.name, VarTypeToStr(v.varType), v.required, v.description, v.default)
  }

  function VariableRowsFor(id: string, vars: seq<PromptVariable>): (rows: seq<VariableRow>)
    ensures |rows| == |vars|
    ensures forall i :: 0 <= i < |vars| ==> rows[i] == VariableRowOf(id, vars[i])
  {
    seq(|vars|, i requires 0 <= i < |vars| => VariableRowOf(id, vars[i]))
  }

  /** A variable as `get_prompt_variables` reads it back. */
  function VariableOfRow(r: VariableRow): PromptVariable
  {
    PromptVariable(r.name, StrToVarType(r.varType), r.required, r.description, r.defaultValue)
  }

  /** The variables of a prompt, in row order. */
  function VariablesOf(rows: seq<VariableRow>, id: string): seq<PromptVariable>
  {
    if rows == [] then []
    else (if rows[0].promptId == id then [VariableOfRow(rows[0])] else []) + VariablesOf(rows[1..], id)
  }

  lemma {:induction false} VariablesOfAppend(a: seq<VariableRow>, b: seq<VariableRow>, id: string)
    ensures VariablesOf(a + b, id) == VariablesOf(a, id) + VariablesOf(b, id)
  {
    if a != [] {
      assert (a + b)[1..] == a[1..] + b;
      VariablesOfAppend(a[1..], b, id);
    } else {
      assert a + b == b;
    }
  }

  lemma {:induction false} VariablesOfWithout(rows: seq<VariableRow>, id: string, other: string)
    ensures VariablesOf(VariableRowsWithout(rows, id), other) == (if other == id then [] else VariablesOf(rows, other))
  {
    if rows != [] {
      VariablesOfWithout(rows[1..], id, other);
      var head := if rows[0].promptId == id then [] else [rows[0]];
      assert VariableRowsWithout(rows, id) == head + VariableRowsWithout(rows[1..], id);
      VariablesOfAppend(head, VariableRowsWithout(rows[1..], id), other);
    }
  }

  lemma {:induction false} VariablesOfRowsFor(id: string, vars: seq<PromptVariable>, other: string)
    ensures VariablesOf(VariableRowsFor(id, vars), other) == (if other == id then vars else [])
  {
    if vars != [] {
      var rows := VariableRowsFor(id, vars);
      assert rows[1..] == VariableRowsFor(id, vars[1..]);
      VariablesOfRowsFor(id, vars[1..], other);
      VarTypeRoundTrip(vars[0].varType);
      assert vars == [vars[0]] + vars[1..];
    }
  }

  /** The full-text row `upsert_prompt` writes. */
  function FtsRowOf(p: Prompt): FtsRow
  {
    FtsRow(p.id, p.title, p.description, p.content, TagsText(p))
  }

  function FtsRowsWithout(rows: seq<FtsRow>, id: string): (r: seq<FtsRow>)
    ensures forall i :: 0 <= i < |r| ==> r[i].id != id
  {
    if rows == [] then []
    else (if rows[0].id == id then [] else [rows[0]]) + FtsRowsWithout(rows[1..], id)
  }

  /** The full-text rows that carry a given id. */
  function FtsRowsOf(rows: seq<FtsRow>, id: string): seq<FtsRow>
  {
    if rows == [] then []
    else (if rows[0].id == id then [rows[0]] else []) + FtsRowsOf(rows[1..], id)
  }

  lemma {:induction false} FtsRowsOfAppend(a: seq<FtsRow>, b: seq<FtsRow>, id: string)
    ensures FtsRowsOf(a + b, id) == FtsRowsOf(a, id) + FtsRowsOf(b, id)
  {
    if a != [] {
      assert (a + b)[1..] == a[1..] + b;
      FtsRowsOfAppend(a[1..], b, id);
    } else {
      assert a + b == b;
    }
  }

  lemma {:induction false} FtsRowsOfWithout(rows: seq<FtsRow>, id: string, other: string)
    ensures FtsRowsOf(FtsRowsWithout(rows, id), other) == (if other == id then [] else FtsRowsOf(rows, other))
  {
    if rows != [] {
      FtsRowsOfWithout(rows[1..], id, other);
      var head := if rows[0].id == id then [] else [rows[0]];
      assert FtsRowsWithout(rows, id) == head + FtsRowsWithout(rows[1..], id);
      FtsRowsOfAppend(head, FtsRowsWithout(rows[1..], id), other);
    }
  }

  // ---------------------------------------------------------------------
  // Filters over rows

  lemma {:induction false} TagRowsWithoutAppend(a: seq<TagRow>, b: seq<TagRow>, id: string)
    ensures TagRowsWithout(a + b, id) == TagRowsWithout(a, id) + TagRowsWithout(b, id)
  {
    if a == [] {
      assert a + b == b;
    } else {
      assert (a + b)[1..] == a[1..] + b;
      TagRowsWithoutAppend(a[1..], b, id);
    }
  }

  lemma {:induction false} TagRowsWithoutNone(rows: seq<TagRow>, id: string)
    requires forall i :: 0 <= i < |rows| ==> rows[i].promptId != id
    ensures TagRowsWithout(rows, id) == rows
  {
    if rows != [] {
      TagRowsWithoutNone(rows[1..], id);
      assert rows == [rows[0]] + rows[1..];
    }
  }

  lemma {:induction false} VariableRowsWithoutAppend(a: seq<VariableRow>, b: seq<VariableRow>, id: string)
    ensures VariableRowsWithout(a + b, id) == VariableRowsWithout(a, id) + VariableRowsWithout(b, id)
  {
    if a == [] {
      assert a + b == b;
    } else {
      assert (a + b)[1..] == a[1..] + b;
      VariableRowsWithoutAppend(a[1..], b, id);
    }
  }

  lemma {:induction false} VariableRowsWithoutNone(rows: seq<VariableRow>, id: string)
    requires forall i :: 0 <= i < |rows| ==> rows[i].promptId != id
    ensures VariableRowsWithout(rows, id) == rows
  {
    if rows != [] {
      VariableRowsWithoutNone(rows[1..], id);
      assert rows == [rows[0]] + rows[1..];
    }
  }

  lemma {:induction false} FtsRowsWithoutAppend(a: seq<FtsRow>, b: seq<FtsRow>, id: string)
    ensures FtsRowsWithout(a + b, id) == FtsRowsWithout(a, id) + FtsRowsWithout(b, id)
  {
    if a == [] {
      assert a + b == b;
    } else {
      assert (a + b)[1..] == a[1..] + b;
      FtsRowsWithoutAppend(a[1..], b, id);
    }
  }

  lemma {:induction false} FtsRowsWithoutNone(rows: seq<FtsRow>, id: string)
    requires forall i :: 0 <= i < |rows| ==> rows[i].id != id
    ensures FtsRowsWithout(rows, id) == rows
  {
    if rows != [] {
      FtsRowsWithoutNone(rows[1..], id);
      assert rows == [rows[0]] + rows[1..];
    }
  }

  // ---------------------------------------------------------------------
  // Replacing the tag rows of one prompt

  /** `DELETE FROM prompt_tags WHERE prompt_id = ?` followed by the insert
      loop. The flag is false when an insert hit the key. */
  function ReplaceTags(rows: seq<TagRow>, p: Prompt): (seq<TagRow>, bool)
  {
    InsertTags(TagRowsWithout(rows, p.id), p.id, p.tags)
  }

  /** The replaced tag rows: other prompts' rows untouched and in order,
      then this prompt's tags up to the first repeated one. */
  lemma ReplaceTagsShape(rows: seq<TagRow>, p: Prompt)
    ensures ReplaceTags(rows, p) == (TagRowsWithout(rows, p.id) + TagRowsFor(p.id, p.tags[..FirstRepeat(p.tags)]), NoDuplicates(p.tags))
  {
    InsertTagsResult(TagRowsWithout(rows, p.id), p.id, p.tags);
  }

  /** The tags each prompt holds after a replacement. */
  lemma ReplaceTagsOf(rows: seq<TagRow>, p: Prompt, id: string)
    ensures TagsOf(ReplaceTags(rows, p).0, id) == (if id == p.id then p.tags[..FirstRepeat(p.tags)] else TagsOf(rows, id))
  {
    ReplaceTagsShape(rows, p);
    var w := TagRowsWithout(rows, p.id);
    TagsOfAppend(w, TagRowsFor(p.id, p.tags[..FirstRepeat(p.tags)]), id);
    TagsOfWithout(rows, p.id, id);
    TagsOfRowsFor(p.id, p.tags[..FirstRepeat(p.tags)], id);
  }

  lemma ReplaceTagsUnique(rows: seq<TagRow>, p: Prompt)
    requires UniqueTagKeys(rows)
    ensures UniqueTagKeys(ReplaceTags(rows, p).0)
  {
    ReplaceTagsShape(rows, p);
    FirstRepeatFacts(p.tags);
    FilterKeepsUniqueTagKeys(rows, p.id);
    var w := TagRowsWithout(rows, p.id);
    var pre := p.tags[..FirstRepeat(p.tags)];
    var added := TagRowsFor(p.id, pre);
    var out := w + added;
    forall i, j | 0 <= i < j < |out| ensures out[i] != out[j] {
      if j >= |w| {
        assert out[j] == added[j - |w|];
        if i >= |w| {
          assert out[i] == added[i - |w|];
          assert pre[i - |w|] != pre[j - |w|];
        } else {
          assert out[i] == w[i];
        }
      } else {
        assert out[i] == w[i] && out[j] == w[j];
      }
    }
  }

  /** Every row after a replacement belongs to the replaced prompt or was
      there before. */
  lemma ReplaceTagsOrigin(rows: seq<TagRow>, p: Prompt)
    ensures forall r: TagRow :: r in ReplaceTags(rows, p).0 ==> r.promptId == p.id || r in rows
  {
    ReplaceTagsShape(rows, p);
    var w := TagRowsWithout(rows, p.id);
    var added := TagRowsFor(p.id, p.tags[..FirstRepeat(p.tags)]);
    forall r: TagRow | r in w + added ensures r.promptId == p.id || r in rows {
      if r !in w {
        var k :| 0 <= k < |w + added| && (w + added)[k] == r;
        assert added[k - |w|] == r;
      }
    }
  }

  // ---------------------------------------------------------------------
  // upsert_prompt

  /** The tables after an operation, and whether it reported success. */
  datatype Outcome = Outcome(tables: Tables, ok: bool)

  /** `upsert_prompt`, statement by statement and without a transaction:
      the prompt row is written first; the old tag rows are deleted and the
      new ones inserted; only when every tag went in are the variable rows
      and the full-text row replaced. A repeated tag stops the sequence
      with what was already written left in place. */
  function UpsertTables(t: Tables, p: Prompt): Outcome
  {
    var prompts := WritePromptRow(t.prompts, RowOf(p, Some(TagsText(p))), false);
    var tags := ReplaceTags(t.tagRows, p);
    var written := t.(prompts := prompts, tagRows := tags.0);
    if !tags.1 then Outcome(written, false)
    else Outcome(written.(variableRows := VariableRowsWithout(t.variableRows, p.id) + VariableRowsFor(p.id, p.variables),
                          ftsRows := FtsRowsWithout(t.ftsRows, p.id) + [FtsRowOf(p)]), true)
  }

  /** An upsert fails exactly when the prompt lists a tag twice, which the
      (prompt_id, tag) key rejects. */
  lemma UpsertSucceeds(t: Tables, p: Prompt)
    ensures UpsertTables(t, p).ok <==> NoDuplicates(p.tags)
  {
    ReplaceTagsShape(t.tagRows, p);
  }

  /** After a successful upsert the prompt's row, tags, variables and
      full-text row are exactly those of `p`: old rows are replaced, never
      merged, and exactly one full-text row carries the tags joined by
      single spaces. */
  lemma UpsertReplaces(t: Tables, p: Prompt)
    requires NoDuplicates(p.tags)
    ensures FindRow(UpsertTables(t, p).tables.prompts, p.id) == Some(RowOf(p, Some(Text.Join(p.tags, " "))))
    ensures TagsOf(UpsertTables(t, p).tables.tagRows, p.id) == p.tags
    ensures VariablesOf(UpsertTables(t, p).tables.variableRows, p.id) == p.variables
    ensures FtsRowsOf(UpsertTables(t, p).tables.ftsRows, p.id) == [FtsRow(p.id, p.title, p.description, p.content, Text.Join(p.tags, " "))]
  {
    var u := UpsertTables(t, p);
    UpsertSucceeds(t, p);
    WritePromptRowFacts(t.prompts, RowOf(p, Some(TagsText(p))), false);
    ReplaceTagsOf(t.tagRows, p, p.id);
    FirstRepeatFacts(p.tags);
    assert p.tags[..|p.tags|] == p.tags;
    VariablesOfAppend(VariableRowsWithout(t.variableRows, p.id), VariableRowsFor(p.id, p.variables), p.id);
    VariablesOfWithout(t.variableRows, p.id, p.id);
    VariablesOfRowsFor(p.id, p.variables, p.id);
    FtsRowsOfAppend(FtsRowsWithout(t.ftsRows, p.id), [FtsRowOf(p)], p.id);
    FtsRowsOfWithout(t.ftsRows, p.id, p.id);
    assert FtsRowsOf([FtsRowOf(p)], p.id) == [FtsRowOf(p)];
  }

  /** A failed upsert has still written the prompt row and the tags before
      the repeated one, and has left the old variable and full-text rows. */
  lemma UpsertFailureLeftovers(t: Tables, p: Prompt)
    requires !NoDuplicates(p.tags)
    ensures FindRow(UpsertTables(t, p).tables.prompts, p.id) == Some(RowOf(p, Some(Text.Join(p.tags, " "))))
    ensures TagsOf(UpsertTables(t, p).tables.tagRows, p.id) == p.tags[..FirstRepeat(p.tags)]
    ensures FirstRepeat(p.tags) < |p.tags|
    ensures UpsertTables(t, p).tables.variableRows == t.variableRows
    ensures UpsertTables(t, p).tables.ftsRows == t.ftsRows
  {
    UpsertSucceeds(t, p);
    FirstRepeatFacts(p.tags);
    WritePromptRowFacts(t.prompts, RowOf(p, Some(TagsText(p))), false);
    ReplaceTagsOf(t.tagRows, p, p.id);
  }

  /** Every delete is keyed on `p.id`, so the rows of every other prompt,
      the meta table and the bundle tables stay as they were. */
  lemma UpsertOthersUntouched(t: Tables, p: Prompt, id: string)
    requires id != p.id
    ensures FindRow(UpsertTables(t, p).tables.prompts, id) == FindRow(t.prompts, id)
    ensures TagsOf(UpsertTables(t, p).tables.tagRows, id) == TagsOf(t.tagRows, id)
    ensures VariablesOf(UpsertTables(t, p).tables.variableRows, id) == VariablesOf(t.variableRows, id)
    ensures FtsRowsOf(UpsertTables(t, p).tables.ftsRows, id) == FtsRowsOf(t.ftsRows, id)
    ensures UpsertTables(t, p).tables.meta == t.meta
    ensures UpsertTables(t, p).tables.bundleIds == t.bundleIds
    ensures UpsertTables(t, p).tables.bundlePromptRows == t.bundlePromptRows
  {
    WritePromptRowFacts(t.prompts, RowOf(p, Some(TagsText(p))), false);
    ReplaceTagsOf(t.tagRows, p, id);
    if UpsertTables(t, p).ok {
      VariablesOfAppend(VariableRowsWithout(t.variableRows, p.id), VariableRowsFor(p.id, p.variables), id);
      VariablesOfWithout(t.variableRows, p.id, id);
      VariablesOfRowsFor(p.id, p.variables, id);
      FtsRowsOfAppend(FtsRowsWithout(t.ftsRows, p.id), [FtsRowOf(p)], id);
      FtsRowsOfWithout(t.ftsRows, p.id, id);
    }
  }

  /** The number of prompts grows by one exactly when the id was new. */
  lemma UpsertCount(t: Tables, p: Prompt)
    ensures |UpsertTables(t, p).tables.prompts| == |t.prompts| + (if FindRow(t.prompts, p.id).Some? then 0 else 1)
  {
    WritePromptRowFacts(t.prompts, RowOf(p, Some(TagsText(p))), false);
  }

  /** Replacing a prompt's tag rows a second time changes nothing. */
  lemma ReplaceTagsTwice(rows: seq<TagRow>, p: Prompt)
    ensures ReplaceTags(ReplaceTags(rows, p).0, p) == ReplaceTags(rows, p)
  {
    var once := ReplaceTags(rows, p).0;
    ReplaceTagsShape(rows, p);
    ReplaceTagsShape(once, p);
    var w := TagRowsWithout(rows, p.id);
    var added := TagRowsFor(p.id, p.tags[..FirstRepeat(p.tags)]);
    TagRowsWithoutAppend(w, added, p.id);
    TagRowsWithoutNone(w, p.id);
    FilterEmptiesOwnTags(added, p.id);
    assert TagRowsWithout(once, p.id) == w;
  }

  lemma VariableRowsTwice(rows: seq<VariableRow>, p: Prompt)
    ensures var once := VariableRowsWithout(rows, p.id) + VariableRowsFor(p.id, p.variables);
            VariableRowsWithout(once, p.id) + VariableRowsFor(p.id, p.variables) == once
  {
    var vw := VariableRowsWithout(rows, p.id);
    var vadded := VariableRowsFor(p.id, p.variables);
    VariableRowsWithoutAppend(vw, vadded, p.id);
    VariableRowsWithoutNone(vw, p.id);
    FilterEmptiesOwnVariables(vadded, p.id);
    calc {
      VariableRowsWithout(vw + vadded, p.id);
      VariableRowsWithout(vw, p.id) + VariableRowsWithout(vadded, p.id);
      vw + [];
      { assert vw + [] == vw; }
      vw;
    }
  }

  lemma FtsRowsTwice(rows: seq<FtsRow>, p: Prompt)
    ensures var once := FtsRowsWithout(rows, p.id) + [FtsRowOf(p)];
            FtsRowsWithout(once, p.id) + [FtsRowOf(p)] == once
  {
    var fw := FtsRowsWithout(rows, p.id);
    FtsRowsWithoutAppend(fw, [FtsRowOf(p)], p.id);
    FtsRowsWithoutNone(fw, p.id);
    assert FtsRowsWithout([FtsRowOf(p)], p.id) == [];
  }

  /** Upserting the same prompt twice leaves the same tables, and the same
      outcome, as upserting it once. */
  lemma UpsertTwice(t: Tables, p: Prompt)
    ensures UpsertTables(UpsertTables(t, p).tables, p) == UpsertTables(t, p)
  {
    WritePromptRowTwice(t.prompts, RowOf(p, Some(TagsText(p))), false);
    ReplaceTagsTwice(t.tagRows, p);
    VariableRowsTwice(t.variableRows, p);
    FtsRowsTwice(t.ftsRows, p);
  }

  lemma {:induction false} FilterEmptiesOwnTags(rows: seq<TagRow>, id: string)
    requires forall i :: 0 <= i < |rows| ==> rows[i].promptId == id
    ensures TagRowsWithout(rows, id) == []
  {
    if rows != [] {
      FilterEmptiesOwnTags(rows[1..], id);
    }
  }

  lemma {:induction false} FilterEmptiesOwnVariables(rows: seq<VariableRow>, id: string)
    requires forall i :: 0 <= i < |rows| ==> rows[i].promptId == id
    ensures VariableRowsWithout(rows, id) == []
  {
    if rows != [] {
      FilterEmptiesOwnVariables(rows[1..], id);
    }
  }

  lemma HasPromptFind(t: Tables, id: string)
    ensures HasPrompt(t, id) <==> FindRow(t.prompts, id).Some?
  {
  }

  /** The written prompt exists afterwards and no prompt disappears. */
  lemma WriteKeepsPrompts(t: Tables, u: Tables, r: PromptRow, keep: bool)
    requires u.prompts == WritePromptRow(t.prompts, r, keep)
    ensures HasPrompt(u, r.id)
    ensures forall id :: HasPrompt(t, id) ==> HasPrompt(u, id)
  {
    WritePromptRowFacts(t.prompts, r, keep);
    forall id | HasPrompt(t, id) ensures HasPrompt(u, id) {
      HasPromptFind(t, id);
      HasPromptFind(u, id);
    }
    HasPromptFind(u, r.id);
  }

  /** An upsert keeps every key and foreign key of the schema. */
  lemma UpsertKeepsKeys(t: Tables, p: Prompt)
    requires KeysHold(t)
    ensures KeysHold(UpsertTables(t, p).tables)
  {
    var u := UpsertTables(t, p).tables;
    WritePromptRowUnique(t.prompts, RowOf(p, Some(TagsText(p))), false);
    WriteKeepsPrompts(t, u, RowOf(p, Some(TagsText(p))), false);
    ReplaceTagsUnique(t.tagRows, p);
    ReplaceTagsOrigin(t.tagRows, p);
    forall i | 0 <= i < |u.tagRows| ensures HasPrompt(u, u.tagRows[i].promptId) {
      var r := u.tagRows[i];
      if r.promptId != p.id {
        var k :| 0 <= k < |t.tagRows| && t.tagRows[k] == r;
      }
    }
    forall i | 0 <= i < |u.variableRows| ensures HasPrompt(u, u.variableRows[i].promptId) {
      var r := u.variableRows[i];
      if r.promptId != p.id {
        assert r in t.variableRows by {
          if UpsertTables(t, p).ok {
            var vw := VariableRowsWithout(t.variableRows, p.id);
            var vadded := VariableRowsFor(p.id, p.variables);
            if i < |vw| {
              assert r == vw[i];
            }
          }
        }
        var k :| 0 <= k < |t.variableRows| && t.variableRows[k] == r;
      }
    }
    forall i | 0 <= i < |u.bundlePromptRows| ensures HasPrompt(u, u.bundlePromptRows[i].promptId) {
      assert u.bundlePromptRows[i] == t.bundlePromptRows[i];
    }
  }

  // ---------------------------------------------------------------------
  // bulk_upsert_prompts

  /** One prompt of the bulk path: the prompt row is written without
      touching `tags_text` (NULL for a new row, kept for an existing one)
      and the tag rows are replaced; variables and full-text rows are not
      written. */
  function BulkStep(t: Tables, p: Prompt): Outcome
  {
    var tags := ReplaceTags(t.tagRows, p);
    Outcome(t.(prompts := WritePromptRow(t.prompts, RowOf(p, None), true), tagRows := tags.0), tags.1)
  }

  /** The bulk loop inside its transaction: `None` when some statement
      failed. */
  function BulkApply(t: Tables, ps: seq<Prompt>): Option<Tables>
    decreases |ps|
  {
    if ps == [] then Some(t)
    else
      var s := BulkStep(t, ps[0]);
      if !s.ok then None else BulkApply(s.tables, ps[1..])
  }

  /** `bulk_upsert_prompts`: a failure rolls the whole transaction back. */
  function BulkUpsertTables(t: Tables, ps: seq<Prompt>): Outcome
  {
    match BulkApply(t, ps)
    case None => Outcome(t, false)
    case Some(u) => Outcome(u, true)
  }

  /** The bulk path commits all prompts or none: it succeeds exactly when
      no prompt repeats a tag, and on failure the tables are unchanged. */
  lemma {:induction false} BulkAllOrNothing(t: Tables, ps: seq<Prompt>)
    ensures BulkUpsertTables(t, ps).ok <==> forall i :: 0 <= i < |ps| ==> NoDuplicates(ps[i].tags)
    ensures !BulkUpsertTables(t, ps).ok ==> BulkUpsertTables(t, ps).tables == t
    decreases |ps|
  {
    if ps != [] {
      var s := BulkStep(t, ps[0]);
      ReplaceTagsShape(t.tagRows, ps[0]);
      if s.ok {
        BulkAllOrNothing(s.tables, ps[1..]);
        assert BulkApply(t, ps) == BulkApply(s.tables, ps[1..]);
        assert forall i :: 1 <= i < |ps| ==> ps[i] == ps[1..][i - 1];
      }
    }
  }

  /** The bulk path never writes variable rows, full-text rows or the meta
      table. */
  lemma {:induction false} BulkLeavesOtherTables(t: Tables, ps: seq<Prompt>)
    ensures BulkUpsertTables(t, ps).tables.variableRows == t.variableRows
    ensures BulkUpsertTables(t, ps).tables.ftsRows == t.ftsRows
    ensures BulkUpsertTables(t, ps).tables.meta == t.meta
    ensures BulkUpsertTables(t, ps).tables.objects == t.objects
    decreases |ps|
  {
    if ps != [] {
      var s := BulkStep(t, ps[0]);
      if s.ok {
        BulkLeavesOtherTables(s.tables, ps[1..]);
        assert BulkApply(t, ps) == BulkApply(s.tables, ps[1..]);
      }
    }
  }

  /** One bulk step: the prompt row carries the new values with the old
      `tags_text` (none for a new row), and the tags are replaced as in the
      single upsert. */
  lemma BulkStepRow(t: Tables, p: Prompt)
    ensures FindRow(BulkStep(t, p).tables.prompts, p.id) ==
      Some(RowOf(p, if FindRow(t.prompts, p.id).Some? then FindRow(t.prompts, p.id).value.tagsText else None))
    ensures BulkStep(t, p).ok ==> TagsOf(BulkStep(t, p).tables.tagRows, p.id) == p.tags
  {
    WritePromptRowFacts(t.prompts, RowOf(p, None), true);
    ReplaceTagsOf(t.tagRows, p, p.id);
    ReplaceTagsShape(t.tagRows, p);
    FirstRepeatFacts(p.tags);
    assert p.tags[..|p.tags|] == p.tags;
  }

  lemma BulkStepKeepsKeys(t: Tables, p: Prompt)
    requires KeysHold(t)
    ensures KeysHold(BulkStep(t, p).tables)
    ensures forall id :: HasPrompt(t, id) ==> HasPrompt(BulkStep(t, p).tables, id)
    ensures HasPrompt(BulkStep(t, p).tables, p.id)
  {
    var u := BulkStep(t, p).tables;
    WritePromptRowUnique(t.prompts, RowOf(p, None), true);
    WriteKeepsPrompts(t, u, RowOf(p, None), true);
    ReplaceTagsUnique(t.tagRows, p);
    ReplaceTagsOrigin(t.tagRows, p);
    forall i | 0 <= i < |u.tagRows| ensures HasPrompt(u, u.tagRows[i].promptId) {
      var r := u.tagRows[i];
      if r.promptId != p.id {
        var k :| 0 <= k < |t.tagRows| && t.tagRows[k] == r;
      }
    }
    forall i | 0 <= i < |u.variableRows| ensures HasPrompt(u, u.variableRows[i].promptId) {
      assert u.variableRows[i] == t.variableRows[i];
    }
    forall i | 0 <= i < |u.bundlePromptRows| ensures HasPrompt(u, u.bundlePromptRows[i].promptId) {
      assert u.bundlePromptRows[i] == t.bundlePromptRows[i];
    }
  }

  /** A committed bulk upsert keeps the keys and leaves a row for every
      prompt it was given. */
  lemma {:induction false} BulkKeepsKeys(t: Tables, ps: seq<Prompt>)
    requires KeysHold(t)
    ensures KeysHold(BulkUpsertTables(t, ps).tables)
    ensures BulkUpsertTables(t, ps).ok ==> forall i :: 0 <= i < |ps| ==> HasPrompt(BulkUpsertTables(t, ps).tables, ps[i].id)
    ensures forall id :: HasPrompt(t, id) ==> HasPrompt(BulkUpsertTables(t, ps).tables, id)
    decreases |ps|
  {
    if ps != [] {
      var s := BulkStep(t, ps[0]);
      if s.ok {
        BulkStepKeepsKeys(t, ps[0]);
        BulkKeepsKeys(s.tables, ps[1..]);
        assert BulkApply(t, ps) == BulkApply(s.tables, ps[1..]);
        assert forall i :: 1 <= i < |ps| ==> ps[i] == ps[1..][i - 1];
      }
    }
  }
}

=== FILE: suggest.dfy ===
/** `jfp suggest`: the store's full-text matches for a task description,
    each with a short reason naming what in the prompt matched the task's
    words. */
module SuggestCommand {
  import opened Wrappers
  import opened PromptTypes
  import opened Text
  import Storage
  import Queries
  import Upserts

  const DEFAULT_REASON: string := "Related to your task keywords"

  const REASON_SEPARATOR: string := "; "

  // The reason, as a specification

  /** A task word names a title or description match when it occurs there
      and is longer than two bytes. */
  predicate Mentions(hay: string, word: string)
  {
    Contains(hay, word) && Utf8Len(word) > 2
  }

  /** The first word that `Mentions` the text, if any. */
  function FirstMention(words: seq<string>, hay: string): (w: Option<string>)
    ensures w.None? <==> forall i :: 0 <= i < |words| ==> !Mentions(hay, words[i])
    ensures w.Some? ==> exists i :: 0 <= i < |words| && words[i] == w.value && Mentions(hay, w.value)
                                    && forall j :: 0 <= j < i ==> !Mentions(hay, words[j])
  {
    if words == [] then None
    else if Mentions(hay, words[0]) then Some(words[0])
    else
      var rest := FirstMention(words[1..], hay);
      assert forall i :: 1 <= i < |words| ==> words[i] == words[1..][i - 1];
      rest
  }

  /** A tag matches a word when either contains the other, with no length
      limit. */
  predicate TagMatches(tagLower: string, word: string)
  {
    Contains(tagLower, word) || Contains(word, tagLower)
  }

  predicate AnyTagMatch(tagLower: string, words: seq<string>)
  {
    exists i :: 0 <= i < |words| && TagMatches(tagLower, words[i])
  }

  function TitleReason(word: string): string
  {
    "title contains '" + word + "'"
  }

  function DescriptionReason(word: string): string
  {
    "description mentions '" + word + "'"
  }

  /** The tag as written, not lowered, is quoted. */
  function TagReason(tag: string): string
  {
    "tagged as '" + tag + "'"
  }

  /** One reason per matching tag, in tag order. */
  function TagReasons(tags: seq<string>, words: seq<string>): (rs: seq<string>)
    ensures |rs| <= |tags|
  {
    if tags == [] then []
    else (if AnyTagMatch(AsciiLowerString(tags[0]), words) then [TagReason(tags[0])] else [])
         + TagReasons(tags[1..], words)
  }

  function MentionReason(found: Option<string>, reason: string -> string): (rs: seq<string>)
    ensures |rs| <= 1
  {
    if found.Some? then [reason(found.value)] else []
  }

  /** The task's words: lowered, split at white space. */
  function TaskWords(task: string): seq<string>
  {
    SplitWhitespace(AsciiLowerString(task))
  }

  /** The reasons in order: title, description, tags. */
  function Reasons(title: string, description: Option<string>, tags: seq<string>, task: string): seq<string>
  {
    var words := TaskWords(task);
    MentionReason(FirstMention(words, AsciiLowerString(title)), TitleReason)
    + (if description.Some? then MentionReason(FirstMention(words, AsciiLowerString(description.value)), DescriptionReason)
       else [])
    + TagReasons(tags, words)
  }

  /** `generate_reason`. */
  function Reason(title: string, description: Option<string>, tags: seq<string>, task: string): string
  {
    var rs := Reasons(title, description, tags, task);
    if rs == [] then DEFAULT_REASON else Join(rs, REASON_SEPARATOR)
  }

  // Properties of the reason

  /** At most one title reason, for the first long-enough task word in the
      title; at most one description reason, none without a description;
      then the tag reasons. */
  lemma ReasonsShape(title: string, description: Option<string>, tags: seq<string>, task: string)
    ensures var rs := Reasons(title, description, tags, task);
            var words := TaskWords(task);
            var t := FirstMention(words, AsciiLowerString(title));
            |rs| <= 2 + |tags|
            && (t.Some? ==> rs[0] == TitleReason(t.value))
            && (description.None? ==> rs == MentionReason(t, TitleReason) + TagReasons(tags, words))
            && rs[|rs| - |TagReasons(tags, words)|..] == TagReasons(tags, words)
  {
    var words := TaskWords(task);
    var titlePart := MentionReason(FirstMention(words, AsciiLowerString(title)), TitleReason);
    var descPart := if description.Some? then MentionReason(FirstMention(words, AsciiLowerString(description.value)), DescriptionReason)
                    else [];
    var tagPart := TagReasons(tags, words);
    assert Reasons(title, description, tags, task) == titlePart + descPart + tagPart;
    ThreePieces(titlePart, descPart, tagPart);
  }

  lemma ThreePieces(a: seq<string>, b: seq<string>, c: seq<string>)
    requires |a| <= 1 && |b| <= 1
    ensures |a + b + c| <= 2 + |c|
    ensures |a| == 1 ==> (a + b + c)[0] == a[0]
    ensures (a + b + c)[|a + b + c| - |c|..] == c
  {
  }

  /** Every tag reason names a tag that matches some task word, and every
      such tag has its reason. */
  lemma {:induction false} TagReasonsExact(tags: seq<string>, words: seq<string>, tag: string)
    ensures TagReason(tag) in TagReasons(tags, words) <==>
              exists i :: 0 <= i < |tags| && TagReason(tags[i]) == TagReason(tag) && AnyTagMatch(AsciiLowerString(tags[i]), words)
  {
    if tags != [] {
      TagReasonsExact(tags[1..], words, tag);
      var head := if AnyTagMatch(AsciiLowerString(tags[0]), words) then [TagReason(tags[0])] else [];
      assert TagReasons(tags, words) == head + TagReasons(tags[1..], words);
      if exists i :: 0 <= i < |tags[1..]| && TagReason(tags[1..][i]) == TagReason(tag) && AnyTagMatch(AsciiLowerString(tags[1..][i]), words) {
        var i :| 0 <= i < |tags[1..]| && TagReason(tags[1..][i]) == TagReason(tag) && AnyTagMatch(AsciiLowerString(tags[1..][i]), words);
        assert tags[i + 1] == tags[1..][i];
      }
      if exists i :: 0 <= i < |tags| && TagReason(tags[i]) == TagReason(tag) && AnyTagMatch(AsciiLowerString(tags[i]), words) {
        var i :| 0 <= i < |tags| && TagReason(tags[i]) == TagReason(tag) && AnyTagMatch(AsciiLowerString(tags[i]), words);
        if i > 0 {
          assert tags[1..][i - 1] == tags[i];
        }
      }
    }
  }

  /** A task without words gives no reason but the default. */
  lemma BlankTaskDefault(title: string, description: Option<string>, tags: seq<string>, task: string)
    requires TaskWords(task) == []
    ensures Reason(title, description, tags, task) == DEFAULT_REASON
  {
    NoWordsNoTags(tags);
  }

  lemma {:induction false} NoWordsNoTags(tags: seq<string>)
    ensures TagReasons(tags, []) == []
  {
    if tags != [] {
      NoWordsNoTags(tags[1..]);
    }
  }

  /** With reasons, the text is them joined by "; "; it is never empty. */
  lemma ReasonJoins(title: string, description: Option<string>, tags: seq<string>, task: string)
    ensures Reasons(title, description, tags, task) != [] ==>
              Reason(title, description, tags, task) == Join(Reasons(title, description, tags, task), REASON_SEPARATOR)
    ensures |Reason(title, description, tags, task)| > 0
  {
    var rs := Reasons(title, description, tags, task);
    if rs != [] {
      ReasonsNonEmpty(title, description, tags, task);
      JoinNonEmpty(rs, REASON_SEPARATOR);
    }
  }

  lemma ReasonsNonEmpty(title: string, description: Option<string>, tags: seq<string>, task: string)
    ensures forall k :: 0 <= k < |Reasons(title, description, tags, task)| ==> |Reasons(title, description, tags, task)[k]| > 0
  {
    TagReasonsNonEmpty(tags, TaskWords(task));
  }

  lemma {:induction false} TagReasonsNonEmpty(tags: seq<string>, words: seq<string>)
    ensures forall k :: 0 <= k < |TagReasons(tags, words)| ==> |TagReasons(tags, words)[k]| > 0
  {
    if tags != [] {
      TagReasonsNonEmpty(tags[1..], words);
    }
  }

  lemma {:induction false} JoinNonEmpty(parts: seq<string>, sep: string)
    requires parts != [] && |parts[0]| > 0
    ensures |Join(parts, sep)| > 0
  {
  }

  // The reason, step by step

  /** The word loop with its `break`, for the title and the description. */
  method FindMention(words: seq<string>, hay: string) returns (found: Option<string>)
    ensures found == FirstMention(words, hay)
  {
    found := None;
    var i := 0;
    while i < |words|
      invariant 0 <= i <= |words|
      invariant forall j :: 0 <= j < i ==> !Mentions(hay, words[j])
      decreases |words| - i
    {
      if Contains(hay, words[i]) && Utf8Len(words[i]) > 2 {
        found := Some(words[i]);
        break;
      }
      i := i + 1;
    }
  }

  /** The inner tag loop with its `break`. */
  method TagHit(tagLower: string, words: seq<string>) returns (hit: bool)
    ensures hit == AnyTagMatch(tagLower, words)
  {
    hit := false;
    var i := 0;
    while i < |words|
      invariant 0 <= i <= |words|
      invariant forall j :: 0 <= j < i ==> !TagMatches(tagLower, words[j])
      decreases |words| - i
    {
      if Contains(tagLower, words[i]) || Contains(words[i], tagLower) {
        hit := true;
        break;
      }
      i := i + 1;
    }
  }

  /** The outer tag loop. */
  method CollectTagReasons(tags: seq<string>, words: seq<string>) returns (rs: seq<string>)
    ensures rs == TagReasons(tags, words)
  {
    rs := [];
    var i := 0;
    while i < |tags|
      invariant 0 <= i <= |tags|
      invariant rs + TagReasons(tags[i..], words) == TagReasons(tags, words)
      decreases |tags| - i
    {
      var hit := TagHit(AsciiLowerString(tags[i]), words);
      var here := if hit then [TagReason(tags[i])] else [];
      TagReasonsAt(tags, words, i);
      assert (rs + here) + TagReasons(tags[i + 1..], words) == rs + (here + TagReasons(tags[i + 1..], words));
      rs := rs + here;
      i := i + 1;
    }
  }

  /** One step of the outer tag loop. */
  lemma TagReasonsAt(tags: seq<string>, words: seq<string>, i: nat)
    requires i < |tags|
    ensures TagReasons(tags[i..], words)
              == (if AnyTagMatch(AsciiLowerString(tags[i]), words) then [TagReason(tags[i])] else [])
                 + TagReasons(tags[i + 1..], words)
  {
    assert tags[i..][0] == tags[i] && tags[i..][1..] == tags[i + 1..];
  }

  method GenerateReason(title: string, description: Option<string>, tags: seq<string>, task: string)
    returns (reason: string)
    ensures reason == Reason(title, description, tags, task)
  {
    var words := SplitWhitespace(AsciiLowerString(task));
    var matches: seq<string> := [];
    var t := FindMention(words, AsciiLowerString(title));
    if t.Some? {
      matches := matches + [TitleReason(t.value)];
    }
    assert matches == MentionReason(t, TitleReason);
    if description.Some? {
      var d := FindMention(words, AsciiLowerString(description.value));
      if d.Some? {
        matches := matches + [DescriptionReason(d.value)];
      }
      assert matches == MentionReason(t, TitleReason) + MentionReason(d, DescriptionReason);
    }
    var tagReasons := CollectTagReasons(tags, words);
    matches := matches + tagReasons;
    assert matches == Reasons(title, description, tags, task);
    if matches == [] {
      reason := DEFAULT_REASON;
    } else {
      reason := Join(matches, REASON_SEPARATOR);
    }
  }

  // The command

  /** `Suggestion`; the relevance is the search score. */
  datatype Suggestion = Suggestion(id: string, title: string, description: Option<string>, relevance: real,
                                   reason: Option<string>)

  /** `SuggestOutput`: `semantic` is reported as unavailable when asked for. */
  datatype SuggestOutput = SuggestOutput(task: string, suggestions: seq<Suggestion>, semantic: Option<bool>)

  datatype SuggestError = DatabaseError | SearchFailed

  function SuggestionOf(hit: Queries.SearchHit, task: string): (s: Suggestion)
    ensures s.id == hit.prompt.id && s.title == hit.prompt.title && s.relevance == hit.score
    ensures s.reason == Some(Reason(hit.prompt.title, hit.prompt.description, hit.prompt.tags, task))
  {
    Suggestion(hit.prompt.id, hit.prompt.title, hit.prompt.description, hit.score,
               Some(Reason(hit.prompt.title, hit.prompt.description, hit.prompt.tags, task)))
  }

  /** The `map` over the search results. */
  method Suggestions(results: seq<Queries.SearchHit>, task: string) returns (suggestions: seq<Suggestion>)
    ensures |suggestions| == |results|
    ensures forall i :: 0 <= i < |results| ==> suggestions[i] == SuggestionOf(results[i], task)
  {
    suggestions := [];
    var i := 0;
    while i < |results|
      invariant 0 <= i <= |results|
      invariant |suggestions| == i
      invariant forall j :: 0 <= j < i ==> suggestions[j] == SuggestionOf(results[j], task)
      decreases |results| - i
    {
      var suggestion := Suggest(results[i], task);
      suggestions := suggestions + [suggestion];
      i := i + 1;
    }
  }

  /** The closure of the `map`: one search result with its reason. */
  method Suggest(hit: Queries.SearchHit, task: string) returns (suggestion: Suggestion)
    ensures suggestion == SuggestionOf(hit, task)
  {
    var p := hit.prompt;
    var reason := GenerateReason(p.title, p.description, p.tags, task);
    suggestion := Suggestion(p.id, p.title, p.description, hit.score, Some(reason));
  }

  /** `run`: `db` is null when the store cannot be opened; `hits` are the
      full-text matches for the task, `None` when the query is rejected.
      Asking for semantic search changes only the output's flag. */
  method Run(db: Storage.Database?, task: string, limit: nat, semantic: bool, hits: Option<seq<Queries.FtsHit>>)
    returns (r: Result<SuggestOutput, SuggestError>)
    modifies db
    ensures db == null ==> r == Err(DatabaseError)
    ensures db != null ==> db.State() == Upserts.Seeded(old(db.State()))
    ensures db != null && hits.None? ==> r == Err(SearchFailed)
    ensures db != null && hits.Some? ==>
              var results := Queries.Search(db.State(), hits.value, limit);
              r.Ok? && r.value.task == task && |r.value.suggestions| == |results| <= limit
              && (forall i :: 0 <= i < |results| ==> r.value.suggestions[i] == SuggestionOf(results[i], task))
              && r.value.semantic == (if semantic then Some(false) else None)
  {
    if db == null {
      return Err(DatabaseError);
    }
    Upserts.SeedIfEmpty(db);
    if hits.None? {
      return Err(SearchFailed);
    }
    var results := db.Search(hits.value, limit);
    var suggestions := Suggestions(results, task);
    r := Ok(SuggestOutput(task, suggestions, if semantic then Some(false) else None));
  }
}

=== FILE: text.dfy ===
/** String operations of Rust's `str` that the prompt tool relies on:
    ASCII case folding, Unicode white space, `contains`, `join`, `lines`,
    `split_whitespace`, `replace` and the UTF-8 byte length. Strings are
    sequences of Unicode scalar values, as Rust's `str` is. */
module Text {

  // ---------------------------------------------------------------------
  // Characters

  /** `char::to_ascii_lowercase`: only 'A'..'Z' change. */
  function AsciiLower(c: char): (r: char)
    ensures 'A' <= c <= 'Z' ==> 'a' <= r <= 'z' && r as int - c as int == 32
    ensures !('A' <= c <= 'Z') ==> r == c
  {
    if 'A' <= c <= 'Z' then (c as int + 32) as char else c
  }

  /** Lower-cases every ASCII letter of `s`, leaving all other characters. */
  function AsciiLowerString(s: string): (r: string)
    ensures |r| == |s|
    ensures forall i :: 0 <= i < |s| ==> r[i] == AsciiLower(s[i])
  {
    if s == [] then [] else [AsciiLower(s[0])] + AsciiLowerString(s[1..])
  }

  /** `str::eq_ignore_ascii_case`. */
  predicate EqIgnoreAsciiCase(a: string, b: string)
  {
    |a| == |b| && forall i :: 0 <= i < |a| ==> AsciiLower(a[i]) == AsciiLower(b[i])
  }

  lemma EqIgnoreAsciiCaseOfLowered(a: string, b: string)
    ensures EqIgnoreAsciiCase(a, b) <==> AsciiLowerString(a) == AsciiLowerString(b)
  {
    if AsciiLowerString(a) == AsciiLowerString(b) {
      forall i | 0 <= i < |a| ensures AsciiLower(a[i]) == AsciiLower(b[i]) {
        assert AsciiLowerString(a)[i] == AsciiLowerString(b)[i];
      }
    }
  }

  /** The Unicode White_Space property, which `char::is_whitespace`,
      `str::trim` and `str::split_whitespace` use. */
  predicate IsWhitespace(c: char)
  {
    var n := c as int;
    || (0x09 <= n <= 0x0D) || n == 0x20 || n == 0x85 || n == 0xA0
    || n == 0x1680 || (0x2000 <= n <= 0x200A) || n == 0x2028 || n == 0x2029
    || n == 0x202F || n == 0x205F || n == 0x3000
  }

  /** `s.trim().is_empty()`: the string holds white space only. */
  predicate IsBlank(s: string)
  {
    forall i :: 0 <= i < |s| ==> IsWhitespace(s[i])
  }

  /** Number of bytes of the UTF-8 encoding, which is what `str::len` counts. */
  function Utf8Len(s: string): (n: nat)
    ensures |s| <= n <= 4 * |s|
  {
    if s == [] then 0
    else
      var c := s[0] as int;
      (if c < 0x80 then 1 else if c < 0x800 then 2 else if c < 0x10000 then 3 else 4)
      + Utf8Len(s[1..])
  }

  // ---------------------------------------------------------------------
  // Substrings

  predicate StartsWith(s: string, p: string)
  {
    |p| <= |s| && s[..|p|] == p
  }

  /** `str::contains` for a string pattern. */
  predicate Contains(s: string, p: string)
    decreases |s|
  {
    StartsWith(s, p) || (|s| > 0 && Contains(s[1..], p))
  }

  lemma {:induction false} ContainsAt(s: string, p: string, i: nat)
    requires i + |p| <= |s| && s[i..i + |p|] == p
    ensures Contains(s, p)
    decreases i
  {
    if i > 0 {
      assert s[1..][i - 1..i - 1 + |p|] == s[i..i + |p|];
      ContainsAt(s[1..], p, i - 1);
    }
  }

  lemma {:induction false} ContainsWitness(s: string, p: string) returns (i: nat)
    requires Contains(s, p)
    ensures i + |p| <= |s| && s[i..i + |p|] == p
    decreases |s|
  {
    if StartsWith(s, p) {
      i := 0;
    } else {
      var j := ContainsWitness(s[1..], p);
      assert s[1..][j..j + |p|] == s[j + 1..j + 1 + |p|];
      i := j + 1;
    }
  }

  /** A string that contains `p` still contains it with text put around it. */
  lemma ContainsInContext(a: string, s: string, b: string, p: string)
    requires Contains(s, p)
    ensures Contains(a + s + b, p)
  {
    var i := ContainsWitness(s, p);
    assert (a + s + b)[|a| + i..|a| + i + |p|] == s[i..i + |p|];
    ContainsAt(a + s + b, p, |a| + i);
  }

  /** `slice.join(sep)` for a slice of strings. */
  function Join(parts: seq<string>, sep: string): string
  {
    if |parts| == 0 then ""
    else if |parts| == 1 then parts[0]
    else parts[0] + sep + Join(parts[1..], sep)
  }

  lemma JoinSingleSep(parts: seq<string>, sep: string)
    requires |parts| > 0
    ensures Join(parts, sep) == parts[0] + (if |parts| == 1 then "" else sep + Join(parts[1..], sep))
  {
  }

  // ---------------------------------------------------------------------
  // Lines and words

  /** Index of the first '\n' in `s`, or `|s|` when there is none. */
  function NewlineIndex(s: string): (i: nat)
    ensures i <= |s|
    ensures forall k :: 0 <= k < i ==> s[k] != '\n'
    ensures i < |s| ==> s[i] == '\n'
  {
    if s == [] then 0 else if s[0] == '\n' then 0 else 1 + NewlineIndex(s[1..])
  }

  /** A line read up to a '\n' loses a final '\r' with it (a CRLF ending). */
  function StripCr(l: string): string
  {
    if |l| > 0 && l[|l| - 1] == '\r' then l[..|l| - 1] else l
  }

  /** `str::lines` and `BufRead::lines`: split at "\n" or "\r\n"; a final
      line ending is optional and yields no empty last line; a bare '\r'
      at the very end is kept. */
  function Lines(s: string): seq<string>
    decreases |s|
  {
    if s == [] then []
    else
      var i := NewlineIndex(s);
      if i == |s| then [s] else [StripCr(s[..i])] + Lines(s[i + 1..])
  }

  /** No line returned by `lines()` holds a '\n'. */
  lemma {:induction false} LinesHaveNoNewline(s: string)
    ensures forall k :: 0 <= k < |Lines(s)| ==> forall i :: 0 <= i < |Lines(s)[k]| ==> Lines(s)[k][i] != '\n'
    decreases |s|
  {
    if s != [] {
      var i := NewlineIndex(s);
      if i < |s| {
        LinesHaveNoNewline(s[i + 1..]);
        var ls := Lines(s);
        assert ls == [StripCr(s[..i])] + Lines(s[i + 1..]);
        assert forall k :: 1 <= k < |ls| ==> ls[k] == Lines(s[i + 1..])[k - 1];
      }
    }
  }

  /** Text written as "l1\nl2\n...ln\n". */
  function Terminated(ls: seq<string>): string
  {
    if ls == [] then "" else ls[0] + "\n" + Terminated(ls[1..])
  }

  predicate SingleLine(l: string)
  {
    (forall i :: 0 <= i < |l| ==> l[i] != '\n') && !(|l| > 0 && l[|l| - 1] == '\r')
  }

  /** Writing each line followed by "\n" and reading the text back with
      `lines()` returns exactly those lines. */
  lemma {:induction false} LinesOfTerminated(ls: seq<string>)
    requires forall k :: 0 <= k < |ls| ==> SingleLine(ls[k])
    ensures Lines(Terminated(ls)) == ls
  {
    if ls != [] {
      var s := Terminated(ls);
      var l := ls[0];
      assert s == l + "\n" + Terminated(ls[1..]);
      assert s[|l|] == '\n';
      assert forall k :: 0 <= k < |l| ==> s[k] == l[k];
      assert NewlineIndex(s) == |l|;
      assert s[..|l|] == l;
      assert s[|l| + 1..] == Terminated(ls[1..]);
      LinesOfTerminated(ls[1..]);
    }
  }

  /** Joining lines that hold no '\n' with "\n" and splitting again never
      yields more lines than were joined. */
  lemma {:induction false} LinesOfJoinBound(ls: seq<string>)
    requires forall k :: 0 <= k < |ls| ==> forall i :: 0 <= i < |ls[k]| ==> ls[k][i] != '\n'
    ensures |Lines(Join(ls, "\n"))| <= |ls|
  {
    if |ls| == 1 {
      var l := ls[0];
      if l != [] {
        assert NewlineIndex(l) == |l|;
      }
    } else if |ls| > 1 {
      var l := ls[0];
      var s := Join(ls, "\n");
      assert s == l + "\n" + Join(ls[1..], "\n");
      assert s[|l|] == '\n';
      assert forall k :: 0 <= k < |l| ==> s[k] == l[k];
      assert NewlineIndex(s) == |l|;
      assert s[|l| + 1..] == Join(ls[1..], "\n");
      LinesOfJoinBound(ls[1..]);
    }
  }

  /** Number of leading characters of `s` that are not white space. */
  function WordLen(s: string): (n: nat)
    ensures n <= |s|
    ensures forall k :: 0 <= k < n ==> !IsWhitespace(s[k])
    ensures n < |s| ==> IsWhitespace(s[n])
  {
    if s == [] || IsWhitespace(s[0]) then 0 else 1 + WordLen(s[1..])
  }

  /** `str::split_whitespace`: the maximal runs of non-white-space
      characters, in order. */
  function SplitWhitespace(s: string): (words: seq<string>)
    ensures forall k :: 0 <= k < |words| ==> |words[k]| > 0
    ensures forall k :: 0 <= k < |words| ==> forall i :: 0 <= i < |words[k]| ==> !IsWhitespace(words[k][i])
    decreases |s|
  {
    if s == [] then []
    else if IsWhitespace(s[0]) then SplitWhitespace(s[1..])
    else
      var n := WordLen(s);
      [s[..n]] + SplitWhitespace(s[n..])
  }

  // ---------------------------------------------------------------------
  // Replacement

  /** `str::replace`: scans left to right and substitutes `to` for every
      non-overlapping occurrence of `pat`; an empty pattern matches before
      every character and at the end. */
  function Replace(s: string, pat: string, to: string): string
    decreases |s|
  {
    if |pat| == 0 then
      if s == [] then to else to + [s[0]] + Replace(s[1..], pat, to)
    else if |s| < |pat| then s
    else if s[..|pat|] == pat then to + Replace(s[|pat|..], pat, to)
    else [s[0]] + Replace(s[1..], pat, to)
  }

  /** `str::split` with a non-empty string pattern: the pieces between the
      non-overlapping occurrences of `pat`, found left to right. */
  function Split(s: string, pat: string): (pieces: seq<string>)
    requires |pat| > 0
    ensures |pieces| > 0
    decreases |s|
  {
    if |s| < |pat| then [s]
    else if s[..|pat|] == pat then [""] + Split(s[|pat|..], pat)
    else
      var rest := Split(s[1..], pat);
      [[s[0]] + rest[0]] + rest[1..]
  }

  /** Splitting at the occurrences of `pat` and joining with `pat` gives the
      string back. */
  lemma {:induction false} JoinSplit(s: string, pat: string)
    requires |pat| > 0
    ensures Join(Split(s, pat), pat) == s
    decreases |s|
  {
    if |s| < |pat| {
    } else if s[..|pat|] == pat {
      JoinSplit(s[|pat|..], pat);
      var rest := Split(s[|pat|..], pat);
      assert Join([""] + rest, pat) == "" + pat + Join(rest, pat);
      assert s == s[..|pat|] + s[|pat|..];
    } else {
      JoinSplit(s[1..], pat);
      var rest := Split(s[1..], pat);
      JoinFirstPiece(rest, [s[0]], pat);
      assert s == [s[0]] + s[1..];
    }
  }

  /** Replacement is splitting at the pattern and joining with the
      replacement text: every occurrence found by the scan is replaced and
      nothing else changes. */
  lemma {:induction false} ReplaceIsSplitJoin(s: string, pat: string, to: string)
    requires |pat| > 0
    ensures Replace(s, pat, to) == Join(Split(s, pat), to)
    decreases |s|
  {
    if |s| < |pat| {
    } else if s[..|pat|] == pat {
      ReplaceIsSplitJoin(s[|pat|..], pat, to);
      var rest := Split(s[|pat|..], pat);
      assert Join([""] + rest, to) == "" + to + Join(rest, to);
    } else {
      ReplaceIsSplitJoin(s[1..], pat, to);
      var rest := Split(s[1..], pat);
      JoinFirstPiece(rest, [s[0]], to);
    }
  }

  lemma JoinFirstPiece(rest: seq<string>, c: string, sep: string)
    requires |rest| > 0
    ensures Join([c + rest[0]] + rest[1..], sep) == c + Join(rest, sep)
  {
    var xs := [c + rest[0]] + rest[1..];
    if |rest| > 1 {
      assert xs[1..] == rest[1..];
    }
  }

  /** The first piece of a split is a prefix of the string. */
  lemma {:induction false} SplitFirstIsPrefix(s: string, pat: string)
    requires |pat| > 0
    ensures |Split(s, pat)[0]| <= |s| && s[..|Split(s, pat)[0]|] == Split(s, pat)[0]
    decreases |s|
  {
    if |s| >= |pat| && s[..|pat|] != pat {
      SplitFirstIsPrefix(s[1..], pat);
    }
  }

  /** No piece of a split contains the pattern: each occurrence of the
      pattern was consumed as a separator. */
  lemma {:induction false} SplitPiecesAvoidPattern(s: string, pat: string)
    requires |pat| > 0
    ensures forall k :: 0 <= k < |Split(s, pat)| ==> !Contains(Split(s, pat)[k], pat)
    decreases |s|
  {
    var pieces := Split(s, pat);
    if |s| < |pat| {
      NoRoomNoMatch(s, pat);
    } else if s[..|pat|] == pat {
      SplitPiecesAvoidPattern(s[|pat|..], pat);
      NoRoomNoMatch("", pat);
      assert pieces == [""] + Split(s[|pat|..], pat);
    } else {
      SplitPiecesAvoidPattern(s[1..], pat);
      var rest := Split(s[1..], pat);
      SplitFirstIsPrefix(s[1..], pat);
      var first := [s[0]] + rest[0];
      assert first == s[..|first|];
      assert first[1..] == rest[0];
      assert forall k :: 1 <= k < |pieces| ==> pieces[k] == rest[k];
    }
  }

  lemma {:induction false} NoRoomNoMatch(s: string, pat: string)
    requires |s| < |pat|
    ensures !Contains(s, pat)
    decreases |s|
  {
    if |s| > 0 {
      NoRoomNoMatch(s[1..], pat);
    }
  }

  /** A string without an occurrence of the pattern is left unchanged. */
  lemma {:induction false} ReplaceAbsent(s: string, pat: string, to: string)
    requires |pat| > 0 && !Contains(s, pat)
    ensures Replace(s, pat, to) == s
    decreases |s|
  {
    if |s| >= |pat| {
      ReplaceAbsent(s[1..], pat, to);
    }
  }

  // ---------------------------------------------------------------------
  // Trimming

  /** `str::trim_start`: drops the leading white space. */
  function TrimStart(s: string): (r: string)
    ensures |r| <= |s| && r == s[|s| - |r|..]
    ensures IsBlank(s[..|s| - |r|])
    ensures r == [] || !IsWhitespace(r[0])
  {
    if s == [] || !IsWhitespace(s[0]) then s else TrimStart(s[1..])
  }

  /** `str::trim_end`: drops the trailing white space. */
  function TrimEnd(s: string): (r: string)
    ensures |r| <= |s| && r == s[..|r|]
    ensures IsBlank(s[|r|..])
    ensures r == [] || !IsWhitespace(r[|r| - 1])
  {
    if s == [] || !IsWhitespace(s[|s| - 1]) then s else TrimEnd(s[..|s| - 1])
  }

  /** `str::trim`. */
  function Trim(s: string): (r: string)
    ensures r == [] || (!IsWhitespace(r[0]) && !IsWhitespace(r[|r| - 1]))
  {
    TrimEnd(TrimStart(s))
  }

  /** Trimming leaves nothing exactly when the string is blank. */
  lemma TrimEmpty(s: string)
    ensures Trim(s) == [] <==> IsBlank(s)
  {
    var a := TrimStart(s);
    var k := |s| - |a|;
    assert a != [] ==> a[0] == s[k];
    if Trim(s) == [] {
      assert IsBlank(a[0..]);
      assert a == [];
      assert s[..k] == s;
    }
  }
}

=== FILE: upserts.dfy ===
/** Upserting a list of prompts into the store one statement sequence
    at a time, ignoring or counting the failures, and seeding an empty
    store with the bundled prompts. */
module Upserts {
  import opened Wrappers
  import opened PromptTypes
  import opened Schema
  import opened Store
  import opened RegistryTypes
  import Storage
  import Embedded
  import Queries

  /** The store after upserting `ps` one at a time, and how many of those
      upserts reported success. */
  function UpsertAll(t: Tables, ps: seq<Prompt>): (Tables, nat)
  {
    if ps == [] then (t, 0)
    else
      var before := UpsertAll(t, ps[..|ps| - 1]);
      var o := UpsertTables(before.0, ps[|ps| - 1]);
      (o.tables, before.1 + if o.ok then 1 else 0)
  }

  predicate DistinctTags(p: Prompt)
  {
    NoDuplicates(p.tags)
  }

  /** The loaded count is the number of prompts whose tags are distinct:
      exactly those upserts succeed, and failures are skipped. */
  lemma {:induction false} UpsertAllCounts(t: Tables, ps: seq<Prompt>)
    ensures UpsertAll(t, ps).1 == |Keep(ps, DistinctTags)|
    ensures UpsertAll(t, ps).1 <= |ps|
  {
    if ps != [] {
      var init := ps[..|ps| - 1];
      var last := ps[|ps| - 1];
      UpsertAllCounts(t, init);
      UpsertSucceeds(UpsertAll(t, init).0, last);
      assert ps == init + [last];
      KeepAppend(init, [last], DistinctTags);
      assert [last][1..] == [];
    }
  }

  /** One more prompt: the upsert of the last one on top of the rest. */
  lemma UpsertAllSnoc(t: Tables, ps: seq<Prompt>, i: nat)
    requires i < |ps|
    ensures var before := UpsertAll(t, ps[..i]);
            var o := UpsertTables(before.0, ps[i]);
            UpsertAll(t, ps[..i + 1]) == (o.tables, before.1 + if o.ok then 1 else 0)
  {
    assert ps[..i + 1][..i] == ps[..i];
  }

  /** An upsert writes the prompt row whether or not its tags go in. */
  lemma UpsertWritesRow(t: Tables, p: Prompt)
    ensures UpsertTables(t, p).tables.prompts == WritePromptRow(t.prompts, RowOf(p, Some(TagsText(p))), false)
  {
  }

  /** Some prompt in `ps` has the id. */
  predicate Offers(ps: seq<Prompt>, id: string)
  {
    exists i :: 0 <= i < |ps| && ps[i].id == id
  }

  lemma OffersSnoc(ps: seq<Prompt>, id: string)
    requires ps != []
    ensures Offers(ps, id) <==> Offers(ps[..|ps| - 1], id) || ps[|ps| - 1].id == id
  {
    var init := ps[..|ps| - 1];
    if Offers(init, id) {
      var i :| 0 <= i < |init| && init[i].id == id;
      assert ps[i].id == id;
    }
    if Offers(ps, id) {
      var i :| 0 <= i < |ps| && ps[i].id == id;
      if i < |init| {
        assert init[i].id == id;
      }
    }
  }

  /** Every prompt offered has a row afterwards, even one whose upsert
      failed part-way (its row is written before its tags), and no row
      disappears. */
  lemma {:induction false} UpsertAllRows(t: Tables, ps: seq<Prompt>, id: string)
    ensures FindRow(UpsertAll(t, ps).0.prompts, id).Some? <==> FindRow(t.prompts, id).Some? || Offers(ps, id)
  {
    if ps != [] {
      var n := |ps| - 1;
      var before := UpsertAll(t, ps[..n]).0;
      var row := RowOf(ps[n], Some(TagsText(ps[n])));
      assert UpsertAll(t, ps).0.prompts == WritePromptRow(before.prompts, row, false) by {
        UpsertAllSnoc(t, ps, n);
        assert ps[..n + 1] == ps;
        UpsertWritesRow(before, ps[n]);
      }
      UpsertAllRows(t, ps[..n], id);
      WritePromptRowIds(before.prompts, row, false, id);
      OffersSnoc(ps, id);
    }
  }

  /** The upserts, one statement sequence per prompt. */
  method UpsertEach(db: Storage.Database, ps: seq<Prompt>) returns (loaded: nat)
    modifies db
    ensures (db.State(), loaded) == UpsertAll(old(db.State()), ps)
    ensures old(db.Valid()) ==> db.Valid()
  {
    ghost var t0 := db.State();
    ghost var valid0 := db.Valid();
    loaded := 0;
    var i := 0;
    while i < |ps|
      invariant 0 <= i <= |ps|
      invariant db.State() == UpsertAll(t0, ps[..i]).0 && loaded == UpsertAll(t0, ps[..i]).1
      invariant valid0 ==> db.Valid()
      decreases |ps| - i
    {
      UpsertAllSnoc(t0, ps, i);
      var ok := db.UpsertPrompt(ps[i]);
      if ok {
        loaded := loaded + 1;
      }
      i := i + 1;
    }
    assert ps[..i] == ps;
  }

  /** The store after seeding: the bundled prompts upserted when it holds
      no prompt, unchanged otherwise. */
  function Seeded(t: Tables): (r: Tables)
    ensures Queries.PromptCount(t) != 0 ==> r == t
  {
    if Queries.PromptCount(t) == 0 then UpsertAll(t, Embedded.BundledPrompts()).0 else t
  }

  /** Seeding as `export` and `render` do it: when the store holds no
      prompt, every bundled prompt is upserted once and failures are
      ignored; otherwise nothing changes. */
  method SeedIfEmpty(db: Storage.Database)
    modifies db
    ensures db.State() == Seeded(old(db.State()))
    ensures old(db.Valid()) ==> db.Valid()
  {
    var count := db.PromptCount();
    if count == 0 {
      var _ := UpsertEach(db, Embedded.BundledPrompts());
    }
  }

  /** After seeding an empty store, every bundled prompt is stored; a
      store that held prompts is left alone. Either way the seeded store is
      not empty. */
  lemma SeededHoldsBundled(t: Tables, i: nat)
    requires i < |Embedded.BundledPrompts()|
    ensures Queries.PromptCount(t) == 0 ==> FindRow(Seeded(t).prompts, Embedded.BundledPrompts()[i].id).Some?
    ensures Queries.PromptCount(Seeded(t)) > 0
  {
    UpsertAllRows(t, Embedded.BundledPrompts(), Embedded.BundledPrompts()[i].id);
    var s := Seeded(t);
    assert Queries.PromptCount(t) == 0 ==> FindRow(s.prompts, Embedded.BundledPrompts()[i].id).Some?;
  }
}

=== FILE: wrappers.dfy ===
/** Option and Result, the two failure-carrying shapes the model uses in
    place of Rust's `Option` and `anyhow::Result`. */
module Wrappers {

  datatype Option<+T> = None | Some(value: T) {
    function GetOr(default: T): T {
      match this
      case Some(v) => v
      case None => default
    }
  }

  datatype Result<+T, +E> = Ok(value: T) | Err(error: E) {
    predicate IsOk() { Ok? }
  }
}
